=== FILE: README.md ===
# Sigma quickstarts: a verified model of the embed builders, parsers and stores

This project models the computational core of Sigma Computing's public quickstarts. That is
the code that turns configuration and a request into something Sigma accepts, or that keeps
a small piece of state:

- **Signed embed URLs.** These come from the Streamlit server, the link-sharing route and the embed SDK example. The parameters are written in a fixed order. The signature is HMAC-SHA256 (RFC 2104) over the path and query, and it is appended last.
- **HS256 JSON Web Tokens.** These come from the SharePoint function and the two "series 2" servers. Each token is written in the compact form of section 3.1 of RFC 7515, with base64url as in section 5 of RFC 4648. The tokens carry session caps, team lists, user attributes and a permission mapping.
- **Embed URL and path builders.** These cover the embed types, the required fields, and the rule that a bookmark wins over an exploration.
- **Small transformers.** These are:
  - the export schedule's cron text and format;
  - the recipe portal's metadata scanner;
  - smart-parameter classification;
  - `.env` parsing;
  - date reformatting;
  - the dashboard builder's node-id extraction;
  - the curl rendering of a recipe request.
- **State.** This covers:
  - the multi-area bookmark store;
  - the named credential-set store with its default pointer;
  - the unique-workbook-name loop;
  - the Gantt plugin's in-place sort of four parallel arrays.

Crypto, clocks, random ids and the network are inputs to the model. HMAC-SHA256 is a
function parameter everywhere; the clock reading, the nonce and the uuid are values. The
rest is modelled on values, or as classes and methods where the source changes state in
place.

The modules are:

- **Foundations** (`Wrappers`, `Text`, `JsObject`, `Encoding`, `Json`, `QueryString`, `Env`, `Hmac`, `StableSort`).
  - ECMAScript and Python string operations.
  - JavaScript objects as insertion-ordered association lists.
  - UTF-8 and percent-encoding: Python `quote`, `encodeURIComponent`, `URLSearchParams`.
  - base64url, hex and `JSON.stringify`'s string quoting, each with its round trip proved.
  - The stable `Array.prototype.sort`.
- **Embedding:**
  - `StreamlitSignedUrl`
  - `Jwt` and `SharePointJwt`
  - `SeriesTwoApiEmbed` and `SeriesTwoEmbed`
  - `LinkSharingEmbed`
  - `EmbedSdkUtils`
  - `EmbedPath` and `PluginEmbedUrl`
  - `SeriesTwoCreateJwt`
  - `ExportSchedule`
- **Recipe portal:**
  - `RecipeScanner`
  - `SmartParameters`
  - `ParameterForm`
  - `EnvFile`
  - `KeyStorage`
  - `RequestAnalyzer`
- **Plugins and routes:**
  - `MultiAreaBookmarks`
  - `WorkbookCopy`
  - `Gantt`
  - `DashboardBuilder`

## Model

| member | source | states |
|---|---|---|
| `StreamlitSignedUrl.ParamsShape` | embedding_signed_url/streamlit/embed_api.py:35-47 | The parameter dictionary has exactly nine keys, in the source's order. `:time` is the clock reading in decimal, and `:account_type` is always "embedUser". |
| `StreamlitSignedUrl.GenerateSignedUrl` | embedding_signed_url/streamlit/embed_api.py:14-62 | An omitted argument takes its default. The URL is the signed text of the parameters, then '&', `:signature=` and the HMAC hex digest of that text. |
| `StreamlitSignedUrl.DefaultsReadBack` | embedding_signed_url/streamlit/embed_api.py:14-17 | With the optional arguments left out, the query reads back email "user@example.com", user id "1", session length "3600" and mode "userbacked". |
| `StreamlitSignedUrl.SignUrl` | embedding_signed_url/streamlit/embed_api.py:50-60 | The result extends the signed text (path, '?', encoded query) with '&' and the `:signature` pair. |
| `StreamlitSignedUrl.SignaturePairVerbatim` | embedding_signed_url/streamlit/embed_api.py:60 | The signature pair is written unescaped, because ':' is safe and hex digits are unreserved. |
| `StreamlitSignedUrl.MyQuoteKeepsSafe` | embedding_signed_url/streamlit/embed_api.py:9-10 | `myquote` leaves unchanged a text of unreserved characters plus ',' and ':'. |
| `StreamlitSignedUrl.MyQuoteEscapes` | embedding_signed_url/streamlit/embed_api.py:9-10 | Every other ASCII character becomes `%XX`. Space, '&', '=', '/' and '+' never reach the query as themselves. |
| `StreamlitSignedUrl.MyQuoteQuerySafe` | embedding_signed_url/streamlit/embed_api.py:7-12 | `myquote` escapes '%', '&' and '=', so the query it builds reads back. |
| `StreamlitSignedUrl.SignUrlShape` | embedding_signed_url/streamlit/embed_api.py:50-60 | The signed URL is the signed text, then '&', then `:signature=` with the hex digest verbatim. |
| `StreamlitSignedUrl.SignUrlReadBack` | embedding_signed_url/streamlit/embed_api.py:50-60 | A receiver reads back the path, then every parameter decoded to the given value's bytes, in order, then the signature. |
| `StreamlitSignedUrl.SignUrlWhole` | embedding_signed_url/streamlit/embed_api.py:50-60 | The signed URL is the path, '?', and the encoded query of all pairs with the signature last. |
| `Hmac.HexDigest` | embedding_signed_url/streamlit/embed_api.py:53-57 | `hexdigest()` of the MAC is two lower-case hex digits per MAC byte, in order. |
| `Jwt.B64Url` | sigma-embed-sharepoint/jwt/index.js:6-11 | `b64url` equals base64url without padding of the UTF-8 bytes, so it holds no '=', '+', '/' or '.'. |
| `Jwt.Header` | sigma-embed-sharepoint/jwt/index.js:15-17 | The header has `alg` HS256 and `typ` JWT, and `kid` exactly when the key id is non-empty. |
| `Jwt.Signature` | sigma-embed-sharepoint/jwt/index.js:23-29 | The signature is the base64url, without padding, of the MAC of the signing input under the UTF-8 secret. |
| `Jwt.Sign` | sigma-embed-sharepoint/jwt/index.js:19-31 | The token has three dot-separated parts. The first two are exactly the signed data, and the third is its signature. |
| `Jwt.VerifySign` | sigma-embed-sharepoint/jwt/index.js:19-31 | A signed token verifies under its secret, and its payload decodes to the serialized claims. |
| `Jwt.NoDotNotToken` | sigma-embed-sharepoint/jwt/index.js:19-31 | A single base64url part holds no '.', so it is never mistaken for a token. |
| `Jwt.KeyIdHeader` | embedding_qs_series_2_api_use_cases/helpers/create-jwt.js:50-53 | The `jsonwebtoken` header for `{algorithm, keyid}` writes `kid` whenever a key id is given, even an empty one. |
| `Jwt.KeyIdHeaderIsHeader` | embedding_qs_series_2_api_use_cases/helpers/create-jwt.js:50-53 | For a non-empty key id, the package and `signHS256` write the same header. |
| `Jwt.JsonWebTokenSign` | embedding_qs_series_2_api_use_cases/helpers/embed-api.js:47-50 | `jwt.sign` rejects an empty secret first and a missing key id second. Otherwise it gives the compact HS256 token. |
| `SharePointJwt.MaxSession` | sigma-embed-sharepoint/jwt/index.js:66 | An unreadable or zero length gives 300. A length that parses as any other integer v gives min(v, 2592000), so a negative value passes through. |
| `SharePointJwt.MaxSessionOfNumber` | sigma-embed-sharepoint/jwt/index.js:66 | A decimal length n gives min(n, 2592000); n = 0 gives 300. |
| `SharePointJwt.Teams` | sigma-embed-sharepoint/jwt/index.js:73 | `teams` is `[TEAM]` when TEAM is non-empty, and `[]` otherwise. |
| `SharePointJwt.Payload` | sigma-embed-sharepoint/jwt/index.js:75-86 | The claims, in source order, have `iat` = now and `exp` = now + maxSession. |
| `SharePointJwt.EmbedUrl` | sigma-embed-sharepoint/jwt/index.js:91-92 | The joiner is '&' exactly when BASE_URL holds '?'. The URL is the base, the joiner, `:jwt=` with the encoded token, then `&:embed=true`. |
| `SharePointJwt.Headers` | sigma-embed-sharepoint/jwt/index.js:96-100 | The headers are JSON and no-store, plus the origin reflected exactly when one is given. |
| `SharePointJwt.CallerEmail` | sigma-embed-sharepoint/jwt/index.js:54-57 | The email is the query's, else the body's, else `DEV_EMAIL`. |
| `SharePointJwt.Handle` | sigma-embed-sharepoint/jwt/index.js:34-106 | A missing BASE_URL, CLIENT_ID or SECRET gives 500. With all three set, the answer is 401 exactly when no email is found. A 200 answer carries the CORS headers for the request's origin. |
| `SharePointJwt.HandleMinted` | sigma-embed-sharepoint/jwt/index.js:63-105 | With the settings present and an email found, the answer is 200 with `{embedUrl, expires_in}`. The URL carries a token that verifies under SECRET to the payload built for that email, and `expires_in` is the capped session length. |
| `SharePointJwt.EmailRequired` | sigma-embed-sharepoint/jwt/index.js:59-62 | A configured handler with no email anywhere answers 401. |
| `SharePointJwt.EmbedUrlCarriesToken` | sigma-embed-sharepoint/jwt/index.js:88-92 | The text after `:jwt=` decodes to a token that verifies under SECRET and carries the claims. |
| `SeriesTwoApiEmbed.SessionSeconds` | embedding_qs_series_2_api_use_cases/helpers/embed-api.js:11-12 | Radix-less `parseInt` (including `0x`). An unreadable or zero length gives 3600; any other parsed value v gives min(v, 2592000). |
| `SeriesTwoApiEmbed.SessionSecondsOfNumber` | embedding_qs_series_2_api_use_cases/helpers/embed-api.js:11-12 | A decimal length is honoured up to the cap, so `exp` is never more than thirty days after `iat`. |
| `SeriesTwoApiEmbed.Prefix` | embedding_qs_series_2_api_use_cases/helpers/embed-api.js:13 | The prefix is the upper-cased mode and '_' when a mode is given, and empty otherwise. |
| `SeriesTwoApiEmbed.ParseTeams` | embedding_qs_series_2_api_use_cases/helpers/embed-api.js:20-24 | The teams are the comma-split, trimmed, non-empty entries in order; no variable gives `[]`. |
| `SeriesTwoApiEmbed.ParseTeamsClean` | embedding_qs_series_2_api_use_cases/helpers/embed-api.js:20-24 | Every team read is non-empty, comma-free and trimmed. |
| `SeriesTwoApiEmbed.ParseTeamsJoin` | embedding_qs_series_2_api_use_cases/helpers/embed-api.js:20-24 | Writing clean names with commas and reading them back gives the same names. |
| `SeriesTwoApiEmbed.CollectUserAttributes` | embedding_qs_series_2_api_use_cases/helpers/embed-api.js:26-33 | The loop builds the attribute object that `UserAttributes` specifies. |
| `SeriesTwoApiEmbed.UserAttributesGet` | embedding_qs_series_2_api_use_cases/helpers/embed-api.js:26-33 | Attribute k is the trimmed value of variable prefix+k, and no attribute exists without such a variable. |
| `SeriesTwoApiEmbed.ReadSettings` | embedding_qs_series_2_api_use_cases/helpers/embed-api.js:15-24 | The session never exceeds 2592000 seconds and is 3600 without SESSION_LENGTH. A truthy mode-prefixed EMAIL is the email. |
| `SeriesTwoApiEmbed.PayloadTimes` | embedding_qs_series_2_api_use_cases/helpers/embed-api.js:35-45 | `iat` and `exp` are the two given times, whatever optional claims come first. |
| `SeriesTwoApiEmbed.PayloadSub` | embedding_qs_series_2_api_use_cases/helpers/embed-api.js:35-45 | `sub` is present exactly when an email is set, and then it is that email. |
| `SeriesTwoApiEmbed.ClaimsTimes` | embedding_qs_series_2_api_use_cases/helpers/embed-api.js:35-45 | The token is issued now, expires the session length later, and names the user exactly when an email is set. |
| `SeriesTwoApiEmbed.EmbedParams` | embedding_qs_series_2_api_use_cases/helpers/embed-api.js:67-71 | The parameters are `:embed=true`, then the token, then explore, then bookmark, each only when given. |
| `SeriesTwoApiEmbed.UiParts` | embedding_qs_series_2_api_use_cases/helpers/embed-api.js:87-93 | A single interface key whose variable is set gives `:key=` and its encoded value; an unset one gives nothing. The count never exceeds the keys. |
| `SeriesTwoApiEmbed.UiPartsAppend` | embedding_qs_series_2_api_use_cases/helpers/embed-api.js:87-93 | The parts of a concatenation of keys are the parts of each, in order, so the parts follow key order. |
| `SeriesTwoApiEmbed.FinalUrl` | embedding_qs_series_2_api_use_cases/helpers/embed-api.js:95 | The URL is the base URL, plus '&' and the options only when there are any. |
| `SeriesTwoApiEmbed.AfterBase` | embedding_qs_series_2_api_use_cases/helpers/embed-api.js:95 | With no options there is no trailing '&'. With options the URL starts with the base and ends with the last option. |
| `SeriesTwoApiEmbed.EmbedUrl` | embedding_qs_series_2_api_use_cases/helpers/embed-api.js:73-95 | The URL is `base?`, then the embed, JWT, explore and bookmark parameters joined by '&', then '&' and the options when there are any. |
| `SeriesTwoApiEmbed.SignedUrlOf` | embedding_qs_series_2_api_use_cases/helpers/embed-api.js:47-73 | An unset SECRET gives the signing error whatever the base URL. A SECRET without CLIENT_ID gives the key-id error. Only then does a missing base URL for the embed type fail. Otherwise the URL is `EmbedUrl` of the signed token. |
| `SeriesTwoApiEmbed.GenerateSignedUrl` | embedding_qs_series_2_api_use_cases/helpers/embed-api.js:8-105 | The result is what `SignedUrlOf` gives for the settings read and the attributes collected. |
| `SeriesTwoEmbed.SplitTeams` | embedding_qs_series_2/helpers/embed-api.js:44 | The teams are the comma-split, trimmed entries with empty ones kept; no variable gives `[]`. |
| `SeriesTwoEmbed.SplitTeamsCount` | embedding_qs_series_2/helpers/embed-api.js:44 | There is one team per comma-separated entry, each trimmed. |
| `SeriesTwoEmbed.SplitTeamsJoin` | embedding_qs_series_2/helpers/embed-api.js:44 | Clean names joined by commas read back unchanged, empty ones included. |
| `SeriesTwoEmbed.EmptyTeamKept` | embedding_qs_series_2/helpers/embed-api.js:44 | `"a,,b"` gives three teams here but two in the API use-case server. |
| `SeriesTwoEmbed.ReadSettings` | embedding_qs_series_2/helpers/embed-api.js:37-44 | The session is capped at 2592000 seconds. The email is the truthy mode-prefixed EMAIL, else the unprefixed one. |
| `SeriesTwoEmbed.ClaimsTimes` | embedding_qs_series_2/helpers/embed-api.js:47-55 | The token is issued now, and expires the capped session length later. |
| `SeriesTwoEmbed.EmbedUrlReadBack` | embedding_qs_series_2/helpers/embed-api.js:64-66 | The URL reads back as the base, then `:jwt` carrying the token, then `:embed=true`. |
| `SeriesTwoEmbed.GenerateSignedUrl` | embedding_qs_series_2/helpers/embed-api.js:17-82 | A missing prefixed BASE_URL fails. Otherwise the result is the signed token and the URL built from it. |
| `LinkSharingEmbed.ReadConfig` | embedding/sigma_embed_link_sharing/embed-api.js:13-22 | An unset CLIENT_ID reads as "undefined", as the template literal writes it. |
| `LinkSharingEmbed.FixedParams` | embedding/sigma_embed_link_sharing/embed-api.js:33-43 | The nine fixed parameters come in append order with their values: nonce, client id, email, user id, team, account type, mode, session length, then time. |
| `LinkSharingEmbed.OptionalParams` | embedding/sigma_embed_link_sharing/embed-api.js:45-59 | `:explore` comes exactly when the key is truthy, then `:bookmark` exactly when the id is. |
| `LinkSharingEmbed.EmbedUrl` | embedding/sigma_embed_link_sharing/embed-api.js:62-67 | The URL is the signed text and `&:signature=` with the digest. An unset secret gives the 500 answer. |
| `LinkSharingEmbed.GenerateEmbedUrl` | embedding/sigma_embed_link_sharing/embed-api.js:29-70 | The handler's answer is `EmbedUrl` of the query the loop writes. |
| `LinkSharingEmbed.WriteSearchParams` | embedding/sigma_embed_link_sharing/embed-api.js:33-59 | The step-by-step appends produce `?:nonce=…`, then one `&name=value` per parameter, in order. |
| `LinkSharingEmbed.ParamsLayout` | embedding/sigma_embed_link_sharing/embed-api.js:33-59 | The query has nine fixed parameters, then `:explore` exactly when the key is truthy, then `:bookmark` exactly when the id is. |
| `LinkSharingEmbed.TimeReadBack` | embedding/sigma_embed_link_sharing/embed-api.js:43 | `:time` reads back as the clock in whole seconds. |
| `LinkSharingEmbed.EmbedUrlReadBack` | embedding/sigma_embed_link_sharing/embed-api.js:62-67 | With '&'-free values, a receiver reads the path, every parameter in order, then the signature over the text before it. |
| `LinkSharingEmbed.Append` | embedding/sigma_embed_link_sharing/embed-api.js:36 | One append adds '&' and the parameter to the text written so far. |
| `EmbedSdkUtils.SearchParams.constructor` | embed-sdk-react/docs/basic-examples/lib/utils.ts:51 | `new URLSearchParams(record)` holds the record's entries in property order. |
| `EmbedSdkUtils.SearchParams.Append` | embed-sdk-react/docs/basic-examples/lib/utils.ts:60 | `append` adds one pair at the end and keeps every earlier pair. |
| `EmbedSdkUtils.SearchParams.ToString` | embed-sdk-react/docs/basic-examples/lib/utils.ts:53 | The form-encoded query reads back to every pair, decoded, in order. |
| `EmbedSdkUtils.FormQuerySafe` | embed-sdk-react/docs/basic-examples/lib/utils.ts:51-53 | The form serializer escapes '%', '&', '=' and '+', so its output reads back. |
| `EmbedSdkUtils.SearchParamsObject` | embed-sdk-react/docs/basic-examples/lib/utils.ts:39-49 | The object has nine entries, keys and values, in the literal's order: mode, email, user id, account type, team, nonce, time in whole seconds, session length, client id. |
| `EmbedSdkUtils.SignEmbedUrl` | embed-sdk-react/docs/basic-examples/lib/utils.ts:34-62 | An empty secret or client id rejects. Otherwise the result is the signed URL, with the signature over `dashboard?params`. |
| `EmbedSdkUtils.SignedUrlExtends` | embed-sdk-react/docs/basic-examples/lib/utils.ts:60-62 | The signed URL is the signed text unchanged, then '&', `%3Asignature`, '=' and the hex digest. |
| `EmbedSdkUtils.AppendHexValue` | embed-sdk-react/docs/basic-examples/lib/utils.ts:60-62 | Appending a hex-valued pair to a form query adds '&', the encoded name, '=' and the value unchanged. |
| `EmbedSdkUtils.HexValueKept` | embed-sdk-react/docs/basic-examples/lib/utils.ts:60 | Form encoding leaves a lower-case hex value unchanged. |
| `EmbedSdkUtils.SignedUrlReadBack` | embed-sdk-react/docs/basic-examples/lib/utils.ts:53-62 | A receiver reads back the dashboard, the parameters and the signature in order; the signature's hex decodes to the MAC of the signed text. |
| `Encoding.BufferToHex` | embed-sdk-react/docs/basic-examples/lib/utils.ts:19-23 | The output has length twice the byte count, with each byte as two lower-case hex digits, high nibble first, in order. |
| `Encoding.HexRoundTrip` | embed-sdk-react/docs/basic-examples/lib/utils.ts:19-23 | The hex text decodes back to the same bytes. |
| `Encoding.B64UrlIsBase64UrlNoPad` | sigma-embed-sharepoint/jwt/index.js:6-11 | Dropping '=' and replacing '+' and '/' turns standard base64 into base64url without padding. |
| `Encoding.Base64UrlRoundTrip` | sigma-embed-sharepoint/jwt/index.js:6-11 | Base64url decoding reverses `b64url`. |
| `Encoding.Base64UrlLength` | sigma-embed-sharepoint/jwt/index.js:6-11 | The output has ⌈4n/3⌉ characters for n bytes. |
| `Encoding.PythonQuote` | embedding_signed_url/streamlit/embed_api.py:10 | `quote(safe=",:")` keeps exactly the unreserved characters, ',' and ':'. Every other UTF-8 byte becomes `%XX`. |
| `Encoding.PythonQuoteRoundTrip` | embedding_signed_url/streamlit/embed_api.py:10 | Percent-decoding the quoted text gives the UTF-8 bytes back. |
| `Encoding.EncodeUriComponent` | sigma-embed-sharepoint/jwt/index.js:92 | `encodeURIComponent` keeps exactly its unreserved set and escapes every other UTF-8 byte. |
| `Encoding.EncodeUriComponentRoundTrip` | sigma-embed-sharepoint/jwt/index.js:92 | Decoding reverses `encodeURIComponent`. |
| `Encoding.FormUrlEncode` | embed-sdk-react/docs/basic-examples/lib/utils.ts:51-53 | The form serializer writes space as '+' and escapes ':' and every non-kept byte. |
| `Encoding.FormUrlEncodeRoundTrip` | embed-sdk-react/docs/basic-examples/lib/utils.ts:51-53 | Decoding the form-encoded text, with '+' as space, gives the UTF-8 bytes back. |
| `QueryString.QueryRoundTrip` | embedding_signed_url/streamlit/embed_api.py:7-12 | A query written by `urlencode` reads back to every pair, decoded, in order. |
| `QueryString.EncodeQueryAppend` | embed-sdk-react/docs/basic-examples/lib/utils.ts:60-62 | Writing one more pair after '&' gives the query of the longer list. |
| `Json.Quote` | sigma-embed-sharepoint/jwt/index.js:19-20 | `JSON.stringify` of a string is the escaped text between double quotes, with no raw control character, '"' or '\\' inside. |
| `Json.QuoteRoundTrip` | sigma-embed-sharepoint/jwt/index.js:19-20 | Reading a quoted string back stops at its closing quote and gives the original. |
| `Json.QuoteInjective` | sigma-embed-sharepoint/jwt/index.js:19-20 | Different strings never quote to the same text. |
| `Text.Split` | embedding_qs_series_2/helpers/embed-api.js:44 | `split` with a one-character separator gives parts that hold no separator. The empty string gives one empty part. |
| `Text.SplitJoin` | embedding_qs_series_2/helpers/embed-api.js:44 | Joining separator-free parts and splitting again gives the parts back. |
| `Text.JoinSplit` | embedding_qs_series_2/helpers/embed-api.js:44 | Splitting and joining back gives the input. |
| `Text.ParseIntNatToString` | sigma-embed-sharepoint/jwt/index.js:66 | `parseInt(String(n), 10)` is n. |
| `Text.ParseIntAuto` | embedding_qs_series_2_api_use_cases/helpers/embed-api.js:12 | Radix-less `parseInt` reads decimal like `parseInt(s, 10)` whenever the text holds no 'x'. |
| `Text.Trim` | recipe-portal/app/api/env/route.ts:23 | `trim()` never lengthens the text, leaves no whitespace at either end, and keeps a text without whitespace unchanged. |
| `Text.TrimIdempotent` | recipe-portal/app/api/env/route.ts:23 | Trimming twice is trimming once. |
| `Text.PadStart` | recipe-portal/components/SmartParameterForm.tsx:187 | `padStart` yields at least the width and ends with the original text. |
| `Env.Seconds` | embedding/sigma_embed_link_sharing/embed-api.js:43 | `Math.floor(ms / 1000)` is the whole seconds, rounded down, also before 1970. |
| `JsObject.Set` | plugin_use_cases/helpers/multi-area-bookmarks.js:105 | Assignment keeps an existing key in place with the new value, and appends a new key last. |
| `JsObject.SetKeepsDistinct` | plugin_use_cases/helpers/multi-area-bookmarks.js:105 | Assignment keeps the keys distinct. |
| `JsObject.Delete` | plugin_use_cases/helpers/multi-area-bookmarks.js:210 | `delete` removes exactly the entries with the key and keeps the others in order. |
| `JsObject.DeleteKeepsDistinct` | plugin_use_cases/helpers/multi-area-bookmarks.js:210 | Deletion keeps the keys distinct. |
| `EmbedPath.Path` | embedding_qs_series_2_api_use_cases/helpers/build-embed-url.js:16-35 | Workbook gives `/workbook/name-id`, page adds `/page/id`, element adds `/element/id`. Each type demands its fields, element also demands an unused page id, and any other type fails. |
| `EmbedPath.BuildEmbedUrl` | embedding_qs_series_2_api_use_cases/helpers/build-embed-url.js:11-37 | A missing slug or workbook id fails first. Otherwise the URL is `https://app.sigmacomputing.com/`, the slug and the path. |
| `EmbedPath.PathSegments` | embedding_qs_series_2_api_use_cases/helpers/build-embed-url.js:18-32 | Split on '/', a path gives back its segments and ids. |
| `PluginEmbedUrl.FromEnv` | plugin_use_cases/helpers/build-embed-url.js:46-61 | The literal maps each name to its variable's value, or undefined when unset. |
| `PluginEmbedUrl.Override` | plugin_use_cases/helpers/build-embed-url.js:63-74 | A defined override replaces the value in place, and an undefined one changes nothing. |
| `PluginEmbedUrl.OverridesKeys` | plugin_use_cases/helpers/build-embed-url.js:63-74 | Overrides never add or move a key, and a given override wins. |
| `PluginEmbedUrl.OverridesOthers` | plugin_use_cases/helpers/build-embed-url.js:63-74 | Keys not overridden keep their values. |
| `PluginEmbedUrl.OptionalParamsKeys` | plugin_use_cases/helpers/build-embed-url.js:46-74 | Each key stays where the literal put it, and each overridable key holds the request's value when given, the environment's otherwise. |
| `PluginEmbedUrl.FromEnvHideMenu` | plugin_use_cases/helpers/build-embed-url.js:50 | `hide_menu` reads `HIDE_MENU`. |
| `PluginEmbedUrl.FromEnvOverridable` | plugin_use_cases/helpers/build-embed-url.js:46-61 | The four overridable keys are all in the literal. |
| `PluginEmbedUrl.ApplyOverrides` | plugin_use_cases/helpers/build-embed-url.js:63-74 | The in-place assignments give the object `Overrides` specifies. |
| `PluginEmbedUrl.EntriesComplete` | plugin_use_cases/helpers/build-embed-url.js:88-92 | Every entry with a truthy value is written as `:key=value`. |
| `PluginEmbedUrl.EntriesSound` | plugin_use_cases/helpers/build-embed-url.js:88-92 | Every written parameter comes from an entry with a truthy value. |
| `PluginEmbedUrl.Lead` | plugin_use_cases/helpers/build-embed-url.js:78-83 | The lead is the bookmark if truthy, else the exploration if truthy, else nothing. |
| `PluginEmbedUrl.BuildEmbedUrl` | plugin_use_cases/helpers/build-embed-url.js:11-96 | The checks fail first. Otherwise the URL is base/slug, path, '?' and the parameters `WriteParams` pushes, joined by '&'. |
| `PluginEmbedUrl.WriteParams` | plugin_use_cases/helpers/build-embed-url.js:76-92 | The pushes produce the lead, `:embed=true`, then one parameter per truthy optional entry, in order. |
| `PluginEmbedUrl.PushEntries` | plugin_use_cases/helpers/build-embed-url.js:88-92 | The loop appends exactly the `Entries` of the object to what was there. |
| `PluginEmbedUrl.SameChecks` | plugin_use_cases/helpers/build-embed-url.js:27-44 | The plugin builder accepts and rejects exactly what the API use-case builder does, with the same messages. |
| `PluginEmbedUrl.EmbedFlagPlace` | plugin_use_cases/helpers/build-embed-url.js:78-85 | `:embed=true` always follows at most one of bookmark and exploration, the bookmark when both are given. |
| `SeriesTwoCreateJwt.Permissions` | embedding_qs_series_2_api_use_cases/helpers/create-jwt.js:19-22 | Explicit permissions win, even an empty list. Otherwise admin gives build/view/admin, build gives build, and anything else gives view. |
| `SeriesTwoCreateJwt.ReadSettings` | embedding_qs_series_2_api_use_cases/helpers/create-jwt.js:24-39 | The audience defaults when unset, and the key id is KEY_ID, else CLIENT_ID. |
| `SeriesTwoCreateJwt.GenerateJwt` | embedding_qs_series_2_api_use_cases/helpers/create-jwt.js:14-54 | A missing sub, secret or key id fails, and a truthy sub, SECRET and key id always succeed. The result is the HS256 token over the claims. |
| `SeriesTwoCreateJwt.HeaderKid` | embedding_qs_series_2_api_use_cases/helpers/create-jwt.js:50-53 | The token header names KEY_ID when set, CLIENT_ID otherwise. |
| `SeriesTwoCreateJwt.PayloadClaims` | embedding_qs_series_2_api_use_cases/helpers/create-jwt.js:24-36 | The claims read back with `sub` as given, `scope` "embed", and `exp` five minutes after the second clock reading. |
| `SeriesTwoCreateJwt.Lifetime` | embedding_qs_series_2_api_use_cases/helpers/create-jwt.js:28-29 | The token lives at least 300 seconds, exactly 300 when both clock readings fall in one second. |
| `ExportSchedule.HoursMinutes` | embedding_qs_series_2_api_use_cases/helpers/create-export-schedule.js:44 | The time, or "09:00", is split at ':'. A time without ':' leaves the minutes "undefined". |
| `ExportSchedule.CronFields` | embedding_qs_series_2_api_use_cases/helpers/create-export-schedule.js:44-59 | The cron text splits back into minute, hour and the frequency's three fields: daily `* * *`, weekly `* * 1`, monthly `1 * *`. Daily is the default. |
| `ExportSchedule.TimeFields` | embedding_qs_series_2_api_use_cases/helpers/create-export-schedule.js:44 | An `HH:MM` time splits into its hour and minute. |
| `ExportSchedule.DefaultCron` | embedding_qs_series_2_api_use_cases/helpers/create-export-schedule.js:44-59 | The default time gives `00 09` first. |
| `ExportSchedule.DefaultTimeFields` | embedding_qs_series_2_api_use_cases/helpers/create-export-schedule.js:44 | The default time is hour "09", minute "00". |
| `ExportSchedule.Targets` | embedding_qs_series_2_api_use_cases/helpers/create-export-schedule.js:62-64 | There is one target per recipient, in order, each the trimmed address. |
| `ExportSchedule.FormatType` | embedding_qs_series_2_api_use_cases/helpers/create-export-schedule.js:67 | "XLSX" and "CSV" are kept; anything else, or nothing, is "PDF". |
| `ExportSchedule.FormatOptions` | embedding_qs_series_2_api_use_cases/helpers/create-export-schedule.js:80-83 | The options are the type, plus a portrait layout only for PDF. |
| `ExportSchedule.CreateExportSchedule` | embedding_qs_series_2_api_use_cases/helpers/create-export-schedule.js:22-117 | A missing workbook id or no recipients fails. Otherwise the request is a POST to the workbook's schedules with the bearer token, and its body is `RequestBody` of the settings and recipients. |
| `ExportSchedule.RequestBodyParts` | embedding_qs_series_2_api_use_cases/helpers/create-export-schedule.js:69-99 | The body's target lists the trimmed recipients, its cronSpec is the cron of time and frequency, and its one attachment has the format options of the format type and exports the whole workbook. |
| `RecipeScanner.NameLength` | recipe-portal/lib/recipeScanner.ts:26 | The captured name is the longest run of `[A-Z0-9_]` after a first `[A-Z_]`. |
| `RecipeScanner.NameEnd` | recipe-portal/lib/recipeScanner.ts:26 | The name ends at the first character that cannot continue it. |
| `RecipeScanner.EnvRefs` | recipe-portal/lib/recipeScanner.ts:26-28 | `matchAll` captures, left to right, without overlaps, skipping occurrences without a name. |
| `RecipeScanner.EnvRefsFound` | recipe-portal/lib/recipeScanner.ts:26-28 | Every name found follows a `process.env.` in the text. |
| `RecipeScanner.EnvRefsCons` | recipe-portal/lib/recipeScanner.ts:26-28 | A full reference followed by a non-name character is found whole, ahead of the rest. |
| `RecipeScanner.NoPrefixInName` | recipe-portal/lib/recipeScanner.ts:26 | A text of name characters holds no reference. |
| `RecipeScanner.Keep` | recipe-portal/lib/recipeScanner.ts:31-34 | The filter keeps exactly the values outside the core set. A single value is kept or dropped on its own. |
| `RecipeScanner.KeepAppend` | recipe-portal/lib/recipeScanner.ts:31-34 | The filter of a concatenation is the filter of each part, in order. |
| `RecipeScanner.KeepInOrder` | recipe-portal/lib/recipeScanner.ts:31-34 | The values kept first occur in the same order as in the input. |
| `RecipeScanner.Dedup` | recipe-portal/lib/recipeScanner.ts:36 | `Array.from(new Set(xs))` has each value once, at its first occurrence, and the same members. |
| `RecipeScanner.DedupPrefix` | recipe-portal/lib/recipeScanner.ts:36 | What follows never reorders the values already seen. |
| `RecipeScanner.DedupOrder` | recipe-portal/lib/recipeScanner.ts:36 | The positions of the deduplicated values follow their first occurrences in the input. |
| `RecipeScanner.ExtractEnvVariables` | recipe-portal/lib/recipeScanner.ts:25-37 | The result is the referenced names, without the four core variables, each once. For i < j, the first reference to the i-th name comes before the first reference to the j-th. |
| `RecipeScanner.FirstTagged` | recipe-portal/lib/recipeScanner.ts:46-52 | The result is the trimmed text after the tag on the first trimmed line starting with it. |
| `RecipeScanner.FirstTaggedAt` | recipe-portal/lib/recipeScanner.ts:46-52 | The first tagged line decides, whatever later lines say. |
| `RecipeScanner.Description` | recipe-portal/lib/recipeScanner.ts:42-55 | The description is the first tagged text when that is non-empty, and "No description available" when it is empty or missing. |
| `RecipeScanner.ExtractTitle` | recipe-portal/lib/recipeScanner.ts:60-71 | The early-return loop gives the first "// Title:" text, else "". |
| `RecipeScanner.ExtractDescription` | recipe-portal/lib/recipeScanner.ts:42-55 | The loop with `break` gives the first "// Description:" text, else the fallback. |
| `RecipeScanner.TaggedFirstLine` | recipe-portal/lib/recipeScanner.ts:60-71 | A first line made of the tag, a space and a trimmed text reads back to that text. |
| `RecipeScanner.TitleOfHeader` | recipe-portal/lib/recipeScanner.ts:60-71 | A file starting with a title line gets that title. |
| `RecipeScanner.DescriptionOfHeader` | recipe-portal/lib/recipeScanner.ts:42-55 | A file starting with a description line gets that description. |
| `RecipeScanner.Capitalize` | recipe-portal/lib/recipeScanner.ts:82 | The first character is upper-cased and the rest is unchanged. |
| `RecipeScanner.CapitalizeEach` | recipe-portal/lib/recipeScanner.ts:81-82 | Every word is capitalised, in order. |
| `RecipeScanner.WordCapsJoin` | recipe-portal/lib/recipeScanner.ts:81-83 | Split, capitalise and join is the reference word-start capitalisation. |
| `RecipeScanner.RecipeNameChars` | recipe-portal/lib/recipeScanner.ts:76-84 | The name keeps the spaced length, has no '-' or '_', and has every word-initial character upper-cased. |
| `RecipeScanner.RequiresAuthKept` | recipe-portal/lib/recipeScanner.ts:89-91 | Adding text never drops the need for a token. |
| `RecipeScanner.RecipeIdOf` | recipe-portal/lib/recipeScanner.ts:115 | The id is `category-base` for `base.js` when ".js" occurs only as the extension. |
| `RecipeScanner.ScanRecipeFile` | recipe-portal/lib/recipeScanner.ts:96-125 | Only files whose base name ends in ".js" are recipes. The id is the category and the base name without ".js"; the title comment names the recipe, or else the file name does. Description, variables and the auth flag come from the content. The path is kept, and the README path beside the file is set exactly when the README exists. |
| `RecipeScanner.BaseName` | recipe-portal/lib/recipeScanner.ts:98 | The base name holds no '/', and the path is its directory part followed by it. |
| `RecipeScanner.ReadmeBeside` | recipe-portal/lib/recipeScanner.ts:98-108 | The file `dir/base.js` is named `base.js`, and its README path is `dir/base.md`. |
| `SmartParameters.FirstIdRule` | recipe-portal/lib/smartParameters.ts:295-329 | The result is the first id check, at or after a start, that the name passes. |
| `SmartParameters.FirstWordRule` | recipe-portal/lib/smartParameters.ts:331-418 | The result is the first word check, at or after a start, that the name passes. |
| `SmartParameters.MatchKey` | recipe-portal/lib/smartParameters.ts:287-421 | An exact key wins; for any other name the ordered checks decide. |
| `SmartParameters.RuleKey` | recipe-portal/lib/smartParameters.ts:295-420 | The first id check passed gives its key, or null when it is one of the master script's own ids in the master script. With no id check passed, the word checks decide. |
| `SmartParameters.WordKey` | recipe-portal/lib/smartParameters.ts:331-420 | The result is the key of the first word check passed; none passed gives null. |
| `SmartParameters.FuzzyMatchIn` | recipe-portal/lib/smartParameters.ts:286-421 | The pattern under the exact key when there is one; otherwise the pattern under the key the checks choose, or null when they choose none. |
| `SmartParameters.FirstIdRuleIs` | recipe-portal/lib/smartParameters.ts:295-329 | A passed id check with none passed before it is the first. |
| `SmartParameters.FirstWordRuleIs` | recipe-portal/lib/smartParameters.ts:331-418 | A passed word check with none passed before it is the first. |
| `SmartParameters.IdMatchOf` | recipe-portal/lib/smartParameters.ts:295-329 | `W_ID`, or any name holding `WID`, passes the id check on W. |
| `SmartParameters.NoIdRule` | recipe-portal/lib/smartParameters.ts:295-329 | A name without the check's word passes none of its spellings. |
| `SmartParameters.MasterScriptOwnId` | recipe-portal/lib/smartParameters.ts:298-313 | In the master script, a non-key name whose first id check is one the script sets itself gives null. |
| `SmartParameters.MemberIdFirst` | recipe-portal/lib/smartParameters.ts:295-304 | A member id spelling passes the member check first, unless it holds TEAM. |
| `SmartParameters.WorkspaceIdFirst` | recipe-portal/lib/smartParameters.ts:295-314 | A workspace id spelling passes the workspace check first, unless it holds TEAM, MEMBER or WORKBOOK. |
| `SmartParameters.NoEarlierThanWorkspace` | recipe-portal/lib/smartParameters.ts:295-307 | A name without TEAM, MEMBER or WORKBOOK passes none of the first three id checks. |
| `SmartParameters.MasterScriptMemberId` | recipe-portal/lib/smartParameters.ts:298-303 | In the master script, a member id spelling that is not a key gives null. |
| `SmartParameters.MasterScriptWorkspaceId` | recipe-portal/lib/smartParameters.ts:308-313 | In the master script, a workspace id spelling that is not a key gives null. |
| `SmartParameters.WorkspaceWordKey` | recipe-portal/lib/smartParameters.ts:331-418 | A name with WORKSPACE and without TEAM, MEMBER or WORKBOOK passes the WORKSPACE word check first. |
| `SmartParameters.WorkspaceWord` | recipe-portal/lib/smartParameters.ts:287-418 | Such a name, when it is not a key and passes no id check, gets the workspace picker. |
| `SmartParameters.SingleWord` | recipe-portal/lib/smartParameters.ts:331-418 | A one-word check is passed by exactly the names holding that word. |
| `SmartParameters.Shadowed` | recipe-portal/lib/smartParameters.ts:331-418 | A check whose words include all of an earlier check's words is never the first one passed. |
| `SmartParameters.DeadWordRule` | recipe-portal/lib/smartParameters.ts:331-418 | The workspace permission, workspace name, new-workbook name and new-workbook description checks can never fire. |
| `SmartParameters.UpperWordStarts` | recipe-portal/lib/smartParameters.ts:455 | `\b\w` upper-cases each word character with no word character before it. |
| `SmartParameters.FallbackNameChars` | recipe-portal/lib/smartParameters.ts:450-458 | In the fallback label, '_' becomes a space, word-initial letters are upper case, other letters lower case, and everything else is kept. |
| `SmartParameters.Detect` | recipe-portal/lib/smartParameters.ts:432-459 | A known pattern keeps the name, is marked required, and carries every field of the pattern, choices and validation included. Otherwise the typed-text fallback with its label, description and placeholder. |
| `SmartParameters.DetectEach` | recipe-portal/lib/smartParameters.ts:432-459 | The mapping gives one parameter per name, the i-th detected from the i-th name. |
| `SmartParameters.DetectIn` | recipe-portal/lib/smartParameters.ts:423-459 | There is one required parameter per kept name, in order, under the same name. The master script never gets MEMBERID or WORKSPACEID. |
| `SmartParameters.PermissionPattern` | recipe-portal/lib/smartParameters.ts:436-438 | PERMISSION in a workspace recipe gets the workspace-permission pattern, and elsewhere its own. |
| `SmartParameters.AnalyzeRecipeCode` | recipe-portal/lib/smartParameters.ts:463-487 | The result is the `[A-Z_]+` names after `process.env.`, without the auth variables and the master script's ids, each once. For i < j, the first reference to the i-th name comes before the first reference to the j-th. |
| `SmartParameters.AnalyzeRecipeCodeWithDigits` | recipe-portal/lib/smartParameters.ts:463-487 | Using the scanner's name pattern suggests exactly what the scanner lists. |
| `SmartParameters.DigitNameCut` | recipe-portal/lib/smartParameters.ts:464 | As written, `process.env.S3_BUCKET` is suggested as "S". |
| `SmartParameters.DigitNameWhole` | recipe-portal/lib/recipeScanner.ts:26 | With the corrected pattern, `S3_BUCKET` is found whole. |
| `SmartParameters.OnlyName` | recipe-portal/lib/smartParameters.ts:463-487 | A text with exactly one non-core variable yields that variable. |
| `ParameterForm.ConvertToIsoDate` | recipe-portal/components/SmartParameterForm.tsx:176-191 | "" stays "" (and only ""). An ISO date is kept, `M/D/YYYY` becomes an ISO date, and anything else is kept. |
| `ParameterForm.ConvertIdempotent` | recipe-portal/components/SmartParameterForm.tsx:176-191 | Converting twice equals converting once. |
| `ParameterForm.ConvertSlashDate` | recipe-portal/components/SmartParameterForm.tsx:185-188 | `m/d/yyyy` becomes `yyyy-mm-dd` with month and day zero-padded. |
| `ParameterForm.BlankDependentsGet` | recipe-portal/components/SmartParameterForm.tsx:149-165 | A value is blanked exactly when a parameter of that name depends on the changed one; others are kept. |
| `ParameterForm.Prune` | recipe-portal/components/SmartParameterForm.tsx:155-163 | An entry survives exactly when its key lacks the prefix or is the new key. |
| `ParameterForm.PruneDependentsKeeps` | recipe-portal/components/SmartParameterForm.tsx:149-165 | Pruning only removes entries: an entry goes exactly when a dependent owns its prefix and it is not that dependent's new key. |
| `ParameterForm.CacheKey` | recipe-portal/components/SmartParameterForm.tsx:225 | The key is the resource type, or `type_value` for a dependent parameter. |
| `ParameterForm.ApiParamName` | recipe-portal/components/SmartParameterForm.tsx:88-93 | The three mapped names are translated; any other name is lower-cased. |
| `ParameterForm.Form.constructor` | recipe-portal/components/SmartParameterForm.tsx:36 | The cache starts empty. |
| `ParameterForm.Form.HandleChange` | recipe-portal/components/SmartParameterForm.tsx:145-168 | The parameter takes the value, its dependents are blanked, and their stale resource lists are dropped. |
| `ParameterForm.ChangeKeepsFreshList` | recipe-portal/components/SmartParameterForm.tsx:145-168 | After a change, a dependent looks up `rt_value`, and a list already cached there survives. |
| `DashboardBuilder.RunAt` | plugin_dashboard_builder/src/app/main/main.component.ts:123 | The capture is non-empty and free of '/', '&' and '?'. |
| `DashboardBuilder.SegmentFrom` | plugin_dashboard_builder/src/app/main/main.component.ts:123-124 | A capture is a non-empty id; none means no match from that point on. |
| `DashboardBuilder.SegmentFromFirst` | plugin_dashboard_builder/src/app/main/main.component.ts:123-124 | The search finds the first match and captures its whole id. |
| `DashboardBuilder.SegmentFromNone` | plugin_dashboard_builder/src/app/main/main.component.ts:123-124 | Without a match the search finds nothing. |
| `DashboardBuilder.SegmentOf` | plugin_dashboard_builder/src/app/main/main.component.ts:123-128 | `a/marker/id…` with no earlier match captures exactly the id. |
| `DashboardBuilder.ParseNodeIdFromUrl` | plugin_dashboard_builder/src/app/main/main.component.ts:118-136 | An element id wins over a page id, which comes prefixed with "pageXX". The result is "" exactly when there is neither. |
| `DashboardBuilder.NodeIdOfElementUrl` | plugin_dashboard_builder/src/app/main/main.component.ts:123-128 | A URL `…/element/{id}…` gives the id. |
| `DashboardBuilder.NodeIdOfPageUrl` | plugin_dashboard_builder/src/app/main/main.component.ts:124-132 | A URL `…/page/{id}…` without an element gives "pageXX" + id. |
| `DashboardBuilder.MainComponent.constructor` | plugin_dashboard_builder/src/app/main/main.component.ts:138-156 | A component starts with no URL, not loaded, and no writes. |
| `DashboardBuilder.MainComponent.OnVizUrlVariable` | plugin_dashboard_builder/src/app/main/main.component.ts:141-153 | The same URL changes nothing. A new URL is stored, resets `vizLoaded`, and writes the node id exactly when it is non-empty. |
| `DashboardBuilder.MainComponent.OnMessage` | plugin_dashboard_builder/src/app/main/main.component.ts:169-185 | Only messages from the workbook count. An id change marks it loaded, and a non-empty explore key is written. The control ids and the URL value do not change. |
| `EnvFile.MatchAssignment` | recipe-portal/app/api/env/route.ts:26 | A match splits the line at its first '='. The key is non-empty, and the value holds no line terminator. |
| `EnvFile.ParseLine` | recipe-portal/app/api/env/route.ts:23-33 | Blank and '#' lines give nothing. An entry has a non-empty, trimmed, '='-free key and a non-empty trimmed value. |
| `EnvFile.ParseLineOf` | recipe-portal/app/api/env/route.ts:26-29 | `key=value` reads back as that entry, even when the value holds '='. |
| `EnvFile.ValuesLastWins` | recipe-portal/app/api/env/route.ts:21-36 | Each key holds the value of the last line setting it, never an empty one. |
| `EnvFile.ValuesDistinct` | recipe-portal/app/api/env/route.ts:21-36 | Each key appears once. |
| `EnvFile.ReadEnv` | recipe-portal/app/api/env/route.ts:5-43 | No file gives no values and `exists` false. Otherwise the loop builds the values the lines set. |
| `MultiAreaBookmarks.NewBookmark` | plugin_use_cases/helpers/multi-area-bookmarks.js:95-103 | `created` equals `updated`, and `areas` defaults to `{}`. |
| `MultiAreaBookmarks.Merged` | plugin_use_cases/helpers/multi-area-bookmarks.js:184-188 | Update fields win, the id and creation time are kept unless updated, and `updated` is now. |
| `MultiAreaBookmarks.MergedFields` | plugin_use_cases/helpers/multi-area-bookmarks.js:184-188 | An empty update only moves `updated`. Untouched fields are kept, and two updates merge like one. |
| `MultiAreaBookmarks.FirstWithSigmaId` | plugin_use_cases/helpers/multi-area-bookmarks.js:134-147 | A result carries the Sigma id; none means no bookmark has it. |
| `MultiAreaBookmarks.FirstWithSigmaIdAt` | plugin_use_cases/helpers/multi-area-bookmarks.js:138-143 | The first match wins. |
| `MultiAreaBookmarks.ForWorkbook` | plugin_use_cases/helpers/multi-area-bookmarks.js:159-163 | The result is exactly the workbook's bookmarks, in order. |
| `MultiAreaBookmarks.ForWorkbookAppend` | plugin_use_cases/helpers/multi-area-bookmarks.js:159-163 | The bookmarks of a concatenation are those of each part, in order. |
| `MultiAreaBookmarks.BookmarkDb.constructor` | plugin_use_cases/helpers/multi-area-bookmarks.js:62-79 | The store starts with no bookmarks and version "1.0.0". |
| `MultiAreaBookmarks.BookmarkDb.Save` | plugin_use_cases/helpers/multi-area-bookmarks.js:90-109 | The bookmark is stored under its id, and a new id adds exactly one bookmark. |
| `MultiAreaBookmarks.BookmarkDb.Get` | plugin_use_cases/helpers/multi-area-bookmarks.js:116-127 | The result is the bookmark stored under the id, or nothing. |
| `MultiAreaBookmarks.BookmarkDb.GetBySigmaId` | plugin_use_cases/helpers/multi-area-bookmarks.js:134-147 | The result is the first bookmark with the Sigma id, or null. |
| `MultiAreaBookmarks.BookmarkDb.List` | plugin_use_cases/helpers/multi-area-bookmarks.js:154-167 | The result is exactly the workbook's bookmarks, newest first, with ties in enumeration order. |
| `MultiAreaBookmarks.BookmarkDb.Update` | plugin_use_cases/helpers/multi-area-bookmarks.js:175-194 | A missing id gives false and no change. Otherwise the merged bookmark replaces the old one in place. |
| `MultiAreaBookmarks.BookmarkDb.Delete` | plugin_use_cases/helpers/multi-area-bookmarks.js:201-214 | A missing id gives false and no change. Otherwise only that key is removed. |
| `MultiAreaBookmarks.BookmarkDb.GetStats` | plugin_use_cases/helpers/multi-area-bookmarks.js:220-228 | `totalBookmarks` is the number of keys. |
| `KeyStorage.Decrypt` | recipe-portal/lib/keyStorage.ts:78-101 | An undecryptable entry gives null. A readable one gives its clientId and clientSecret as stored, and each server URL when truthy, else its default. |
| `KeyStorage.DecryptOldFormat` | recipe-portal/lib/keyStorage.ts:90-96 | A set written without server settings decrypts to its credentials and the default base and auth URLs. |
| `KeyStorage.DecryptEncrypt` | recipe-portal/lib/keyStorage.ts:55-101 | Decryption undoes encryption, with the server defaults filled in. |
| `KeyStorage.Names` | recipe-portal/lib/keyStorage.ts:187 | The names are every key but `_metadata`. A single entry gives its key unless it is `_metadata`. |
| `KeyStorage.NamesAppend` | recipe-portal/lib/keyStorage.ts:187 | The names of a concatenation are the names of each part, in order. |
| `JsObject.WithoutAppend` | recipe-portal/lib/keyStorage.ts:187 | Filtering out one key works key by key: a concatenation filters to the filtered parts, in order. |
| `KeyStorage.FirstName` | recipe-portal/lib/keyStorage.ts:151 | None exactly when every key is `_metadata`. Otherwise the first key that is not `_metadata`: every entry before it is `_metadata`. |
| `KeyStorage.FirstNameIsFirst` | recipe-portal/lib/keyStorage.ts:151 | `find` gives the first of the names. |
| `KeyStorage.StoredFound` | recipe-portal/lib/keyStorage.ts:106-135 | A stored set reads back. The first set stored becomes the default, and later ones leave the default alone. |
| `KeyStorage.StoreThenFetch` | recipe-portal/lib/keyStorage.ts:106-164 | Storing then fetching by name gives the credentials with the defaults filled in. |
| `KeyStorage.FirstOrNull` | recipe-portal/lib/keyStorage.ts:259-260 | The result is the first remaining name when it is non-empty, else null. |
| `KeyStorage.ClearedSet` | recipe-portal/lib/keyStorage.ts:252-264 | Clearing removes that set and no other, and the default never names it afterwards. |
| `KeyStorage.CredentialStore.constructor` | recipe-portal/lib/keyStorage.ts:30 | The store starts with no file and no entries. |
| `KeyStorage.CredentialStore.StoreCredentials` | recipe-portal/lib/keyStorage.ts:106-135 | The set goes under its name (or "default"), and the default pointer is set only when metadata is absent. |
| `KeyStorage.CredentialStore.GetStoredCredentials` | recipe-portal/lib/keyStorage.ts:140-164 | The target is the name, else the default, else the first set. A missing file or set gives null. |
| `KeyStorage.CredentialStore.HasStoredCredentials` | recipe-portal/lib/keyStorage.ts:169-175 | The result says whether the file exists. |
| `KeyStorage.CredentialStore.GetStoredCredentialNames` | recipe-portal/lib/keyStorage.ts:180-192 | The result is every key but `_metadata`, in order, or `[]` without the file. |
| `KeyStorage.CredentialStore.GetDefaultCredentialSetName` | recipe-portal/lib/keyStorage.ts:197-208 | The result is the default pointer, or null. |
| `KeyStorage.CredentialStore.SetDefaultCredentialSet` | recipe-portal/lib/keyStorage.ts:213-235 | A missing file or unknown name gives false and no change. Otherwise the metadata names it. |
| `KeyStorage.CredentialStore.ClearStoredCredentials` | recipe-portal/lib/keyStorage.ts:240-271 | No name removes the file. A name removes that set, and the default moves to the first remaining name or null. |
| `WorkbookCopy.ExistingNames` | embedding_qs_series_2_api_use_cases/routes/api/workbook-copy-create.js:26-48 | The result is the lower-cased names of the folder's workbooks; a nameless one makes the lookup fail. |
| `WorkbookCopy.UniqueName` | embedding_qs_series_2_api_use_cases/routes/api/workbook-copy-create.js:47-71 | A base name that clashes with nothing is kept as is. |
| `WorkbookCopy.UniqueNameFresh` | embedding_qs_series_2_api_use_cases/routes/api/workbook-copy-create.js:47-71 | The chosen name clashes with nothing, case-insensitively, unless the timestamp fallback was used. |
| `WorkbookCopy.UniqueNameFirstFree` | embedding_qs_series_2_api_use_cases/routes/api/workbook-copy-create.js:50-65 | A free base name is kept. Otherwise the name is the first free "base (n)". |
| `WorkbookCopy.UniqueNameExhausted` | embedding_qs_series_2_api_use_cases/routes/api/workbook-copy-create.js:54-65 | When "base" and "base (1)" … "base (99)" all clash, the timestamp suffix is used. |
| `WorkbookCopy.GenerateUniqueWorkbookName` | embedding_qs_series_2_api_use_cases/routes/api/workbook-copy-create.js:20-77 | The bounded loop returns `UniqueName`, and any failure returns the base name. |
| `WorkbookCopy.AsFolder` | embedding_qs_series_2_api_use_cases/routes/api/workbook-copy-create.js:437-443 | The folder keeps its id and name, and its path falls back to the name. |
| `WorkbookCopy.WritableFolders` | embedding_qs_series_2_api_use_cases/routes/api/workbook-copy-create.js:406-443 | The result is exactly the writable folders, in listing order. |
| `WorkbookCopy.WritableFoldersAppend` | embedding_qs_series_2_api_use_cases/routes/api/workbook-copy-create.js:406-443 | The folders of a concatenated listing are those of each part, in order. |
| `WorkbookCopy.WritableCases` | embedding_qs_series_2_api_use_cases/routes/api/workbook-copy-create.js:415-432 | A folder without permissions is writable, and a file never is. |
| `WorkbookCopy.TeamWorkspaceId` | embedding_qs_series_2_api_use_cases/routes/api/workbook-copy-create.js:354 | The synthetic id is `team-workspace-` + the team id. |
| `WorkbookCopy.CopyDestination` | embedding_qs_series_2_api_use_cases/routes/api/workbook-copy-create.js:465-489 | A team workspace becomes My Documents plus a share with that team. Another folder is used as is, and none means My Documents. |
| `WorkbookCopy.CopyToTeamWorkspace` | embedding_qs_series_2_api_use_cases/routes/api/workbook-copy-create.js:354-481 | Copying into a listed team workspace shares the copy with that very team. |
| `WorkbookCopy.ProposedName` | embedding_qs_series_2_api_use_cases/routes/api/workbook-copy-create.js:493-509 | The name is the trimmed given name, else the original's name with " (copy)", else "Workbook Copy". |
| `WorkbookCopy.PlanCopy` | embedding_qs_series_2_api_use_cases/routes/api/workbook-copy-create.js:454-512 | A missing workbook id gives 400. Otherwise the result is the destination and a proposed name made unique there. |
| `WorkbookCopy.CreateFolder` | embedding_qs_series_2_api_use_cases/routes/api/workbook-copy-create.js:583 | The folder is the given one, else My Documents. |
| `StableSort.InsertSorted` | plugin_highchart_gantt/src/App.js:35 | Inserting into a sorted sequence keeps it sorted. |
| `StableSort.Insert` | plugin_highchart_gantt/src/App.js:35 | An insert adds exactly one element, x, and keeps every other element (same multiset plus x). |
| `StableSort.InsertWithKey` | plugin_highchart_gantt/src/App.js:35 | An insert places x after the elements that share its key and leaves other keys' elements alone. |
| `StableSort.SortBy` | plugin_highchart_gantt/src/App.js:35 | The result is sorted by key and has the input's length. |
| `StableSort.SortByStable` | plugin_highchart_gantt/src/App.js:35 | Elements sharing a key keep their input order. |
| `StableSort.SortByMembers` | plugin_highchart_gantt/src/App.js:35 | The output is a permutation of the input (same multiset). |
| `Gantt.Rows` | plugin_highchart_gantt/src/App.js:24-32 | Row i takes each column's i-th cell. |
| `Gantt.ObjectBuilder` | plugin_highchart_gantt/src/App.js:21-54 | The four arrays are rewritten in place with the rows sorted stably by start, and the result aliases them. |
| `Gantt.ObjectBuilderOrder` | plugin_highchart_gantt/src/App.js:35-43 | The rows come out ordered by start, kept whole, none gained or lost, with ties in their first order. |
| `Gantt.MaxOf` | plugin_highchart_gantt/src/App.js:85 | `reduce` gives the greatest end, one of the ends. |
| `Gantt.Anchor` | plugin_highchart_gantt/src/App.js:73-87 | The series kept was begun at row 0, or at the last row while earlier work orders were empty. |
| `Gantt.AnchorStep` | plugin_highchart_gantt/src/App.js:73-87 | While work orders are empty, each row begins the series afresh. |
| `Gantt.PointWidth` | plugin_highchart_gantt/src/App.js:81-86 | Only the whole-schedule bar sets a point width, a positive one. |
| `Gantt.Points` | plugin_highchart_gantt/src/App.js:90-97 | Row k gives its operation, start and end at `y = k + 1`. |
| `Gantt.SeriesShape` | plugin_highchart_gantt/src/App.js:70-103 | The "Total Duration" bar spans the minimum start to the maximum end. With a named first work order there is one point per row, row i at y = i + 1. |
| `Gantt.WalkPartial` | plugin_highchart_gantt/src/App.js:70-99 | Walking i rows builds the partial series. |
| `Gantt.WalkSeriesOf` | plugin_highchart_gantt/src/App.js:70-103 | The whole walk gives the series kept. |
| `Gantt.WalkRows` | plugin_highchart_gantt/src/App.js:63-103 | The while loop yields `[newObj]` as `SeriesOf` describes, or `[undefined]` without rows. |
| `Gantt.SeriesBuilder` | plugin_highchart_gantt/src/App.js:56-104 | The builder sorts the arrays in place, then walks them, giving the series of the sorted rows. |
| `Gantt.Grid` | plugin_highchart_gantt/src/App.js:143-159 | There is one name, start and end per point, in order. |
| `Gantt.GanttPayload` | plugin_highchart_gantt/src/App.js:106-170 | A missing setting or empty data gives null. Otherwise the options hold the series and its grid, or a `TypeError` where the source would throw. |
| `RequestAnalyzer.SubstituteNoPlaceholder` | recipe-portal/lib/requestAnalyzer.ts:31-38 | An endpoint with no `${` is unchanged, whatever the variables. |
| `RequestAnalyzer.SubstituteLeading` | recipe-portal/lib/requestAnalyzer.ts:32-37 | A variable whose placeholder starts the endpoint fills it. |
| `RequestAnalyzer.FullUrl` | recipe-portal/lib/requestAnalyzer.ts:41 | An endpoint starting with "http" is kept; otherwise it is prefixed with the base URL. |
| `RequestAnalyzer.FullUrlAbsolute` | recipe-portal/lib/requestAnalyzer.ts:41 | With an http base every full URL starts with "http", and completing twice changes nothing. |
| `RequestAnalyzer.Headers` | recipe-portal/lib/requestAnalyzer.ts:44-52 | The headers are the bearer placeholder and Accept, plus Content-Type only for non-GET code that mentions it. |
| `RequestAnalyzer.OrElse` | recipe-portal/lib/requestAnalyzer.ts:125 | A truthy variable gives its value; otherwise the fallback. |
| `RequestAnalyzer.ElementExportBody` | recipe-portal/lib/requestAnalyzer.ts:123-142 | The body is CSV unless the code asks for a PDF, and carries a `DateFilter` only when both dates are set. |
| `RequestAnalyzer.BuildRequestBody` | recipe-portal/lib/requestAnalyzer.ts:121-184 | The kinds are tried in order: element export, workbook export, member creation, permission, workspace creation, then the fallback note. Each gives its fields, from the variables when set and the defaults otherwise. |
| `RequestAnalyzer.ExportDateFilter` | recipe-portal/lib/requestAnalyzer.ts:135-139 | With both dates set, the filter is `min:start,max:end`. |
| `RequestAnalyzer.RequestBody` | recipe-portal/lib/requestAnalyzer.ts:57-82 | There is a body only for a POST or PUT whose code has a body pattern. |
| `RequestAnalyzer.Description` | recipe-portal/lib/requestAnalyzer.ts:84-99 | Export gives the job or download text by method. Otherwise the first of workbooks, members, teams and connections mentioned gives its text, else "<METHOD> request to Sigma API". |
| `RequestAnalyzer.CurlStart` | recipe-portal/lib/requestAnalyzer.ts:187 | The first line is `curl -X METHOD "url"`. |
| `RequestAnalyzer.HeaderLinesAt` | recipe-portal/lib/requestAnalyzer.ts:190-192 | Each header's `-H` line sits between those of the headers before and after it. |
| `RequestAnalyzer.HeaderLinesBreaks` | recipe-portal/lib/requestAnalyzer.ts:190-192 | With break-free headers there is one line break per header. |
| `RequestAnalyzer.CurlCommandShape` | recipe-portal/lib/requestAnalyzer.ts:186-201 | The command starts with the curl line, and ends with the body's quote exactly when it carries a body. |
| `RequestAnalyzer.AppendHeaderLines` | recipe-portal/lib/requestAnalyzer.ts:190-192 | The loop appends every header's line in order. |
| `RequestAnalyzer.GenerateCurlCommand` | recipe-portal/lib/requestAnalyzer.ts:186-201 | The command is the first line, the header lines, and `-d` only for a POST or PUT with a body. |
| `RequestAnalyzer.AnalyzeRecipeRequest` | recipe-portal/lib/requestAnalyzer.ts:14-119 | The base URL defaults to the AWS API server. No method or endpoint gives null. Otherwise the preview has the substituted URL, headers, body, description and curl command. |
| `RequestAnalyzer.PreviewSendsBody` | recipe-portal/lib/requestAnalyzer.ts:194-198 | A POST or PUT with a body pattern always sends `-d`. |
| `RequestAnalyzer.FirstMatch` | recipe-portal/lib/requestAnalyzer.ts:217-221 | The result is the first pattern the endpoint contains, if any. |
| `RequestAnalyzer.WorkbookEndpointDocs` | recipe-portal/lib/requestAnalyzer.ts:207-221 | An endpoint with `/workbooks`, even an export one, gets the workbook list page unless an earlier pattern matches. |
| `RequestAnalyzer.UnknownEndpointDocs` | recipe-portal/lib/requestAnalyzer.ts:217-223 | With no pattern, the link is the reference index. |
| `RequestAnalyzer.GetApiDocumentationUrl` | recipe-portal/lib/requestAnalyzer.ts:203-223 | The loop returns the page of the first matching pattern, in map order, else the index. |

## Left out

- Network calls are not modelled: Sigma REST requests, `axios` and `fetch`, and the Express, Next.js and Azure Functions plumbing. Where a route depends on a response, that response is a parameter (for example the workbook listing of `generateUniqueWorkbookName` and the original workbook of `POST /copy`).
- HMAC-SHA256, `jsonwebtoken`'s MAC, AES-256-CBC and scrypt are parameters or uninterpreted functions. `crypto.randomUUID`, `uuid` and the clock are input values. `KeyStorage.Decrypt` models decryption as exact inversion of encryption; the IV and the cipher are not modelled.
- The regular expressions of `analyzeRecipeRequest` are inputs. These are the method and URL matches and the three body patterns; `AnalyzeRecipeRequest` receives what they found.
- JavaScript `String.prototype.replace` replacement patterns (`$&`, `$1`, …) in variable values are not interpreted. `RequestAnalyzer.SubstituteLeading` assumes a value without `$`.
- `JSON.stringify` is modelled for the values these files serialize: strings, integers, arrays and objects, with the indented form for curl bodies. Floating-point numbers are not modelled.
- `Object.entries` and `Object.keys` list integer-like keys first in JavaScript. The model keeps insertion order for every key.
- Case mapping (`toUpperCase`, `toLowerCase`) is ASCII-only.
- `Gantt.ObjectBuilder` requires the four arrays to be distinct, with the same length. The source's behaviour when one array is passed twice, or when the columns differ in length, is not modelled.
- `SharePointJwt.Handle` does not model the `catch` that answers 500 `jwt_mint_failed`, because signing cannot throw in the model.
- `ExportSchedule.CreateExportSchedule` stops at the request it would send. The POST, its response and the error rethrow are not modelled.
- `WorkbookCopy.GenerateUniqueWorkbookName` does not re-check the timestamp name, matching the source, so `WorkbookCopy.UniqueNameFresh` excludes that case.
- The My Documents folder lookup and the team-workspace discovery in `workbook-copy-create.js` are API-driven and not modelled, apart from the synthetic id format.
- The lowdb file, the key file and `.env` file reads are not modelled as I/O. The stores hold their contents as fields, and `fileExists`/`content` are inputs.
- React and Angular rendering, the Sigma plugin client and the Highcharts options beyond the series and grid are UI glue and not modelled. `dateFormat` is left out: the grid carries the raw times.
- `RecipeScanner.ScanRecipeFile` receives the file's content and the `fs.existsSync` answer for its README as inputs, since both are file-system lookups. Its read errors, which the source turns into null, are not modelled.
- `RecipeScanner.ReadmePath` does not model `path.join`'s normalisation (repeated '/', '.' and '..' segments), nor `path.basename` of a path ending in '/'. The scanner builds its paths with `path.join`, so they arrive normalised.
- `MultiAreaBookmarks.BookmarkDb.Get` treats the id as a flat key. The source reads `bookmarks.${id}` as a lodash path, so an id holding '.' or '[' reaches a field inside a stored bookmark. That path syntax is not modelled. The ids the store creates are uuids, which hold neither.
- `MultiAreaBookmarks.BookmarkDb.Update` treats the id as a flat key, so for an id such as `u.name` it returns false and changes nothing. The source instead overwrites the `name` field inside bookmark `u` through the lodash path.
- `MultiAreaBookmarks.BookmarkDb.Delete` treats the id as a flat key, so for a path id it returns false and changes nothing. The source instead unsets the addressed field inside a stored bookmark.

## Findings

| source | as written | input that shows it | evidently intended | confidence | as-written member | corrected member |
|---|---|---|---|---|---|---|
| recipe-portal/lib/smartParameters.ts:464 | `analyzeRecipeCode` matches `process\.env\.([A-Z_]+)`, so a digit ends the name | `process.env.S3_BUCKET` is suggested as `S`, while `recipeScanner.ts:26` lists `S3_BUCKET` | the scanner's `[A-Z_][A-Z0-9_]*`, so suggestions agree with the listed variables | high (not executed) | `SmartParameters.DigitNameCut` | `SmartParameters.AnalyzeRecipeCodeWithDigits` |

=== FILE: create_jwt.dfy ===
/** The token helper of the API use-case quickstart
    (embedding_qs_series_2_api_use_cases/helpers/create-jwt.js): the user's permissions
    from an explicit list or the mode, a five-minute token scoped to one embed URL, signed
    with HS256 under `KEY_ID` (or `CLIENT_ID`). */
module SeriesTwoCreateJwt {
  import opened Wrappers
  import opened Encoding
  import opened Json
  import JsObject
  import Env
  import Hmac
  import Jwt
  import SeriesTwoApiEmbed

  /** The destructured argument; `None` stands for `undefined`. */
  datatype Options = Options(embedUrl: Option<string>, mode: Option<string>, sub: Option<string>,
                             permissions: Option<seq<string>>)

  const MissingSub: string := "Missing 'sub' (user identifier) — must be passed explicitly."
  const MissingKey: string := "Missing SECRET or KEY_ID environment variables"
  const DefaultAudience: string := "https://sigmacomputing.com/iam"
  /** `60 * 5`. */
  const LifetimeSeconds: int := 300

  /** `finalPermissions`: the explicit list when given (an array, even an empty one, is
      truthy); otherwise "admin" may build, view and administer, "build" may build, and any
      other mode may only view. */
  function Permissions(mode: Option<string>, permissions: Option<seq<string>>): (ps: seq<string>)
    ensures permissions.Some? ==> ps == permissions.value
    ensures permissions.None? ==> ps != []
    ensures permissions.None? ==> ("admin" in ps <==> mode == Some("admin"))
    ensures permissions.None? ==> ("build" in ps <==> mode == Some("admin") || mode == Some("build"))
    ensures permissions.None? ==> ("view" in ps <==> mode != Some("build"))
  {
    if permissions.Some? then permissions.value
    else if mode == Some("admin") then ["build", "view", "admin"]
    else if mode == Some("build") then ["build"]
    else ["view"]
  }

  /** The environment the helper reads. */
  datatype Settings = Settings(clientId: Option<string>, audience: string, secret: Option<string>, kid: Option<string>)

  /** `JWT_AUDIENCE || default`, and `KEY_ID || CLIENT_ID`. */
  function ReadSettings(env: Env.Env): (s: Settings)
    ensures Env.Truthy(Env.Lookup(env, "JWT_AUDIENCE")) ==> s.audience == Env.Lookup(env, "JWT_AUDIENCE").value
    ensures !Env.Truthy(Env.Lookup(env, "JWT_AUDIENCE")) ==> s.audience == DefaultAudience
    ensures Env.Truthy(Env.Lookup(env, "KEY_ID")) ==> s.kid == Env.Lookup(env, "KEY_ID")
    ensures !Env.Truthy(Env.Lookup(env, "KEY_ID")) ==> s.kid == Env.Lookup(env, "CLIENT_ID")
  {
    Settings(Env.Lookup(env, "CLIENT_ID"),
             Env.Or(Env.Lookup(env, "JWT_AUDIENCE"), Some(DefaultAudience)).value,
             Env.Lookup(env, "SECRET"),
             Env.Or(Env.Lookup(env, "KEY_ID"), Env.Lookup(env, "CLIENT_ID")))
  }

  /** The `embed` claim; an `undefined` URL is dropped when serialized. */
  function EmbedClaim(url: Option<string>, permissions: seq<string>): Json {
    JObj(SeriesTwoApiEmbed.OptionalClaim("url", url) + [("permissions", SeriesTwoApiEmbed.StringArray(permissions))])
  }

  /** The payload, in the order the literal writes it; `iss` is dropped when `CLIENT_ID` is
      unset. */
  function Payload(iss: Option<string>, sub: string, aud: string, iat: int, exp: int, jti: string, embed: Json): Json {
    JObj(SeriesTwoApiEmbed.OptionalClaim("iss", iss) +
         [("sub", JStr(sub)), ("aud", JStr(aud)), ("iat", JNum(iat)), ("exp", JNum(exp)), ("jti", JStr(jti)),
          ("scope", JStr("embed")), ("embed", embed)])
  }

  /** The claims for the options: `iat` and `exp` come from two readings of the clock. */
  function Claims(opts: Options, s: Settings, iatMs: int, expMs: int, jti: string): Json
    requires opts.sub.Some?
  {
    Payload(s.clientId, opts.sub.value, s.audience, Env.Seconds(iatMs), Env.Seconds(expMs) + LifetimeSeconds, jti,
            EmbedClaim(opts.embedUrl, Permissions(opts.mode, opts.permissions)))
  }

  /** `generateJwt(options)`: the two clock readings in milliseconds, the `uuidv4` token id
      and HMAC-SHA256 are inputs. */
  function GenerateJwt(opts: Options, env: Env.Env, iatMs: int, expMs: int, jti: string, mac: Hmac.Mac): (r: Result<string>)
    ensures r == Err(MissingSub) <==> !Env.Truthy(opts.sub)
    ensures Env.Truthy(opts.sub) ==>
      (r == Err(MissingKey) <==> !Env.Truthy(Env.Lookup(env, "SECRET")) || !Env.Truthy(ReadSettings(env).kid))
    ensures Env.Truthy(opts.sub) && Env.Truthy(Env.Lookup(env, "SECRET")) && Env.Truthy(ReadSettings(env).kid) ==> r.Ok?
    ensures r.Ok? ==> Jwt.Verify(r.value, Env.Lookup(env, "SECRET").value, mac)
                      == Some(Utf8(Stringify(Claims(opts, ReadSettings(env), iatMs, expMs, jti))))
  {
    if !Env.Truthy(opts.sub) then Err(MissingSub)
    else
      var s := ReadSettings(env);
      var payload := Claims(opts, s, iatMs, expMs, jti);
      if !Env.Truthy(s.secret) || !Env.Truthy(s.kid) then Err(MissingKey)
      else
        Jwt.VerifySign(Jwt.KeyIdHeader(s.kid.value), payload, s.secret.value, mac);
        Ok(Jwt.Sign(Jwt.KeyIdHeader(s.kid.value), payload, s.secret.value, mac))
  }

  /** The token's header names `KEY_ID` when set, `CLIENT_ID` otherwise. */
  lemma HeaderKid(opts: Options, env: Env.Env, iatMs: int, expMs: int, jti: string, mac: Hmac.Mac)
    requires GenerateJwt(opts, env, iatMs, expMs, jti, mac).Ok?
    ensures var kid := if Env.Truthy(Env.Lookup(env, "KEY_ID")) then Env.Lookup(env, "KEY_ID") else Env.Lookup(env, "CLIENT_ID");
      && kid.Some?
      && Text.Split(GenerateJwt(opts, env, iatMs, expMs, jti, mac).value, '.')[0]
           == Jwt.B64Url(Stringify(Jwt.KeyIdHeader(kid.value)))
  {
  }

  /** The claims read back: `sub` as given, `scope` "embed", and an expiry five minutes
      after the second clock reading. */
  lemma PayloadClaims(iss: Option<string>, sub: string, aud: string, iat: int, exp: int, jti: string, embed: Json)
    ensures var p := Payload(iss, sub, aud, iat, exp, jti, embed);
      && p.JObj?
      && JsObject.Get(p.fields, "sub") == Some(JStr(sub))
      && JsObject.Get(p.fields, "iat") == Some(JNum(iat))
      && JsObject.Get(p.fields, "exp") == Some(JNum(exp))
      && JsObject.Get(p.fields, "scope") == Some(JStr("embed"))
      && JsObject.Get(p.fields, "embed") == Some(embed)
  {
    var head := SeriesTwoApiEmbed.OptionalClaim("iss", iss);
    var rest := [("sub", JStr(sub)), ("aud", JStr(aud)), ("iat", JNum(iat)), ("exp", JNum(exp)), ("jti", JStr(jti)),
                 ("scope", JStr("embed")), ("embed", embed)];
    assert forall j :: 0 <= j < |head| ==> head[j].0 == "iss";
    JsObject.GetSkip(head, rest, "sub");
    JsObject.GetSkip(head, rest, "iat");
    JsObject.GetSkip(head, rest, "exp");
    JsObject.GetSkip(head, rest, "scope");
    JsObject.GetSkip(head, rest, "embed");
    JsObject.GetAt(rest, 0, "sub");
    JsObject.GetAt(rest, 2, "iat");
    JsObject.GetAt(rest, 3, "exp");
    JsObject.GetAt(rest, 5, "scope");
    JsObject.GetAt(rest, 6, "embed");
  }

  /** `iat` and `exp` read the clock separately: the token lives at least five minutes,
      exactly five when both readings fall in the same second, and never more than the
      time between the readings beyond that. */
  lemma Lifetime(iatMs: int, expMs: int)
    requires iatMs <= expMs
    ensures var iat, exp := Env.Seconds(iatMs), Env.Seconds(expMs) + LifetimeSeconds;
      && LifetimeSeconds <= exp - iat
      && (exp - iat - LifetimeSeconds) * 1000 < expMs - iatMs + 1000
  {
  }
}

=== FILE: dashboard_builder.dfy ===
/** The dashboard builder plugin's main component
    (plugin_dashboard_builder/src/app/main/main.component.ts): when the workbook control
    holding a visualisation URL changes, the component reads the element or page id out of
    the URL and writes it to the node-id control. The Sigma plugin client is outside the
    model: the control writes the component makes are recorded in order. */
module DashboardBuilder {
  import opened Wrappers
  import Text
  import Env

  const ElementMarker: string := "/element/"
  const PageMarker: string := "/page/"
  const PagePrefix: string := "pageXX"

  /** `[^\/&\?]`: a character of an id. */
  predicate SegmentChar(c: char) {
    c != '/' && c != '&' && c != '?'
  }

  /** Where `/<marker>([^\/&\?]+)/` can match: the marker followed by an id character. */
  predicate MatchesAt(url: string, marker: string, j: int) {
    Text.OccursAt(url, marker, j) && j + |marker| < |url| && SegmentChar(url[j + |marker|])
  }

  /** The id the match at `j` captures: the longest run of id characters after the marker. */
  function RunAt(url: string, marker: string, j: nat): (id: string)
    requires MatchesAt(url, marker, j)
    ensures id != "" && forall i :: 0 <= i < |id| ==> SegmentChar(id[i])
  {
    var tail := url[j + |marker|..];
    tail[..Text.PrefixLength(tail, SegmentChar)]
  }

  /** The capture of the first match at or after `from`. */
  function SegmentFrom(url: string, marker: string, from: nat): (r: Option<string>)
    requires marker != []
    decreases |url| - from
    ensures r.Some? ==> r.value != "" && forall i :: 0 <= i < |r.value| ==> SegmentChar(r.value[i])
    ensures r.None? ==> forall j :: from <= j ==> !MatchesAt(url, marker, j)
  {
    match Text.IndexOfFrom(url, marker, from)
    case None => None
    case Some(i) =>
      if MatchesAt(url, marker, i) then Some(RunAt(url, marker, i))
      else SegmentFrom(url, marker, i + 1)
  }

  /** The search finds the first match and captures its whole id. */
  lemma {:induction false} SegmentFromFirst(url: string, marker: string, from: nat, k: nat)
    requires marker != [] && from <= k
    requires MatchesAt(url, marker, k)
    requires forall j :: from <= j < k ==> !MatchesAt(url, marker, j)
    ensures SegmentFrom(url, marker, from) == Some(RunAt(url, marker, k))
    decreases k - from
  {
    var r := Text.IndexOfFrom(url, marker, from);
    assert Text.OccursAt(url, marker, k);
    assert r.Some? && r.value <= k;
    var i := r.value;
    if i < k {
      assert !MatchesAt(url, marker, i);
      SegmentFromFirst(url, marker, i + 1, k);
    }
  }

  /** Without a match at or after `from` the search finds nothing. */
  lemma {:induction false} SegmentFromNone(url: string, marker: string, from: nat)
    requires marker != []
    requires forall j :: from <= j ==> !MatchesAt(url, marker, j)
    ensures SegmentFrom(url, marker, from) == None
    decreases |url| - from
  {
    match Text.IndexOfFrom(url, marker, from)
    case None =>
    case Some(i) => SegmentFromNone(url, marker, i + 1);
  }

  /** `url.match(/\/<marker>\/([^\/&\?]+)/)?.[1]`. */
  function Segment(url: string, marker: string): Option<string>
    requires marker != []
  {
    SegmentFrom(url, marker, 0)
  }

  /** In `a + marker + id + rest`, where the id stops at `rest` and nothing in `a` starts
      a match, the capture is `id`. */
  lemma SegmentOf(a: string, marker: string, id: string, rest: string)
    requires marker != [] && id != []
    requires forall i :: 0 <= i < |id| ==> SegmentChar(id[i])
    requires rest == [] || !SegmentChar(rest[0])
    requires forall j :: 0 <= j < |a| ==> !MatchesAt(a + marker + id + rest, marker, j)
    ensures Segment(a + marker + id + rest, marker) == Some(id)
  {
    var url := a + marker + id + rest;
    assert url[|a|..|a| + |marker|] == marker;
    assert url[|a| + |marker|] == id[0];
    SegmentFromFirst(url, marker, 0, |a|);
    assert url[|a| + |marker|..] == id + rest;
    Text.PrefixLengthOf(id, rest, SegmentChar);
    assert (id + rest)[..|id|] == id;
  }

  /** `parseNodeIdFromUrl(url)`: the element id if there is one, else the page id marked
      with `pageXX`, else "". */
  function ParseNodeIdFromUrl(url: string): (nodeId: string)
    ensures Segment(url, ElementMarker).Some? ==> nodeId == Segment(url, ElementMarker).value
    ensures Segment(url, ElementMarker).None? && Segment(url, PageMarker).Some? ==>
      nodeId == PagePrefix + Segment(url, PageMarker).value
    ensures nodeId == "" <==> Segment(url, ElementMarker).None? && Segment(url, PageMarker).None?
  {
    match Segment(url, ElementMarker)
    case Some(id) => id
    case None =>
      match Segment(url, PageMarker)
      case Some(id) => PagePrefix + id
      case None => ""
  }

  /** A URL `…/element/{id}…` gives the element's id. */
  lemma NodeIdOfElementUrl(a: string, id: string, rest: string)
    requires id != [] && forall i :: 0 <= i < |id| ==> SegmentChar(id[i])
    requires rest == [] || !SegmentChar(rest[0])
    requires forall j :: 0 <= j < |a| ==> !MatchesAt(a + ElementMarker + id + rest, ElementMarker, j)
    ensures ParseNodeIdFromUrl(a + ElementMarker + id + rest) == id
  {
    SegmentOf(a, ElementMarker, id, rest);
  }

  /** A URL `…/page/{id}…` without an element gives the page's id after `pageXX`. */
  lemma NodeIdOfPageUrl(a: string, id: string, rest: string)
    requires id != [] && forall i :: 0 <= i < |id| ==> SegmentChar(id[i])
    requires rest == [] || !SegmentChar(rest[0])
    requires forall j :: 0 <= j < |a| ==> !MatchesAt(a + PageMarker + id + rest, PageMarker, j)
    requires forall j :: !MatchesAt(a + PageMarker + id + rest, ElementMarker, j)
    ensures ParseNodeIdFromUrl(a + PageMarker + id + rest) == PagePrefix + id
  {
    SegmentFromNone(a + PageMarker + id + rest, ElementMarker, 0);
    SegmentOf(a, PageMarker, id, rest);
  }

  /** A control write the component asks the plugin client for. */
  datatype VariableWrite = VariableWrite(controlId: string, value: string)

  /** The component's state. */
  class MainComponent {
    var vizUrlControlId: string
    var vizNodeIdControlId: string
    var exploreKeyControlId: string
    var vizUrlControlValue: string
    var vizLoaded: bool
    /** The control writes made so far, oldest first. */
    var writes: seq<VariableWrite>

    constructor(vizUrlControlId: string, vizNodeIdControlId: string, exploreKeyControlId: string)
      ensures this.vizUrlControlId == vizUrlControlId && this.vizNodeIdControlId == vizNodeIdControlId
      ensures this.exploreKeyControlId == exploreKeyControlId
      ensures vizUrlControlValue == "" && !vizLoaded && writes == []
    {
      this.vizUrlControlId := vizUrlControlId;
      this.vizNodeIdControlId := vizNodeIdControlId;
      this.exploreKeyControlId := exploreKeyControlId;
      vizUrlControlValue := "";
      vizLoaded := false;
      writes := [];
    }

    /** The URL control's subscription: `value` is the control's `defaultValue?.value`.
        A new URL resets `vizLoaded` and, when it names a node, writes the node id to the
        node-id control; the same URL again changes nothing. */
    method OnVizUrlVariable(value: Option<string>)
      modifies this
      ensures var latest := Env.Or(value, Some("")).value;
        if latest == old(vizUrlControlValue) then
          vizUrlControlValue == old(vizUrlControlValue) && vizLoaded == old(vizLoaded) && writes == old(writes)
        else
          vizUrlControlValue == latest && !vizLoaded &&
          writes == old(writes) + (if ParseNodeIdFromUrl(latest) != "" then [VariableWrite(vizNodeIdControlId, ParseNodeIdFromUrl(latest))] else [])
      ensures vizUrlControlId == old(vizUrlControlId) && vizNodeIdControlId == old(vizNodeIdControlId)
      ensures exploreKeyControlId == old(exploreKeyControlId)
    {
      var latest := Env.Or(value, Some("")).value;
      if vizUrlControlValue != latest {
        vizLoaded := false;
        vizUrlControlValue := latest;
        var nodeId := ParseNodeIdFromUrl(vizUrlControlValue);
        if nodeId != "" {
          writes := writes + [VariableWrite(vizNodeIdControlId, nodeId)];
        }
      }
    }

    /** The window `message` listener: only messages from the embedded workbook count; an
        id change marks it loaded, and a non-empty explore key goes to its control. */
    method OnMessage(fromViz: bool, kind: string, exploreKey: string)
      modifies this
      ensures vizLoaded == (old(vizLoaded) || (fromViz && Text.StartsWith(kind, "workbook:id:onchange")))
      ensures writes == old(writes) +
        (if fromViz && Text.StartsWith(kind, "workbook:exploreKey:onchange") && exploreKey != ""
         then [VariableWrite(exploreKeyControlId, exploreKey)] else [])
      ensures vizUrlControlValue == old(vizUrlControlValue) && exploreKeyControlId == old(exploreKeyControlId)
      ensures vizUrlControlId == old(vizUrlControlId) && vizNodeIdControlId == old(vizNodeIdControlId)
    {
      if fromViz && Text.StartsWith(kind, "workbook:id:onchange") {
        vizLoaded := true;
      }
      if fromViz && Text.StartsWith(kind, "workbook:exploreKey:onchange") {
        if exploreKey != "" {
          writes := writes + [VariableWrite(exploreKeyControlId, exploreKey)];
        }
      }
    }
  }
}

=== FILE: embed_path.dfy ===
/** The embed path builder of the API use-case quickstart
    (embedding_qs_series_2_api_use_cases/helpers/build-embed-url.js): a workbook, one of its
    pages or one of its elements, under the organisation's slug. The plugin use-case builder
    (plugin_use_cases/helpers/build-embed-url.js) chooses its path by the same rules. */
module EmbedPath {
  import opened Wrappers
  import opened Text
  import Env

  /** The destructured argument; `None` stands for `undefined`. */
  datatype Target = Target(orgSlug: Option<string>, workbookName: Option<string>, workbookUrlId: Option<string>,
                           embedType: Option<string>, pageId: Option<string>, elementId: Option<string>)

  const BaseUrl: string := "https://app.sigmacomputing.com"
  const MissingIds: string := "Missing orgSlug or workbookUrlId"

  /** `embedType = "workbook"`: the default replaces `undefined` only. */
  function EmbedType(t: Target): string {
    Env.WithDefault(t.embedType, "workbook")
  }

  /** `${workbookName}-${workbookUrlId}`. */
  function WorkbookSlug(t: Target): string {
    Env.Interpolate(t.workbookName) + "-" + Env.Interpolate(t.workbookUrlId)
  }

  /** The path chosen by `embedType`; each type demands its own fields, and an element path
      demands a page id that it then does not contain. */
  function Path(t: Target): (r: Result<string>)
    ensures r.Ok? <==>
      (Env.Truthy(t.workbookName) &&
       (EmbedType(t) == "workbook" ||
        (EmbedType(t) == "page" && Env.Truthy(t.pageId)) ||
        (EmbedType(t) == "element" && Env.Truthy(t.pageId) && Env.Truthy(t.elementId))))
    ensures EmbedType(t) !in {"workbook", "page", "element"} ==> r == Err("Unsupported embedType: " + EmbedType(t))
    ensures r.Ok? ==> StartsWith(r.value, "/workbook/" + WorkbookSlug(t))
    ensures r.Ok? && EmbedType(t) == "element" ==> r.value == "/workbook/" + WorkbookSlug(t) + "/element/" + t.elementId.value
  {
    var head := "/workbook/" + WorkbookSlug(t);
    var type_ := EmbedType(t);
    if type_ == "workbook" then
      if !Env.Truthy(t.workbookName) then Err("Missing workbookName for workbook embed")
      else Ok(head)
    else if type_ == "page" then
      if !Env.Truthy(t.workbookName) || !Env.Truthy(t.pageId) then Err("Missing workbookName or pageId for page embed")
      else
        var p := head + "/page/" + t.pageId.value;
        assert p[..|head|] == head;
        Ok(p)
    else if type_ == "element" then
      if !Env.Truthy(t.workbookName) || !Env.Truthy(t.pageId) || !Env.Truthy(t.elementId) then
        Err("Missing required info for element embed")
      else
        var p := head + "/element/" + t.elementId.value;
        assert p[..|head|] == head;
        Ok(p)
    else Err("Unsupported embedType: " + type_)
  }

  /** `buildEmbedUrl`: the organisation slug and the workbook URL id are checked first, then
      the path, and the URL is the Sigma host, the slug and the path. */
  function BuildEmbedUrl(t: Target): (r: Result<string>)
    ensures !Env.Truthy(t.orgSlug) || !Env.Truthy(t.workbookUrlId) ==> r == Err(MissingIds)
    ensures r.Ok? <==> Env.Truthy(t.orgSlug) && Env.Truthy(t.workbookUrlId) && Path(t).Ok?
    ensures r.Ok? ==> r.value == BaseUrl + "/" + t.orgSlug.value + Path(t).value
  {
    if !Env.Truthy(t.orgSlug) || !Env.Truthy(t.workbookUrlId) then Err(MissingIds)
    else match Path(t)
      case Err(e) => Err(e)
      case Ok(path) => Ok(BaseUrl + "/" + t.orgSlug.value + path)
  }

  /** The segments a reader of the path finds, when no name or id holds a '/': "workbook",
      the name and id, then "page" and the page id or "element" and the element id. */
  function Segments(t: Target): seq<string>
    requires Path(t).Ok?
  {
    var head := ["", "workbook", WorkbookSlug(t)];
    if EmbedType(t) == "workbook" then head
    else if EmbedType(t) == "page" then head + ["page", t.pageId.value]
    else head + ["element", t.elementId.value]
  }

  lemma PathSegments(t: Target)
    requires Path(t).Ok?
    requires '/' !in WorkbookSlug(t)
    requires '/' !in Env.Interpolate(t.pageId) && '/' !in Env.Interpolate(t.elementId)
    ensures Split(Path(t).value, '/') == Segments(t)
  {
    var w, slug := "workbook", WorkbookSlug(t);
    assert '/' !in w;
    assert "/workbook/" == "/" + w + "/";
    if EmbedType(t) == "workbook" {
      SlashSplit3(w, slug);
    } else if EmbedType(t) == "page" {
      var kind := "page";
      assert '/' !in kind && "/page/" == "/" + kind + "/";
      assert Path(t).value == "/" + w + "/" + slug + "/" + kind + "/" + t.pageId.value;
      SlashSplit5(w, slug, kind, t.pageId.value);
    } else {
      var kind := "element";
      assert '/' !in kind && "/element/" == "/" + kind + "/";
      assert Path(t).value == "/" + w + "/" + slug + "/" + kind + "/" + t.elementId.value;
      SlashSplit5(w, slug, kind, t.elementId.value);
    }
  }

  lemma SlashSplit3(a: string, b: string)
    requires '/' !in a && '/' !in b
    ensures Split("/" + a + "/" + b, '/') == ["", a, b]
  {
    SplitTwo(a, b, '/');
    SplitAtSep("", a + "/" + b, '/');
    assert "/" + a + "/" + b == "" + ['/'] + (a + ['/'] + b);
  }

  lemma SlashSplit5(a: string, b: string, c: string, d: string)
    requires '/' !in a && '/' !in b && '/' !in c && '/' !in d
    ensures Split("/" + a + "/" + b + "/" + c + "/" + d, '/') == ["", a, b, c, d]
  {
    SepSplit5(a, b, c, d, '/');
  }

  lemma SepSplit5(a: string, b: string, c: string, d: string, sep: char)
    requires sep !in a && sep !in b && sep !in c && sep !in d
    ensures Split([sep] + a + [sep] + b + [sep] + c + [sep] + d, sep) == [[], a, b, c, d]
  {
    var s3 := c + [sep] + d;
    var s2 := b + [sep] + s3;
    var s1 := a + [sep] + s2;
    SplitTwo(c, d, sep);
    SplitAtSep(b, s3, sep);
    SplitAtSep(a, s2, sep);
    SplitAtSep([], s1, sep);
    assert [sep] + a + [sep] + b + [sep] + c + [sep] + d == [] + [sep] + s1;
  }
}

=== FILE: encoding.dfy ===
/** Byte-level encodings the signers use: UTF-8 (what `Buffer.from(s)`, `TextEncoder` and
    Python's `str.encode('utf-8')` produce), lowercase hex (`bufferToHex`, `hexdigest`),
    percent-encoding in the three flavours the code calls (Python `quote(safe=",:")`,
    `encodeURIComponent`, `URLSearchParams`), and base64 / base64url (RFC 4648 sections 4 and 5). */
module Encoding {
  import opened Wrappers
  import opened Text

  type byte = b: int | 0 <= b < 256

  // ---------------------------------------------------------------- UTF-8

  /** UTF-8 encoding of one Unicode scalar value (RFC 3629 section 3). */
  function Utf8Char(c: char): (bs: seq<byte>)
    ensures 1 <= |bs| <= 4
    ensures c as int < 0x80 ==> bs == [c as int]
    ensures c as int >= 0x80 ==> forall i :: 0 <= i < |bs| ==> bs[i] >= 0x80
  {
    var n := c as int;
    if n < 0x80 then [n]
    else if n < 0x800 then [0xC0 + n / 64, 0x80 + n % 64]
    else if n < 0x10000 then [0xE0 + n / 4096, 0x80 + (n / 64) % 64, 0x80 + n % 64]
    else [0xF0 + n / 262144, 0x80 + (n / 4096) % 64, 0x80 + (n / 64) % 64, 0x80 + n % 64]
  }

  function Utf8(s: string): seq<byte> {
    if s == [] then [] else Utf8Char(s[0]) + Utf8(s[1..])
  }

  predicate IsAscii(s: string) {
    forall i :: 0 <= i < |s| ==> s[i] as int < 0x80
  }

  lemma {:induction false} Utf8Append(a: string, b: string)
    ensures Utf8(a + b) == Utf8(a) + Utf8(b)
  {
    if a != [] {
      assert (a + b)[0] == a[0];
      assert (a + b)[1..] == a[1..] + b;
      Utf8Append(a[1..], b);
      calc {
        Utf8(a + b);
        Utf8Char(a[0]) + Utf8(a[1..] + b);
        Utf8Char(a[0]) + (Utf8(a[1..]) + Utf8(b));
        (Utf8Char(a[0]) + Utf8(a[1..])) + Utf8(b);
      }
    } else {
      assert a + b == b;
    }
  }

  /** An ASCII string encodes to its own code points, one byte each. */
  lemma {:induction false} Utf8Ascii(s: string)
    requires IsAscii(s)
    ensures |Utf8(s)| == |s|
    ensures forall i :: 0 <= i < |s| ==> Utf8(s)[i] == s[i] as int
  {
    if s != [] {
      Utf8Ascii(s[1..]);
    }
  }

  // ---------------------------------------------------------------- hex

  predicate IsLowerHex(c: char) { '0' <= c <= '9' || 'a' <= c <= 'f' }

  function LowerHexDigit(d: int): (c: char)
    requires 0 <= d < 16
    ensures IsLowerHex(c) && IsHexDigit(c) && HexDigitValue(c) == d
  {
    if d < 10 then ('0' as int + d) as char else ('a' as int + d - 10) as char
  }

  function UpperHexDigit(d: int): (c: char)
    requires 0 <= d < 16
    ensures IsHexDigit(c) && HexDigitValue(c) == d
    ensures '0' <= c <= '9' || 'A' <= c <= 'F'
  {
    if d < 10 then ('0' as int + d) as char else ('A' as int + d - 10) as char
  }

  /** `n.toString(16)`. */
  function ToHexString(n: nat): (r: string)
    ensures |r| >= 1
    ensures n < 16 ==> |r| == 1
    ensures n >= 16 ==> |r| >= 2
  {
    if n < 16 then [LowerHexDigit(n)] else ToHexString(n / 16) + [LowerHexDigit(n % 16)]
  }

  /** `b.toString(16).padStart(2, "0")`, as `bufferToHex` maps each byte. */
  function ByteToHex(b: byte): string {
    PadStart(ToHexString(b), 2, '0')
  }

  /** Every byte becomes exactly two lowercase hex digits, high nibble first. */
  lemma ByteToHexDigits(b: byte)
    ensures ByteToHex(b) == [LowerHexDigit(b / 16), LowerHexDigit(b % 16)]
  {
    if b >= 16 {
      assert ToHexString(b / 16) == [LowerHexDigit(b / 16)];
    } else {
      assert ToHexString(b) == [LowerHexDigit(b)];
    }
  }

  /** `bufferToHex`: each byte as two lowercase hex digits, in order (the two digits are
      `ByteToHex`, by `ByteToHexDigits`). */
  function BufferToHex(bs: seq<byte>): (r: string)
    ensures |r| == 2 * |bs|
    ensures forall i :: 0 <= i < |r| ==> IsLowerHex(r[i])
  {
    if bs == [] then []
    else
      var h := [LowerHexDigit(bs[0] / 16), LowerHexDigit(bs[0] % 16)];
      var rest := BufferToHex(bs[1..]);
      h + rest
  }

  /** Reading two hex digits per byte back. */
  function HexToBytes(s: string): Option<seq<byte>> {
    if s == [] then Some([])
    else if |s| < 2 || !IsHexDigit(s[0]) || !IsHexDigit(s[1]) then None
    else match HexToBytes(s[2..])
      case None => None
      case Some(rest) => Some([HexDigitValue(s[0]) * 16 + HexDigitValue(s[1])] + rest)
  }

  /** `bufferToHex` loses nothing: its output reads back to the same bytes, in order. */
  lemma {:induction false} HexRoundTrip(bs: seq<byte>)
    ensures HexToBytes(BufferToHex(bs)) == Some(bs)
  {
    if bs != [] {
      var r := BufferToHex(bs);
      var hi, lo := LowerHexDigit(bs[0] / 16), LowerHexDigit(bs[0] % 16);
      var rest := BufferToHex(bs[1..]);
      assert r == [hi, lo] + rest;
      assert r[0] == hi && r[1] == lo && r[2..] == rest;
      HexRoundTrip(bs[1..]);
      HexPairValue(bs[0]);
      assert HexToBytes(r) == Some([bs[0]] + bs[1..]);
      assert [bs[0]] + bs[1..] == bs;
    }
  }

  /** A byte's two hex digits read back to the byte. */
  lemma HexPairValue(b: byte)
    ensures var hi, lo := LowerHexDigit(b / 16), LowerHexDigit(b % 16);
      IsHexDigit(hi) && IsHexDigit(lo) && HexDigitValue(hi) * 16 + HexDigitValue(lo) == b
  {
  }

  // ---------------------------------------------------------------- percent-encoding

  /** `%XX` with uppercase hex digits. */
  function PercentByte(b: byte): string {
    ['%', UpperHexDigit(b / 16), UpperHexDigit(b % 16)]
  }

  /** The percent-encoding every flavour shares: a byte that `keep` admits stays as its ASCII
      character, a space becomes '+' when `spaceAsPlus`, anything else becomes `%XX`. */
  function PercentEncodeBytes(bs: seq<byte>, keep: byte -> bool, spaceAsPlus: bool): string
    requires forall b :: keep(b) ==> b < 0x80
  {
    if bs == [] then []
    else PercentChunk(bs[0], keep, spaceAsPlus) + PercentEncodeBytes(bs[1..], keep, spaceAsPlus)
  }

  /** What `PercentEncodeBytes` writes for one byte. */
  function PercentChunk(b: byte, keep: byte -> bool, spaceAsPlus: bool): string
    requires forall b :: keep(b) ==> b < 0x80
  {
    if keep(b) then [b as char]
    else if spaceAsPlus && b == 0x20 then "+"
    else PercentByte(b)
  }

  /** What percent-encoded text can contain: '%', '+', uppercase hex digits, and the kept
      characters. */
  predicate EncodedChar(c: char, keep: byte -> bool) {
    c == '%' || c == '+' || '0' <= c <= '9' || 'A' <= c <= 'F' || (c as int < 0x80 && keep(c as int))
  }

  lemma {:induction false} PercentEncodedChars(bs: seq<byte>, keep: byte -> bool, spaceAsPlus: bool)
    requires forall b :: keep(b) ==> b < 0x80
    ensures forall c :: c in PercentEncodeBytes(bs, keep, spaceAsPlus) ==> EncodedChar(c, keep)
  {
    if bs != [] {
      PercentEncodedChars(bs[1..], keep, spaceAsPlus);
      var h := PercentChunk(bs[0], keep, spaceAsPlus);
      assert forall c :: c in h ==> EncodedChar(c, keep);
    }
  }

  /** Reverses `PercentEncodeBytes`: `%XX` gives byte XX, '+' gives a space when
      `spaceAsPlus`, an ASCII character gives its code; anything else is malformed. */
  function PercentDecode(s: string, spaceAsPlus: bool): Option<seq<byte>> {
    if s == [] then Some([])
    else
      var step: Option<(byte, nat)> :=
        if s[0] == '%' then
          if |s| >= 3 && IsHexDigit(s[1]) && IsHexDigit(s[2]) then Some((HexDigitValue(s[1]) * 16 + HexDigitValue(s[2]), 3)) else None
        else if s[0] == '+' && spaceAsPlus then Some((0x20, 1))
        else if s[0] as int < 0x80 then Some((s[0] as int, 1))
        else None;
      match step
      case None => None
      case Some((b, n)) =>
        if n > |s| then None
        else match PercentDecode(s[n..], spaceAsPlus)
          case None => None
          case Some(rest) => Some([b] + rest)
  }

  /** Decoding reads one chunk and goes on with what follows it. */
  lemma PercentDecodeChunk(b: byte, t: string, keep: byte -> bool, spaceAsPlus: bool)
    requires forall b :: keep(b) ==> b < 0x80
    requires !keep('%' as int)
    requires spaceAsPlus ==> !keep('+' as int)
    ensures forall rest :: PercentDecode(t, spaceAsPlus) == Some(rest) ==>
      PercentDecode(PercentChunk(b, keep, spaceAsPlus) + t, spaceAsPlus) == Some([b] + rest)
  {
    var c := PercentChunk(b, keep, spaceAsPlus);
    var s := c + t;
    assert s[|c|..] == t;
    if keep(b) {
      assert s[0] == b as char;
    } else if spaceAsPlus && b == 0x20 {
      assert s[0] == '+';
    } else {
      var hi, lo := UpperHexDigit(b / 16), UpperHexDigit(b % 16);
      assert s[0] == '%' && s[1] == hi && s[2] == lo;
      assert HexDigitValue(hi) * 16 + HexDigitValue(lo) == b;
    }
  }

  /** Percent-encoding loses nothing, provided the characters it keeps are not the ones it
      uses as escapes. */
  lemma {:induction false} PercentRoundTrip(bs: seq<byte>, keep: byte -> bool, spaceAsPlus: bool)
    requires forall b :: keep(b) ==> b < 0x80
    requires !keep('%' as int)
    requires spaceAsPlus ==> !keep('+' as int)
    ensures PercentDecode(PercentEncodeBytes(bs, keep, spaceAsPlus), spaceAsPlus) == Some(bs)
  {
    if bs != [] {
      var t := PercentEncodeBytes(bs[1..], keep, spaceAsPlus);
      assert PercentEncodeBytes(bs, keep, spaceAsPlus) == PercentChunk(bs[0], keep, spaceAsPlus) + t;
      PercentRoundTrip(bs[1..], keep, spaceAsPlus);
      PercentDecodeChunk(bs[0], t, keep, spaceAsPlus);
      assert [bs[0]] + bs[1..] == bs;
    }
  }

  /** Encoding a string that consists only of kept characters changes nothing. */
  lemma {:induction false} PercentEncodeKept(s: string, keep: byte -> bool, spaceAsPlus: bool)
    requires forall b :: keep(b) ==> b < 0x80
    requires forall i :: 0 <= i < |s| ==> s[i] as int < 0x80 && keep(s[i] as int)
    ensures PercentEncodeBytes(Utf8(s), keep, spaceAsPlus) == s
  {
    if s != [] {
      PercentEncodeKept(s[1..], keep, spaceAsPlus);
      assert Utf8(s) == [s[0] as int] + Utf8(s[1..]);
      assert Utf8(s)[1..] == Utf8(s[1..]);
    }
  }

  predicate IsAsciiAlnum(b: byte) {
    0x30 <= b <= 0x39 || 0x41 <= b <= 0x5A || 0x61 <= b <= 0x7A
  }

  /** Characters Python's `quote(s, safe=",:")` leaves alone: letters, digits, `_.-~`, and the
      two extra safe characters `,` and `:`. */
  predicate PythonQuoteSafe(b: byte) {
    IsAsciiAlnum(b) || b == '_' as int || b == '.' as int || b == '-' as int || b == '~' as int ||
    b == ',' as int || b == ':' as int
  }

  /** Characters `encodeURIComponent` leaves alone (ECMA-262 uriUnreserved). */
  predicate UriUnreserved(b: byte) {
    IsAsciiAlnum(b) || b == '-' as int || b == '_' as int || b == '.' as int || b == '!' as int ||
    b == '~' as int || b == '*' as int || b == '\'' as int || b == '(' as int || b == ')' as int
  }

  /** Characters the application/x-www-form-urlencoded serializer (`URLSearchParams`) leaves alone. */
  predicate FormSafe(b: byte) {
    IsAsciiAlnum(b) || b == '*' as int || b == '-' as int || b == '.' as int || b == '_' as int
  }

  /** Python `quote(str(val), safe=",:")`. */
  function PythonQuote(s: string): (r: string)
    ensures '&' !in r && '=' !in r && '?' !in r && '#' !in r && ' ' !in r
  {
    PercentEncodedChars(Utf8(s), PythonQuoteSafe, false);
    PercentEncodeBytes(Utf8(s), PythonQuoteSafe, false)
  }

  /** `encodeURIComponent(s)`. */
  function EncodeUriComponent(s: string): (r: string)
    ensures '&' !in r && '=' !in r && '?' !in r && '#' !in r && '/' !in r
  {
    PercentEncodedChars(Utf8(s), UriUnreserved, false);
    PercentEncodeBytes(Utf8(s), UriUnreserved, false)
  }

  /** One name or value as `URLSearchParams.toString()` writes it. */
  function FormUrlEncode(s: string): (r: string)
    ensures '&' !in r && '=' !in r && ':' !in r && ' ' !in r
  {
    PercentEncodedChars(Utf8(s), FormSafe, true);
    PercentEncodeBytes(Utf8(s), FormSafe, true)
  }

  /** Python's `quote` reverses: the bytes come back. */
  lemma PythonQuoteRoundTrip(s: string)
    ensures PercentDecode(PythonQuote(s), false) == Some(Utf8(s))
  {
    PercentRoundTrip(Utf8(s), PythonQuoteSafe, false);
  }

  /** `encodeURIComponent` reverses: the bytes come back. */
  lemma EncodeUriComponentRoundTrip(s: string)
    ensures PercentDecode(EncodeUriComponent(s), false) == Some(Utf8(s))
  {
    PercentRoundTrip(Utf8(s), UriUnreserved, false);
  }

  /** The form serializer reverses: the bytes come back. */
  lemma FormUrlEncodeRoundTrip(s: string)
    ensures PercentDecode(FormUrlEncode(s), true) == Some(Utf8(s))
  {
    PercentRoundTrip(Utf8(s), FormSafe, true);
  }

  // ---------------------------------------------------------------- base64

  /** Character `k` of the base64 alphabet: RFC 4648 table 1, or table 2 (the URL- and
      filename-safe alphabet, '-' and '_' in place of '+' and '/') when `url`. */
  function Base64Char(k: int, url: bool): (c: char)
    requires 0 <= k < 64
    ensures c != '=' && c != '.'
    ensures url ==> c != '+' && c != '/'
  {
    if k < 26 then ('A' as int + k) as char
    else if k < 52 then ('a' as int + k - 26) as char
    else if k < 62 then ('0' as int + k - 52) as char
    else if k == 62 then (if url then '-' else '+')
    else (if url then '_' else '/')
  }

  /** Base64, three bytes to four characters, the last group padded with '=' when `pad`. */
  function Base64With(bs: seq<byte>, url: bool, pad: bool): (r: string)
    ensures forall i :: 0 <= i < |r| ==> r[i] != '.' && (r[i] == '=' ==> pad) && (url ==> r[i] != '+' && r[i] != '/')
  {
    if |bs| >= 3 then
      Group(bs[..3], url) + Base64With(bs[3..], url, pad)
    else if |bs| == 2 then
      Group(bs, url) + (if pad then "=" else "")
    else if |bs| == 1 then
      Group(bs, url) + (if pad then "==" else "")
    else []
  }

  /** The characters for one group of one to three bytes, before padding. */
  function Group(g: seq<byte>, url: bool): (r: string)
    requires 1 <= |g| <= 3
    ensures |r| == |g| + 1
    ensures forall i :: 0 <= i < |r| ==> r[i] != '.' && r[i] != '=' && (url ==> r[i] != '+' && r[i] != '/')
  {
    var b1 := if |g| > 1 then g[1] else 0;
    var b2 := if |g| > 2 then g[2] else 0;
    var all := [Base64Char(g[0] / 4, url), Base64Char((g[0] % 4) * 16 + b1 / 16, url),
                Base64Char((b1 % 16) * 4 + b2 / 64, url), Base64Char(b2 % 64, url)];
    all[..|g| + 1]
  }

  /** `buffer.toString("base64")`: RFC 4648 section 4, padded. */
  function Base64(bs: seq<byte>): string {
    Base64With(bs, false, true)
  }

  /** RFC 4648 section 5 without padding, which is how RFC 7515 section 2 defines base64url. */
  function Base64UrlNoPad(bs: seq<byte>): (r: string)
    ensures '.' !in r && '=' !in r && '+' !in r && '/' !in r
  {
    Base64With(bs, true, false)
  }

  /** '+' to '-' and '/' to '_'. */
  function UrlChar(c: char): char {
    if c == '+' then '-' else if c == '/' then '_' else c
  }

  /** The replace chain `b64url` and the signature in `signHS256` apply to standard base64:
      drop '=', then '+' to '-', then '/' to '_'. */
  function UrlSafe(b64: string): (r: string)
    ensures '=' !in r && '+' !in r && '/' !in r
  {
    var r := ReplaceChar(ReplaceChar(RemoveChar(b64, '='), '+', '-'), '/', '_');
    assert forall i :: 0 <= i < |r| ==> r[i] != '+';
    r
  }

  lemma {:induction false} RemoveCharAppend(a: string, b: string, c: char)
    ensures RemoveChar(a + b, c) == RemoveChar(a, c) + RemoveChar(b, c)
  {
    if a != [] {
      assert (a + b)[0] == a[0];
      assert (a + b)[1..] == a[1..] + b;
      RemoveCharAppend(a[1..], b, c);
      if a[0] != c {
        calc {
          RemoveChar(a + b, c);
          [a[0]] + RemoveChar(a[1..] + b, c);
          [a[0]] + (RemoveChar(a[1..], c) + RemoveChar(b, c));
          ([a[0]] + RemoveChar(a[1..], c)) + RemoveChar(b, c);
        }
      }
    } else {
      assert a + b == b;
    }
  }

  lemma {:induction false} RemoveCharAbsent(s: string, c: char)
    requires c !in s
    ensures RemoveChar(s, c) == s
  {
    if s != [] {
      RemoveCharAbsent(s[1..], c);
    }
  }

  /** Dropping the padding of standard base64 leaves the unpadded text. */
  lemma {:induction false} RemovePadding(bs: seq<byte>)
    ensures RemoveChar(Base64With(bs, false, true), '=') == Base64With(bs, false, false)
  {
    var g := if |bs| >= 3 then bs[..3] else bs;
    if bs != [] {
      var grp := Group(g, false);
      RemoveCharAbsent(grp, '=');
      if |bs| >= 3 {
        RemoveCharAppend(grp, Base64With(bs[3..], false, true), '=');
        RemovePadding(bs[3..]);
      } else {
        var padding := if |bs| == 2 then "=" else "==";
        RemoveCharAppend(grp, padding, '=');
        assert RemoveChar(padding, '=') == [];
      }
    }
  }

  /** Swapping '+' and '/' for '-' and '_' turns the standard alphabet into the URL one. */
  lemma {:induction false} SwapAlphabet(bs: seq<byte>)
    ensures |Base64With(bs, true, false)| == |Base64With(bs, false, false)|
    ensures forall i :: 0 <= i < |Base64With(bs, false, false)| ==>
      Base64With(bs, true, false)[i] == UrlChar(Base64With(bs, false, false)[i])
  {
    if bs != [] {
      var g := if |bs| >= 3 then bs[..3] else bs;
      assert forall k :: 0 <= k < 64 ==> Base64Char(k, true) == UrlChar(Base64Char(k, false));
      var gs, gu := Group(g, false), Group(g, true);
      assert forall i :: 0 <= i < |gs| ==> gu[i] == UrlChar(gs[i]);
      if |bs| >= 3 {
        SwapAlphabet(bs[3..]);
      }
    }
  }

  /** The `b64url` helper of the SharePoint function is exactly base64url without padding
      (RFC 4648 section 5, RFC 7515 section 2). */
  lemma B64UrlIsBase64UrlNoPad(bs: seq<byte>)
    ensures UrlSafe(Base64(bs)) == Base64UrlNoPad(bs)
  {
    RemovePadding(bs);
    SwapAlphabet(bs);
  }

  /** The position of `c` in the alphabet `Base64Char` spells out. */
  function Base64Index(c: char, url: bool): (r: Option<int>)
    ensures r.Some? ==> 0 <= r.value < 64 && Base64Char(r.value, url) == c
  {
    if 'A' <= c <= 'Z' then Some(c as int - 'A' as int)
    else if 'a' <= c <= 'z' then Some(c as int - 'a' as int + 26)
    else if '0' <= c <= '9' then Some(c as int - '0' as int + 52)
    else if c == (if url then '-' else '+') then Some(62)
    else if c == (if url then '_' else '/') then Some(63)
    else None
  }

  lemma Base64IndexOfChar(k: int, url: bool)
    requires 0 <= k < 64
    ensures Base64Index(Base64Char(k, url), url) == Some(k)
  {
  }

  /** Two to four base64url characters back to one to three bytes. */
  function DecodeGroup(g: string): Option<seq<byte>>
    requires 2 <= |g| <= 4
  {
    var ix := seq(|g|, i requires 0 <= i < |g| => Base64Index(g[i], true));
    if exists i :: 0 <= i < |g| && ix[i].None? then None
    else
      var i0, i1 := ix[0].value, ix[1].value;
      var i2 := if |g| > 2 then ix[2].value else 0;
      var i3 := if |g| > 3 then ix[3].value else 0;
      var bytes: seq<byte> := [i0 * 4 + i1 / 16, (i1 % 16) * 16 + i2 / 4, (i2 % 4) * 64 + i3];
      Some(bytes[..|g| - 1])
  }

  /** Unpadded base64url text (RFC 4648 section 5) back to bytes; `None` when a character is
      outside the alphabet or the length leaves a single character over. */
  function Base64UrlDecode(s: string): Option<seq<byte>> {
    if s == [] then Some([])
    else if |s| == 1 then None
    else if |s| <= 4 then DecodeGroup(s)
    else match DecodeGroup(s[..4])
      case None => None
      case Some(head) =>
        match Base64UrlDecode(s[4..])
        case None => None
        case Some(tail) => Some(head + tail)
  }

  /** What `DecodeGroup` computes from characters whose alphabet positions are known. */
  lemma DecodeGroupOf(r: string, k: seq<int>)
    requires 2 <= |r| <= 4 && |k| == 4
    requires forall i :: 0 <= i < 4 ==> 0 <= k[i] < 64
    requires forall i :: 0 <= i < |r| ==> Base64Index(r[i], true) == Some(k[i])
    requires forall i :: |r| <= i < 4 ==> k[i] == 0
    ensures DecodeGroup(r) == Some([k[0] * 4 + k[1] / 16, (k[1] % 16) * 16 + k[2] / 4, (k[2] % 4) * 64 + k[3]][..|r| - 1])
  {
    var ix := seq(|r|, i requires 0 <= i < |r| => Base64Index(r[i], true));
    assert forall i :: 0 <= i < |r| ==> ix[i] == Some(k[i]);
  }

  /** The alphabet positions of the characters `Group` writes for `g`, the missing bytes
      taken as zero. */
  function GroupIndices(g: seq<byte>): (k: seq<int>)
    requires 1 <= |g| <= 3
    ensures |k| == 4 && forall i :: 0 <= i < 4 ==> 0 <= k[i] < 64
  {
    var b1 := if |g| > 1 then g[1] else 0;
    var b2 := if |g| > 2 then g[2] else 0;
    [g[0] / 4, (g[0] % 4) * 16 + b1 / 16, (b1 % 16) * 4 + b2 / 64, b2 % 64]
  }

  /** Each character of a group is at its index in the alphabet; the positions past the
      group are zero. */
  lemma GroupIndexed(g: seq<byte>)
    requires 1 <= |g| <= 3
    ensures var r, k := Group(g, true), GroupIndices(g);
      (forall i :: 0 <= i < |r| ==> Base64Index(r[i], true) == Some(k[i])) &&
      (forall i :: |r| <= i < 4 ==> k[i] == 0)
  {
    var r, k := Group(g, true), GroupIndices(g);
    forall i | 0 <= i < |r| ensures Base64Index(r[i], true) == Some(k[i]) {
      Base64IndexOfChar(k[i], true);
    }
  }

  /** Reassembling a group's indices gives its bytes back. */
  lemma GroupIndicesBytes(g: seq<byte>)
    requires 1 <= |g| <= 3
    ensures var k := GroupIndices(g);
      [k[0] * 4 + k[1] / 16, (k[1] % 16) * 16 + k[2] / 4, (k[2] % 4) * 64 + k[3]][..|g|] == g
  {
    var b1 := if |g| > 1 then g[1] else 0;
    var b2 := if |g| > 2 then g[2] else 0;
    Regroup(g[0], b1, b2);
    assert [g[0], b1, b2][..|g|] == g;
  }

  lemma DecodeGroupOfGroup(g: seq<byte>)
    requires 1 <= |g| <= 3
    ensures DecodeGroup(Group(g, true)) == Some(g)
  {
    GroupIndexed(g);
    DecodeGroupOf(Group(g, true), GroupIndices(g));
    GroupIndicesBytes(g);
  }

  /** Three bytes cut into four 6-bit pieces and put back together again. */
  lemma Regroup(b0: byte, b1: byte, b2: byte)
    ensures var k0, k1, k2, k3 := b0 / 4, (b0 % 4) * 16 + b1 / 16, (b1 % 16) * 4 + b2 / 64, b2 % 64;
      k0 * 4 + k1 / 16 == b0 && (k1 % 16) * 16 + k2 / 4 == b1 && (k2 % 4) * 64 + k3 == b2
  {
  }

  /** Base64url decoding reverses the encoding. */
  lemma {:induction false} Base64UrlRoundTrip(bs: seq<byte>)
    ensures Base64UrlDecode(Base64UrlNoPad(bs)) == Some(bs)
  {
    if |bs| >= 3 {
      var s := Base64UrlNoPad(bs);
      var grp := Group(bs[..3], true);
      assert s == grp + Base64UrlNoPad(bs[3..]);
      DecodeGroupOfGroup(bs[..3]);
      Base64UrlRoundTrip(bs[3..]);
      if |bs| == 3 {
        assert bs[3..] == [];
        assert s == grp;
        assert bs[..3] == bs;
      } else {
        Base64UrlLength(bs[3..]);
        assert s[..4] == grp && s[4..] == Base64UrlNoPad(bs[3..]);
        assert Base64UrlDecode(s) == Some(bs[..3] + bs[3..]);
        assert bs[..3] + bs[3..] == bs;
      }
    } else if bs != [] {
      DecodeGroupOfGroup(bs);
      assert Base64UrlNoPad(bs) == Group(bs, true);
    }
  }

  /** Unpadded base64url has 4 characters per 3 bytes, rounded up. */
  lemma {:induction false} Base64UrlLength(bs: seq<byte>)
    ensures |Base64UrlNoPad(bs)| == (4 * |bs| + 2) / 3
  {
    if |bs| >= 3 {
      Base64UrlLength(bs[3..]);
    }
  }
}

=== FILE: env.dfy ===
/** `process.env` and the JavaScript operators the handlers read it with: a missing
    variable is `undefined`, `a || b` takes the first truthy operand, a destructuring
    default applies only to `undefined`, and a template literal writes `undefined` as the
    text "undefined". */
module Env {
  import opened Wrappers
  import JsObject

  type Env = JsObject.Object<string>

  /** `process.env[key]`. */
  function Lookup(env: Env, key: string): Option<string> {
    JsObject.Get(env, key)
  }

  /** A string value in a boolean position: `undefined` and "" are false. */
  predicate Truthy(v: Option<string>) {
    v.Some? && v.value != ""
  }

  /** `a || b`. */
  function Or(a: Option<string>, b: Option<string>): (r: Option<string>)
    ensures Truthy(r) <==> Truthy(a) || Truthy(b)
    ensures Truthy(a) ==> r == a
    ensures !Truthy(a) ==> r == b
  {
    if Truthy(a) then a else b
  }

  /** `const { key = d } = env`: the default replaces `undefined` only, not "". */
  function WithDefault(v: Option<string>, d: string): (r: string)
    ensures v.Some? ==> r == v.value
    ensures v.None? ==> r == d
  {
    match v
    case Some(x) => x
    case None => d
  }

  /** `${v}` in a template literal. */
  function Interpolate(v: Option<string>): (r: string)
    ensures v.Some? ==> r == v.value
    ensures v.None? ==> r == "undefined"
  {
    match v
    case Some(x) => x
    case None => "undefined"
  }

  /** `Math.floor(new Date().getTime() / 1000)` (and `Date.now()`): the clock in whole
      seconds, rounded down also before 1970. */
  function Seconds(nowMs: int): (t: int)
    ensures t * 1000 <= nowMs < t * 1000 + 1000
  {
    nowMs / 1000
  }
}

=== FILE: env_file.dfy ===
/** The recipes' `.env` reader of the API recipe portal (recipe-portal/app/api/env/route.ts):
    each line `KEY=value` of the file sets a key, later lines winning; blank lines,
    comments and empty values set nothing. Whether the file exists and its text are inputs. */
module EnvFile {
  import opened Wrappers
  import Text
  import JsObject

  /** What `.` in a regular expression does not match. */
  predicate LineTerminator(c: char) {
    c == '\n' || c == '\r' || c == '\U{2028}' || c == '\U{2029}'
  }

  /** `/^([^=]+)=(.*)$/` on a line: the text before the first `=`, which must not be empty,
      and the rest, which must not hold a line terminator. */
  function MatchAssignment(line: string): (r: Option<(string, string)>)
    ensures r.Some? ==> line == r.value.0 + "=" + r.value.1 && r.value.0 != [] && '=' !in r.value.0
    ensures r.Some? ==> forall i :: 0 <= i < |r.value.1| ==> !LineTerminator(r.value.1[i])
  {
    match Text.SplitFirst(line, '=')
    case None => None
    case Some((a, b)) =>
      if a != [] && forall i :: 0 <= i < |b| ==> !LineTerminator(b[i]) then Some((a, b)) else None
  }

  /** The entry a line contributes: none for a blank line, a comment, a line that does not
      match, or an empty value; otherwise the trimmed key and the trimmed value. */
  function ParseLine(line: string): (r: Option<(string, string)>)
    ensures r.Some? ==> r.value.0 != "" && r.value.1 != ""
    ensures r.Some? ==> '=' !in r.value.0 && Text.IsTrimmed(r.value.0) && Text.IsTrimmed(r.value.1)
    ensures Text.Trim(line) == "" || Text.StartsWith(Text.Trim(line), "#") ==> r.None?
  {
    var trimmed := Text.Trim(line);
    if trimmed == "" || Text.StartsWith(trimmed, "#") then None
    else match MatchAssignment(trimmed)
      case None => None
      case Some((a, b)) =>
        var key, value := Text.Trim(a), Text.Trim(b);
        assert key != "" by {
          assert a[0] == trimmed[0] && !Text.IsWhitespace(a[0]);
          Text.TrimSubstring(a);
        }
        assert forall c :: c in key ==> c in a by {
          Text.TrimSubstring(a);
        }
        if value != "" then Some((key, value)) else None
  }

  /** A line written as `key=value` reads back as that entry: the value may hold `=`. */
  lemma ParseLineOf(key: string, value: string)
    requires key != "" && value != "" && Text.IsTrimmed(key) && Text.IsTrimmed(value)
    requires '=' !in key && key[0] != '#'
    requires forall i :: 0 <= i < |value| ==> !LineTerminator(value[i])
    ensures ParseLine(key + "=" + value) == Some((key, value))
  {
    var line := key + "=" + value;
    assert line[0] == key[0] && line[|line| - 1] == value[|value| - 1];
    Text.TrimTrimmed(line);
    assert !Text.StartsWith(line, "#");
    Text.SplitFirstAt(key, value, '=');
    assert key + ['='] + value == line;
    assert MatchAssignment(line) == Some((key, value));
    Text.TrimTrimmed(key);
    Text.TrimTrimmed(value);
  }

  /** The object the lines build, one line after another. */
  function Values(lines: seq<string>): JsObject.Object<string> {
    if lines == [] then []
    else
      var before := Values(lines[..|lines| - 1]);
      match ParseLine(lines[|lines| - 1])
      case None => before
      case Some((k, v)) => JsObject.Set(before, k, v)
  }

  /** The value the last line setting `key` gives it. */
  function LastFor(lines: seq<string>, key: string): Option<string> {
    if lines == [] then None
    else
      var p := ParseLine(lines[|lines| - 1]);
      if p.Some? && p.value.0 == key then Some(p.value.1) else LastFor(lines[..|lines| - 1], key)
  }

  /** Each key holds the value of the last line that sets it, and no value is empty. */
  lemma {:induction false} ValuesLastWins(lines: seq<string>, key: string)
    ensures JsObject.Get(Values(lines), key) == LastFor(lines, key)
    ensures JsObject.Get(Values(lines), key).Some? ==> JsObject.Get(Values(lines), key).value != ""
  {
    if lines != [] {
      ValuesLastWins(lines[..|lines| - 1], key);
    }
  }

  /** Each key appears once in the object. */
  lemma {:induction false} ValuesDistinct(lines: seq<string>)
    ensures JsObject.DistinctKeys(Values(lines))
  {
    if lines != [] {
      ValuesDistinct(lines[..|lines| - 1]);
      var p := ParseLine(lines[|lines| - 1]);
      if p.Some? {
        JsObject.SetKeepsDistinct(Values(lines[..|lines| - 1]), p.value.0, p.value.1);
      }
    }
  }

  /** The response of `GET /api/env`. */
  datatype EnvResponse = EnvResponse(values: JsObject.Object<string>, fileExists: bool)

  /** `GET /api/env`: without the file, no values; otherwise the values its lines set. */
  method ReadEnv(fileExists: bool, content: string) returns (r: EnvResponse)
    ensures !fileExists ==> r == EnvResponse([], false)
    ensures fileExists ==> r == EnvResponse(Values(Text.Split(content, '\n')), true)
  {
    if !fileExists {
      return EnvResponse([], false);
    }
    var envValues: JsObject.Object<string> := [];
    var lines := Text.Split(content, '\n');
    for i := 0 to |lines|
      invariant envValues == Values(lines[..i])
    {
      assert lines[..i + 1][..i] == lines[..i];
      var entry := ParseLine(lines[i]);
      if entry.Some? {
        envValues := JsObject.Set(envValues, entry.value.0, entry.value.1);
      }
    }
    assert lines[..|lines|] == lines;
    r := EnvResponse(envValues, true);
  }
}

=== FILE: export_schedule.dfy ===
/** The scheduled-export helper of the API use-case quickstart
    (embedding_qs_series_2_api_use_cases/helpers/create-export-schedule.js): checks its
    input, turns the time and frequency into a cron specification, trims the recipients,
    picks the attachment format and builds the request it posts to the Sigma API. */
module ExportSchedule {
  import opened Wrappers
  import opened Text
  import opened Json
  import JsObject
  import Env
  import SeriesTwoApiEmbed

  /** The destructured configuration; `None` stands for `undefined`. */
  datatype ExportConfig = ExportConfig(workbookId: Option<string>, recipients: Option<seq<string>>,
                                       subject: Option<string>, message: Option<string>, format: Option<string>,
                                       frequency: Option<string>, time: Option<string>)

  /** The request the helper posts. */
  datatype Post = Post(url: string, authorization: string, body: Json)

  const MissingFields: string := "Missing required fields: workbookId and recipients"
  const NoToken: string := "Failed to obtain bearer token"
  const DefaultTime: string := "09:00"
  const DefaultMessage: string := "Hello, you've received a document."

  /** `const [hours, minutes] = (time || "09:00").split(":")`: a time without ':' leaves
      `minutes` undefined, which the template writes as "undefined". */
  function HoursMinutes(time: Option<string>): (hm: (string, string))
    ensures var parts := Split(Env.Or(time, Some(DefaultTime)).value, ':');
      hm.0 == parts[0] && hm.1 == if |parts| > 1 then parts[1] else "undefined"
  {
    var parts := Split(Env.Or(time, Some(DefaultTime)).value, ':');
    (parts[0], if |parts| > 1 then parts[1] else "undefined")
  }

  /** The cron specification: minute, hour, day of month, month, day of week. Weekly runs
      on Mondays, monthly on the first; any other frequency, or none, runs daily. */
  function CronSpec(time: Option<string>, frequency: Option<string>): string {
    var (hours, minutes) := HoursMinutes(time);
    if frequency == Some("weekly") then minutes + " " + hours + " * * 1"
    else if frequency == Some("monthly") then minutes + " " + hours + " 1 * *"
    else minutes + " " + hours + " * * *"
  }

  /** The cron fields read back: for an `HH:MM` time whose parts hold no ' ' or ':', the
      minute and hour come first, then the frequency's three calendar fields. */
  lemma CronFields(hh: string, mm: string, frequency: Option<string>)
    requires ':' !in hh && ':' !in mm && ' ' !in hh && ' ' !in mm && hh != ""
    ensures Split(CronSpec(Some(hh + ":" + mm), frequency), ' ') ==
      [mm, hh] + (if frequency == Some("weekly") then ["*", "*", "1"]
                  else if frequency == Some("monthly") then ["1", "*", "*"]
                  else ["*", "*", "*"])
  {
    TimeFields(hh, mm);
    assert " * * 1" == " " + "*" + " " + "*" + " " + "1";
    assert " 1 * *" == " " + "1" + " " + "*" + " " + "*";
    assert " * * *" == " " + "*" + " " + "*" + " " + "*";
    var star, one := "*", "1";
    var (x, y, z) := if frequency == Some("weekly") then (star, star, one)
                     else if frequency == Some("monthly") then (one, star, star)
                     else (star, star, star);
    assert CronSpec(Some(hh + ":" + mm), frequency) == mm + " " + hh + (" " + x + " " + y + " " + z);
    Regroup(mm, hh, x, y, z);
    CronSplit(mm, hh, x, y, z);
  }

  lemma Regroup(a: string, b: string, c: string, d: string, e: string)
    ensures a + " " + b + (" " + c + " " + d + " " + e) == a + " " + b + " " + c + " " + d + " " + e
  {
  }

  /** An `HH:MM` time splits into its hour and minute. */
  lemma TimeFields(hh: string, mm: string)
    requires ':' !in hh && ':' !in mm && hh != ""
    ensures HoursMinutes(Some(hh + ":" + mm)) == (hh, mm)
  {
    SplitTwo(hh, mm, ':');
  }

  /** Five space-free fields joined by single spaces split back into the five. */
  lemma CronSplit(a: string, b: string, c: string, d: string, e: string)
    requires ' ' !in a && ' ' !in b && ' ' !in c && ' ' !in d && ' ' !in e
    ensures Split(a + " " + b + " " + c + " " + d + " " + e, ' ') == [a, b, c, d, e]
  {
    var s4 := d + [' '] + e;
    var s3 := c + [' '] + s4;
    var s2 := b + [' '] + s3;
    SplitTwo(d, e, ' ');
    SplitAtSep(c, s4, ' ');
    SplitAtSep(b, s3, ' ');
    SplitAtSep(a, s2, ' ');
    assert a + " " + b + " " + c + " " + d + " " + e == a + [' '] + s2;
  }

  /** The default time gives nine o'clock sharp. */
  lemma DefaultCron(frequency: Option<string>)
    requires frequency != Some("weekly") && frequency != Some("monthly")
    ensures CronSpec(None, frequency) == "00 09 * * *"
  {
    DefaultTimeFields();
  }

  /** The default time is nine o'clock. */
  lemma DefaultTimeFields()
    ensures HoursMinutes(None) == ("09", "00")
  {
    var hh, mm := "09", "00";
    assert DefaultTime == hh + ":" + mm;
    SplitTwo(hh, mm, ':');
  }

  /** `recipients.map(email => ({ email: email.trim() }))`: one target per recipient, in
      order, each the recipient's address trimmed. */
  function Targets(recipients: seq<string>): (ts: seq<Json>)
    ensures |ts| == |recipients|
    ensures forall i :: 0 <= i < |recipients| ==> ts[i] == JObj([("email", JStr(Trim(recipients[i])))])
  {
    if recipients == [] then []
    else [JObj([("email", JStr(Trim(recipients[0])))])] + Targets(recipients[1..])
  }

  /** `formatType`: "XLSX" and "CSV" are kept, anything else, or nothing, is "PDF". */
  function FormatType(format: Option<string>): (t: string)
    ensures t == "XLSX" || t == "CSV" || t == "PDF"
    ensures format == Some(t) || t == "PDF"
    ensures format == Some("XLSX") ==> t == "XLSX"
    ensures format == Some("CSV") ==> t == "CSV"
  {
    if format == Some("XLSX") then "XLSX" else if format == Some("CSV") then "CSV" else "PDF"
  }

  /** `formatOptions`: the type, and portrait layout only for PDF (the spread of `false`
      adds nothing). */
  function FormatOptions(formatType: string): (o: Json)
    ensures o.JObj?
    ensures JsObject.Get(o.fields, "type") == Some(JStr(formatType))
    ensures JsObject.Get(o.fields, "layout") == if formatType == "PDF" then Some(JStr("portrait")) else None
  {
    var layout := if formatType == "PDF" then [("layout", JStr("portrait"))] else [];
    var fields := [("type", JStr(formatType))] + layout;
    assert fields[1..] == layout;
    JObj(fields)
  }

  /** `requestBody`, in the order the literal writes it; an `undefined` subject drops the
      title but is written "undefined" in the export name. */
  function RequestBody(c: ExportConfig, recipients: seq<string>): Json {
    JObj([("target", JArr(Targets(recipients))),
          ("schedule", JObj([("cronSpec", JStr(CronSpec(c.time, c.frequency))), ("timezone", JStr("America/New_York"))])),
          ("configV2", JObj(
            SeriesTwoApiEmbed.OptionalClaim("title", c.subject) +
            [("messageBody", JStr(Env.Or(c.message, Some(DefaultMessage)).value)),
             ("exportAttachments", JArr([JObj([("formatOptions", FormatOptions(FormatType(c.format))),
                                               ("workbookExportSource", JObj([("type", JStr("all"))]))])])),
             ("exportName", JStr("Export - " + Env.Interpolate(c.subject))),
             ("includeLink", JBool(false)),
             ("runAsRecipient", JBool(false)),
             ("attachmentSettings", JObj([("mergeAttachments", JBool(false)), ("zipAttachments", JBool(false))])),
             ("conditionOptions", JObj([("type", JStr("always"))]))]))])
  }

  /** `createExportSchedule(exportConfig)` up to the POST: `BASE_URL` and the token the
      access-token helper returns are inputs; the response is not modelled. */
  function CreateExportSchedule(c: ExportConfig, baseUrl: Option<string>, bearerToken: Option<string>): (r: Result<Post>)
    ensures r == Err(MissingFields) <==> !Env.Truthy(c.workbookId) || c.recipients.None? || c.recipients.value == []
    ensures r == Err(NoToken) <==>
      Env.Truthy(c.workbookId) && c.recipients.Some? && c.recipients.value != [] && !Env.Truthy(bearerToken)
    ensures r.Ok? ==> r.value.url == Env.Interpolate(baseUrl) + "/workbooks/" + c.workbookId.value + "/schedules"
    ensures r.Ok? ==> r.value.authorization == "Bearer " + bearerToken.value
    ensures r.Ok? ==> r.value.body == RequestBody(c, c.recipients.value)
  {
    if !Env.Truthy(c.workbookId) || c.recipients.None? || c.recipients.value == [] then Err(MissingFields)
    else if !Env.Truthy(bearerToken) then Err(NoToken)
    else Ok(Post(Env.Interpolate(baseUrl) + "/workbooks/" + c.workbookId.value + "/schedules",
                 "Bearer " + bearerToken.value, RequestBody(c, c.recipients.value)))
  }

  /** What the posted body carries: one target per recipient, the cron specification of
      the time and frequency, and a single attachment with the chosen format's options. */
  lemma RequestBodyParts(c: ExportConfig, recipients: seq<string>)
    ensures var b := RequestBody(c, recipients);
      && b.JObj?
      && JsObject.Get(b.fields, "target") == Some(JArr(Targets(recipients)))
      && JsObject.Get(b.fields, "schedule").Some? && JsObject.Get(b.fields, "schedule").value.JObj?
      && JsObject.Get(JsObject.Get(b.fields, "schedule").value.fields, "cronSpec") == Some(JStr(CronSpec(c.time, c.frequency)))
      && JsObject.Get(b.fields, "configV2").Some? && JsObject.Get(b.fields, "configV2").value.JObj?
      && JsObject.Get(JsObject.Get(b.fields, "configV2").value.fields, "exportAttachments") ==
           Some(JArr([JObj([("formatOptions", FormatOptions(FormatType(c.format))),
                            ("workbookExportSource", JObj([("type", JStr("all"))]))])]))
  {
    var b := RequestBody(c, recipients);
    JsObject.GetAt(b.fields, 2, "configV2");
    var config := b.fields[2].1.fields;
    var head := SeriesTwoApiEmbed.OptionalClaim("title", c.subject);
    assert config == head + config[|head|..];
    JsObject.GetSkip(head, config[|head|..], "exportAttachments");
    JsObject.GetAt(config[|head|..], 1, "exportAttachments");
  }
}

=== FILE: gantt.dfy ===
/** The Highcharts Gantt plugin (plugin_highchart_gantt/src/App.js): the four columns the
    editor panel picks (work orders, operations, start and end dates) are sorted together by
    start date in place, then turned into one chart series whose first point spans the whole
    schedule. Dates are epoch milliseconds; a cell is a string or a number, an empty cell
    being "". */
module Gantt {
  import opened Wrappers
  import StableSort
  import Env

  const TotalDurationName: string := "Total Duration"
  const TotalDurationWidth: int := 3

  /** One row of the element: `{ start, end, wono, op }`. */
  datatype Row = Row(wono: string, op: string, start: int, end: int)

  /** The sort key of `(a, b) => a.start - b.start`. */
  function StartOf(r: Row): int { r.start }

  /** The rows the four columns make, row i taking each column's i-th cell. */
  function Rows(wos: seq<string>, ops: seq<string>, starts: seq<int>, ends: seq<int>): (rows: seq<Row>)
    requires |ops| == |wos| && |starts| == |wos| && |ends| == |wos|
    ensures |rows| == |wos|
    ensures forall i :: 0 <= i < |rows| ==> rows[i] == Row(wos[i], ops[i], starts[i], ends[i])
  {
    seq(|wos|, i requires 0 <= i < |wos| => Row(wos[i], ops[i], starts[i], ends[i]))
  }

  /** The object `sigmaObjectBuilder` returns: the very arrays it was given. */
  datatype Columns = Columns(wono: array<string>, operation: array<string>, startTime: array<int>, endTime: array<int>)

  /** `sigmaObjectBuilder(wos, ops, starts, ends)`: the rows, sorted by start with ties in
      their first order, are written back into the four arrays, which the result holds. */
  method ObjectBuilder(wos: array<string>, ops: array<string>, starts: array<int>, ends: array<int>)
    returns (obj: Columns)
    requires ops.Length == wos.Length && starts.Length == wos.Length && ends.Length == wos.Length
    requires wos != ops && starts != ends
    modifies wos, ops, starts, ends
    ensures obj == Columns(wos, ops, starts, ends)
    ensures Rows(wos[..], ops[..], starts[..], ends[..])
      == StableSort.SortBy(Rows(old(wos[..]), old(ops[..]), old(starts[..]), old(ends[..])), StartOf)
  {
    ghost var before := Rows(wos[..], ops[..], starts[..], ends[..]);
    var list: seq<Row> := [];
    for i := 0 to wos.Length
      invariant list == before[..i]
    {
      list := list + [Row(wos[i], ops[i], starts[i], ends[i])];
    }
    assert list == before;
    list := StableSort.SortBy(list, StartOf);
    assert |list| == wos.Length;
    for i := 0 to |list|
      invariant forall k :: 0 <= k < i ==>
        wos[k] == list[k].wono && ops[k] == list[k].op && starts[k] == list[k].start && ends[k] == list[k].end
    {
      starts[i] := list[i].start;
      ends[i] := list[i].end;
      wos[i] := list[i].wono;
      ops[i] := list[i].op;
    }
    assert Rows(wos[..], ops[..], starts[..], ends[..]) == list;
    obj := Columns(wos, ops, starts, ends);
  }

  /** After `sigmaObjectBuilder` the rows are ordered by start date, each row kept whole,
      none gained or lost, and rows with equal starts in their first order. */
  lemma ObjectBuilderOrder(rows: seq<Row>, k: int)
    ensures StableSort.SortedBy(StableSort.SortBy(rows, StartOf), StartOf)
    ensures multiset(StableSort.SortBy(rows, StartOf)) == multiset(rows)
    ensures StableSort.WithKey(StableSort.SortBy(rows, StartOf), StartOf, k) == StableSort.WithKey(rows, StartOf, k)
  {
    StableSort.SortByStable(rows, StartOf, k);
  }

  /** `ends.reduce((a, b) => a > b ? a : b)`. */
  function MaxOf(s: seq<int>): (m: int)
    requires s != []
    ensures m in s
    ensures forall x :: x in s ==> x <= m
  {
    if |s| == 1 then s[0]
    else
      var a := MaxOf(s[..|s| - 1]);
      assert s == s[..|s| - 1] + [s[|s| - 1]];
      if a > s[|s| - 1] then a else s[|s| - 1]
  }

  /** A point of the series: the schedule-wide bar, or one operation on row `y`. */
  datatype Point = TotalDuration(start: int, end: int) | Operation(name: string, start: int, end: int, y: int)

  datatype Series = Series(name: string, data: seq<Point>)

  /** The row where the series that is finally kept was begun: `!prev_wono` holds at row 0
      and then for as long as the rows' work orders are empty. */
  function Anchor(wos: seq<string>): (a: nat)
    requires wos != []
    ensures a < |wos|
    ensures forall k :: 0 <= k < a ==> wos[k] == ""
    ensures wos[a] != "" || a == |wos| - 1
  {
    if wos[0] != "" || |wos| == 1 then 0 else 1 + Anchor(wos[1..])
  }

  /** Each work order but the last being empty, only the last row can begin a series. */
  lemma {:induction false} AnchorStep(wos: seq<string>, i: nat)
    requires 0 < i < |wos|
    ensures Anchor(wos[..i + 1]) == if wos[Anchor(wos[..i])] != "" then Anchor(wos[..i]) else i
  {
    if wos[0] != "" {
    } else if i == 1 {
    } else {
      assert wos[..i + 1][1..] == wos[1..][..i];
      assert wos[..i][1..] == wos[1..][..i - 1];
      AnchorStep(wos[1..], i - 1);
    }
  }

  /** The operation points of rows `lo` up to `hi`, row k on `y = k + 1`. */
  function Points(ops: seq<string>, starts: seq<int>, ends: seq<int>, lo: nat, hi: nat): (ps: seq<Point>)
    requires lo <= hi <= |ops| && |starts| == |ops| && |ends| == |ops|
    decreases hi
    ensures |ps| == hi - lo
    ensures forall k :: lo <= k < hi ==> ps[k - lo] == Operation(ops[k], starts[k], ends[k], k + 1)
  {
    if hi == lo then [] else Points(ops, starts, ends, lo, hi - 1) + [Operation(ops[hi - 1], starts[hi - 1], ends[hi - 1], hi)]
  }

  /** The series under construction after the walk has passed `i` rows, `total` being
      the schedule-wide bar every series begins with. */
  function Partial(wos: seq<string>, ops: seq<string>, starts: seq<int>, ends: seq<int>, total: Point, i: nat): Option<Series>
    requires |ops| == |wos| && |starts| == |wos| && |ends| == |wos| && i <= |wos|
  {
    if i == 0 then None
    else
      var a := Anchor(wos[..i]);
      Some(Series(wos[a], [total] + Points(ops, starts, ends, a, i)))
  }

  /** The bar from the first start to the latest end. */
  function Total(starts: seq<int>, ends: seq<int>): Point
    requires starts != [] && ends != []
  {
    TotalDuration(starts[0], MaxOf(ends))
  }

  /** The series `sigmaSeriesBuilder` keeps for sorted columns: none without rows. */
  function SeriesOf(wos: seq<string>, ops: seq<string>, starts: seq<int>, ends: seq<int>): Option<Series>
    requires |ops| == |wos| && |starts| == |wos| && |ends| == |wos|
  {
    if wos == [] then None else Partial(wos, ops, starts, ends, Total(starts, ends), |wos|)
  }

  /** With the rows sorted, the first point spans from the earliest start to the latest end;
      when the first work order is not empty the series is named after it and has one
      point per row after that first one, row i on `y = i + 1`. */
  lemma SeriesShape(wos: seq<string>, ops: seq<string>, starts: seq<int>, ends: seq<int>)
    requires |ops| == |wos| && |starts| == |wos| && |ends| == |wos| && wos != []
    requires forall i, j :: 0 <= i < j < |starts| ==> starts[i] <= starts[j]
    ensures var s := SeriesOf(wos, ops, starts, ends).value;
      s.data[0] == TotalDuration(starts[0], MaxOf(ends)) &&
      (forall x :: x in starts ==> s.data[0].start <= x) &&
      (forall x :: x in ends ==> x <= s.data[0].end) &&
      s.data[0].end in ends
    ensures wos[0] != "" ==> var s := SeriesOf(wos, ops, starts, ends).value;
      s.name == wos[0] && |s.data| == |wos| + 1 &&
      forall i :: 0 <= i < |wos| ==> s.data[i + 1] == Operation(ops[i], starts[i], ends[i], i + 1)
  {
    var total := Total(starts, ends);
    assert wos[..|wos|] == wos;
    var a := Anchor(wos);
    var s := SeriesOf(wos, ops, starts, ends).value;
    var points := Points(ops, starts, ends, a, |wos|);
    assert s == Series(wos[a], [total] + points);
    SortedFirst(starts);
    if wos[0] != "" {
      assert a == 0;
      forall i | 0 <= i < |wos| ensures s.data[i + 1] == Operation(ops[i], starts[i], ends[i], i + 1) {
        assert s.data[i + 1] == points[i];
      }
    }
  }

  /** The first of sorted values is the least. */
  lemma SortedFirst(starts: seq<int>)
    requires starts != []
    requires forall i, j :: 0 <= i < j < |starts| ==> starts[i] <= starts[j]
    ensures forall x :: x in starts ==> starts[0] <= x
  {
    forall x | x in starts ensures starts[0] <= x {
      var j :| 0 <= j < |starts| && starts[j] == x;
    }
  }

  /** One row of the walk: a series is begun afresh with the schedule-wide bar when there
      is none yet or the work order it was begun with is empty; then the row's point is
      added. */
  function Next(p: Option<Series>, wo: string, total: Point, op: Point): Series {
    var begun := if p.None? || p.value.name == "" then Series(wo, [total]) else p.value;
    begun.(data := begun.data + [op])
  }

  lemma PartialStep(wos: seq<string>, ops: seq<string>, starts: seq<int>, ends: seq<int>, total: Point, i: nat)
    requires |ops| == |wos| && |starts| == |wos| && |ends| == |wos| && i < |wos|
    ensures Partial(wos, ops, starts, ends, total, i + 1) ==
      Some(Next(Partial(wos, ops, starts, ends, total, i), wos[i], total, Operation(ops[i], starts[i], ends[i], i + 1)))
  {
    var op := Operation(ops[i], starts[i], ends[i], i + 1);
    if i == 0 {
      assert Anchor(wos[..1]) == 0;
      assert Points(ops, starts, ends, 0, 1) == [op];
    } else {
      AnchorStep(wos, i);
      assert wos[..i + 1][..i] == wos[..i];
      var a := Anchor(wos[..i]);
      if wos[a] == "" {
        assert Points(ops, starts, ends, i, i + 1) == [op];
      } else {
        assert [total] + Points(ops, starts, ends, a, i + 1) == ([total] + Points(ops, starts, ends, a, i)) + [op];
      }
    }
  }

  /** The series after the walk has passed `i` rows, row by row. */
  function Walk(wos: seq<string>, ops: seq<string>, starts: seq<int>, ends: seq<int>, total: Point, i: nat): Option<Series>
    requires |ops| == |wos| && |starts| == |wos| && |ends| == |wos| && i <= |wos|
  {
    if i == 0 then None
    else Some(Next(Walk(wos, ops, starts, ends, total, i - 1), wos[i - 1], total,
                   Operation(ops[i - 1], starts[i - 1], ends[i - 1], i)))
  }

  /** Walking the rows one by one builds the series `Partial` describes. */
  lemma {:induction false} WalkPartial(wos: seq<string>, ops: seq<string>, starts: seq<int>, ends: seq<int>, total: Point, i: nat)
    requires |ops| == |wos| && |starts| == |wos| && |ends| == |wos| && i <= |wos|
    ensures Walk(wos, ops, starts, ends, total, i) == Partial(wos, ops, starts, ends, total, i)
  {
    if i > 0 {
      WalkPartial(wos, ops, starts, ends, total, i - 1);
      PartialStep(wos, ops, starts, ends, total, i - 1);
    }
  }

  /** The whole walk gives the series kept. */
  lemma WalkSeriesOf(wos: seq<string>, ops: seq<string>, starts: seq<int>, ends: seq<int>, total: Point)
    requires |ops| == |wos| && |starts| == |wos| && |ends| == |wos|
    requires wos != [] ==> total == Total(starts, ends)
    ensures Walk(wos, ops, starts, ends, total, |wos|) == SeriesOf(wos, ops, starts, ends)
  {
    WalkPartial(wos, ops, starts, ends, total, |wos|);
  }

  /** The walk of `sigmaSeriesBuilder` over the sorted columns: a series is begun while
      the previous work order is empty, and each row adds its point; the result holds the
      last series begun, or nothing without rows. */
  method WalkRows(obj: Columns) returns (arr: seq<Option<Series>>)
    requires obj.operation.Length == obj.wono.Length && obj.startTime.Length == obj.wono.Length
    requires obj.endTime.Length == obj.wono.Length
    ensures arr == [SeriesOf(obj.wono[..], obj.operation[..], obj.startTime[..], obj.endTime[..])]
  {
    ghost var wos, ops, starts, ends := obj.wono[..], obj.operation[..], obj.startTime[..], obj.endTime[..];
    ghost var total := if wos == [] then TotalDuration(0, 0) else Total(starts, ends);
    var i := 0;
    var prevWono := "";
    var newObj: Option<Series> := None;
    while i < obj.wono.Length
      invariant 0 <= i <= |wos|
      invariant newObj == Walk(wos, ops, starts, ends, total, i)
      invariant prevWono == if newObj.Some? then newObj.value.name else ""
    {
      ghost var before := newObj;
      var wo, op, st, en := obj.wono[i], obj.operation[i], obj.startTime[i], obj.endTime[i];
      assert wo == wos[i] && op == ops[i] && st == starts[i] && en == ends[i];
      if prevWono == "" {
        prevWono := wo;
        assert obj.startTime[0] == starts[0] && obj.endTime[..] == ends;
        newObj := Some(Series(prevWono, [TotalDuration(obj.startTime[0], MaxOf(obj.endTime[..]))]));
      }
      var dataObj := Operation(op, st, en, i + 1);
      newObj := Some(newObj.value.(data := newObj.value.data + [dataObj]));
      assert newObj == Some(Next(before, wos[i], total, dataObj));
      i := i + 1;
    }
    WalkSeriesOf(wos, ops, starts, ends, total);
    arr := [newObj];
  }

  /** `sigmaSeriesBuilder(wos, ops, starts, ends)`: sorts the columns in place, then walks
      the rows. */
  method SeriesBuilder(wos: array<string>, ops: array<string>, starts: array<int>, ends: array<int>)
    returns (arr: seq<Option<Series>>)
    requires ops.Length == wos.Length && starts.Length == wos.Length && ends.Length == wos.Length
    requires wos != ops && starts != ends
    modifies wos, ops, starts, ends
    ensures Rows(wos[..], ops[..], starts[..], ends[..])
      == StableSort.SortBy(Rows(old(wos[..]), old(ops[..]), old(starts[..]), old(ends[..])), StartOf)
    ensures arr == [SeriesOf(wos[..], ops[..], starts[..], ends[..])]
  {
    var obj := ObjectBuilder(wos, ops, starts, ends);
    arr := WalkRows(obj);
  }

  /** The editor panel's settings: column ids, `None` when unset. */
  datatype Config = Config(source: Option<string>, workOrders: Option<string>, operations: Option<string>,
                           startDates: Option<string>, endDates: Option<string>)

  /** `allDimensions(config)`: the four columns are all chosen. */
  predicate AllDimensions(config: Config) {
    Env.Truthy(config.operations) && Env.Truthy(config.workOrders) && Env.Truthy(config.startDates)
    && Env.Truthy(config.endDates)
  }

  /** What `getGanttPayload` gives: `null`, chart options, or a `TypeError` from reading
      `series[0].data` when the element has columns but no rows. The grid's three columns
      list each point's name, start and end (the dates before `dateFormat`). */
  datatype Payload = NoChart | Fails | Chart(series: seq<Option<Series>>, names: seq<string>, starts: seq<int>, ends: seq<int>)

  function NameOf(p: Point): string {
    match p
    case TotalDuration(_, _) => TotalDurationName
    case Operation(name, _, _, _) => name
  }

  /** The `pointWidth` a point is drawn with: the whole-schedule bar is thin, the operations
      keep the chart's own width. */
  function PointWidth(p: Point): (w: Option<int>)
    ensures w.Some? <==> p.TotalDuration?
    ensures w.Some? ==> 0 < w.value
  {
    if p.TotalDuration? then Some(TotalDurationWidth) else None
  }

  /** The grid's `categories`: each point's name, start and end. */
  function Grid(data: seq<Point>): (g: (seq<string>, seq<int>, seq<int>))
    ensures |g.0| == |data| && |g.1| == |data| && |g.2| == |data|
    ensures forall i :: 0 <= i < |data| ==> g.0[i] == NameOf(data[i]) && g.1[i] == data[i].start && g.2[i] == data[i].end
  {
    (seq(|data|, i requires 0 <= i < |data| => NameOf(data[i])),
     seq(|data|, i requires 0 <= i < |data| => data[i].start),
     seq(|data|, i requires 0 <= i < |data| => data[i].end))
  }

  /** `getGanttPayload(config, sigmaData)`: `columnCount` is the number of columns of
      `sigmaData` and the arrays are its columns under the chosen ids. */
  method GanttPayload(config: Config, columnCount: nat,
                      wos: array<string>, ops: array<string>, starts: array<int>, ends: array<int>)
    returns (p: Payload)
    requires ops.Length == wos.Length && starts.Length == wos.Length && ends.Length == wos.Length
    requires wos != ops && starts != ends
    modifies wos, ops, starts, ends
    ensures p.NoChart? <==> !Env.Truthy(config.source) || !AllDimensions(config) || columnCount == 0
    ensures p.NoChart? ==> unchanged(wos, ops, starts, ends)
    ensures p.Fails? <==> !p.NoChart? && wos.Length == 0
    ensures p.Chart? ==> var s := SeriesOf(wos[..], ops[..], starts[..], ends[..]).value;
      p.series == [Some(s)] &&
      |p.names| == |p.starts| == |p.ends| == |s.data| &&
      forall i :: 0 <= i < |s.data| ==>
        p.names[i] == NameOf(s.data[i]) && p.starts[i] == s.data[i].start && p.ends[i] == s.data[i].end
    ensures !p.NoChart? ==>
      Rows(wos[..], ops[..], starts[..], ends[..]) == StableSort.SortBy(Rows(old(wos[..]), old(ops[..]), old(starts[..]), old(ends[..])), StartOf)
  {
    if !Env.Truthy(config.source) || !Env.Truthy(config.workOrders) || !Env.Truthy(config.operations)
       || !Env.Truthy(config.startDates) || !Env.Truthy(config.endDates) || columnCount == 0 {
      return NoChart;
    }
    var series := SeriesBuilder(wos, ops, starts, ends);
    if series[0].None? {
      return Fails;
    }
    var grid := Grid(series[0].value.data);
    p := Chart(series, grid.0, grid.1, grid.2);
  }
}

=== FILE: hmac.dfy ===
/** HMAC-SHA256 (RFC 2104 over the SHA-256 of FIPS 180-4) as the signers use it. The MAC
    itself is supplied by the caller. */
module Hmac {
  import opened Wrappers
  import opened Encoding

  /** Key bytes and message bytes to the MAC bytes. */
  type Mac = (seq<byte>, seq<byte>) -> seq<byte>

  /** `createHmac("sha256", key).update(data).digest("hex")`: the MAC of the UTF-8 texts,
      two lower-case hex digits per byte. */
  function HexDigest(key: string, data: string, mac: Mac): (r: string)
    ensures |r| == 2 * |mac(Utf8(key), Utf8(data))|
    ensures forall i :: 0 <= i < |r| ==> IsLowerHex(r[i])
    ensures HexToBytes(r) == Some(mac(Utf8(key), Utf8(data)))
  {
    HexRoundTrip(mac(Utf8(key), Utf8(data)));
    BufferToHex(mac(Utf8(key), Utf8(data)))
  }
}

=== FILE: js_object.dfy ===
/** A JavaScript object with string keys (or a Python dict), kept as its entries in
    enumeration order: insertion order, with an assignment to an existing key leaving the
    key where it was. */
module JsObject {
  import opened Wrappers

  type Object<V> = seq<(string, V)>

  /** `Object.keys(o)`. */
  function Keys<V>(o: Object<V>): (ks: seq<string>)
    ensures |ks| == |o|
    ensures forall i :: 0 <= i < |o| ==> ks[i] == o[i].0
  {
    if o == [] then [] else [o[0].0] + Keys(o[1..])
  }

  /** `Object.values(o)`. */
  function Values<V>(o: Object<V>): (vs: seq<V>)
    ensures |vs| == |o|
    ensures forall i :: 0 <= i < |o| ==> vs[i] == o[i].1
  {
    if o == [] then [] else [o[0].1] + Values(o[1..])
  }

  predicate DistinctKeys<V>(o: Object<V>) {
    forall i, j :: 0 <= i < j < |o| ==> o[i].0 != o[j].0
  }

  /** `o[k]`, `None` standing for `undefined`. */
  function Get<V>(o: Object<V>, k: string): Option<V> {
    if o == [] then None
    else if o[0].0 == k then Some(o[0].1)
    else Get(o[1..], k)
  }

  /** `o[k]` is defined exactly for the keys of `o`. */
  lemma {:induction false} GetDefined<V>(o: Object<V>, k: string)
    ensures Get(o, k).Some? <==> k in Keys(o)
  {
    if o != [] {
      GetDefined(o[1..], k);
      assert Keys(o) == [o[0].0] + Keys(o[1..]);
    }
  }

  /** `o[k] = v`: an existing key keeps its place and gets the new value, a new key goes last. */
  function Set<V>(o: Object<V>, k: string, v: V): (r: Object<V>)
    ensures Get(r, k) == Some(v)
    ensures forall k' :: k' != k ==> Get(r, k') == Get(o, k')
    ensures Keys(r) == if k in Keys(o) then Keys(o) else Keys(o) + [k]
  {
    if o == [] then [(k, v)]
    else if o[0].0 == k then [(k, v)] + o[1..]
    else
      var rest := Set(o[1..], k, v);
      var r := [o[0]] + rest;
      assert r[1..] == rest;
      assert Keys(o) == [o[0].0] + Keys(o[1..]);
      assert Keys(r) == [o[0].0] + Keys(rest);
      assert k in Keys(o) <==> k in Keys(o[1..]);
      r
  }

  /** The keys of `ks` other than `k`, in order. */
  function Without(ks: seq<string>, k: string): (r: seq<string>)
    ensures k !in r
    ensures forall x :: x in r <==> x in ks && x != k
    ensures |ks| == 1 ==> r == if ks[0] == k then [] else ks
  {
    if ks == [] then []
    else if ks[0] == k then Without(ks[1..], k)
    else [ks[0]] + Without(ks[1..], k)
  }

  /** The filter works key by key: what it keeps of a concatenation is what it keeps of
      each part, in order. */
  lemma {:induction false} WithoutAppend(ks: seq<string>, ls: seq<string>, k: string)
    ensures Without(ks + ls, k) == Without(ks, k) + Without(ls, k)
  {
    if ks == [] {
      assert ks + ls == ls;
    } else {
      assert (ks + ls)[0] == ks[0];
      assert (ks + ls)[1..] == ks[1..] + ls;
      WithoutAppend(ks[1..], ls, k);
    }
  }

  /** The keys of a concatenation are the keys of each part, in order. */
  lemma KeysAppend<V>(o: Object<V>, p: Object<V>)
    ensures Keys(o + p) == Keys(o) + Keys(p)
  {
    assert forall i :: 0 <= i < |o + p| ==> Keys(o + p)[i] == (Keys(o) + Keys(p))[i];
  }

  /** `delete o[k]`. */
  function Delete<V>(o: Object<V>, k: string): (r: Object<V>)
    ensures Get(r, k) == None
    ensures forall k' :: k' != k ==> Get(r, k') == Get(o, k')
    ensures Keys(r) == Without(Keys(o), k)
  {
    if o == [] then []
    else if o[0].0 == k then Delete(o[1..], k)
    else
      var r := [o[0]] + Delete(o[1..], k);
      assert Keys(r) == [o[0].0] + Keys(Delete(o[1..], k));
      r
  }

  /** The first entry with a key is the one `o[k]` reads. */
  lemma {:induction false} GetAt<V>(o: Object<V>, i: nat, k: string)
    requires i < |o| && o[i].0 == k
    requires forall j :: 0 <= j < i ==> o[j].0 != k
    ensures Get(o, k) == Some(o[i].1)
  {
    if i > 0 {
      GetAt(o[1..], i - 1, k);
    }
  }

  /** A key no entry carries reads as `undefined`. */
  lemma {:induction false} GetAbsent<V>(o: Object<V>, k: string)
    requires forall j :: 0 <= j < |o| ==> o[j].0 != k
    ensures Get(o, k) == None
  {
    if o != [] {
      GetAbsent(o[1..], k);
    }
  }

  /** Entries that do not carry a key do not change what a lookup after them finds. */
  lemma {:induction false} GetSkip<V>(head: Object<V>, rest: Object<V>, k: string)
    requires forall j :: 0 <= j < |head| ==> head[j].0 != k
    ensures Get(head + rest, k) == Get(rest, k)
  {
    if head == [] {
      assert head + rest == rest;
    } else {
      assert (head + rest)[1..] == head[1..] + rest;
      GetSkip(head[1..], rest, k);
    }
  }

  /** Looking up in an object with one more entry at the end. */
  lemma {:induction false} GetAppend<V>(o: Object<V>, k: string, v: V, x: string)
    ensures Get(o + [(k, v)], x) == if x in Keys(o) then Get(o, x) else if x == k then Some(v) else None
  {
    if o == [] {
      assert o + [(k, v)] == [(k, v)];
    } else {
      assert (o + [(k, v)])[1..] == o[1..] + [(k, v)];
      GetAppend(o[1..], k, v, x);
    }
  }

  /** Assignment keeps the keys distinct. */
  lemma {:induction false} SetKeepsDistinct<V>(o: Object<V>, k: string, v: V)
    requires DistinctKeys(o)
    ensures DistinctKeys(Set(o, k, v))
  {
    if o != [] && o[0].0 != k {
      SetKeepsDistinct(o[1..], k, v);
      HeadNotInTail(o);
      ConsDistinct(o[0], Set(o[1..], k, v));
    }
  }

  /** Deletion keeps the keys distinct. */
  lemma {:induction false} DeleteKeepsDistinct<V>(o: Object<V>, k: string)
    requires DistinctKeys(o)
    ensures DistinctKeys(Delete(o, k))
  {
    if o != [] {
      DeleteKeepsDistinct(o[1..], k);
      if o[0].0 != k {
        HeadNotInTail(o);
        ConsDistinct(o[0], Delete(o[1..], k));
      }
    }
  }

  /** With distinct keys, the first key is not among the others. */
  lemma HeadNotInTail<V>(o: Object<V>)
    requires o != [] && DistinctKeys(o)
    ensures o[0].0 !in Keys(o[1..])
  {
    forall j | 0 <= j < |o[1..]| ensures Keys(o[1..])[j] != o[0].0 {
      assert Keys(o[1..])[j] == o[j + 1].0;
    }
  }

  /** An entry whose key is new, in front of an object with distinct keys. */
  lemma ConsDistinct<V>(e: (string, V), rest: Object<V>)
    requires DistinctKeys(rest) && e.0 !in Keys(rest)
    ensures DistinctKeys([e] + rest)
  {
    var r := [e] + rest;
    forall j | 1 <= j < |r| ensures r[0].0 != r[j].0 {
      assert r[j].0 == Keys(rest)[j - 1];
    }
  }

  /** With distinct keys, deleting a key that is there removes exactly one entry. */
  lemma {:induction false} DeleteCount<V>(o: Object<V>, k: string)
    requires DistinctKeys(o)
    ensures |Delete(o, k)| == if k in Keys(o) then |o| - 1 else |o|
  {
    if o != [] {
      DeleteCount(o[1..], k);
      assert Keys(o) == [o[0].0] + Keys(o[1..]);
      if o[0].0 == k {
        forall j | 0 <= j < |o[1..]| ensures Keys(o[1..])[j] != k {
          assert Keys(o[1..])[j] == o[j + 1].0;
        }
      }
    }
  }
}

=== FILE: json.dfy ===
/** JSON values and `JSON.stringify` without indentation (ECMA-262 section 25.5.2), over the
    values the token builders put into headers and claims: strings, integers, booleans,
    arrays and objects with ordered keys. */
module Json {
  import opened Wrappers
  import opened Text
  import Encoding

  datatype Json =
    | JNull
    | JBool(b: bool)
    | JNum(n: int)
    | JStr(s: string)
    | JArr(items: seq<Json>)
    | JObj(fields: seq<(string, Json)>)

  /** How `QuoteJSONString` writes one character: the short escapes, `\u00XX` for the other
      control characters, the character itself otherwise. */
  function EscapeChar(c: char): (r: string)
    ensures 1 <= |r| <= 6
    ensures forall i :: 0 <= i < |r| ==> r[i] as int >= 0x20
    ensures r[0] == '\\' || (|r| == 1 && r[0] == c && c != '"')
  {
    if c == '"' then "\\\""
    else if c == '\\' then "\\\\"
    else if c == '\U{8}' then "\\b"
    else if c == '\U{C}' then "\\f"
    else if c == '\n' then "\\n"
    else if c == '\r' then "\\r"
    else if c == '\t' then "\\t"
    else if (c as int) < 0x20 then
      "\\u00" + [Encoding.LowerHexDigit(c as int / 16), Encoding.LowerHexDigit(c as int % 16)]
    else [c]
  }

  function Escape(s: string): (r: string)
    ensures forall i :: 0 <= i < |r| ==> r[i] as int >= 0x20
  {
    if s == [] then [] else EscapeChar(s[0]) + Escape(s[1..])
  }

  /** `QuoteJSONString`: the escaped text between double quotes. */
  function Quote(s: string): (r: string)
    ensures |r| >= 2 && r[0] == '"' && r[|r| - 1] == '"'
  {
    "\"" + Escape(s) + "\""
  }

  /** `JSON.stringify(j)`. */
  function Stringify(j: Json): (r: string)
    decreases j
  {
    match j
    case JNull => "null"
    case JBool(b) => if b then "true" else "false"
    case JNum(n) => IntToString(n)
    case JStr(s) => Quote(s)
    case JArr(items) =>
      "[" + Join(seq(|items|, i requires 0 <= i < |items| => Stringify(items[i])), ",") + "]"
    case JObj(fields) =>
      "{" + Join(seq(|fields|, i requires 0 <= i < |fields| => Quote(fields[i].0) + ":" + Stringify(fields[i].1)), ",") + "}"
  }

  /** `JSON.stringify(j, null, 2)` for a value nested at indentation `indent`: each item
      or member of a non-empty array or object on its own line, two spaces deeper, and
      `": "` between a key and its value. */
  function StringifyIndented(j: Json, indent: string): string
    decreases j
  {
    match j
    case JArr(items) =>
      if items == [] then "[]"
      else
        var inner := indent + "  ";
        "[\n" + inner
        + Join(seq(|items|, i requires 0 <= i < |items| => StringifyIndented(items[i], inner)), ",\n" + inner)
        + "\n" + indent + "]"
    case JObj(fields) =>
      if fields == [] then "{}"
      else
        var inner := indent + "  ";
        "{\n" + inner
        + Join(seq(|fields|, i requires 0 <= i < |fields| => Quote(fields[i].0) + ": " + StringifyIndented(fields[i].1, inner)), ",\n" + inner)
        + "\n" + indent + "}"
    case _ => Stringify(j)
  }

  /** Reads one JSON string body up to its closing quote: the escaped text, the rest after
      the quote. */
  function Unescape(s: string): (r: Option<(string, string)>)
    ensures r.Some? ==> |r.value.1| < |s|
  {
    if s == [] then None
    else if s[0] == '"' then Some(([], s[1..]))
    else if s[0] != '\\' then
      match Unescape(s[1..])
      case None => None
      case Some((body, rest)) => Some(([s[0]] + body, rest))
    else if |s| < 2 then None
    else
      var short: Option<char> :=
        if s[1] == '"' then Some('"') else if s[1] == '\\' then Some('\\')
        else if s[1] == 'b' then Some('\U{8}') else if s[1] == 'f' then Some('\U{C}')
        else if s[1] == 'n' then Some('\n') else if s[1] == 'r' then Some('\r')
        else if s[1] == 't' then Some('\t') else None;
      if short.Some? then
        match Unescape(s[2..])
        case None => None
        case Some((body, rest)) => Some(([short.value] + body, rest))
      else if s[1] == 'u' && |s| >= 6 && s[2] == '0' && s[3] == '0' && IsHexDigit(s[4]) && IsHexDigit(s[5]) then
        match Unescape(s[6..])
        case None => None
        case Some((body, rest)) => Some(([(HexDigitValue(s[4]) * 16 + HexDigitValue(s[5])) as char] + body, rest))
      else None
  }

  /** One escaped character is read back as itself. */
  lemma UnescapeChar(c: char, t: string)
    ensures Unescape(EscapeChar(c) + t) ==
      match Unescape(t) case None => None case Some((body, rest)) => Some(([c] + body, rest))
  {
    var e := EscapeChar(c);
    var s := e + t;
    assert s[|e|..] == t;
    if (c as int) < 0x20 && c != '\U{8}' && c != '\U{C}' && c != '\n' && c != '\r' && c != '\t' {
      UnescapeControl(c, t);
    } else {
      assert s[0] == e[0];
      if |e| == 2 {
        assert s[1] == e[1];
      }
    }
  }

  /** A control character without a short escape is written `\u00XX` and read back. */
  lemma UnescapeControl(c: char, t: string)
    requires (c as int) < 0x20 && c != '\U{8}' && c != '\U{C}' && c != '\n' && c != '\r' && c != '\t'
    ensures var s := EscapeChar(c) + t;
      |s| >= 6 && s[0] == '\\' && s[1] == 'u' && s[2] == '0' && s[3] == '0' && IsHexDigit(s[4]) && IsHexDigit(s[5])
      && (HexDigitValue(s[4]) * 16 + HexDigitValue(s[5])) as char == c && s[6..] == t
  {
    var s := EscapeChar(c) + t;
    var hi, lo := Encoding.LowerHexDigit(c as int / 16), Encoding.LowerHexDigit(c as int % 16);
    assert s[..6] == ['\\', 'u', '0', '0', hi, lo];
    Encoding.HexPairValue(c as int);
  }

  /** Escaping loses nothing: reading a quoted string back stops at its closing quote and
      gives the original text. */
  lemma {:induction false} QuoteRoundTrip(s: string, rest: string)
    ensures Unescape(Escape(s) + "\"" + rest) == Some((s, rest))
  {
    if s == [] {
      assert Escape(s) + "\"" + rest == "\"" + rest;
      assert ("\"" + rest)[1..] == rest;
    } else {
      var t := Escape(s[1..]) + "\"" + rest;
      assert Escape(s) + "\"" + rest == EscapeChar(s[0]) + t;
      QuoteRoundTrip(s[1..], rest);
      UnescapeChar(s[0], t);
      assert [s[0]] + s[1..] == s;
    }
  }

  /** Two different strings never quote to the same text. */
  lemma QuoteInjective(a: string, b: string)
    requires Quote(a) == Quote(b)
    ensures a == b
  {
    QuoteRoundTrip(a, []);
    QuoteRoundTrip(b, []);
    QuotedTail(Escape(a));
    QuotedTail(Escape(b));
  }

  /** After its opening quote, a quoted text is the escaped text and the closing quote. */
  lemma QuotedTail(e: string)
    ensures ("\"" + e + "\"")[1..] == e + "\"" + []
  {
  }
}

=== FILE: jwt.dfy ===
/** HS256 tokens in JWS compact serialization (RFC 7515 section 3.1, RFC 7519): the
    `b64url` and `signHS256` helpers of the SharePoint function, which the `jsonwebtoken`
    package's `jwt.sign(payload, secret, { algorithm: "HS256", ... })` matches for the
    headers used here. */
module Jwt {
  import opened Wrappers
  import opened Text
  import opened Encoding
  import opened Json
  import JsObject
  import Env
  import opened Hmac

  /** `b64url(input)`: the UTF-8 bytes of the text in standard base64 with '=' dropped and
      '+', '/' replaced by '-', '_'. It is exactly base64url without padding, so it never
      holds the '.' that separates token parts. */
  function B64Url(input: string): (r: string)
    ensures r == Base64UrlNoPad(Utf8(input))
    ensures '.' !in r && '=' !in r && '+' !in r && '/' !in r
  {
    B64UrlIsBase64UrlNoPad(Utf8(input));
    UrlSafe(Base64(Utf8(input)))
  }

  /** The JOSE header `signHS256` builds: `alg` and `typ`, then `kid` only when the key id is
      a non-empty string. */
  function Header(kid: string): (h: Json)
    ensures h.JObj?
    ensures JsObject.Keys(h.fields) == if kid != "" then ["alg", "typ", "kid"] else ["alg", "typ"]
    ensures JsObject.Get(h.fields, "alg") == Some(JStr("HS256"))
    ensures JsObject.Get(h.fields, "kid") == if kid != "" then Some(JStr(kid)) else None
  {
    var kidField := if kid != "" then [("kid", JStr(kid))] else [];
    var fields := [("alg", JStr("HS256")), ("typ", JStr("JWT"))] + kidField;
    assert fields[1..][1..] == kidField;
    assert JsObject.Get(fields, "kid") == JsObject.Get(fields[1..], "kid") == JsObject.Get(kidField, "kid");
    JObj(fields)
  }

  /** The JWS signing input: encoded header, '.', encoded payload. */
  function SigningInput(header: Json, payload: Json): string {
    B64Url(Stringify(header)) + "." + B64Url(Stringify(payload))
  }

  /** The MAC of `data` under the UTF-8 secret, base64url-encoded the same way. */
  function Signature(secret: string, data: string, mac: Mac): (r: string)
    ensures r == Base64UrlNoPad(mac(Utf8(secret), Utf8(data)))
  {
    B64UrlIsBase64UrlNoPad(mac(Utf8(secret), Utf8(data)));
    UrlSafe(Base64(mac(Utf8(secret), Utf8(data))))
  }

  /** A compact token: the signing input, '.', the signature over it. */
  function Sign(header: Json, payload: Json, secret: string, mac: Mac): (token: string)
    ensures Split(token, '.') ==
      [B64Url(Stringify(header)), B64Url(Stringify(payload)), Signature(secret, SigningInput(header, payload), mac)]
  {
    var h, p := B64Url(Stringify(header)), B64Url(Stringify(payload));
    var sig := Signature(secret, SigningInput(header, payload), mac);
    SplitThree(h, p, sig, '.');
    h + "." + p + "." + sig
  }

  /** `signHS256(payload, secret, kid)`. */
  function SignHS256(payload: Json, secret: string, kid: string, mac: Mac): string {
    Sign(Header(kid), payload, secret, mac)
  }

  /** What a receiver does with a token: three parts, a signature that matches the first
      two, and a payload part that decodes; the payload's JSON text comes back as UTF-8. */
  function Verify(token: string, secret: string, mac: Mac): Option<seq<byte>> {
    var parts := Split(token, '.');
    if |parts| != 3 then None
    else if parts[2] != Signature(secret, parts[0] + "." + parts[1], mac) then None
    else Base64UrlDecode(parts[1])
  }

  /** A token verifies under the secret it was signed with, and gives back the payload
      exactly as serialized. */
  lemma VerifySign(header: Json, payload: Json, secret: string, mac: Mac)
    ensures Verify(Sign(header, payload, secret, mac), secret, mac) == Some(Utf8(Stringify(payload)))
  {
    Base64UrlRoundTrip(Utf8(Stringify(payload)));
  }

  /** A lone base64url text has no '.' and so is never taken for a token. */
  lemma NoDotNotToken(s: string, secret: string, mac: Mac)
    requires '.' !in s
    ensures Verify(s, secret, mac).None?
  {
    SplitNoSep(s, '.');
  }

  /** The header the `jsonwebtoken` package writes for `{ algorithm: "HS256", keyid }`:
      `alg`, `typ`, then `kid`, even when the key id is empty. */
  function KeyIdHeader(keyid: string): (h: Json)
    ensures h.JObj?
    ensures JsObject.Keys(h.fields) == ["alg", "typ", "kid"]
    ensures JsObject.Get(h.fields, "kid") == Some(JStr(keyid))
  {
    var fields := [("alg", JStr("HS256")), ("typ", JStr("JWT")), ("kid", JStr(keyid))];
    JsObject.GetAt(fields, 2, "kid");
    JObj(fields)
  }

  /** For a non-empty key id the package and `signHS256` write the same header, so their
      tokens are the same text. */
  lemma KeyIdHeaderIsHeader(kid: string)
    requires kid != ""
    ensures KeyIdHeader(kid) == Header(kid)
  {
  }

  /** `jwt.sign(payload, secret, { algorithm: "HS256", keyid })`: an absent or empty secret
      is refused first; an absent key id fails the package's option check (`keyid` must be a
      string); otherwise the compact token over that header. */
  function JsonWebTokenSign(payload: Json, secret: Option<string>, keyid: Option<string>, mac: Mac): (r: Result<string>)
    ensures r.Ok? <==> Env.Truthy(secret) && keyid.Some?
    ensures !Env.Truthy(secret) ==> r == Err("secretOrPrivateKey must have a value")
    ensures r.Ok? ==> Verify(r.value, secret.value, mac) == Some(Utf8(Stringify(payload)))
  {
    if !Env.Truthy(secret) then Err("secretOrPrivateKey must have a value")
    else if keyid.None? then Err("\"keyid\" must be a string")
    else
      VerifySign(KeyIdHeader(keyid.value), payload, secret.value, mac);
      Ok(Sign(KeyIdHeader(keyid.value), payload, secret.value, mac))
  }
}

=== FILE: key_storage.dfy ===
/** The credential store of the API recipe portal (recipe-portal/lib/keyStorage.ts): named
    sets of API credentials, each encrypted with a machine key, kept in one JSON file with a
    `_metadata` entry that names the default set. The cipher is not modelled: a sealed value
    stands for the plaintext it decrypts to. The file is the store's state; reading and
    writing it, and the errors that doing so can raise, are not modelled. */
module KeyStorage {
  import opened Wrappers
  import JsObject
  import Env

  const MetadataKey: string := "_metadata"
  const DefaultBaseUrl: string := "https://aws-api.sigmacomputing.com/v2"
  const DefaultAuthUrl: string := DefaultBaseUrl + "/auth/token"
  const StoreVersion: string := "2.0"
  const DefaultSetName: string := "default"

  /** The plaintext of a sealed configuration; older files may lack the server settings. */
  datatype Payload = Payload(clientId: Option<string>, clientSecret: Option<string>,
                             baseURL: Option<string>, authURL: Option<string>)

  /** The `{ iv, encrypted }` text: the payload it decrypts to, or text that does not
      decrypt and parse under this machine's key. */
  datatype Sealed = Sealed(payload: Payload) | Unreadable

  /** What `decryptCredentials` returns. */
  datatype ApiConfig = ApiConfig(clientId: Option<string>, clientSecret: Option<string>, baseURL: string, authURL: string)

  /** An entry of the file: a credential set has the first three fields, the `_metadata`
      entry the last; `None` stands for a field the entry lacks (or, for `defaultSet`, one
      holding `null`). */
  datatype Entry = Entry(encrypted: Option<Sealed>, storedAt: Option<int>, version: Option<string>,
                         defaultSet: Option<string>)

  /** `encryptCredentials`: the server settings default when not given. */
  function Encrypt(clientId: string, clientSecret: string, baseURL: Option<string>, authURL: Option<string>): Sealed {
    Sealed(Payload(Some(clientId), Some(clientSecret), Env.Or(baseURL, Some(DefaultBaseUrl)),
                   Env.Or(authURL, Some(DefaultAuthUrl))))
  }

  /** `decryptCredentials(entry.encrypted)`: `null` when the entry has no ciphertext or it
      does not decrypt; missing server settings take their defaults. */
  function Decrypt(s: Option<Sealed>): (c: Option<ApiConfig>)
    ensures c.Some? <==> s.Some? && s.value.Sealed?
    ensures c.Some? ==> c.value.baseURL != "" && c.value.authURL != ""
    ensures s.Some? && s.value.Sealed? ==>
      c == Some(ApiConfig(s.value.payload.clientId, s.value.payload.clientSecret,
                          if Env.Truthy(s.value.payload.baseURL) then s.value.payload.baseURL.value else DefaultBaseUrl,
                          if Env.Truthy(s.value.payload.authURL) then s.value.payload.authURL.value else DefaultAuthUrl))
  {
    match s
    case Some(Sealed(p)) =>
      Some(ApiConfig(p.clientId, p.clientSecret, Env.Or(p.baseURL, Some(DefaultBaseUrl)).value,
                     Env.Or(p.authURL, Some(DefaultAuthUrl)).value))
    case _ => None
  }

  /** A file written before the server settings were stored: its sets decrypt to the
      credentials they hold and the default server. */
  lemma DecryptOldFormat(clientId: Option<string>, clientSecret: Option<string>)
    ensures Decrypt(Some(Sealed(Payload(clientId, clientSecret, None, None)))) ==
      Some(ApiConfig(clientId, clientSecret, DefaultBaseUrl, DefaultAuthUrl))
  {
  }

  /** Decryption undoes encryption, with the server settings' defaults filled in. */
  lemma DecryptEncrypt(clientId: string, clientSecret: string, baseURL: Option<string>, authURL: Option<string>)
    ensures Decrypt(Some(Encrypt(clientId, clientSecret, baseURL, authURL))) ==
      Some(ApiConfig(Some(clientId), Some(clientSecret),
                     if Env.Truthy(baseURL) then baseURL.value else DefaultBaseUrl,
                     if Env.Truthy(authURL) then authURL.value else DefaultAuthUrl))
  {
    assert Env.Truthy(Some(DefaultBaseUrl)) && Env.Truthy(Some(DefaultAuthUrl));
  }

  /** The entry `storeCredentials` writes. */
  function CredentialEntry(sealed: Sealed, now: int): Entry {
    Entry(Some(sealed), Some(now), Some(StoreVersion), None)
  }

  /** `Object.keys(all).filter(k => k !== '_metadata')`. */
  function Names(entries: JsObject.Object<Entry>): (names: seq<string>)
    ensures MetadataKey !in names
    ensures forall k :: k in names <==> k in JsObject.Keys(entries) && k != MetadataKey
    ensures |entries| == 1 ==> names == if entries[0].0 == MetadataKey then [] else [entries[0].0]
  {
    JsObject.Without(JsObject.Keys(entries), MetadataKey)
  }

  /** The names keep the file's enumeration order: those of a concatenation are those of
      each part, in order. */
  lemma NamesAppend(entries: JsObject.Object<Entry>, more: JsObject.Object<Entry>)
    ensures Names(entries + more) == Names(entries) + Names(more)
  {
    JsObject.KeysAppend(entries, more);
    JsObject.WithoutAppend(JsObject.Keys(entries), JsObject.Keys(more), MetadataKey);
  }

  /** The first n entries are all the `_metadata` entry. */
  predicate MetadataBefore(entries: JsObject.Object<Entry>, n: nat)
    requires n <= |entries|
  {
    forall j :: 0 <= j < n ==> entries[j].0 == MetadataKey
  }

  /** `Object.keys(all).find(k => k !== '_metadata')`. */
  function FirstName(entries: JsObject.Object<Entry>): (k: Option<string>)
    ensures k.None? <==> MetadataBefore(entries, |entries|)
    ensures k.Some? ==> k.value != MetadataKey && k.value in JsObject.Keys(entries)
    ensures forall i :: 0 <= i < |entries| && entries[i].0 != MetadataKey && MetadataBefore(entries, i) ==>
      k == Some(entries[i].0)
  {
    if entries == [] then None
    else if entries[0].0 != MetadataKey then Some(entries[0].0)
    else
      var rest := entries[1..];
      assert JsObject.Keys(entries) == [entries[0].0] + JsObject.Keys(rest);
      assert forall i :: 1 <= i < |entries| ==> entries[i] == rest[i - 1];
      assert forall i :: 1 <= i <= |entries| ==> (MetadataBefore(entries, i) <==> MetadataBefore(rest, i - 1));
      FirstName(rest)
  }

  /** The name `find` returns is the first of the names. */
  lemma {:induction false} FirstNameIsFirst(entries: JsObject.Object<Entry>)
    ensures FirstName(entries) == if Names(entries) == [] then None else Some(Names(entries)[0])
  {
    if entries != [] {
      FirstNameIsFirst(entries[1..]);
      assert JsObject.Keys(entries) == [entries[0].0] + JsObject.Keys(entries[1..]);
    }
  }

  /** `all._metadata?.defaultSet`, `None` standing for `undefined` and `null`. */
  function DefaultSet(entries: JsObject.Object<Entry>): Option<string> {
    match JsObject.Get(entries, MetadataKey)
    case Some(m) => m.defaultSet
    case None => None
  }

  /** The set the name picks, decrypted: `null` when there is no such entry. */
  function Fetch(entries: JsObject.Object<Entry>, name: string): Option<ApiConfig> {
    match JsObject.Get(entries, name)
    case Some(e) => Decrypt(e.encrypted)
    case None => None
  }

  /** The file after `storeCredentials`: the set under its name, and a `_metadata` entry
      naming it the default when the file had none. */
  function Stored(entries: JsObject.Object<Entry>, name: string, entry: Entry): JsObject.Object<Entry> {
    var withSet := JsObject.Set(entries, name, entry);
    if JsObject.Get(withSet, MetadataKey).None? then JsObject.Set(withSet, MetadataKey, Entry(None, None, None, Some(name)))
    else withSet
  }

  /** A stored set reads back; the first set stored becomes the default, and a later one
      leaves the default alone. */
  lemma StoredFound(entries: JsObject.Object<Entry>, name: string, entry: Entry)
    requires name != MetadataKey
    ensures JsObject.Get(Stored(entries, name, entry), name) == Some(entry)
    ensures name in Names(Stored(entries, name, entry))
    ensures JsObject.Get(entries, MetadataKey).None? ==> DefaultSet(Stored(entries, name, entry)) == Some(name)
    ensures JsObject.Get(entries, MetadataKey).Some? ==> DefaultSet(Stored(entries, name, entry)) == DefaultSet(entries)
  {
    JsObject.GetDefined(Stored(entries, name, entry), name);
  }

  /** Storing credentials and reading them back by name gives them, with the server
      settings' defaults filled in. */
  lemma StoreThenFetch(entries: JsObject.Object<Entry>, name: string, clientId: string, clientSecret: string,
                       baseURL: Option<string>, authURL: Option<string>, now: int)
    requires name != MetadataKey
    ensures Fetch(Stored(entries, name, CredentialEntry(Encrypt(clientId, clientSecret, baseURL, authURL), now)), name) ==
      Some(ApiConfig(Some(clientId), Some(clientSecret),
                     if Env.Truthy(baseURL) then baseURL.value else DefaultBaseUrl,
                     if Env.Truthy(authURL) then authURL.value else DefaultAuthUrl))
  {
    var e := CredentialEntry(Encrypt(clientId, clientSecret, baseURL, authURL), now);
    StoredFound(entries, name, e);
    DecryptEncrypt(clientId, clientSecret, baseURL, authURL);
  }

  /** `remainingNames[0] || null`. */
  function FirstOrNull(names: seq<string>): (d: Option<string>)
    ensures d.Some? ==> names != [] && d.value == names[0] && d.value != ""
    ensures d.None? ==> names == [] || names[0] == ""
  {
    if names != [] && names[0] != "" then Some(names[0]) else None
  }

  /** The file after clearing one set that is there: the set is gone, and when it was the
      default the default moves to the first remaining name, or `null`. */
  function Cleared(entries: JsObject.Object<Entry>, name: string): JsObject.Object<Entry> {
    var rest := JsObject.Delete(entries, name);
    if DefaultSet(rest) == Some(name) then
      JsObject.Set(rest, MetadataKey, JsObject.Get(rest, MetadataKey).value.(defaultSet := FirstOrNull(Names(rest))))
    else rest
  }

  /** Clearing a set removes it and no other set, and never leaves the default naming it. */
  lemma ClearedSet(entries: JsObject.Object<Entry>, name: string)
    requires JsObject.DistinctKeys(entries) && name != MetadataKey
    ensures JsObject.Get(Cleared(entries, name), name) == None
    ensures forall k :: k != name && k != MetadataKey ==> JsObject.Get(Cleared(entries, name), k) == JsObject.Get(entries, k)
    ensures Names(Cleared(entries, name)) == Names(JsObject.Delete(entries, name))
    ensures DefaultSet(Cleared(entries, name)) != Some(name)
    ensures DefaultSet(entries) == Some(name) ==>
      DefaultSet(Cleared(entries, name)) == FirstOrNull(Names(JsObject.Delete(entries, name)))
  {
    var rest := JsObject.Delete(entries, name);
    assert name !in Names(rest);
    if DefaultSet(rest) == Some(name) {
      JsObject.GetDefined(rest, MetadataKey);
      assert MetadataKey in JsObject.Keys(rest);
    }
  }

  /** The store: whether the file exists, and its entries in key order. */
  class CredentialStore {
    var fileExists: bool
    var entries: JsObject.Object<Entry>

    /** Each key once, and no entries without the file. */
    predicate Valid()
      reads this
    {
      JsObject.DistinctKeys(entries) && (!fileExists ==> entries == [])
    }

    /** A machine without the file. */
    constructor()
      ensures Valid() && !fileExists && entries == []
    {
      fileExists := false;
      entries := [];
    }

    /** `storeCredentials(clientId, clientSecret, name, baseURL, authURL)`: `None` for the
        name means the parameter was left out; the clock reading is an input. */
    method StoreCredentials(clientId: string, clientSecret: string, name: Option<string>,
                            baseURL: Option<string>, authURL: Option<string>, now: int) returns (ok: bool)
      requires Valid()
      modifies this
      ensures Valid() && ok && fileExists
      ensures var n := if name.Some? then name.value else DefaultSetName;
        entries == Stored(old(entries), n, CredentialEntry(Encrypt(clientId, clientSecret, baseURL, authURL), now))
    {
      var n := if name.Some? then name.value else DefaultSetName;
      var e := CredentialEntry(Encrypt(clientId, clientSecret, baseURL, authURL), now);
      JsObject.SetKeepsDistinct(entries, n, e);
      entries := JsObject.Set(entries, n, e);
      if JsObject.Get(entries, MetadataKey).None? {
        JsObject.SetKeepsDistinct(entries, MetadataKey, Entry(None, None, None, Some(n)));
        entries := JsObject.Set(entries, MetadataKey, Entry(None, None, None, Some(n)));
      }
      fileExists := true;
      ok := true;
    }

    /** `getStoredCredentials(name)`: the named set, else the default set, else the first
        set; `null` without the file or without such a set. */
    method GetStoredCredentials(name: Option<string>) returns (r: Option<ApiConfig>)
      ensures !fileExists ==> r.None?
      ensures fileExists && Env.Truthy(name) ==> r == Fetch(entries, name.value)
      ensures fileExists && !Env.Truthy(name) && Env.Truthy(DefaultSet(entries)) ==> r == Fetch(entries, DefaultSet(entries).value)
      ensures fileExists && !Env.Truthy(name) && !Env.Truthy(DefaultSet(entries)) ==>
        r == if Env.Truthy(FirstName(entries)) then Fetch(entries, FirstName(entries).value) else None
    {
      if !fileExists {
        return None;
      }
      var target := name;
      if !Env.Truthy(target) {
        target := Env.Or(DefaultSet(entries), FirstName(entries));
      }
      if !Env.Truthy(target) {
        return None;
      }
      var entry := JsObject.Get(entries, target.value);
      if entry.None? {
        return None;
      }
      r := Decrypt(entry.value.encrypted);
    }

    /** `hasStoredCredentials()`. */
    method HasStoredCredentials() returns (b: bool)
      ensures b == fileExists
    {
      b := fileExists;
    }

    /** `getStoredCredentialNames()`: every key but `_metadata`, in order. */
    method GetStoredCredentialNames() returns (names: seq<string>)
      requires Valid()
      ensures MetadataKey !in names
      ensures forall k :: k in names <==> k in JsObject.Keys(entries) && k != MetadataKey
      ensures names == Names(entries)
    {
      if !fileExists {
        return [];
      }
      names := JsObject.Without(JsObject.Keys(entries), MetadataKey);
    }

    /** `getDefaultCredentialSetName()`. */
    method GetDefaultCredentialSetName() returns (d: Option<string>)
      ensures !fileExists ==> d.None?
      ensures fileExists ==> d == if Env.Truthy(DefaultSet(entries)) then DefaultSet(entries) else None
    {
      if !fileExists {
        return None;
      }
      d := if Env.Truthy(DefaultSet(entries)) then DefaultSet(entries) else None;
    }

    /** `setDefaultCredentialSet(name)`: false, changing nothing, without the file or an
        entry of that name; otherwise the `_metadata` entry (created empty if missing)
        names it. */
    method SetDefaultCredentialSet(name: string) returns (ok: bool)
      requires Valid()
      modifies this
      ensures Valid() && fileExists == old(fileExists)
      ensures ok <==> old(fileExists) && name in JsObject.Keys(old(entries))
      ensures !ok ==> entries == old(entries)
      ensures ok ==> DefaultSet(entries) == Some(name)
      ensures ok ==> forall k :: k != MetadataKey ==> JsObject.Get(entries, k) == JsObject.Get(old(entries), k)
    {
      if !fileExists {
        return false;
      }
      JsObject.GetDefined(entries, name);
      if JsObject.Get(entries, name).None? {
        return false;
      }
      var meta := JsObject.Get(entries, MetadataKey);
      var m := if meta.Some? then meta.value else Entry(None, None, None, None);
      JsObject.SetKeepsDistinct(entries, MetadataKey, m.(defaultSet := Some(name)));
      entries := JsObject.Set(entries, MetadataKey, m.(defaultSet := Some(name)));
      ok := true;
    }

    /** `clearStoredCredentials(name)`: with no name the file goes; with a name that set
        goes, and the default moves off it. */
    method ClearStoredCredentials(name: Option<string>) returns (ok: bool)
      requires Valid()
      modifies this
      ensures Valid() && ok
      ensures !old(fileExists) ==> !fileExists && entries == old(entries)
      ensures old(fileExists) && !Env.Truthy(name) ==> !fileExists && entries == []
      ensures old(fileExists) && Env.Truthy(name) ==>
        fileExists && entries == if name.value in JsObject.Keys(old(entries)) then Cleared(old(entries), name.value) else old(entries)
    {
      if !fileExists {
        return true;
      }
      if !Env.Truthy(name) {
        fileExists := false;
        entries := [];
        return true;
      }
      JsObject.GetDefined(entries, name.value);
      if JsObject.Get(entries, name.value).Some? {
        var rest := JsObject.Delete(entries, name.value);
        JsObject.DeleteKeepsDistinct(entries, name.value);
        if DefaultSet(rest) == Some(name.value) {
          var meta := JsObject.Get(rest, MetadataKey).value;
          JsObject.SetKeepsDistinct(rest, MetadataKey, meta.(defaultSet := FirstOrNull(Names(rest))));
          rest := JsObject.Set(rest, MetadataKey, meta.(defaultSet := FirstOrNull(Names(rest))));
        }
        entries := rest;
      }
      ok := true;
    }
  }
}

=== FILE: link_sharing.dfy ===
/** `GET /api/generate-embed-url` of the link-sharing QuickStart
    (embedding/sigma_embed_link_sharing/embed-api.js): the query text is built by appending
    `&:name=value` pieces one after the other, values interpolated unescaped, then signed
    with HMAC-SHA256 as hex and the signature appended last. */
module LinkSharingEmbed {
  import opened Wrappers
  import opened Text
  import opened Encoding
  import Env
  import Hmac
  import QueryString

  /** `${name}=${value}`: the value goes in as it is. */
  function Param(name: string, value: string): string {
    name + "=" + value
  }

  const SignatureName: string := ":signature"

  /** The request query fields read; `None` stands for an absent field. */
  datatype Query = Query(exploreKey: Option<string>, bookmarkId: Option<string>)

  /** The variables read when the server starts, as template literals write them: a
      variable that is not set reads "undefined". */
  datatype Config = Config(clientId: string, email: string, externalUserId: string, externalUserTeam: string,
                           accountType: string, mode: string, sessionLength: string)

  function ReadConfig(env: Env.Env): (c: Config)
    ensures Env.Lookup(env, "CLIENT_ID").None? ==> c.clientId == "undefined"
  {
    Config(Env.Interpolate(Env.Lookup(env, "CLIENT_ID")), Env.Interpolate(Env.Lookup(env, "EMAIL")),
           Env.Interpolate(Env.Lookup(env, "EXTERNAL_USER_ID")), Env.Interpolate(Env.Lookup(env, "EXTERNAL_USER_TEAM")),
           Env.Interpolate(Env.Lookup(env, "ACCOUNT_TYPE")), Env.Interpolate(Env.Lookup(env, "MODE")),
           Env.Interpolate(Env.Lookup(env, "SESSION_LENGTH")))
  }

  /** The nine fixed parameters, in the order they are appended. */
  function FixedParams(c: Config, nonce: string, time: int): (ps: seq<string>)
    ensures |ps| == 9
    ensures ps[0] == Param(":nonce", nonce) && ps[1] == Param(":client_id", c.clientId)
    ensures ps[2] == Param(":email", c.email) && ps[3] == Param(":external_user_id", c.externalUserId)
    ensures ps[4] == Param(":external_user_team", c.externalUserTeam) && ps[5] == Param(":account_type", c.accountType)
    ensures ps[6] == Param(":mode", c.mode) && ps[7] == Param(":session_length", c.sessionLength)
    ensures ps[8] == Param(":time", IntToString(time))
  {
    [Param(":nonce", nonce)] + [Param(":client_id", c.clientId)] + [Param(":email", c.email)] +
    [Param(":external_user_id", c.externalUserId)] + [Param(":external_user_team", c.externalUserTeam)] +
    [Param(":account_type", c.accountType)] + [Param(":mode", c.mode)] + [Param(":session_length", c.sessionLength)] +
    [Param(":time", IntToString(time))]
  }

  /** `&:explore` when the key is truthy, then `&:bookmark` when the id is truthy. */
  function OptionalParams(query: Query): (ps: seq<string>)
    ensures |ps| == (if Env.Truthy(query.exploreKey) then 1 else 0) + (if Env.Truthy(query.bookmarkId) then 1 else 0)
    ensures Env.Truthy(query.exploreKey) ==> ps[0] == Param(":explore", query.exploreKey.value)
    ensures Env.Truthy(query.bookmarkId) ==> ps[|ps| - 1] == Param(":bookmark", query.bookmarkId.value)
  {
    (if Env.Truthy(query.exploreKey) then [Param(":explore", query.exploreKey.value)] else []) +
    (if Env.Truthy(query.bookmarkId) then [Param(":bookmark", query.bookmarkId.value)] else [])
  }

  /** Every parameter of the query, in order. */
  function Params(c: Config, nonce: string, time: int, query: Query): seq<string> {
    FixedParams(c, nonce, time) + OptionalParams(query)
  }

  /** `EMBED_PATH + searchParams`: the text the signature covers. */
  function SignedText(env: Env.Env, nonce: string, time: int, query: Query): string {
    Env.Interpolate(Env.Lookup(env, "EMBED_PATH")) + "?" + Join(Params(ReadConfig(env), nonce, time, query), "&")
  }

  /** The route's answer: the URL, or "Internal Server Error" when `Buffer.from` is handed
      an unset `EMBED_SECRET`. */
  function EmbedUrl(env: Env.Env, nonce: string, time: int, query: Query, mac: Hmac.Mac): (r: Result<string>)
    ensures r.Ok? <==> Env.Lookup(env, "EMBED_SECRET").Some?
    ensures r.Err? ==> r.error == "Internal Server Error"
    ensures r.Ok? ==>
      var signed := SignedText(env, nonce, time, query);
      r.value == signed + "&" + Param(SignatureName, Hmac.HexDigest(Env.Lookup(env, "EMBED_SECRET").value, signed, mac))
  {
    var secret := Env.Lookup(env, "EMBED_SECRET");
    if secret.None? then Err("Internal Server Error")
    else
      var signed := SignedText(env, nonce, time, query);
      Ok(signed + "&" + Param(SignatureName, Hmac.HexDigest(secret.value, signed, mac)))
  }

  /** The route handler. The nonce (`crypto.randomUUID()`), the clock reading in
      milliseconds and HMAC-SHA256 are inputs. */
  method GenerateEmbedUrl(env: Env.Env, query: Query, nonce: string, nowMs: int, mac: Hmac.Mac)
    returns (r: Result<string>)
    ensures r == EmbedUrl(env, nonce, Env.Seconds(nowMs), query, mac)
  {
    var time := Env.Seconds(nowMs);
    var searchParams := WriteSearchParams(ReadConfig(env), query, nonce, time);
    var secret := Env.Lookup(env, "EMBED_SECRET");
    if secret.None? {
      return Err("Internal Server Error");
    }
    var urlWithSearchParams := Env.Interpolate(Env.Lookup(env, "EMBED_PATH")) + searchParams;
    assert urlWithSearchParams == SignedText(env, nonce, time, query);
    var signature := Hmac.HexDigest(secret.value, urlWithSearchParams, mac);
    r := Ok(urlWithSearchParams + "&" + Param(SignatureName, signature));
  }

  /** The handler's `searchParams`: `?:nonce=…`, then one `&:name=value` at a time. */
  method WriteSearchParams(c: Config, query: Query, nonce: string, time: int) returns (searchParams: string)
    ensures searchParams == "?" + Join(Params(c, nonce, time, query), "&")
  {
    searchParams := "?" + Param(":nonce", nonce);
    ghost var parts := [Param(":nonce", nonce)];
    searchParams, parts := Append(searchParams, parts, Param(":client_id", c.clientId));
    searchParams, parts := Append(searchParams, parts, Param(":email", c.email));
    searchParams, parts := Append(searchParams, parts, Param(":external_user_id", c.externalUserId));
    searchParams, parts := Append(searchParams, parts, Param(":external_user_team", c.externalUserTeam));
    searchParams, parts := Append(searchParams, parts, Param(":account_type", c.accountType));
    searchParams, parts := Append(searchParams, parts, Param(":mode", c.mode));
    searchParams, parts := Append(searchParams, parts, Param(":session_length", c.sessionLength));
    searchParams, parts := Append(searchParams, parts, Param(":time", IntToString(time)));
    assert parts == FixedParams(c, nonce, time);
    if Env.Truthy(query.exploreKey) {
      searchParams, parts := Append(searchParams, parts, Param(":explore", query.exploreKey.value));
    }
    if Env.Truthy(query.bookmarkId) {
      searchParams, parts := Append(searchParams, parts, Param(":bookmark", query.bookmarkId.value));
    }
    assert parts == Params(c, nonce, time, query);
  }

  /** The layout of the query: nine fixed parameters from `:nonce` to `:time`, then
      `:explore` exactly when the key is truthy, then `:bookmark` exactly when the id is. */
  lemma ParamsLayout(c: Config, nonce: string, time: int, query: Query)
    ensures var ps := Params(c, nonce, time, query);
      && |ps| == 9 + (if Env.Truthy(query.exploreKey) then 1 else 0) + (if Env.Truthy(query.bookmarkId) then 1 else 0)
      && ps[0] == Param(":nonce", nonce) && ps[1] == Param(":client_id", c.clientId)
      && ps[8] == Param(":time", IntToString(time))
      && (Env.Truthy(query.exploreKey) ==> ps[9] == Param(":explore", query.exploreKey.value))
      && (Env.Truthy(query.bookmarkId) ==> ps[|ps| - 1] == Param(":bookmark", query.bookmarkId.value))
  {
    var fixed := FixedParams(c, nonce, time);
    assert fixed[0] == Param(":nonce", nonce) && fixed[1] == Param(":client_id", c.clientId);
    assert fixed[8] == Param(":time", IntToString(time));
  }

  /** The `:time` parameter reads back as the clock reading in whole seconds. */
  lemma TimeReadBack(nowMs: int)
    requires nowMs >= 0
    ensures ParseInt(IntToString(Env.Seconds(nowMs))) == Some(Env.Seconds(nowMs))
  {
    ParseIntNatToString(Env.Seconds(nowMs));
  }

  /** What the receiver reads: the embed path before the '?', then every parameter in
      order, then the signature over the text before it, provided no value holds a '&'
      (values are not escaped). */
  lemma EmbedUrlReadBack(env: Env.Env, nonce: string, time: int, query: Query, mac: Hmac.Mac)
    requires Env.Lookup(env, "EMBED_SECRET").Some?
    requires '?' !in Env.Interpolate(Env.Lookup(env, "EMBED_PATH"))
    requires forall i :: 0 <= i < |Params(ReadConfig(env), nonce, time, query)| ==>
      '&' !in Params(ReadConfig(env), nonce, time, query)[i]
    ensures var ps := Params(ReadConfig(env), nonce, time, query);
      var signed := SignedText(env, nonce, time, query);
      var all := ps + [Param(SignatureName, Hmac.HexDigest(Env.Lookup(env, "EMBED_SECRET").value, signed, mac))];
      && SplitFirst(EmbedUrl(env, nonce, time, query, mac).value, '?') == Some((Env.Interpolate(Env.Lookup(env, "EMBED_PATH")), Join(all, "&")))
      && Split(Join(all, "&"), '&') == all
  {
    var ps := Params(ReadConfig(env), nonce, time, query);
    var path := Env.Interpolate(Env.Lookup(env, "EMBED_PATH"));
    var signed := SignedText(env, nonce, time, query);
    var sig := Hmac.HexDigest(Env.Lookup(env, "EMBED_SECRET").value, signed, mac);
    SignatureParamPlain(sig);
    SignedReadBack(path, ps, Param(SignatureName, sig));
  }

  /** The signature parameter holds no '&'. */
  lemma SignatureParamPlain(sig: string)
    requires forall i :: 0 <= i < |sig| ==> IsLowerHex(sig[i])
    ensures '&' !in Param(SignatureName, sig)
  {
    assert '&' !in SignatureName + "=";
  }

  lemma SignedReadBack(path: string, ps: seq<string>, last: string)
    requires '?' !in path && |ps| >= 1 && '&' !in last
    requires forall i :: 0 <= i < |ps| ==> '&' !in ps[i]
    ensures SplitFirst(path + "?" + Join(ps, "&") + "&" + last, '?') == Some((path, Join(ps + [last], "&")))
    ensures Split(Join(ps + [last], "&"), '&') == ps + [last]
  {
    var all := ps + [last];
    forall i | 0 <= i < |all| ensures '&' !in all[i] {
      if i < |ps| {
        assert all[i] == ps[i];
      }
    }
    JoinAppendAfter(path + "?", ps, last, "&");
    QueryString.RawQueryReadBack(path, all);
  }

  /** Appending a separator and one more part after a join, behind any prefix. */
  lemma JoinAppendAfter(pre: string, ps: seq<string>, last: string, sep: string)
    requires |ps| >= 1
    ensures pre + Join(ps, sep) + sep + last == pre + Join(ps + [last], sep)
  {
    JoinAppend(ps, last, sep);
    var j := Join(ps, sep);
    assert pre + j + sep + last == pre + (j + sep + last);
  }

  /** `searchParams += `&${param}``, with the parameters written so far. */
  method Append(searchParams: string, ghost parts: seq<string>, param: string)
    returns (r: string, ghost parts': seq<string>)
    requires parts != [] && searchParams == "?" + Join(parts, "&")
    ensures parts' == parts + [param]
    ensures r == "?" + Join(parts', "&")
  {
    r := searchParams + "&" + param;
    parts' := parts + [param];
    JoinAppend(parts, param, "&");
  }
}

=== FILE: multi_area_bookmarks.dfy ===
/** The multi-area bookmark store of the plugin use-case quickstart
    (plugin_use_cases/helpers/multi-area-bookmarks.js): beside the Sigma bookmark that keeps
    the explore state, a local database maps a local bookmark id to the node each dashboard
    area shows. The database is an object of bookmarks under their local ids plus a
    metadata record; the file it is written to is not modelled. */
module MultiAreaBookmarks {
  import opened Wrappers
  import JsObject
  import StableSort

  /** Area name to the node it shows, `None` standing for `null`. */
  type Areas = JsObject.Object<Option<string>>

  /** A stored bookmark; the ISO timestamps are kept as the instants they write, in
      milliseconds. */
  datatype Bookmark = Bookmark(id: string, name: string, sigmaBookmarkId: string, workbookUrlId: string,
                               areas: Areas, created: int, updated: int)

  /** What a save is given; `None` stands for an absent `areas`. */
  datatype BookmarkConfig = BookmarkConfig(name: string, sigmaBookmarkId: string, workbookUrlId: string,
                                           areas: Option<Areas>)

  /** The fields an update carries; `None` stands for a field the update does not have. */
  datatype Updates = Updates(id: Option<string>, name: Option<string>, sigmaBookmarkId: Option<string>,
                             workbookUrlId: Option<string>, areas: Option<Areas>, created: Option<int>)

  datatype Metadata = Metadata(version: string, created: int)

  datatype Stats = Stats(totalBookmarks: nat, metadata: Metadata)

  const Version: string := "1.0.0"

  /** The bookmark a save stores: one timestamp for both `created` and `updated`, and no
      areas when none are given. */
  function NewBookmark(config: BookmarkConfig, id: string, now: int): (b: Bookmark)
    ensures b.id == id && b.created == now && b.updated == now
    ensures b.name == config.name && b.sigmaBookmarkId == config.sigmaBookmarkId && b.workbookUrlId == config.workbookUrlId
    ensures config.areas.None? ==> b.areas == []
  {
    Bookmark(id, config.name, config.sigmaBookmarkId, config.workbookUrlId,
             if config.areas.Some? then config.areas.value else [], now, now)
  }

  /** A field of `{...existing, ...updates}`: the update's value when it has the field. */
  function Override<T>(u: Option<T>, v: T): T {
    if u.Some? then u.value else v
  }

  /** `{...existing, ...updates, updated: now}`. */
  function Merged(existing: Bookmark, updates: Updates, now: int): (b: Bookmark)
    ensures b.updated == now
  {
    Bookmark(Override(updates.id, existing.id), Override(updates.name, existing.name),
             Override(updates.sigmaBookmarkId, existing.sigmaBookmarkId),
             Override(updates.workbookUrlId, existing.workbookUrlId),
             Override(updates.areas, existing.areas), Override(updates.created, existing.created), now)
  }

  /** Two updates in a row: the later one's fields win. */
  function Then(first: Updates, second: Updates): Updates {
    Updates(if second.id.Some? then second.id else first.id,
            if second.name.Some? then second.name else first.name,
            if second.sigmaBookmarkId.Some? then second.sigmaBookmarkId else first.sigmaBookmarkId,
            if second.workbookUrlId.Some? then second.workbookUrlId else first.workbookUrlId,
            if second.areas.Some? then second.areas else first.areas,
            if second.created.Some? then second.created else first.created)
  }

  /** An update without fields only moves `updated`; an update keeps every field it does
      not carry; and two updates merge like one carrying the later value of each field. */
  lemma MergedFields(e: Bookmark, u: Updates, v: Updates, t: int, t': int)
    ensures Merged(e, Updates(None, None, None, None, None, None), t) == e.(updated := t)
    ensures u.name.None? ==> Merged(e, u, t).name == e.name
    ensures u.areas.Some? ==> Merged(e, u, t).areas == u.areas.value
    ensures u.created.None? ==> Merged(e, u, t).created == e.created
    ensures Merged(Merged(e, u, t), v, t') == Merged(e, Then(u, v), t')
  {
  }

  /** The first bookmark, in enumeration order, with the given Sigma bookmark id. */
  function FirstWithSigmaId(entries: JsObject.Object<Bookmark>, sigmaBookmarkId: string): (r: Option<Bookmark>)
    ensures r.None? <==> forall i :: 0 <= i < |entries| ==> entries[i].1.sigmaBookmarkId != sigmaBookmarkId
    ensures r.Some? ==> r.value.sigmaBookmarkId == sigmaBookmarkId && r.value in JsObject.Values(entries)
  {
    if entries == [] then None
    else if entries[0].1.sigmaBookmarkId == sigmaBookmarkId then Some(entries[0].1)
    else
      var r := FirstWithSigmaId(entries[1..], sigmaBookmarkId);
      assert JsObject.Values(entries) == [entries[0].1] + JsObject.Values(entries[1..]);
      assert forall i :: 1 <= i < |entries| ==> entries[i] == entries[1..][i - 1];
      r
  }

  /** The first match wins, whatever the later bookmarks hold. */
  lemma {:induction false} FirstWithSigmaIdAt(entries: JsObject.Object<Bookmark>, i: nat, sigmaBookmarkId: string)
    requires i < |entries| && entries[i].1.sigmaBookmarkId == sigmaBookmarkId
    requires forall j :: 0 <= j < i ==> entries[j].1.sigmaBookmarkId != sigmaBookmarkId
    ensures FirstWithSigmaId(entries, sigmaBookmarkId) == Some(entries[i].1)
  {
    if i > 0 {
      var rest := entries[1..];
      assert rest[i - 1] == entries[i];
      forall j | 0 <= j < i - 1 ensures rest[j].1.sigmaBookmarkId != sigmaBookmarkId {
        assert rest[j] == entries[j + 1];
      }
      FirstWithSigmaIdAt(rest, i - 1, sigmaBookmarkId);
    }
  }

  /** The bookmarks of a workbook, in the order given. */
  function ForWorkbook(bs: seq<Bookmark>, workbookUrlId: string): (r: seq<Bookmark>)
    ensures forall b :: b in r <==> b in bs && b.workbookUrlId == workbookUrlId
    ensures |bs| == 1 ==> r == if bs[0].workbookUrlId == workbookUrlId then bs else []
  {
    if bs == [] then []
    else
      var init, last := bs[..|bs| - 1], bs[|bs| - 1];
      assert bs == init + [last];
      ForWorkbook(init, workbookUrlId) + (if last.workbookUrlId == workbookUrlId then [last] else [])
  }

  /** The filter works bookmark by bookmark: what it keeps of a concatenation is what it
      keeps of each part, in order. */
  lemma {:induction false} ForWorkbookAppend(bs: seq<Bookmark>, cs: seq<Bookmark>, workbookUrlId: string)
    ensures ForWorkbook(bs + cs, workbookUrlId) == ForWorkbook(bs, workbookUrlId) + ForWorkbook(cs, workbookUrlId)
  {
    if cs == [] {
      assert bs + cs == bs;
    } else {
      var init := cs[..|cs| - 1];
      assert (bs + cs)[..|bs + cs| - 1] == bs + init;
      assert (bs + cs)[|bs + cs| - 1] == cs[|cs| - 1];
      ForWorkbookAppend(bs, init, workbookUrlId);
    }
  }

  /** The sort key of `(a, b) => new Date(b.created) - new Date(a.created)`: newest first. */
  function NewestFirst(b: Bookmark): int {
    -b.created
  }

  /** What a listing returns: the workbook's bookmarks, newest first, bookmarks created at
      the same instant in enumeration order. */
  function Listed(entries: JsObject.Object<Bookmark>, workbookUrlId: string): seq<Bookmark> {
    StableSort.SortBy(ForWorkbook(JsObject.Values(entries), workbookUrlId), NewestFirst)
  }

  /** One more bookmark of the prefix is kept or dropped on its own. */
  lemma ForWorkbookStep(bs: seq<Bookmark>, i: nat, workbookUrlId: string)
    requires i < |bs|
    ensures ForWorkbook(bs[..i + 1], workbookUrlId) ==
      ForWorkbook(bs[..i], workbookUrlId) + (if bs[i].workbookUrlId == workbookUrlId then [bs[i]] else [])
  {
    assert bs[..i + 1][..i] == bs[..i];
  }

  /** A listing holds exactly the workbook's bookmarks, newest first. */
  lemma ListedFacts(bs: seq<Bookmark>, workbookUrlId: string)
    ensures var r := StableSort.SortBy(ForWorkbook(bs, workbookUrlId), NewestFirst);
      && (forall b :: b in r <==> b in bs && b.workbookUrlId == workbookUrlId)
      && (forall i, j :: 0 <= i < j < |r| ==> r[i].created >= r[j].created)
  {
    var found := ForWorkbook(bs, workbookUrlId);
    var r := StableSort.SortBy(found, NewestFirst);
    StableSort.SortByMembers(found, NewestFirst);
    forall i, j | 0 <= i < j < |r| ensures r[i].created >= r[j].created {
      assert NewestFirst(r[i]) <= NewestFirst(r[j]);
    }
  }

  /** The database with its lazily created default content. */
  class BookmarkDb {
    var bookmarks: JsObject.Object<Bookmark>
    var metadata: Metadata

    /** Every local id names one bookmark. */
    predicate Valid()
      reads this
    {
      JsObject.DistinctKeys(bookmarks)
    }

    /** `getDatabase()` on first use: no bookmarks, and the version with the clock reading. */
    constructor(now: int)
      ensures Valid()
      ensures bookmarks == [] && metadata == Metadata(Version, now)
    {
      bookmarks := [];
      metadata := Metadata(Version, now);
    }

    /** `saveMultiAreaBookmark(config)`: the `uuidv4` id and the clock reading are inputs.
        The bookmark is stored under its id; a new id goes last and adds one bookmark. */
    method Save(config: BookmarkConfig, newId: string, now: int) returns (id: string)
      requires Valid()
      modifies this
      ensures Valid()
      ensures id == newId
      ensures bookmarks == JsObject.Set(old(bookmarks), newId, NewBookmark(config, newId, now))
      ensures newId !in JsObject.Keys(old(bookmarks)) ==> |bookmarks| == |old(bookmarks)| + 1
      ensures metadata == old(metadata)
    {
      JsObject.SetKeepsDistinct(bookmarks, newId, NewBookmark(config, newId, now));
      bookmarks := JsObject.Set(bookmarks, newId, NewBookmark(config, newId, now));
      id := newId;
    }

    /** `getMultiAreaBookmark(id)`: the bookmark stored under the id, or nothing. */
    method Get(id: string) returns (b: Option<Bookmark>)
      requires Valid()
      ensures b.Some? <==> id in JsObject.Keys(bookmarks)
      ensures forall i :: 0 <= i < |bookmarks| && bookmarks[i].0 == id ==> b == Some(bookmarks[i].1)
    {
      b := JsObject.Get(bookmarks, id);
      JsObject.GetDefined(bookmarks, id);
      forall i | 0 <= i < |bookmarks| && bookmarks[i].0 == id ensures b == Some(bookmarks[i].1) {
        JsObject.GetAt(bookmarks, i, id);
      }
    }

    /** `getMultiAreaBookmarkBySigmaId(sigmaBookmarkId)`: the first bookmark with that Sigma
        bookmark id, or `null`. */
    method GetBySigmaId(sigmaBookmarkId: string) returns (b: Option<Bookmark>)
      ensures b == FirstWithSigmaId(bookmarks, sigmaBookmarkId)
    {
      for i := 0 to |bookmarks|
        invariant FirstWithSigmaId(bookmarks[i..], sigmaBookmarkId) == FirstWithSigmaId(bookmarks, sigmaBookmarkId)
      {
        assert bookmarks[i..][1..] == bookmarks[i + 1..];
        if bookmarks[i].1.sigmaBookmarkId == sigmaBookmarkId {
          return Some(bookmarks[i].1);
        }
      }
      assert bookmarks[|bookmarks|..] == [];
      return None;
    }

    /** `listMultiAreaBookmarks(workbookUrlId)`: exactly the workbook's bookmarks, newest
        first, equal instants in enumeration order. */
    method List(workbookUrlId: string) returns (r: seq<Bookmark>)
      ensures r == Listed(bookmarks, workbookUrlId)
      ensures forall b :: b in r <==> b in JsObject.Values(bookmarks) && b.workbookUrlId == workbookUrlId
      ensures forall i, j :: 0 <= i < j < |r| ==> r[i].created >= r[j].created
      ensures multiset(r) == multiset(ForWorkbook(JsObject.Values(bookmarks), workbookUrlId))
    {
      ghost var values := JsObject.Values(bookmarks);
      var found := [];
      for i := 0 to |bookmarks|
        invariant found == ForWorkbook(values[..i], workbookUrlId)
      {
        assert values[i] == bookmarks[i].1;
        ForWorkbookStep(values, i, workbookUrlId);
        if bookmarks[i].1.workbookUrlId == workbookUrlId {
          found := found + [bookmarks[i].1];
        }
      }
      assert values[..|bookmarks|] == values;
      r := StableSort.SortBy(found, NewestFirst);
      ListedFacts(values, workbookUrlId);
    }

    /** `updateMultiAreaBookmark(id, updates)`: false, changing nothing, when no bookmark
        has the id; otherwise the merged bookmark replaces it in place. */
    method Update(id: string, updates: Updates, now: int) returns (ok: bool)
      requires Valid()
      modifies this
      ensures Valid()
      ensures ok <==> id in JsObject.Keys(old(bookmarks))
      ensures !ok ==> bookmarks == old(bookmarks)
      ensures ok ==> JsObject.Get(old(bookmarks), id).Some? &&
                     bookmarks == JsObject.Set(old(bookmarks), id, Merged(JsObject.Get(old(bookmarks), id).value, updates, now))
      ensures JsObject.Keys(bookmarks) == JsObject.Keys(old(bookmarks))
      ensures metadata == old(metadata)
    {
      var existing := JsObject.Get(bookmarks, id);
      JsObject.GetDefined(bookmarks, id);
      if existing.None? {
        return false;
      }
      var updated := Merged(existing.value, updates, now);
      JsObject.SetKeepsDistinct(bookmarks, id, updated);
      bookmarks := JsObject.Set(bookmarks, id, updated);
      return true;
    }

    /** `deleteMultiAreaBookmark(id)`: false, changing nothing, when no bookmark has the id;
        otherwise exactly that bookmark is removed. */
    method Delete(id: string) returns (ok: bool)
      requires Valid()
      modifies this
      ensures Valid()
      ensures ok <==> id in JsObject.Keys(old(bookmarks))
      ensures !ok ==> bookmarks == old(bookmarks)
      ensures ok ==> bookmarks == JsObject.Delete(old(bookmarks), id) && |bookmarks| == |old(bookmarks)| - 1
      ensures metadata == old(metadata)
    {
      var existing := JsObject.Get(bookmarks, id);
      JsObject.GetDefined(bookmarks, id);
      if existing.None? {
        return false;
      }
      JsObject.DeleteKeepsDistinct(bookmarks, id);
      JsObject.DeleteCount(bookmarks, id);
      bookmarks := JsObject.Delete(bookmarks, id);
      return true;
    }

    /** `getStats()`: the number of local ids and the metadata. */
    method GetStats() returns (s: Stats)
      ensures s.totalBookmarks == |JsObject.Keys(bookmarks)| && s.metadata == metadata
    {
      s := Stats(|JsObject.Keys(bookmarks)|, metadata);
    }
  }
}

=== FILE: parameter_form.dfy ===
/** The smart-parameter form of the API recipe portal
    (recipe-portal/components/SmartParameterForm.tsx): how a date value is shown in a date
    input, how changing a parameter blanks the parameters that depend on it and prunes the
    cached resource lists, and the key a resource list is cached under. */
module ParameterForm {
  import opened Wrappers
  import Text
  import Env
  import JsObject
  import SmartParameters

  type SmartParameter = SmartParameters.SmartParameter

  /** An item of a fetched resource list. */
  datatype Resource = Resource(id: string, name: string, description: Option<string>)

  type ResourceList = seq<Resource>

  /** `n` to `m` ASCII digits, what `\d{n,m}` matches. */
  predicate DigitRun(s: string, n: nat, m: nat) {
    n <= |s| <= m && forall i :: 0 <= i < |s| ==> Text.IsDigit(s[i])
  }

  /** `/^\d{4}-\d{2}-\d{2}$/`. */
  predicate IsIsoDate(s: string) {
    |s| == 10 && DigitRun(s[..4], 4, 4) && s[4] == '-' && DigitRun(s[5..7], 2, 2) && s[7] == '-'
    && DigitRun(s[8..], 2, 2)
  }

  /** `/^\d{1,2}\/\d{1,2}\/\d{4}$/`: exactly three `/`-separated parts of the right sizes. */
  predicate IsSlashDate(s: string) {
    var parts := Text.Split(s, '/');
    |parts| == 3 && DigitRun(parts[0], 1, 2) && DigitRun(parts[1], 1, 2) && DigitRun(parts[2], 4, 4)
  }

  /** Padding one or two digits to two keeps them digits. */
  lemma PadDigits(s: string)
    requires DigitRun(s, 1, 2)
    ensures var p := Text.PadStart(s, 2, '0'); DigitRun(p, 2, 2) && (|s| == 2 ==> p == s)
  {
  }

  /** Four digits, a dash, two digits, a dash and two digits make an ISO date. */
  lemma IsoDateOf(year: string, month: string, day: string)
    requires DigitRun(year, 4, 4) && DigitRun(month, 2, 2) && DigitRun(day, 2, 2)
    ensures IsIsoDate(year + "-" + month + "-" + day)
  {
    var r := year + "-" + month + "-" + day;
    assert r[..4] == year && r[5..7] == month && r[8..] == day;
  }

  /** `convertToISODate(dateStr)`: "" stays "", an ISO date is kept, `M/D/YYYY` becomes
      `YYYY-MM-DD`, anything else is kept. */
  function ConvertToIsoDate(dateStr: string): (r: string)
    ensures r == "" <==> dateStr == ""
    ensures IsSlashDate(dateStr) && !IsIsoDate(dateStr) ==> IsIsoDate(r)
    ensures !IsSlashDate(dateStr) || IsIsoDate(dateStr) ==> r == dateStr
  {
    if dateStr == "" then ""
    else if IsIsoDate(dateStr) then dateStr
    else if IsSlashDate(dateStr) then
      var parts := Text.Split(dateStr, '/');
      var month, day, year := parts[0], parts[1], parts[2];
      PadDigits(month);
      PadDigits(day);
      IsoDateOf(year, Text.PadStart(month, 2, '0'), Text.PadStart(day, 2, '0'));
      year + "-" + Text.PadStart(month, 2, '0') + "-" + Text.PadStart(day, 2, '0')
    else dateStr
  }

  /** Converting twice gives what converting once does. */
  lemma ConvertIdempotent(dateStr: string)
    ensures ConvertToIsoDate(ConvertToIsoDate(dateStr)) == ConvertToIsoDate(dateStr)
  {
  }

  /** A date `month/day/year` is shown as `year-MM-DD`, the month and day padded with
      zeros. */
  lemma ConvertSlashDate(month: string, day: string, year: string)
    requires DigitRun(month, 1, 2) && DigitRun(day, 1, 2) && DigitRun(year, 4, 4)
    ensures ConvertToIsoDate(month + "/" + day + "/" + year)
      == year + "-" + Text.PadStart(month, 2, '0') + "-" + Text.PadStart(day, 2, '0')
  {
    var s := month + "/" + day + "/" + year;
    assert s == month + ['/'] + day + ['/'] + year;
    assert '/' !in month && '/' !in day && '/' !in year by {
      assert !Text.IsDigit('/');
    }
    Text.SplitThree(month, day, year, '/');
    assert s[2] == '/' || s[1] == '/';
  }

  /** The values `handleChange` passes on once the dependents of `parent` among `params`
      are blanked. */
  function BlankDependents(values: JsObject.Object<string>, params: seq<SmartParameter>, parent: string): JsObject.Object<string> {
    if params == [] then values
    else
      var before := BlankDependents(values, params[..|params| - 1], parent);
      var p := params[|params| - 1];
      if p.dependsOn == Some(parent) then JsObject.Set(before, p.name, "") else before
  }

  /** A parameter is blanked exactly when one of the parameters of that name depends on
      the changed one; every other value is kept. */
  lemma {:induction false} BlankDependentsGet(values: JsObject.Object<string>, params: seq<SmartParameter>, parent: string, k: string)
    ensures JsObject.Get(BlankDependents(values, params, parent), k) ==
      if exists i :: 0 <= i < |params| && params[i].dependsOn == Some(parent) && params[i].name == k then Some("")
      else JsObject.Get(values, k)
  {
    if params != [] {
      var init := params[..|params| - 1];
      BlankDependentsGet(values, init, parent, k);
      assert forall i :: 0 <= i < |init| ==> init[i] == params[i];
    }
  }

  /** `${resourceType}_${value}` and the entries pruning keeps: those whose key does not
      start with `${resourceType}_`, and the one for the new value. */
  function Prune(cache: JsObject.Object<ResourceList>, prefix: string, keep: string): (r: JsObject.Object<ResourceList>)
    ensures forall e :: e in r <==> e in cache && (!Text.StartsWith(e.0, prefix) || e.0 == keep)
  {
    if cache == [] then []
    else
      assert forall e :: e in cache <==> e == cache[0] || e in cache[1..];
      (if !Text.StartsWith(cache[0].0, prefix) || cache[0].0 == keep then [cache[0]] else []) + Prune(cache[1..], prefix, keep)
  }

  /** The resource lists left once each dependent of `parent` has pruned its own. */
  function PruneDependents(cache: JsObject.Object<ResourceList>, params: seq<SmartParameter>, parent: string, value: string): JsObject.Object<ResourceList> {
    if params == [] then cache
    else
      var before := PruneDependents(cache, params[..|params| - 1], parent, value);
      var p := params[|params| - 1];
      var prefix := Env.Interpolate(p.resourceType) + "_";
      if p.dependsOn == Some(parent) then Prune(before, prefix, prefix + value) else before
  }

  /** Pruning only removes entries: a resource list is dropped exactly when some dependent
      of the changed parameter owns its key's prefix and the key is not that dependent's
      key for the new value. */
  lemma {:induction false} PruneDependentsKeeps(cache: JsObject.Object<ResourceList>, params: seq<SmartParameter>, parent: string, value: string,
                                               e: (string, ResourceList))
    ensures e in PruneDependents(cache, params, parent, value) <==>
      e in cache &&
      (forall i :: 0 <= i < |params| && params[i].dependsOn == Some(parent) ==>
        var prefix := Env.Interpolate(params[i].resourceType) + "_";
        !Text.StartsWith(e.0, prefix) || e.0 == prefix + value)
  {
    if params != [] {
      var init := params[..|params| - 1];
      PruneDependentsKeeps(cache, init, parent, value, e);
      assert forall i :: 0 <= i < |init| ==> init[i] == params[i];
    }
  }

  /** `cacheKey`: the resource type, followed by `_` and the value of the parameter it
      depends on when it depends on one. */
  function CacheKey(resourceType: string, dependsOn: Option<string>, values: JsObject.Object<string>): (k: string)
    ensures !Env.Truthy(dependsOn) ==> k == resourceType
    ensures Env.Truthy(dependsOn) ==> Text.StartsWith(k, resourceType + "_")
  {
    if Env.Truthy(dependsOn) then
      var k := resourceType + "_" + Env.Interpolate(JsObject.Get(values, dependsOn.value));
      assert k[..|resourceType + "_"|] == resourceType + "_";
      k
    else resourceType
  }

  /** `paramMapping[dependsOn] || dependsOn.toLowerCase()`: the query parameter a
      dependent resource request passes the value in. */
  function ApiParamName(dependsOn: string): (n: string)
    ensures dependsOn == "WORKBOOK_ID" ==> n == "workbookId"
    ensures dependsOn == "MEMBER_ID" ==> n == "memberId"
    ensures dependsOn == "TEAM_ID" ==> n == "teamId"
    ensures dependsOn !in {"WORKBOOK_ID", "MEMBER_ID", "TEAM_ID"} ==> n == Text.ToLower(dependsOn)
  {
    if dependsOn == "WORKBOOK_ID" then "workbookId"
    else if dependsOn == "MEMBER_ID" then "memberId"
    else if dependsOn == "TEAM_ID" then "teamId"
    else Text.ToLower(dependsOn)
  }

  /** The form's state: the resource lists fetched, by cache key. */
  class Form {
    var resourceData: JsObject.Object<ResourceList>

    constructor()
      ensures resourceData == []
    {
      resourceData := [];
    }

    /** `handleChange(paramName, value)`: the parameter takes the value, its dependents are
        blanked and their stale resource lists dropped; the new values are what
        `onChange` receives. */
    method HandleChange(parameters: seq<SmartParameter>, values: JsObject.Object<string>, paramName: string, value: string)
      returns (newValues: JsObject.Object<string>)
      modifies this
      ensures newValues == BlankDependents(JsObject.Set(values, paramName, value), parameters, paramName)
      ensures resourceData == PruneDependents(old(resourceData), parameters, paramName, value)
    {
      newValues := JsObject.Set(values, paramName, value);
      ghost var start := newValues;
      for i := 0 to |parameters|
        invariant newValues == BlankDependents(start, parameters[..i], paramName)
        invariant resourceData == PruneDependents(old(resourceData), parameters[..i], paramName, value)
      {
        assert parameters[..i + 1][..i] == parameters[..i];
        var param := parameters[i];
        if param.dependsOn == Some(paramName) {
          newValues := JsObject.Set(newValues, param.name, "");
          var prefix := Env.Interpolate(param.resourceType) + "_";
          resourceData := Prune(resourceData, prefix, prefix + value);
        }
      }
      assert parameters[..|parameters|] == parameters;
    }
  }

  /** After `parent` changes to `value`, a dependent of resource type `rt` looks its list
      up under `rt_value`, and a list already cached there survives the pruning, unless
      another dependent's resource type owns a prefix of that key (or `parent` depends on
      itself and was blanked). */
  lemma ChangeKeepsFreshList(cache: JsObject.Object<ResourceList>, params: seq<SmartParameter>, values: JsObject.Object<string>,
                                 parent: string, value: string, rt: string, list: ResourceList)
    requires parent != ""
    requires forall i :: 0 <= i < |params| && params[i].dependsOn == Some(parent) ==> params[i].name != parent
    requires forall i :: 0 <= i < |params| && params[i].dependsOn == Some(parent) ==>
      Env.Interpolate(params[i].resourceType) == rt || !Text.StartsWith(rt + "_" + value, Env.Interpolate(params[i].resourceType) + "_")
    requires (rt + "_" + value, list) in cache
    ensures (rt + "_" + value, list) in PruneDependents(cache, params, parent, value)
    ensures CacheKey(rt, Some(parent), BlankDependents(JsObject.Set(values, parent, value), params, parent)) == rt + "_" + value
  {
    PruneDependentsKeeps(cache, params, parent, value, (rt + "_" + value, list));
    BlankDependentsGet(JsObject.Set(values, parent, value), params, parent, parent);
  }
}

=== FILE: plugin_embed_url.dfy ===
/** The plugin use-case URL builder (plugin_use_cases/helpers/build-embed-url.js): the
    workbook, page or element path, then the query: a bookmark or else an exploration,
    `:embed=true`, and every optional interface parameter that has a value, read from the
    environment unless the request overrides it. */
module PluginEmbedUrl {
  import opened Wrappers
  import opened Text
  import opened Encoding
  import JsObject
  import Env
  import EmbedPath
  import QueryString

  /** The destructured argument: the target, the bookmark and exploration, and the four
      interface parameters a request may override (`None` for `undefined`). */
  datatype Request = Request(target: EmbedPath.Target, bookmarkId: Option<string>, exploreKey: Option<string>,
                             hideFolderNavigation: Option<string>, hideMenu: Option<string>,
                             hidePageControls: Option<string>, menuPosition: Option<string>)

  /** The optional parameters, each with the variable it is read from, in the order the
      object literal lists them. */
  const OptionalNames: seq<(string, string)> :=
    [("disable_auto_refresh", "DISABLE_AUTO_REFRESH"), ("disable_mobile_view", "DISABLE_MOBILE_VIEW"),
     ("hide_folder_navigation", "HIDE_FOLDER_NAVIGATION"), ("hide_menu", "HIDE_MENU"),
     ("hide_page_controls", "HIDE_PAGE_CONTROLS"), ("hide_reload_button", "HIDE_RELOAD_BUTTON"),
     ("hide_title", "HIDE_TITLE"), ("hide_tooltip", "HIDE_TOOLTIP"), ("hide_view_select", "HIDE_VIEW_SELECT"),
     ("lng", "LNG"), ("menu_position", "MENU_POSITION"), ("responsive_height", "RESPONSIVE_HEIGHT"),
     ("theme", "THEME"), ("view_id", "VIEW_ID")]

  const EmbedTrue: string := ":embed=true"

  /** The object literal: each name with its variable's value, `undefined` when unset. */
  function FromEnv(env: Env.Env, names: seq<(string, string)>): (o: JsObject.Object<Option<string>>)
    ensures |o| == |names|
    ensures forall i :: 0 <= i < |names| ==> o[i] == (names[i].0, Env.Lookup(env, names[i].1))
  {
    if names == [] then []
    else [(names[0].0, Env.Lookup(env, names[0].1))] + FromEnv(env, names[1..])
  }

  /** `if (typeof v !== "undefined") optionalParams[k] = v`. */
  function Override(o: JsObject.Object<Option<string>>, k: string, v: Option<string>): (r: JsObject.Object<Option<string>>)
    ensures JsObject.Get(r, k) == if v.Some? then Some(v) else JsObject.Get(o, k)
    ensures forall k' :: k' != k ==> JsObject.Get(r, k') == JsObject.Get(o, k')
    ensures k in JsObject.Keys(o) ==> JsObject.Keys(r) == JsObject.Keys(o)
  {
    if v.Some? then JsObject.Set(o, k, v) else o
  }

  /** The request's four overrides applied to `o`. */
  function Overrides(o: JsObject.Object<Option<string>>, req: Request): JsObject.Object<Option<string>> {
    var o := Override(o, "hide_folder_navigation", req.hideFolderNavigation);
    var o := Override(o, "hide_menu", req.hideMenu);
    var o := Override(o, "hide_page_controls", req.hidePageControls);
    Override(o, "menu_position", req.menuPosition)
  }

  /** `optionalParams` after the request's overrides. */
  function OptionalParams(env: Env.Env, req: Request): JsObject.Object<Option<string>> {
    Overrides(FromEnv(env, OptionalNames), req)
  }

  /** The overrides replace values and never add or move a key; a given override wins
      over the value already there. */
  lemma OverridesKeys(o: JsObject.Object<Option<string>>, req: Request)
    requires "hide_folder_navigation" in JsObject.Keys(o) && "hide_menu" in JsObject.Keys(o)
    requires "hide_page_controls" in JsObject.Keys(o) && "menu_position" in JsObject.Keys(o)
    ensures JsObject.Keys(Overrides(o, req)) == JsObject.Keys(o)
    ensures JsObject.Get(Overrides(o, req), "hide_folder_navigation")
         == if req.hideFolderNavigation.Some? then Some(req.hideFolderNavigation) else JsObject.Get(o, "hide_folder_navigation")
    ensures JsObject.Get(Overrides(o, req), "hide_menu")
         == if req.hideMenu.Some? then Some(req.hideMenu) else JsObject.Get(o, "hide_menu")
    ensures JsObject.Get(Overrides(o, req), "hide_page_controls")
         == if req.hidePageControls.Some? then Some(req.hidePageControls) else JsObject.Get(o, "hide_page_controls")
    ensures JsObject.Get(Overrides(o, req), "menu_position")
         == if req.menuPosition.Some? then Some(req.menuPosition) else JsObject.Get(o, "menu_position")
  {
  }

  /** Every other key keeps its value. */
  lemma OverridesOthers(o: JsObject.Object<Option<string>>, req: Request, k: string)
    requires k != "hide_folder_navigation" && k != "hide_menu" && k != "hide_page_controls" && k != "menu_position"
    ensures JsObject.Get(Overrides(o, req), k) == JsObject.Get(o, k)
  {
  }

  /** In `optionalParams` every key stays where the literal put it, and `hide_menu` (like
      the other three overridable keys) holds the request's value when given, the
      environment's otherwise. */
  lemma OptionalParamsKeys(env: Env.Env, req: Request)
    ensures JsObject.Keys(OptionalParams(env, req)) == JsObject.Keys(FromEnv(env, OptionalNames))
    ensures JsObject.Get(OptionalParams(env, req), "hide_menu")
         == Some(if req.hideMenu.Some? then req.hideMenu else Env.Lookup(env, "HIDE_MENU"))
  {
    var o := FromEnv(env, OptionalNames);
    FromEnvHideMenu(env);
    FromEnvOverridable(env);
    OverridesKeys(o, req);
  }

  /** The literal reads `hide_menu` from `HIDE_MENU`. */
  lemma FromEnvHideMenu(env: Env.Env)
    ensures JsObject.Get(FromEnv(env, OptionalNames), "hide_menu") == Some(Env.Lookup(env, "HIDE_MENU"))
  {
    var o := FromEnv(env, OptionalNames);
    assert o[0].0 == "disable_auto_refresh" && o[1].0 == "disable_mobile_view";
    assert o[2].0 == "hide_folder_navigation" && o[3] == ("hide_menu", Env.Lookup(env, "HIDE_MENU"));
    JsObject.GetAt(o, 3, "hide_menu");
  }

  /** The four keys a request may override are in the literal. */
  lemma FromEnvOverridable(env: Env.Env)
    ensures var ks := JsObject.Keys(FromEnv(env, OptionalNames));
      "hide_folder_navigation" in ks && "hide_menu" in ks && "hide_page_controls" in ks && "menu_position" in ks
  {
    var ks := JsObject.Keys(FromEnv(env, OptionalNames));
    assert ks[2] == "hide_folder_navigation" && ks[3] == "hide_menu";
    assert ks[4] == "hide_page_controls" && ks[10] == "menu_position";
  }

  /** `:${key}=${encodeURIComponent(val)}`. */
  function Param(key: string, val: string): string {
    ":" + key + "=" + EncodeUriComponent(val)
  }

  /** One parameter for an entry with a truthy value, none otherwise. */
  function Entry(e: (string, Option<string>)): seq<string> {
    if Env.Truthy(e.1) then [Param(e.0, e.1.value)] else []
  }

  /** The parameters written for the entries, in order. */
  function Entries(o: JsObject.Object<Option<string>>): seq<string> {
    if o == [] then [] else Entries(o[..|o| - 1]) + Entry(o[|o| - 1])
  }

  /** Writing one more entry. */
  lemma EntriesStep(head: seq<string>, o: JsObject.Object<Option<string>>, i: nat, written: seq<string>)
    requires i < |o| && written == head + Entries(o[..i])
    ensures written + Entry(o[i]) == head + Entries(o[..i + 1])
  {
    assert o[..i + 1][..i] == o[..i];
  }

  /** Every entry with a truthy value is written. */
  lemma {:induction false} EntriesComplete(o: JsObject.Object<Option<string>>, i: nat)
    requires i < |o| && Env.Truthy(o[i].1)
    ensures Param(o[i].0, o[i].1.value) in Entries(o)
  {
    var init, last := o[..|o| - 1], o[|o| - 1];
    var p := Param(o[i].0, o[i].1.value);
    assert Entries(o) == Entries(init) + Entry(last);
    if i < |init| {
      assert init[i] == o[i];
      EntriesComplete(init, i);
      assert p in Entries(init);
    } else {
      assert Entry(last) == [p];
    }
  }

  /** Nothing else is written: each parameter comes from an entry with a truthy value. */
  lemma {:induction false} EntriesSound(o: JsObject.Object<Option<string>>, p: string)
    requires p in Entries(o)
    ensures exists i :: 0 <= i < |o| && Env.Truthy(o[i].1) && p == Param(o[i].0, o[i].1.value)
  {
    var init := o[..|o| - 1];
    if p in Entries(init) {
      EntriesSound(init, p);
      var i :| 0 <= i < |init| && Env.Truthy(init[i].1) && p == Param(init[i].0, init[i].1.value);
      assert o[i] == init[i];
    } else {
      assert o[|o| - 1] == o[|init|];
    }
  }

  /** The bookmark, or else the exploration, and nothing when neither is truthy. */
  function Lead(req: Request): (ps: seq<string>)
    ensures |ps| <= 1
    ensures Env.Truthy(req.bookmarkId) ==> ps == [":bookmark=" + EncodeUriComponent(req.bookmarkId.value)]
    ensures !Env.Truthy(req.bookmarkId) && Env.Truthy(req.exploreKey) ==> ps == [":explore=" + EncodeUriComponent(req.exploreKey.value)]
    ensures ps == [] <==> !Env.Truthy(req.bookmarkId) && !Env.Truthy(req.exploreKey)
  {
    if Env.Truthy(req.bookmarkId) then [":bookmark=" + EncodeUriComponent(req.bookmarkId.value)]
    else if Env.Truthy(req.exploreKey) then [":explore=" + EncodeUriComponent(req.exploreKey.value)]
    else []
  }

  /** `params`: the bookmark or exploration, `:embed=true`, then the optional parameters. */
  function QueryParts(env: Env.Env, req: Request): seq<string> {
    Lead(req) + [EmbedTrue] + Entries(OptionalParams(env, req))
  }

  /** `${EMBED_URL_BASE}`, read when the module loads. */
  function Base(env: Env.Env): string {
    Env.Interpolate(Env.Lookup(env, "EMBED_URL_BASE"))
  }

  /** What `buildEmbedUrl` returns, or the message of the error it throws. */
  function Url(env: Env.Env, req: Request): Result<string> {
    var t := req.target;
    if !Env.Truthy(t.orgSlug) || !Env.Truthy(t.workbookUrlId) then Err(EmbedPath.MissingIds)
    else match EmbedPath.Path(t)
      case Err(e) => Err(e)
      case Ok(path) => Ok(Base(env) + "/" + t.orgSlug.value + path + "?" + Join(QueryParts(env, req), "&"))
  }

  /** The URL builder; `EMBED_URL_BASE` and the optional values come from `env`. */
  method BuildEmbedUrl(env: Env.Env, req: Request) returns (r: Result<string>)
    ensures r == Url(env, req)
  {
    var t := req.target;
    if !Env.Truthy(t.orgSlug) || !Env.Truthy(t.workbookUrlId) {
      return Err(EmbedPath.MissingIds);
    }
    var path := EmbedPath.Path(t);
    if path.Err? {
      return Err(path.error);
    }
    var optionalParams := FromEnv(env, OptionalNames);
    optionalParams := ApplyOverrides(optionalParams, req);
    var params := WriteParams(req, optionalParams);
    var queryString := Join(params, "&");
    r := Ok(Base(env) + "/" + t.orgSlug.value + path.value + "?" + queryString);
  }

  /** The request-time overrides, assigned in place. */
  method ApplyOverrides(optionalParams: JsObject.Object<Option<string>>, req: Request)
    returns (r: JsObject.Object<Option<string>>)
    ensures r == Overrides(optionalParams, req)
  {
    r := optionalParams;
    if req.hideFolderNavigation.Some? {
      r := JsObject.Set(r, "hide_folder_navigation", req.hideFolderNavigation);
    }
    if req.hideMenu.Some? {
      r := JsObject.Set(r, "hide_menu", req.hideMenu);
    }
    if req.hidePageControls.Some? {
      r := JsObject.Set(r, "hide_page_controls", req.hidePageControls);
    }
    if req.menuPosition.Some? {
      r := JsObject.Set(r, "menu_position", req.menuPosition);
    }
  }

  /** `params`, pushed in order: the bookmark or exploration, `:embed=true`, then one
      parameter per optional entry with a truthy value. */
  method WriteParams(req: Request, optionalParams: JsObject.Object<Option<string>>) returns (params: seq<string>)
    ensures params == Lead(req) + [EmbedTrue] + Entries(optionalParams)
  {
    params := [];
    if Env.Truthy(req.bookmarkId) {
      params := params + [":bookmark=" + EncodeUriComponent(req.bookmarkId.value)];
    } else if Env.Truthy(req.exploreKey) {
      params := params + [":explore=" + EncodeUriComponent(req.exploreKey.value)];
    }
    params := params + [EmbedTrue];
    assert params == Lead(req) + [EmbedTrue];
    params := PushEntries(params, optionalParams);
  }

  /** The `for … of Object.entries(optionalParams)` loop: one parameter pushed per entry
      with a truthy value, in order. */
  method PushEntries(head: seq<string>, optionalParams: JsObject.Object<Option<string>>) returns (params: seq<string>)
    ensures params == head + Entries(optionalParams)
  {
    params := head;
    var i := 0;
    while i < |optionalParams|
      invariant 0 <= i <= |optionalParams|
      invariant params == head + Entries(optionalParams[..i])
    {
      var entry := optionalParams[i];
      EntriesStep(head, optionalParams, i, params);
      if entry.1.Some? && entry.1.value != "" {
        params := params + [Param(entry.0, entry.1.value)];
      } else {
        assert params + Entry(entry) == params;
      }
      i := i + 1;
    }
    assert optionalParams[..|optionalParams|] == optionalParams;
  }

  /** The plugin builder accepts and rejects exactly what the API use-case builder does,
      with the same messages. */
  lemma SameChecks(env: Env.Env, req: Request)
    ensures Url(env, req).Ok? <==> EmbedPath.BuildEmbedUrl(req.target).Ok?
    ensures Url(env, req).Err? ==> Url(env, req) == EmbedPath.BuildEmbedUrl(req.target)
  {
  }

  /** `:embed=true` always follows the bookmark or exploration, at most one of which is
      written, the bookmark when both are given. */
  lemma EmbedFlagPlace(env: Env.Env, req: Request)
    ensures var ps := QueryParts(env, req);
      && ps[|Lead(req)|] == EmbedTrue
      && (Env.Truthy(req.bookmarkId) ==> ps[0] == ":bookmark=" + EncodeUriComponent(req.bookmarkId.value))
      && (!Env.Truthy(req.bookmarkId) && Env.Truthy(req.exploreKey) ==> ps[0] == ":explore=" + EncodeUriComponent(req.exploreKey.value))
  {
  }
}

=== FILE: query.dfy ===
/** Query strings: `name=value` pairs joined by '&', each side percent-encoded, and the
    reading a server does of them (split on '&', split each at its first '=', decode). */
module QueryString {
  import opened Wrappers
  import opened Text
  import opened Encoding

  /** Flavours of percent-encoding whose output can be read back as a query: the escape
      characters and the two query delimiters are never kept. */
  predicate QuerySafe(keep: byte -> bool, spaceAsPlus: bool) {
    (forall b :: keep(b) ==> b < 0x80) &&
    !keep('%' as int) && !keep('&' as int) && !keep('=' as int) &&
    (spaceAsPlus ==> !keep('+' as int))
  }

  function EncodePair(name: string, value: string, keep: byte -> bool, spaceAsPlus: bool): string
    requires forall b :: keep(b) ==> b < 0x80
  {
    PercentEncodeBytes(Utf8(name), keep, spaceAsPlus) + "=" + PercentEncodeBytes(Utf8(value), keep, spaceAsPlus)
  }

  /** Every pair encoded and written `name=value`, in order. */
  function EncodeParts(pairs: seq<(string, string)>, keep: byte -> bool, spaceAsPlus: bool): (parts: seq<string>)
    requires forall b :: keep(b) ==> b < 0x80
    ensures |parts| == |pairs|
  {
    if pairs == [] then []
    else [EncodePair(pairs[0].0, pairs[0].1, keep, spaceAsPlus)] + EncodeParts(pairs[1..], keep, spaceAsPlus)
  }

  /** The encoded pairs joined by '&'. */
  function EncodeQuery(pairs: seq<(string, string)>, keep: byte -> bool, spaceAsPlus: bool): string
    requires forall b :: keep(b) ==> b < 0x80
  {
    Join(EncodeParts(pairs, keep, spaceAsPlus), "&")
  }

  /** One `name=value` part read back; a part without '=' is a name with an empty value. */
  function DecodePair(part: string, spaceAsPlus: bool): Option<(seq<byte>, seq<byte>)> {
    var (name, value) := match SplitFirst(part, '=') case Some(nv) => nv case None => (part, "");
    match (PercentDecode(name, spaceAsPlus), PercentDecode(value, spaceAsPlus))
    case (Some(n), Some(v)) => Some((n, v))
    case _ => None
  }

  function DecodeParts(parts: seq<string>, spaceAsPlus: bool): Option<seq<(seq<byte>, seq<byte>)>> {
    if parts == [] then Some([])
    else match (DecodePair(parts[0], spaceAsPlus), DecodeParts(parts[1..], spaceAsPlus))
      case (Some(p), Some(rest)) => Some([p] + rest)
      case _ => None
  }

  /** A query string read back into decoded pairs, in order. */
  function ParseQuery(q: string, spaceAsPlus: bool): Option<seq<(seq<byte>, seq<byte>)>> {
    if q == [] then Some([]) else DecodeParts(Split(q, '&'), spaceAsPlus)
  }

  /** The pairs as the bytes a reader gets back. */
  function Utf8Pairs(pairs: seq<(string, string)>): (r: seq<(seq<byte>, seq<byte>)>)
    ensures |r| == |pairs|
    ensures forall i :: 0 <= i < |pairs| ==> r[i] == (Utf8(pairs[i].0), Utf8(pairs[i].1))
  {
    if pairs == [] then [] else [(Utf8(pairs[0].0), Utf8(pairs[0].1))] + Utf8Pairs(pairs[1..])
  }

  lemma EncodedHasNoDelimiters(bs: seq<byte>, keep: byte -> bool, spaceAsPlus: bool)
    requires QuerySafe(keep, spaceAsPlus)
    ensures '&' !in PercentEncodeBytes(bs, keep, spaceAsPlus)
    ensures '=' !in PercentEncodeBytes(bs, keep, spaceAsPlus)
  {
    PercentEncodedChars(bs, keep, spaceAsPlus);
  }

  lemma DecodeEncodedPair(name: string, value: string, keep: byte -> bool, spaceAsPlus: bool)
    requires QuerySafe(keep, spaceAsPlus)
    ensures '&' !in EncodePair(name, value, keep, spaceAsPlus)
    ensures DecodePair(EncodePair(name, value, keep, spaceAsPlus), spaceAsPlus) == Some((Utf8(name), Utf8(value)))
  {
    var n := PercentEncodeBytes(Utf8(name), keep, spaceAsPlus);
    var v := PercentEncodeBytes(Utf8(value), keep, spaceAsPlus);
    EncodedHasNoDelimiters(Utf8(name), keep, spaceAsPlus);
    EncodedHasNoDelimiters(Utf8(value), keep, spaceAsPlus);
    SplitFirstAt(n, v, '=');
    PercentRoundTrip(Utf8(name), keep, spaceAsPlus);
    PercentRoundTrip(Utf8(value), keep, spaceAsPlus);
  }

  lemma {:induction false} DecodeEncodedParts(pairs: seq<(string, string)>, keep: byte -> bool, spaceAsPlus: bool)
    requires QuerySafe(keep, spaceAsPlus)
    ensures DecodeParts(EncodeParts(pairs, keep, spaceAsPlus), spaceAsPlus) == Some(Utf8Pairs(pairs))
    ensures forall i :: 0 <= i < |pairs| ==> '&' !in EncodeParts(pairs, keep, spaceAsPlus)[i]
  {
    if pairs != [] {
      var parts := EncodeParts(pairs, keep, spaceAsPlus);
      DecodeEncodedPair(pairs[0].0, pairs[0].1, keep, spaceAsPlus);
      DecodeEncodedParts(pairs[1..], keep, spaceAsPlus);
      assert parts[1..] == EncodeParts(pairs[1..], keep, spaceAsPlus);
    }
  }

  /** A reader of the query gets every pair back, decoded, in the order written. */
  lemma QueryRoundTrip(pairs: seq<(string, string)>, keep: byte -> bool, spaceAsPlus: bool)
    requires QuerySafe(keep, spaceAsPlus)
    ensures ParseQuery(EncodeQuery(pairs, keep, spaceAsPlus), spaceAsPlus) == Some(Utf8Pairs(pairs))
  {
    var parts := EncodeParts(pairs, keep, spaceAsPlus);
    DecodeEncodedParts(pairs, keep, spaceAsPlus);
    if pairs != [] {
      SplitJoin(parts, '&');
      JoinNonEmpty(parts, "&");
    }
  }

  lemma {:induction false} JoinNonEmpty(parts: seq<string>, sep: string)
    requires |parts| >= 1 && parts[0] != []
    ensures Join(parts, sep) != []
  {
  }

  /** A single pair is written without any '&'. */
  lemma EncodeQuerySingle(name: string, value: string, keep: byte -> bool, spaceAsPlus: bool)
    requires forall b :: keep(b) ==> b < 0x80
    ensures EncodeQuery([(name, value)], keep, spaceAsPlus) == EncodePair(name, value, keep, spaceAsPlus)
  {
    assert EncodeParts([(name, value)], keep, spaceAsPlus) == [EncodePair(name, value, keep, spaceAsPlus)];
  }

  /** A pair whose name and value consist of kept characters is written as it is. */
  lemma EncodeQueryKept(name: string, value: string, keep: byte -> bool, spaceAsPlus: bool)
    requires forall b :: keep(b) ==> b < 0x80
    requires forall i :: 0 <= i < |name| ==> name[i] as int < 0x80 && keep(name[i] as int)
    requires forall i :: 0 <= i < |value| ==> value[i] as int < 0x80 && keep(value[i] as int)
    ensures EncodeQuery([(name, value)], keep, spaceAsPlus) == name + "=" + value
  {
    PercentEncodeKept(name, keep, spaceAsPlus);
    PercentEncodeKept(value, keep, spaceAsPlus);
    EncodeQuerySingle(name, value, keep, spaceAsPlus);
  }

  /** Writing one more pair after '&' is the query of the longer list. */
  lemma {:induction false} EncodeQueryAppend(pairs: seq<(string, string)>, name: string, value: string, keep: byte -> bool, spaceAsPlus: bool)
    requires forall b :: keep(b) ==> b < 0x80
    requires pairs != []
    ensures EncodeQuery(pairs, keep, spaceAsPlus) + "&" + EncodeQuery([(name, value)], keep, spaceAsPlus)
         == EncodeQuery(pairs + [(name, value)], keep, spaceAsPlus)
  {
    var last := EncodePair(name, value, keep, spaceAsPlus);
    var parts := EncodeParts(pairs, keep, spaceAsPlus);
    EncodePartsAppend(pairs, name, value, keep, spaceAsPlus);
    JoinAppend(parts, last, "&");
  }

  /** A pair whose value encodes to itself, written after '&': its encoded name, '=' and
      the value. */
  lemma AppendKeptValue(pairs: seq<(string, string)>, name: string, value: string, keep: byte -> bool, spaceAsPlus: bool)
    requires forall b :: keep(b) ==> b < 0x80
    requires pairs != []
    requires PercentEncodeBytes(Utf8(value), keep, spaceAsPlus) == value
    ensures EncodeQuery(pairs + [(name, value)], keep, spaceAsPlus)
         == EncodeQuery(pairs, keep, spaceAsPlus) + "&" + PercentEncodeBytes(Utf8(name), keep, spaceAsPlus) + "=" + value
  {
    EncodeQueryAppend(pairs, name, value, keep, spaceAsPlus);
    EncodeQuerySingle(name, value, keep, spaceAsPlus);
    var query, encodedName := EncodeQuery(pairs, keep, spaceAsPlus), PercentEncodeBytes(Utf8(name), keep, spaceAsPlus);
    assert EncodePair(name, value, keep, spaceAsPlus) == encodedName + "=" + value;
    JoinAfter(query, encodedName, value);
  }

  /** Regrouping `query & (name = value)`. */
  lemma JoinAfter(query: string, name: string, value: string)
    ensures query + "&" + (name + "=" + value) == query + "&" + name + "=" + value
  {
  }

  lemma {:induction false} EncodePartsAppend(pairs: seq<(string, string)>, name: string, value: string, keep: byte -> bool, spaceAsPlus: bool)
    requires forall b :: keep(b) ==> b < 0x80
    ensures EncodeParts(pairs + [(name, value)], keep, spaceAsPlus)
         == EncodeParts(pairs, keep, spaceAsPlus) + [EncodePair(name, value, keep, spaceAsPlus)]
  {
    if pairs == [] {
      assert EncodeParts([(name, value)], keep, spaceAsPlus) == [EncodePair(name, value, keep, spaceAsPlus)];
    } else {
      assert (pairs + [(name, value)])[1..] == pairs[1..] + [(name, value)];
      EncodePartsAppend(pairs[1..], name, value, keep, spaceAsPlus);
    }
  }

  /** A URL written as path, '?', and parts joined by '&', none holding a '&' and the path
      holding no '?', reads back as that path and those parts. */
  lemma RawQueryReadBack(path: string, parts: seq<string>)
    requires '?' !in path && |parts| >= 1
    requires forall i :: 0 <= i < |parts| ==> '&' !in parts[i]
    ensures SplitFirst(path + "?" + Join(parts, "&"), '?') == Some((path, Join(parts, "&")))
    ensures Split(Join(parts, "&"), '&') == parts
  {
    SplitFirstAt(path, Join(parts, "&"), '?');
    SplitJoin(parts, '&');
  }
}

=== FILE: recipe_scanner.dfy ===
/** The recipe scanner of the API recipe portal (recipe-portal/lib/recipeScanner.ts): the
    environment variables a recipe script reads, its title and description comments, a
    display name derived from the file name, and whether it needs a bearer token. Reading
    the directories and files is left to the caller; the scanner's text handling is
    modelled. */
module RecipeScanner {
  import opened Wrappers
  import opened Text

  /** The text before an environment variable's name in `process.env.NAME`. */
  const EnvPrefix: string := "process.env."

  /** The variables the portal supplies itself; a recipe never asks for them. */
  const CoreAuthVars: set<string> := {"CLIENT_ID", "SECRET", "authURL", "baseURL"}

  predicate NameStart(c: char) { 'A' <= c <= 'Z' || c == '_' }

  /** `[A-Z0-9_]`, or `[A-Z_]` when digits are not allowed. */
  predicate NamePart(c: char, digits: bool) { NameStart(c) || (digits && IsDigit(c)) }

  /** A name the pattern captures: `[A-Z_][A-Z0-9_]*`, or `[A-Z_]+` without digits. */
  predicate IsName(s: string, digits: bool) {
    s != [] && NameStart(s[0]) && forall i :: 1 <= i < |s| ==> NamePart(s[i], digits)
  }

  /** The length of the name at the start of `after`: the longest run the pattern takes. */
  function NameLength(after: string, digits: bool): (n: nat)
    requires after != [] && NameStart(after[0])
    ensures 1 <= n <= |after| && IsName(after[..n], digits)
    ensures n < |after| ==> !NamePart(after[n], digits)
  {
    1 + PrefixLength(after[1..], c => NamePart(c, digits))
  }

  /** Where the name starting at `j` ends: the longest run the pattern takes. */
  function NameEnd(s: string, j: nat, digits: bool): (k: nat)
    requires j < |s| && NameStart(s[j])
    ensures j < k <= |s| && IsName(s[j..k], digits)
    ensures k < |s| ==> !NamePart(s[k], digits)
  {
    var n := NameLength(s[j..], digits);
    assert s[j..][..n] == s[j..j + n];
    j + n
  }

  /** A name that stops where the text cannot continue it ends there. */
  lemma NameEndOf(s: string, j: nat, k: nat, digits: bool)
    requires j < k <= |s| && IsName(s[j..k], digits)
    requires k == |s| || !NamePart(s[k], digits)
    ensures NameEnd(s, j, digits) == k
  {
    var e := NameEnd(s, j, digits);
    // Each run's characters are those of the text: the longer one would have to take the
    // character at which the shorter one stops.
    assert forall i :: j < i < k ==> s[j..k][i - j] == s[i];
    assert forall i :: j < i < e ==> s[j..e][i - j] == s[i];
  }

  /** The names `matchAll` (or `match` with the `g` flag) captures, left to right: at the
      first `process.env.` followed by a name character the longest name is taken and the
      search resumes after it; an occurrence without a name is passed over. */
  function EnvRefs(s: string, digits: bool): (r: seq<string>)
    decreases |s|
    ensures forall x :: x in r ==> IsName(x, digits)
  {
    match IndexOf(s, EnvPrefix)
    case None => []
    case Some(i) =>
      var j := i + |EnvPrefix|;
      if j < |s| && NameStart(s[j]) then
        var k := NameEnd(s, j, digits);
        [s[j..k]] + EnvRefs(s[k..], digits)
      else EnvRefs(s[i + 1..], digits)
  }

  /** The name taken at an occurrence follows that `process.env.` in the text. */
  lemma FoundAt(s: string, i: nat, k: nat)
    requires OccursAt(s, EnvPrefix, i) && i + |EnvPrefix| <= k <= |s|
    ensures Contains(s, EnvPrefix + s[i + |EnvPrefix|..k])
  {
    var t := EnvPrefix + s[i + |EnvPrefix|..k];
    assert s[i..i + |t|] == t;
    ContainsAt(s, t, i);
  }

  /** Every name found follows a `process.env.` in the text. */
  lemma EnvRefsFound(s: string, digits: bool)
    ensures forall x :: x in EnvRefs(s, digits) ==> Contains(s, EnvPrefix + x)
  {
    forall x | x in EnvRefs(s, digits)
      ensures Contains(s, EnvPrefix + x)
    {
      EnvRefFound(s, digits, x);
    }
  }

  /** A name found follows a `process.env.` in the text. */
  lemma {:induction false} EnvRefFound(s: string, digits: bool, x: string)
    requires x in EnvRefs(s, digits)
    ensures Contains(s, EnvPrefix + x)
    decreases |s|
  {
    var i := IndexOf(s, EnvPrefix).value;
    var j := i + |EnvPrefix|;
    if j < |s| && NameStart(s[j]) {
      var k := NameEnd(s, j, digits);
      if x == s[j..k] {
        FoundAt(s, i, k);
      } else {
        EnvRefFound(s[k..], digits, x);
        ContainsSuffix(s, k, EnvPrefix + x);
      }
    } else {
      EnvRefFound(s[i + 1..], digits, x);
      ContainsSuffix(s, i + 1, EnvPrefix + x);
    }
  }

  /** A reference written out in full, followed by a character that cannot continue the
      name, is found whole, ahead of whatever the rest of the text holds. */
  lemma EnvRefsCons(name: string, rest: string, digits: bool)
    requires IsName(name, digits)
    requires rest == [] || !NamePart(rest[0], digits)
    ensures EnvRefs(EnvPrefix + name + rest, digits) == [name] + EnvRefs(rest, digits)
  {
    var s := EnvPrefix + name + rest;
    var j, k := |EnvPrefix|, |EnvPrefix| + |name|;
    assert s == EnvPrefix + (name + rest);
    IndexOfStart(EnvPrefix, name + rest);
    assert s[j..k] == name && s[k..] == rest;
    NameEndOf(s, j, k, digits);
  }

  /** A text made only of name characters holds no `process.env.`, so nothing is found
      in it. */
  lemma NoPrefixInName(s: string)
    requires forall i :: 0 <= i < |s| ==> NamePart(s[i], true)
    ensures EnvRefs(s, false) == []
  {
    assert EnvPrefix[0] == 'p' && !NamePart('p', true);
    NotFound(s, EnvPrefix);
  }

  /** `xs.indexOf(x)`: where `x` first occurs. */
  function IndexIn(xs: seq<string>, x: string): (k: nat)
    requires x in xs
    ensures k < |xs| && xs[k] == x
    ensures forall j :: 0 <= j < k ==> xs[j] != x
  {
    if xs[0] == x then 0
    else
      var k := 1 + IndexIn(xs[1..], x);
      assert forall j :: 1 <= j < k ==> xs[j] == xs[1..][j - 1];
      k
  }

  /** An occurrence with none before it is the first. */
  lemma IndexInIs(xs: seq<string>, x: string, k: nat)
    requires k < |xs| && xs[k] == x && forall j :: 0 <= j < k ==> xs[j] != x
    ensures IndexIn(xs, x) == k
  {
  }

  /** An occurrence in a prefix is found there first. */
  lemma IndexInPrefix(a: seq<string>, b: seq<string>, x: string)
    requires x in a
    ensures IndexIn(a + b, x) == IndexIn(a, x)
  {
    IndexInIs(a + b, x, IndexIn(a, x));
  }

  /** Past a prefix that lacks `x`, the search goes on in what follows. */
  lemma IndexInSkip(h: seq<string>, rest: seq<string>, x: string)
    requires x !in h && x in rest
    ensures IndexIn(h + rest, x) == |h| + IndexIn(rest, x)
  {
    IndexInIs(h + rest, x, |h| + IndexIn(rest, x));
  }

  /** Every value of `r` occurs in `xs`, and the values of `r` first occur in `r` in the
      order in which they first occur in `xs`. */
  predicate InOrderOf(r: seq<string>, xs: seq<string>) {
    (forall x :: x in r ==> x in xs) &&
    forall x, y :: x in r && y in r && IndexIn(r, x) < IndexIn(r, y) ==> IndexIn(xs, x) < IndexIn(xs, y)
  }

  /** Keeping the order of first occurrences is transitive. */
  lemma InOrderTrans(a: seq<string>, b: seq<string>, c: seq<string>)
    requires InOrderOf(a, b) && InOrderOf(b, c)
    ensures InOrderOf(a, c)
  {
  }

  /** For a sequence without duplicates, first-occurrence order is position order. */
  lemma InOrderAt(r: seq<string>, xs: seq<string>)
    requires InOrderOf(r, xs)
    requires forall i, j :: 0 <= i < j < |r| ==> r[i] != r[j]
    ensures forall i, j :: 0 <= i < j < |r| ==> IndexIn(xs, r[i]) < IndexIn(xs, r[j])
  {
    forall i, j | 0 <= i < j < |r|
      ensures IndexIn(xs, r[i]) < IndexIn(xs, r[j])
    {
      IndexInIs(r, r[i], i);
      IndexInIs(r, r[j], j);
    }
  }

  /** `xs.filter(x => !drop.has(x))`. */
  function Keep(xs: seq<string>, drop: set<string>): (r: seq<string>)
    ensures |r| <= |xs|
    ensures forall x :: x in r <==> x in xs && x !in drop
    ensures (forall i, j :: 0 <= i < j < |xs| ==> xs[i] != xs[j]) ==> forall i, j :: 0 <= i < j < |r| ==> r[i] != r[j]
    ensures |xs| == 1 ==> r == if xs[0] in drop then [] else xs
  {
    if xs == [] then []
    else (if xs[0] in drop then [] else [xs[0]]) + Keep(xs[1..], drop)
  }

  /** The filter works value by value: what it keeps of a concatenation is what it keeps
      of each part, in order, duplicates included. */
  lemma {:induction false} KeepAppend(xs: seq<string>, ys: seq<string>, drop: set<string>)
    ensures Keep(xs + ys, drop) == Keep(xs, drop) + Keep(ys, drop)
  {
    if xs == [] {
      assert xs + ys == ys;
    } else {
      assert (xs + ys)[0] == xs[0];
      assert (xs + ys)[1..] == xs[1..] + ys;
      KeepAppend(xs[1..], ys, drop);
    }
  }

  /** Two kept values come in the order of their first occurrences. */
  lemma {:induction false} KeepOrder(xs: seq<string>, drop: set<string>, x: string, y: string)
    requires x in Keep(xs, drop) && y in Keep(xs, drop)
    requires IndexIn(Keep(xs, drop), x) < IndexIn(Keep(xs, drop), y)
    ensures IndexIn(xs, x) < IndexIn(xs, y)
  {
    var k := Keep(xs, drop);
    var k1 := Keep(xs[1..], drop);
    var h := if xs[0] in drop then [] else [xs[0]];
    assert k == h + k1;
    if xs[0] != x && xs[0] != y {
      assert x !in h && y !in h;
      IndexInSkip(h, k1, x);
      IndexInSkip(h, k1, y);
      KeepOrder(xs[1..], drop, x, y);
    }
  }

  /** The filter keeps the order of first occurrences. */
  lemma KeepInOrder(xs: seq<string>, drop: set<string>)
    ensures InOrderOf(Keep(xs, drop), xs)
  {
    var k := Keep(xs, drop);
    forall x, y | x in k && y in k && IndexIn(k, x) < IndexIn(k, y)
      ensures IndexIn(xs, x) < IndexIn(xs, y)
    {
      KeepOrder(xs, drop, x, y);
    }
  }

  /** `Array.from(new Set(xs))`: each value once, where it first occurs. */
  function Dedup(xs: seq<string>): (r: seq<string>)
    ensures forall x :: x in r <==> x in xs
    ensures forall i, j :: 0 <= i < j < |r| ==> r[i] != r[j]
  {
    if xs == [] then []
    else
      var d := Dedup(xs[..|xs| - 1]);
      if xs[|xs| - 1] in d then d else d + [xs[|xs| - 1]]
  }

  /** First-occurrence order: what follows never reorders the values already seen. */
  lemma {:induction false} DedupPrefix(xs: seq<string>, ys: seq<string>)
    ensures |Dedup(xs)| <= |Dedup(xs + ys)|
    ensures Dedup(xs + ys)[..|Dedup(xs)|] == Dedup(xs)
  {
    if ys == [] {
      assert xs + ys == xs;
    } else {
      var init := ys[..|ys| - 1];
      DedupPrefix(xs, init);
      assert (xs + ys)[..|xs + ys| - 1] == xs + init;
    }
  }

  /** Each value stays where it first occurred: positions in the result follow first
      occurrences in the input. */
  lemma {:induction false} DedupOrder(xs: seq<string>)
    ensures forall i, j :: 0 <= i < j < |Dedup(xs)| ==> IndexIn(xs, Dedup(xs)[i]) < IndexIn(xs, Dedup(xs)[j])
  {
    if xs != [] {
      var init, last := xs[..|xs| - 1], xs[|xs| - 1];
      assert xs == init + [last];
      var d := Dedup(init);
      DedupOrder(init);
      forall v | v in d
        ensures IndexIn(xs, v) == IndexIn(init, v) < |init|
      {
        IndexInPrefix(init, [last], v);
      }
      if last !in d {
        assert last !in init;
        IndexInIs(xs, last, |init|);
      }
    }
  }

  /** The order `Dedup` keeps, as first-occurrence order. */
  lemma DedupInOrder(xs: seq<string>)
    ensures InOrderOf(Dedup(xs), xs)
  {
    var d := Dedup(xs);
    DedupOrder(xs);
    forall x, y | x in d && y in d && IndexIn(d, x) < IndexIn(d, y)
      ensures IndexIn(xs, x) < IndexIn(xs, y)
    {
      var p, q := IndexIn(d, x), IndexIn(d, y);
      assert d[p] == x && d[q] == y;
    }
  }

  /** `extractEnvVariables`: the names the script reads, without the portal's own
      variables, each once, in first-occurrence order. */
  function ExtractEnvVariables(content: string): (r: seq<string>)
    ensures forall x :: x in r <==> x in EnvRefs(content, true) && x !in CoreAuthVars
    ensures forall i, j :: 0 <= i < j < |r| ==> r[i] != r[j]
    ensures forall x :: x in r ==> IsName(x, true)
    ensures forall i, j :: 0 <= i < j < |r| ==> IndexIn(EnvRefs(content, true), r[i]) < IndexIn(EnvRefs(content, true), r[j])
  {
    var refs := EnvRefs(content, true);
    var kept := Keep(refs, CoreAuthVars);
    DedupInOrder(kept);
    KeepInOrder(refs, CoreAuthVars);
    InOrderTrans(Dedup(kept), kept, refs);
    InOrderAt(Dedup(kept), refs);
    Dedup(kept)
  }

  const TitleTag: string := "// Title:"
  const DescriptionTag: string := "// Description:"
  const NoDescription: string := "No description available"

  /** The trimmed text after `tag` on the first line that, trimmed, starts with `tag`. */
  function FirstTagged(lines: seq<string>, tag: string): (r: Option<string>)
    ensures r.None? <==> forall i :: 0 <= i < |lines| ==> !StartsWith(Trim(lines[i]), tag)
  {
    if lines == [] then None
    else if StartsWith(Trim(lines[0]), tag) then Some(Trim(Trim(lines[0])[|tag|..]))
    else FirstTagged(lines[1..], tag)
  }

  /** The first tagged line decides, whatever the later lines say. */
  lemma {:induction false} FirstTaggedAt(lines: seq<string>, i: nat, tag: string)
    requires i < |lines| && StartsWith(Trim(lines[i]), tag)
    requires forall j :: 0 <= j < i ==> !StartsWith(Trim(lines[j]), tag)
    ensures FirstTagged(lines, tag) == Some(Trim(Trim(lines[i])[|tag|..]))
  {
    if i > 0 {
      var rest := lines[1..];
      assert rest[i - 1] == lines[i];
      forall j | 0 <= j < i - 1 ensures !StartsWith(Trim(rest[j]), tag) {
        assert rest[j] == lines[j + 1];
      }
      assert !StartsWith(Trim(lines[0]), tag);
      FirstTaggedAt(rest, i - 1, tag);
    }
  }

  /** The title comment's text, or "" when the script has none. */
  function Title(content: string): string {
    match FirstTagged(Split(content, '\n'), TitleTag)
    case Some(t) => t
    case None => ""
  }

  /** The description comment's text; when there is none, or it is empty, the fallback. */
  function Description(content: string): (d: string)
    ensures d != ""
    ensures FirstTagged(Split(content, '\n'), DescriptionTag).None? ==> d == NoDescription
    ensures forall t :: FirstTagged(Split(content, '\n'), DescriptionTag) == Some(t) ==> d == if t == "" then NoDescription else t
  {
    match FirstTagged(Split(content, '\n'), DescriptionTag)
    case Some(t) => if t == "" then NoDescription else t
    case None => NoDescription
  }

  /** `extractTitle`: the lines are searched in order and the first tagged one returns. */
  method ExtractTitle(content: string) returns (title: string)
    ensures title == Title(content)
  {
    var lines := Split(content, '\n');
    for i := 0 to |lines|
      invariant FirstTagged(lines[i..], TitleTag) == FirstTagged(lines, TitleTag)
    {
      var trimmed := Trim(lines[i]);
      if StartsWith(trimmed, TitleTag) {
        return Trim(trimmed[|TitleTag|..]);
      }
      assert lines[i..][1..] == lines[i + 1..];
    }
    return "";
  }

  /** `extractDescription`: the search stops at the first tagged line. */
  method ExtractDescription(content: string) returns (description: string)
    ensures description == Description(content)
  {
    var lines := Split(content, '\n');
    description := "";
    var found := false;
    for i := 0 to |lines|
      invariant !found ==> FirstTagged(lines[i..], DescriptionTag) == FirstTagged(lines, DescriptionTag)
      invariant found ==> FirstTagged(lines, DescriptionTag) == Some(description)
    {
      var trimmed := Trim(lines[i]);
      if StartsWith(trimmed, DescriptionTag) {
        description := Trim(trimmed[|DescriptionTag|..]);
        found := true;
        break;
      }
      assert lines[i..][1..] == lines[i + 1..];
    }
    if description == "" {
      description := NoDescription;
    }
  }

  /** A first line made of a tag, a space and a trimmed text reads back to that text. */
  lemma TaggedFirstLine(tag: string, text: string, rest: string)
    requires tag != [] && !IsWhitespace(tag[0]) && '\n' !in tag
    requires text != [] && IsTrimmed(text) && '\n' !in text
    ensures FirstTagged(Split(tag + " " + text + "\n" + rest, '\n'), tag) == Some(text)
  {
    var line := tag + " " + text;
    assert tag + " " + text + "\n" + rest == line + ['\n'] + rest;
    SplitAtSep(line, rest, '\n');
    TaggedLine(tag, text);
  }

  /** The line itself: already trimmed, it starts with the tag, and what follows the tag
      trims to the text. */
  lemma TaggedLine(tag: string, text: string)
    requires tag != [] && !IsWhitespace(tag[0])
    requires text != [] && IsTrimmed(text)
    ensures Trim(tag + " " + text) == tag + " " + text
    ensures StartsWith(tag + " " + text, tag)
    ensures Trim((tag + " " + text)[|tag|..]) == text
  {
    var line := tag + " " + text;
    assert line[0] == tag[0] && line[|line| - 1] == text[|text| - 1];
    TrimTrimmed(line);
    assert line[..|tag|] == tag;
    assert line[|tag|..] == " " + text;
    SpaceTrim(text);
  }

  lemma SpaceTrim(text: string)
    requires text != [] && IsTrimmed(text)
    ensures Trim(" " + text) == text
  {
    assert (" " + text)[1..] == text;
    TrimTrimmed(text);
  }

  lemma TitleOfHeader(title: string, rest: string)
    requires title != [] && IsTrimmed(title) && '\n' !in title
    ensures Title(TitleTag + " " + title + "\n" + rest) == title
  {
    TaggedFirstLine(TitleTag, title, rest);
  }

  lemma DescriptionOfHeader(description: string, rest: string)
    requires description != [] && IsTrimmed(description) && '\n' !in description
    ensures Description(DescriptionTag + " " + description + "\n" + rest) == description
  {
    TaggedFirstLine(DescriptionTag, description, rest);
  }

  /** `word.charAt(0).toUpperCase() + word.slice(1)`. */
  function Capitalize(word: string): (w: string)
    ensures |w| == |word|
  {
    if word == [] then [] else [UpperChar(word[0])] + word[1..]
  }

  function CapitalizeEach(words: seq<string>): (r: seq<string>)
    ensures |r| == |words|
    ensures forall i :: 0 <= i < |words| ==> r[i] == Capitalize(words[i])
  {
    if words == [] then [] else [Capitalize(words[0])] + CapitalizeEach(words[1..])
  }

  /** The file name with its first ".js" removed and every '-' and '_' made a space. */
  function Spaced(filename: string): string {
    ReplaceChar(ReplaceChar(ReplaceFirst(filename, ".js", ""), '-', ' '), '_', ' ')
  }

  /** `generateRecipeName`: split on spaces, capitalise each word, join with spaces. */
  function RecipeName(filename: string): string {
    Join(CapitalizeEach(Split(Spaced(filename), ' ')), " ")
  }

  /** Reference definition: every character that starts a word (the first one, or one
      after a space) upper-cased, the others as they are. */
  function WordCaps(t: string): (r: string)
    ensures |r| == |t|
  {
    seq(|t|, i requires 0 <= i < |t| => if i == 0 || t[i - 1] == ' ' then UpperChar(t[i]) else t[i])
  }

  lemma WordCapsSpace(a: string, b: string)
    ensures WordCaps(a + " " + b) == WordCaps(a) + " " + WordCaps(b)
  {
    var s := a + " " + b;
    var l, r := WordCaps(s), WordCaps(a) + " " + WordCaps(b);
    forall i | 0 <= i < |s|
      ensures l[i] == r[i]
    {
      if i > |a| + 1 {
        assert s[i - 1] == b[i - |a| - 2];
      }
    }
  }

  lemma WordCapsWord(w: string)
    requires ' ' !in w
    ensures WordCaps(w) == Capitalize(w)
  {
  }

  lemma {:induction false} WordCapsJoin(parts: seq<string>)
    requires |parts| >= 1
    requires forall i :: 0 <= i < |parts| ==> ' ' !in parts[i]
    ensures Join(CapitalizeEach(parts), " ") == WordCaps(Join(parts, " "))
  {
    WordCapsWord(parts[0]);
    if |parts| > 1 {
      WordCapsJoin(parts[1..]);
      assert CapitalizeEach(parts)[1..] == CapitalizeEach(parts[1..]);
      WordCapsSpace(parts[0], Join(parts[1..], " "));
    }
  }

  /** The recipe name is the spaced file name with every word capitalised: same length,
      no '-' or '_' left, and the words where the spaces put them. */
  lemma RecipeNameChars(filename: string)
    ensures RecipeName(filename) == WordCaps(Spaced(filename))
    ensures '-' !in RecipeName(filename) && '_' !in RecipeName(filename)
  {
    var t := Spaced(filename);
    JoinSplit(t, ' ');
    assert [' '] == " ";
    WordCapsJoin(Split(t, ' '));
    SpacedNoSeparators(filename);
    WordCapsKeepsOut(t);
  }

  lemma SpacedNoSeparators(filename: string)
    ensures '-' !in Spaced(filename) && '_' !in Spaced(filename)
  {
    var t := Spaced(filename);
    assert forall i :: 0 <= i < |t| ==> t[i] != '-' && t[i] != '_';
  }

  lemma WordCapsKeepsOut(t: string)
    requires '-' !in t && '_' !in t
    ensures '-' !in WordCaps(t) && '_' !in WordCaps(t)
  {
    var w := WordCaps(t);
    assert forall i :: 0 <= i < |w| ==> w[i] != '-' && w[i] != '_';
  }

  /** `requiresAuth`. */
  predicate RequiresAuth(content: string) {
    Contains(content, "get-access-token") || Contains(content, "getBearerToken")
  }

  /** Adding text to a script never drops its need for a token. */
  lemma RequiresAuthKept(a: string, b: string)
    ensures RequiresAuth(a) || RequiresAuth(b) ==> RequiresAuth(a + b)
  {
    ContainsConcat(a, b, "get-access-token");
    ContainsConcat(a, b, "getBearerToken");
  }

  /** The recipe id: the category, '-', and the file name without its first ".js". */
  function RecipeId(category: string, filename: string): string {
    category + "-" + ReplaceFirst(filename, ".js", "")
  }

  /** For a file name that holds ".js" only as its extension, the id ends in the bare name. */
  lemma RecipeIdOf(category: string, base: string)
    requires !Contains(base, ".js")
    ensures RecipeId(category, base + ".js") == category + "-" + base
  {
    var s := base + ".js";
    assert s[|base|..|base| + 3] == ".js";
    assert OccursAt(s, ".js", |base|);
    forall j | 0 <= j < |base|
      ensures !OccursAt(s, ".js", j)
    {
      NoEarlierJs(base, j);
    }
    assert IndexOf(s, ".js") == Some(|base|);
    assert s[..|base|] == base && s[|base| + 3..] == [];
  }

  /** In `base + ".js"`, no ".js" starts inside a `base` that holds none. */
  lemma NoEarlierJs(base: string, j: nat)
    requires !Contains(base, ".js") && j < |base|
    ensures !OccursAt(base + ".js", ".js", j)
  {
    var s := base + ".js";
    if j + 3 <= |base| {
      if OccursAt(s, ".js", j) {
        assert base[j..j + 3] == s[j..j + 3];
        ContainsAt(base, ".js", j);
      }
    } else if j + 2 == |base| {
      assert s[j + 2] == '.';
    } else {
      assert s[j + 1] == '.';
    }
  }

  /** The length of the directory part of a path with its trailing '/': everything up to
      and including the last '/', or nothing when the path has none. */
  function DirLength(p: string): (n: nat)
    ensures n <= |p|
    ensures 0 < n ==> p[n - 1] == '/'
    ensures forall i :: n <= i < |p| ==> p[i] != '/'
  {
    if p == [] then 0
    else if p[|p| - 1] == '/' then |p|
    else
      var front := p[..|p| - 1];
      assert forall i :: 0 <= i < |front| ==> front[i] == p[i];
      DirLength(front)
  }

  /** `path.basename(filePath)`: the text after the last '/'. */
  function BaseName(p: string): (b: string)
    ensures '/' !in b
    ensures p == p[..DirLength(p)] + b
  {
    p[DirLength(p)..]
  }

  /** `path.join(path.dirname(filePath), `${baseFilename}.md`)`: the README beside the file,
      named after the file with its first ".js" removed. */
  function ReadmePath(p: string): string {
    p[..DirLength(p)] + ReplaceFirst(BaseName(p), ".js", "") + ".md"
  }

  /** The file `dir/base.js` is named `base.js`, and its README is `dir/base.md`. */
  lemma ReadmeBeside(dir: string, base: string)
    requires '/' !in base && !Contains(base, ".js")
    ensures BaseName(dir + "/" + base + ".js") == base + ".js"
    ensures ReadmePath(dir + "/" + base + ".js") == dir + "/" + base + ".md"
  {
    var p := dir + "/" + base + ".js";
    var n := |dir| + 1;
    assert p[n - 1] == '/';
    assert forall i :: n <= i < |p| ==> p[i] != '/' by {
      forall i | n <= i < |p| ensures p[i] != '/' {
        if i < n + |base| {
          assert p[i] == base[i - n];
        } else {
          assert p[i] == ".js"[i - n - |base|];
        }
      }
    }
    DirLengthIs(p, n);
    assert p[n..] == base + ".js";
    assert p[..n] == dir + "/";
    RecipeIdOf("", base);
    assert ReplaceFirst(base + ".js", ".js", "") == base by {
      var x := ReplaceFirst(base + ".js", ".js", "");
      assert "" + "-" == "-";
      assert RecipeId("", base + ".js") == "-" + x;
      assert "-" + x == "-" + base;
      assert ("-" + x)[1..] == x && ("-" + base)[1..] == base;
    }
  }

  /** A '/' at n - 1 and none after it: the directory part has length n. */
  lemma {:induction false} DirLengthIs(p: string, n: nat)
    requires 0 < n <= |p| && p[n - 1] == '/'
    requires forall i :: n <= i < |p| ==> p[i] != '/'
    ensures DirLength(p) == n
  {
    if |p| != n {
      var front := p[..|p| - 1];
      assert forall i :: n <= i < |front| ==> front[i] == p[i];
      DirLengthIs(front, n);
    }
  }

  /** A recipe as the portal lists it; `readmePath` is set only when the README exists. */
  datatype Recipe = Recipe(id: string, name: string, description: string, category: string,
                           filePath: string, envVariables: seq<string>, isAuthRequired: bool,
                           readmePath: Option<string>)

  /** `scanRecipeFile` once the file is read and the README beside it looked up: only ".js"
      files are recipes; the title comment names the recipe, or else the file name does. */
  method ScanRecipeFile(filePath: string, category: string, content: string, hasReadme: bool) returns (r: Option<Recipe>)
    ensures r.None? <==> !EndsWith(BaseName(filePath), ".js")
    ensures r.Some? ==> r.value.id == RecipeId(category, BaseName(filePath)) && r.value.category == category
    ensures r.Some? ==> r.value.name == if Title(content) != "" then Title(content) else RecipeName(BaseName(filePath))
    ensures r.Some? ==> r.value.description == Description(content) && r.value.description != ""
    ensures r.Some? ==> r.value.filePath == filePath
    ensures r.Some? ==> r.value.envVariables == ExtractEnvVariables(content)
    ensures r.Some? ==> (r.value.isAuthRequired <==> RequiresAuth(content))
    ensures r.Some? ==> r.value.readmePath == if hasReadme then Some(ReadmePath(filePath)) else None
  {
    var filename := BaseName(filePath);
    if !EndsWith(filename, ".js") {
      return None;
    }
    var extractedTitle := ExtractTitle(content);
    var recipeName := if extractedTitle != "" then extractedTitle else RecipeName(filename);
    var description := ExtractDescription(content);
    r := Some(Recipe(RecipeId(category, filename), recipeName, description, category, filePath,
                     ExtractEnvVariables(content), RequiresAuth(content),
                     if hasReadme then Some(ReadmePath(filePath)) else None));
  }
}

=== FILE: request_analyzer.dfy ===
/** The request preview of the API recipe portal (recipe-portal/lib/requestAnalyzer.ts): from
    a recipe's code it derives the HTTP request the recipe makes (verb, full URL, headers,
    an example body), a one-line description, the equivalent `curl` command and the link to
    the API reference page for the endpoint. What the regular expressions find in the code
    is an input of the model. */
module RequestAnalyzer {
  import opened Wrappers
  import Text
  import Env
  import JsObject
  import Json

  const DefaultBaseUrl: string := "https://aws-api.sigmacomputing.com/v2"
  const BaseDocsUrl: string := "https://help.sigmacomputing.com/reference/"

  datatype HttpMethod = GET | POST | PUT | DELETE

  /** The method as written in a request line: `methodMatch[1].toUpperCase()`. */
  function MethodName(m: HttpMethod): string {
    match m
    case GET => "GET"
    case POST => "POST"
    case PUT => "PUT"
    case DELETE => "DELETE"
  }

  /** `ApiRequest`: `body` is `None` for `undefined`. */
  datatype ApiRequest = ApiRequest(verb: HttpMethod, url: string, headers: JsObject.Object<string>, body: Option<Json.Json>)

  /** `RequestPreview`. */
  datatype RequestPreview = RequestPreview(description: string, request: ApiRequest, curlCommand: string)

  /** What the three searches of the code find: the `axios.<method>(` call, the first
      quoted string holding a `/`, and whether one of the body patterns occurs. */
  datatype CodeMatches = CodeMatches(verb: Option<HttpMethod>, endpoint: Option<string>, bodyPattern: bool)

  // ---------------------------------------------------------------------------------------
  // The endpoint

  /** `s.replace(new RegExp(p, 'g'), r)` for a pattern without special characters: every
      occurrence, left to right, none of them overlapping. */
  function ReplaceAll(s: string, p: string, r: string): string
    requires p != []
    decreases |s|
  {
    match Text.IndexOf(s, p)
    case None => s
    case Some(i) => s[..i] + r + ReplaceAll(s[i + |p|..], p, r)
  }

  /** One step of the `forEach` over the variables: a variable with a value fills the
      first `${KEY}` and the first `${process.env.KEY}`, then every `${baseURL}`. */
  function SubstituteOne(endpoint: string, key: string, value: string, baseURL: string): string {
    if value == "" then endpoint
    else
      var e1 := Text.ReplaceFirst(endpoint, "${" + key + "}", value);
      var e2 := Text.ReplaceFirst(e1, "${process.env." + key + "}", value);
      ReplaceAll(e2, "${baseURL}", baseURL)
  }

  /** The endpoint once the variables `env` were applied in order. */
  function Substitute(endpoint: string, env: Env.Env, baseURL: string): string {
    if env == [] then endpoint
    else
      var last := env[|env| - 1];
      SubstituteOne(Substitute(endpoint, env[..|env| - 1], baseURL), last.0, last.1, baseURL)
  }

  /** A text holding no `${` is left alone by every replacement. */
  lemma SubstituteOneNoPlaceholder(endpoint: string, key: string, value: string, baseURL: string)
    requires !Text.Contains(endpoint, "${")
    ensures SubstituteOne(endpoint, key, value, baseURL) == endpoint
  {
    if value != "" {
      var p1, p2 := "${" + key + "}", "${process.env." + key + "}";
      assert p1 == "${" + (key + "}");
      assert p2 == "${" + ("process.env." + key + "}");
      assert "${baseURL}" == "${" + "baseURL}";
      if Text.Contains(endpoint, p1) {
        Text.ContainsPart(endpoint, "${", key + "}");
        assert false;
      }
      if Text.Contains(endpoint, p2) {
        Text.ContainsPart(endpoint, "${", "process.env." + key + "}");
        assert false;
      }
      if Text.Contains(endpoint, "${baseURL}") {
        Text.ContainsPart(endpoint, "${", "baseURL}");
        assert false;
      }
    }
  }

  /** An endpoint without placeholders reaches the URL unchanged, whatever the variables. */
  lemma {:induction false} SubstituteNoPlaceholder(endpoint: string, env: Env.Env, baseURL: string)
    requires !Text.Contains(endpoint, "${")
    ensures Substitute(endpoint, env, baseURL) == endpoint
  {
    if env != [] {
      SubstituteNoPlaceholder(endpoint, env[..|env| - 1], baseURL);
      var last := env[|env| - 1];
      SubstituteOneNoPlaceholder(endpoint, last.0, last.1, baseURL);
    }
  }

  /** A variable whose placeholder starts the endpoint fills it. */
  lemma SubstituteLeading(key: string, value: string, rest: string, baseURL: string)
    requires value != "" && '$' !in value && '$' !in rest
    ensures Substitute("${" + key + "}" + rest, [(key, value)], baseURL) == value + rest
  {
    var p1, p2 := "${" + key + "}", "${process.env." + key + "}";
    var env: Env.Env := [(key, value)];
    assert env[..0] == [];
    assert Substitute(p1 + rest, env, baseURL) == SubstituteOne(p1 + rest, key, value, baseURL);
    Text.IndexOfStart(p1, rest);
    assert (p1 + rest)[|p1|..] == rest;
    var e1 := value + rest;
    assert Text.ReplaceFirst(p1 + rest, p1, value) == e1;
    assert '$' !in e1;
    Text.NotFound(e1, p2);
    assert Text.ReplaceFirst(e1, p2, value) == e1;
    Text.NotFound(e1, "${baseURL}");
    assert ReplaceAll(e1, "${baseURL}", baseURL) == e1;
  }

  /** `endpoint.startsWith('http') ? endpoint : `${baseURL}${endpoint}``. */
  function FullUrl(endpoint: string, baseURL: string): (url: string)
    ensures Text.StartsWith(endpoint, "http") ==> url == endpoint
    ensures !Text.StartsWith(endpoint, "http") ==> url == baseURL + endpoint
  {
    if Text.StartsWith(endpoint, "http") then endpoint else baseURL + endpoint
  }

  /** With a base URL that starts with `http` every full URL does, and completing a URL
      twice changes nothing. */
  lemma FullUrlAbsolute(endpoint: string, baseURL: string)
    requires Text.StartsWith(baseURL, "http")
    ensures Text.StartsWith(FullUrl(endpoint, baseURL), "http")
    ensures FullUrl(FullUrl(endpoint, baseURL), baseURL) == FullUrl(endpoint, baseURL)
  {
    if !Text.StartsWith(endpoint, "http") {
      Text.StartsWithConcat(baseURL, endpoint, "");
      Text.StartsWithTrans(baseURL + endpoint, baseURL, "http");
    }
  }

  // ---------------------------------------------------------------------------------------
  // Headers, body and description

  /** Whether the request gets `Content-Type: application/json`. */
  predicate SendsContentType(verb: HttpMethod, code: string) {
    verb != GET && Text.Contains(code, "Content-Type")
  }

  /** The headers object: the bearer token placeholder (a real token is fetched when a
      client id is set), `Accept`, and `Content-Type` for a non-GET request whose code
      mentions it. */
  function Headers(verb: HttpMethod, code: string, env: Env.Env): (h: JsObject.Object<string>)
    ensures JsObject.Keys(h) == ["Authorization", "Accept"] + (if SendsContentType(verb, code) then ["Content-Type"] else [])
    ensures JsObject.Get(h, "Authorization") ==
      Some("Bearer " + if Env.Truthy(Env.Lookup(env, "CLIENT_ID")) then "[YOUR_ACCESS_TOKEN]" else "[CACHED_TOKEN]")
    ensures JsObject.Get(h, "Accept") == Some("application/json")
    ensures JsObject.Get(h, "Content-Type") == if SendsContentType(verb, code) then Some("application/json") else None
  {
    var token := if Env.Truthy(Env.Lookup(env, "CLIENT_ID")) then "[YOUR_ACCESS_TOKEN]" else "[CACHED_TOKEN]";
    var base := [("Authorization", "Bearer " + token), ("Accept", "application/json")];
    assert JsObject.Keys(base) == ["Authorization", "Accept"] by {
      assert base[1..][1..] == [];
    }
    assert |"Content-Type"| == 12 && |"Authorization"| == 13 && |"Accept"| == 6;
    JsObject.GetAbsent(base, "Content-Type");
    if SendsContentType(verb, code) then JsObject.Set(base, "Content-Type", "application/json") else base
  }

  /** `env.KEY || fallback`. */
  function OrElse(env: Env.Env, key: string, fallback: string): (v: string)
    ensures Env.Truthy(Env.Lookup(env, key)) ==> v == Env.Lookup(env, key).value
    ensures !Env.Truthy(Env.Lookup(env, key)) ==> v == fallback
  {
    Env.Or(Env.Lookup(env, key), Some(fallback)).value
  }

  /** `body[k]` of an object body. */
  function Field(body: Json.Json, k: string): Option<Json.Json> {
    if body.JObj? then JsObject.Get(body.fields, k) else None
  }

  function Str(s: string): Json.Json { Json.JStr(s) }

  const PdfFormat: Json.Json := Json.JObj([("type", Str("pdf")), ("layout", Str("portrait"))])

  /** The body of an element export: CSV unless the code asks for a PDF, and the date
      range as the `DateFilter` parameter when both dates are set. */
  function ElementExportBody(code: string, env: Env.Env): (body: Json.Json)
    ensures body.JObj? && |body.fields| >= 3
    ensures Field(body, "elementId") == Some(Str(OrElse(env, "ELEMENT_ID", "ELEMENT_ID_HERE")))
    ensures Field(body, "runAsynchronously") == Some(Json.JBool(true))
    ensures Field(body, "format") ==
      Some(if Text.Contains(code, "type: 'pdf'") then PdfFormat else Json.JObj([("type", Str("csv"))]))
    ensures Field(body, "parameters").Some? <==>
      Env.Truthy(Env.Lookup(env, "START_DATE")) && Env.Truthy(Env.Lookup(env, "END_DATE"))
  {
    var format := if Text.Contains(code, "type: 'pdf'") then PdfFormat else Json.JObj([("type", Str("csv"))]);
    var start, end := Env.Lookup(env, "START_DATE"), Env.Lookup(env, "END_DATE");
    var fields := [("elementId", Str(OrElse(env, "ELEMENT_ID", "ELEMENT_ID_HERE"))), ("format", format),
                   ("runAsynchronously", Json.JBool(true))];
    assert |"elementId"| == 9 && |"format"| == 6 && |"runAsynchronously"| == 17 && |"parameters"| == 10;
    if Env.Truthy(start) && Env.Truthy(end) then
      var dateFilter := Json.JObj([("DateFilter", Str("min:" + start.value + ",max:" + end.value))]);
      var all := fields + [("parameters", dateFilter)];
      JsObject.GetAt(all, 0, "elementId");
      JsObject.GetAt(all, 1, "format");
      JsObject.GetAt(all, 2, "runAsynchronously");
      JsObject.GetAt(all, 3, "parameters");
      Json.JObj(all)
    else
      JsObject.GetAt(fields, 0, "elementId");
      JsObject.GetAt(fields, 1, "format");
      JsObject.GetAt(fields, 2, "runAsynchronously");
      JsObject.GetAbsent(fields, "parameters");
      Json.JObj(fields)
  }

  /** `buildRequestBody(code, envVariables)`: an example body for the kind of recipe the
      code is, variables filling the fields they are set for. */
  function BuildRequestBody(code: string, env: Env.Env): (body: Json.Json)
    ensures body.JObj? && body.fields != []
    ensures Text.Contains(code, "export") && Text.Contains(code, "elementId") ==>
      Field(body, "elementId") == Some(Str(OrElse(env, "ELEMENT_ID", "ELEMENT_ID_HERE"))) &&
      Field(body, "runAsynchronously") == Some(Json.JBool(true)) &&
      (Field(body, "parameters").Some? <==>
        Env.Truthy(Env.Lookup(env, "START_DATE")) && Env.Truthy(Env.Lookup(env, "END_DATE")))
    ensures Text.Contains(code, "export") && Text.Contains(code, "elementId") ==> body == ElementExportBody(code, env)
    ensures Text.Contains(code, "export") && !Text.Contains(code, "elementId") && Text.Contains(code, "workbookId") ==>
      body == Json.JObj([("workbookId", Str(OrElse(env, "WORKBOOK_ID", "WORKBOOK_ID_HERE"))), ("format", PdfFormat)])
    ensures !(Text.Contains(code, "export") && (Text.Contains(code, "elementId") || Text.Contains(code, "workbookId"))) &&
            Text.Contains(code, "members") && Text.Contains(code, "POST") ==>
      body == Json.JObj([("email", Str(OrElse(env, "EMAIL", "user@example.com"))),
                         ("firstName", Str(OrElse(env, "NEW_MEMBER_FIRST_NAME", "John"))),
                         ("lastName", Str(OrElse(env, "NEW_MEMBER_LAST_NAME", "Doe"))),
                         ("accountType", Str(OrElse(env, "NEW_MEMBER_TYPE", "viewer")))])
    ensures !(Text.Contains(code, "export") && (Text.Contains(code, "elementId") || Text.Contains(code, "workbookId"))) &&
            !(Text.Contains(code, "members") && Text.Contains(code, "POST")) && Text.Contains(code, "permission") ==>
      body == Json.JObj([("memberId", Str(OrElse(env, "MEMBERID", "MEMBER_ID_HERE"))),
                         ("permission", Str(if Env.Truthy(Env.Lookup(env, "PERMISSION")) then Env.Lookup(env, "PERMISSION").value
                                            else OrElse(env, "WORKSPACE_PERMISSION", "view")))])
    ensures !(Text.Contains(code, "export") && (Text.Contains(code, "elementId") || Text.Contains(code, "workbookId"))) &&
            !(Text.Contains(code, "members") && Text.Contains(code, "POST")) && !Text.Contains(code, "permission") &&
            Text.Contains(code, "workspace") && Text.Contains(code, "POST") ==>
      body == Json.JObj([("name", Str(OrElse(env, "WORKSPACE_NAME", "My Workspace"))),
                         ("noDuplicates", Json.JBool(Env.Lookup(env, "NO_DUPLICATES") == Some("true")))])
    ensures !(Text.Contains(code, "export") && (Text.Contains(code, "elementId") || Text.Contains(code, "workbookId"))) &&
            !(Text.Contains(code, "members") && Text.Contains(code, "POST")) && !Text.Contains(code, "permission") &&
            !(Text.Contains(code, "workspace") && Text.Contains(code, "POST")) ==>
      Field(body, "// Note") == Some(Str("Request body varies by recipe")) &&
      Field(body, "// Parameters") == Some(Str("Populated from user inputs"))
  {
    if Text.Contains(code, "export") && Text.Contains(code, "elementId") then ElementExportBody(code, env)
    else if Text.Contains(code, "export") && Text.Contains(code, "workbookId") then
      Json.JObj([("workbookId", Str(OrElse(env, "WORKBOOK_ID", "WORKBOOK_ID_HERE"))), ("format", PdfFormat)])
    else if Text.Contains(code, "members") && Text.Contains(code, "POST") then
      Json.JObj([("email", Str(OrElse(env, "EMAIL", "user@example.com"))),
                 ("firstName", Str(OrElse(env, "NEW_MEMBER_FIRST_NAME", "John"))),
                 ("lastName", Str(OrElse(env, "NEW_MEMBER_LAST_NAME", "Doe"))),
                 ("accountType", Str(OrElse(env, "NEW_MEMBER_TYPE", "viewer")))])
    else if Text.Contains(code, "permission") then
      var permission := Env.Or(Env.Lookup(env, "PERMISSION"), Env.Or(Env.Lookup(env, "WORKSPACE_PERMISSION"), Some("view"))).value;
      Json.JObj([("memberId", Str(OrElse(env, "MEMBERID", "MEMBER_ID_HERE"))), ("permission", Str(permission))])
    else if Text.Contains(code, "workspace") && Text.Contains(code, "POST") then
      Json.JObj([("name", Str(OrElse(env, "WORKSPACE_NAME", "My Workspace"))),
                 ("noDuplicates", Json.JBool(Env.Lookup(env, "NO_DUPLICATES") == Some("true")))])
    else
      Json.JObj([("// Note", Str("Request body varies by recipe")), ("// Parameters", Str("Populated from user inputs"))])
  }

  /** With both dates set, the element export carries them as the `DateFilter` range. */
  lemma ExportDateFilter(code: string, env: Env.Env, start: string, end: string)
    requires Text.Contains(code, "export") && Text.Contains(code, "elementId")
    requires Env.Lookup(env, "START_DATE") == Some(start) && Env.Lookup(env, "END_DATE") == Some(end)
    requires start != "" && end != ""
    ensures Field(BuildRequestBody(code, env), "parameters") ==
      Some(Json.JObj([("DateFilter", Str("min:" + start + ",max:" + end))]))
  {
    var body := ElementExportBody(code, env);
    assert |"elementId"| == 9 && |"format"| == 6 && |"runAsynchronously"| == 17 && |"parameters"| == 10;
    JsObject.GetAt(body.fields, 3, "parameters");
  }

  /** The body the request carries: `buildRequestBody` for a POST or PUT whose code has a
      body pattern, `undefined` otherwise. */
  function RequestBody(verb: HttpMethod, code: string, env: Env.Env, bodyPattern: bool): (body: Option<Json.Json>)
    ensures body.Some? <==> (verb == POST || verb == PUT) && bodyPattern
  {
    if (verb == POST || verb == PUT) && bodyPattern then Some(BuildRequestBody(code, env)) else None
  }

  /** The description: the first topic the code mentions, in a fixed order, else the
      verb. */
  function Description(verb: HttpMethod, code: string): (d: string)
    ensures Text.Contains(code, "export") ==>
      d == if verb == POST then "Initiates an asynchronous export job" else "Downloads the export once ready"
    ensures !Text.Contains(code, "export") && Text.Contains(code, "workbooks") ==> d == "Workbook-related API operation"
    ensures !Text.Contains(code, "export") && !Text.Contains(code, "workbooks") && Text.Contains(code, "members") ==>
      d == "Member management API operation"
    ensures (!Text.Contains(code, "export") && !Text.Contains(code, "workbooks") && !Text.Contains(code, "members") &&
             Text.Contains(code, "teams")) ==> d == "Team management API operation"
    ensures (!Text.Contains(code, "export") && !Text.Contains(code, "workbooks") && !Text.Contains(code, "members") &&
             !Text.Contains(code, "teams") && Text.Contains(code, "connections")) ==> d == "Lists or manages API connections"
    ensures (!Text.Contains(code, "export") && !Text.Contains(code, "workbooks") && !Text.Contains(code, "members") &&
             !Text.Contains(code, "teams") && !Text.Contains(code, "connections")) ==>
      d == MethodName(verb) + " request to Sigma API"
  {
    if Text.Contains(code, "export") then
      if verb == POST then "Initiates an asynchronous export job" else "Downloads the export once ready"
    else if Text.Contains(code, "workbooks") then "Workbook-related API operation"
    else if Text.Contains(code, "members") then "Member management API operation"
    else if Text.Contains(code, "teams") then "Team management API operation"
    else if Text.Contains(code, "connections") then "Lists or manages API connections"
    else MethodName(verb) + " request to Sigma API"
  }

  // ---------------------------------------------------------------------------------------
  // The curl command

  /** The command's first line. */
  function CurlStart(verb: HttpMethod, url: string): (line: string)
    ensures line != [] && line[|line| - 1] == '"'
  {
    "curl -X " + MethodName(verb) + " \"" + url + "\""
  }

  /** The continuation line for one header. */
  function HeaderLine(key: string, value: string): string {
    " \\\n  -H \"" + key + ": " + value + "\""
  }

  /** The header lines, one per header in the object's order. */
  function HeaderLines(headers: JsObject.Object<string>): string {
    if headers == [] then "" else HeaderLine(headers[0].0, headers[0].1) + HeaderLines(headers[1..])
  }

  /** Whether the command carries the body: a body is present and the method sends one. */
  predicate SendsBody(request: ApiRequest) {
    request.body.Some? && (request.verb == POST || request.verb == PUT)
  }

  /** The `-d` line, with the body written as `JSON.stringify(body, null, 2)`. */
  function DataLine(request: ApiRequest): string {
    if SendsBody(request) then BodyLine(Json.StringifyIndented(request.body.value, "")) else ""
  }

  /** The continuation line carrying the body text. */
  function BodyLine(bodyJson: string): (line: string)
    ensures line != [] && line[|line| - 1] == '\''
  {
    " \\\n  -d '" + bodyJson + "'"
  }

  /** The command `generateCurlCommand` builds. */
  function CurlCommand(request: ApiRequest): string {
    CurlStart(request.verb, request.url) + HeaderLines(request.headers) + DataLine(request)
  }

  /** The header lines of two objects one after the other. */
  lemma {:induction false} HeaderLinesConcat(a: JsObject.Object<string>, b: JsObject.Object<string>)
    ensures HeaderLines(a + b) == HeaderLines(a) + HeaderLines(b)
  {
    if a != [] {
      assert (a + b)[0] == a[0] && (a + b)[1..] == a[1..] + b;
      HeaderLinesConcat(a[1..], b);
    } else {
      assert a + b == b;
    }
  }

  /** One more header adds its line at the end. */
  lemma HeaderLinesAppend(headers: JsObject.Object<string>, key: string, value: string)
    ensures HeaderLines(headers + [(key, value)]) == HeaderLines(headers) + HeaderLine(key, value)
  {
    HeaderLinesConcat(headers, [(key, value)]);
    assert [(key, value)][1..] == [];
  }

  /** Each header has its line, between those of the headers before and after it. */
  lemma HeaderLinesAt(headers: JsObject.Object<string>, i: nat)
    requires i < |headers|
    ensures HeaderLines(headers) ==
      HeaderLines(headers[..i]) + HeaderLine(headers[i].0, headers[i].1) + HeaderLines(headers[i + 1..])
  {
    assert headers == headers[..i] + headers[i..];
    HeaderLinesConcat(headers[..i], headers[i..]);
    assert headers[i..][1..] == headers[i + 1..];
  }

  lemma {:induction false} CountCharConcat(a: string, b: string, c: char)
    ensures Text.CountChar(a + b, c) == Text.CountChar(a, c) + Text.CountChar(b, c)
  {
    if a != [] {
      assert (a + b)[0] == a[0] && (a + b)[1..] == a[1..] + b;
      CountCharConcat(a[1..], b, c);
    } else {
      assert a + b == b;
    }
  }

  /** A header line holds the one line break that starts it. */
  lemma HeaderLineBreaks(k: string, v: string)
    requires '\n' !in k && '\n' !in v
    ensures Text.CountChar(HeaderLine(k, v), '\n') == 1
  {
    NoBreakCount(k);
    NoBreakCount(v);
    CountCharConcat(" \\\n  -H \"", k, '\n');
    CountCharConcat(" \\\n  -H \"" + k, ": ", '\n');
    CountCharConcat(" \\\n  -H \"" + k + ": ", v, '\n');
    CountCharConcat(" \\\n  -H \"" + k + ": " + v, "\"", '\n');
  }

  /** When no key or value holds a line break, the header lines hold one line break per
      header: each header is one `-H` line. */
  lemma {:induction false} HeaderLinesBreaks(headers: JsObject.Object<string>)
    requires forall i :: 0 <= i < |headers| ==> '\n' !in headers[i].0 && '\n' !in headers[i].1
    ensures Text.CountChar(HeaderLines(headers), '\n') == |headers|
  {
    if headers != [] {
      HeaderLinesBreaks(headers[1..]);
      HeaderLineBreaks(headers[0].0, headers[0].1);
      CountCharConcat(HeaderLine(headers[0].0, headers[0].1), HeaderLines(headers[1..]), '\n');
    }
  }

  lemma {:induction false} NoBreakCount(s: string)
    requires '\n' !in s
    ensures Text.CountChar(s, '\n') == 0
  {
    if s != [] {
      NoBreakCount(s[1..]);
    }
  }

  /** The command starts with `curl -X METHOD "url"` and ends with the body's closing
      quote exactly when it carries the body; otherwise it ends with a double quote. */
  lemma CurlCommandShape(request: ApiRequest)
    ensures Text.StartsWith(CurlCommand(request), CurlStart(request.verb, request.url))
    ensures var c := CurlCommand(request); c[|c| - 1] == (if SendsBody(request) then '\'' else '"')
  {
    HeaderLinesEnd(request.headers);
    ThreePartShape(CurlStart(request.verb, request.url), HeaderLines(request.headers), DataLine(request));
  }

  /** `a + b + c` starts with `a` and ends with the last character of its last non-empty
      part. */
  lemma ThreePartShape(a: string, b: string, c: string)
    requires a != []
    ensures Text.StartsWith(a + b + c, a)
    ensures var s := a + b + c;
      s[|s| - 1] == if c != [] then c[|c| - 1] else if b != [] then b[|b| - 1] else a[|a| - 1]
  {
    assert (a + b + c)[..|a|] == a;
  }

  /** The header lines are empty or end with a double quote. */
  lemma {:induction false} HeaderLinesEnd(headers: JsObject.Object<string>)
    ensures var h := HeaderLines(headers); h == "" || h[|h| - 1] == '"'
  {
    if headers != [] {
      HeaderLinesEnd(headers[1..]);
    }
  }

  /** The `forEach` over the headers: each header's line appended in turn. */
  method AppendHeaderLines(start: string, headers: JsObject.Object<string>) returns (curl: string)
    ensures curl == start + HeaderLines(headers)
  {
    curl := start;
    for i := 0 to |headers|
      invariant curl == start + HeaderLines(headers[..i])
    {
      var (key, value) := headers[i];
      HeaderLinesAppend(headers[..i], key, value);
      assert headers[..i + 1] == headers[..i] + [(key, value)];
      curl := curl + HeaderLine(key, value);
    }
    assert headers[..|headers|] == headers;
  }

  /** `generateCurlCommand(request)`: the first line, a line per header appended in order,
      and the body for a POST or PUT that has one. */
  method GenerateCurlCommand(request: ApiRequest) returns (curl: string)
    ensures curl == CurlCommand(request)
  {
    curl := CurlStart(request.verb, request.url);
    curl := AppendHeaderLines(curl, request.headers);
    if SendsBody(request) {
      var bodyJson := Json.StringifyIndented(request.body.value, "");
      curl := curl + BodyLine(bodyJson);
    }
  }

  // ---------------------------------------------------------------------------------------
  // The whole analysis

  /** The preview of a request whose method and endpoint were found. */
  function Preview(code: string, env: Env.Env, baseURL: string, verb: HttpMethod, endpoint: string, bodyPattern: bool): RequestPreview {
    var url := FullUrl(Substitute(endpoint, env, baseURL), baseURL);
    var request := ApiRequest(verb, url, Headers(verb, code, env), RequestBody(verb, code, env, bodyPattern));
    RequestPreview(Description(verb, code), request, CurlCommand(request))
  }

  /** `analyzeRecipeRequest(code, envVariables, baseURL)`: no preview unless the code shows
      both a method and an endpoint; otherwise the request with the variables filled into
      the endpoint, and its description and command. */
  method AnalyzeRecipeRequest(code: string, env: Env.Env, found: CodeMatches, baseURL: string := DefaultBaseUrl) returns (r: Option<RequestPreview>)
    ensures found.verb.None? || found.endpoint.None? ==> r.None?
    ensures found.verb.Some? && found.endpoint.Some? ==>
      r == Some(Preview(code, env, baseURL, found.verb.value, found.endpoint.value, found.bodyPattern))
  {
    if found.verb.None? || found.endpoint.None? {
      return None;
    }
    var verb := found.verb.value;
    var endpoint := found.endpoint.value;
    for i := 0 to |env|
      invariant endpoint == Substitute(found.endpoint.value, env[..i], baseURL)
    {
      assert env[..i + 1][..i] == env[..i];
      var (key, value) := env[i];
      if value != "" {
        endpoint := Text.ReplaceFirst(endpoint, "${" + key + "}", value);
        endpoint := Text.ReplaceFirst(endpoint, "${process.env." + key + "}", value);
        endpoint := ReplaceAll(endpoint, "${baseURL}", baseURL);
      }
    }
    assert env[..|env|] == env;
    var fullUrl := FullUrl(endpoint, baseURL);
    var headers := Headers(verb, code, env);
    var body := RequestBody(verb, code, env, found.bodyPattern);
    var request := ApiRequest(verb, fullUrl, headers, body);
    var curlCommand := GenerateCurlCommand(request);
    r := Some(RequestPreview(Description(verb, code), request, curlCommand));
  }

  /** A POST or PUT whose code has a body pattern always sends its body with `-d`: the body
      built is never empty. */
  lemma PreviewSendsBody(code: string, env: Env.Env, baseURL: string, verb: HttpMethod, endpoint: string, bodyPattern: bool)
    ensures var p := Preview(code, env, baseURL, verb, endpoint, bodyPattern);
      SendsBody(p.request) <==> (verb == POST || verb == PUT) && bodyPattern
  {
  }

  // ---------------------------------------------------------------------------------------
  // Documentation links

  /** The reference pages of the endpoints, in the order they are tried. */
  const EndpointMap: seq<(string, string)> := [
    ("/connections", "listconnections"),
    ("/members", "listmembers"),
    ("/teams", "listteams"),
    ("/workbooks", "listworkbooks"),
    ("/workspaces", "listworkspaces"),
    ("/export", "exportworkbook"),
    ("/embed", "createembedurl")
  ]

  /** The index of the first entry from `from` on whose pattern the endpoint contains. */
  function FirstMatch(endpoint: string, entries: seq<(string, string)>, from: nat): (r: Option<nat>)
    requires from <= |entries|
    decreases |entries| - from
    ensures r.Some? ==> from <= r.value < |entries| && Text.Contains(endpoint, entries[r.value].0)
    ensures r.Some? ==> forall j :: from <= j < r.value ==> !Text.Contains(endpoint, entries[j].0)
    ensures r.None? <==> forall j :: from <= j < |entries| ==> !Text.Contains(endpoint, entries[j].0)
  {
    if from == |entries| then None
    else if Text.Contains(endpoint, entries[from].0) then Some(from)
    else FirstMatch(endpoint, entries, from + 1)
  }

  /** The link `getApiDocumentationUrl` gives. */
  function DocumentationUrl(endpoint: string): string {
    match FirstMatch(endpoint, EndpointMap, 0)
    case Some(i) => BaseDocsUrl + EndpointMap[i].1
    case None => BaseDocsUrl
  }

  /** An endpoint naming workbooks gets the workbook list page, even when it is a
      workbook's export endpoint, unless it mentions connections, members or teams. */
  lemma WorkbookEndpointDocs(endpoint: string)
    requires Text.Contains(endpoint, "/workbooks")
    requires !Text.Contains(endpoint, "/connections") && !Text.Contains(endpoint, "/members") && !Text.Contains(endpoint, "/teams")
    ensures DocumentationUrl(endpoint) == BaseDocsUrl + "listworkbooks"
  {
    var r := FirstMatch(endpoint, EndpointMap, 0);
    assert EndpointMap[0].0 == "/connections" && EndpointMap[1].0 == "/members" && EndpointMap[2].0 == "/teams";
    assert EndpointMap[3] == ("/workbooks", "listworkbooks");
    assert r == Some(3);
  }

  /** An endpoint matching none of the patterns gets the reference index. */
  lemma UnknownEndpointDocs(endpoint: string)
    requires forall i :: 0 <= i < |EndpointMap| ==> !Text.Contains(endpoint, EndpointMap[i].0)
    ensures DocumentationUrl(endpoint) == BaseDocsUrl
  {
  }

  /** `getApiDocumentationUrl(endpoint)`: the patterns are tried in order and the first one
      the endpoint contains gives the page; without one, the reference index. */
  method GetApiDocumentationUrl(endpoint: string) returns (url: string)
    ensures url == DocumentationUrl(endpoint)
    ensures Text.StartsWith(url, BaseDocsUrl)
  {
    for i := 0 to |EndpointMap|
      invariant FirstMatch(endpoint, EndpointMap, i) == FirstMatch(endpoint, EndpointMap, 0)
    {
      var (pattern, docPath) := EndpointMap[i];
      if Text.Contains(endpoint, pattern) {
        Text.StartsWithConcat(BaseDocsUrl, docPath, "");
        return BaseDocsUrl + docPath;
      }
    }
    Text.StartsWithConcat(BaseDocsUrl, "", "");
    assert BaseDocsUrl + "" == BaseDocsUrl;
    return BaseDocsUrl;
  }
}

=== FILE: sdk_utils.dfy ===
/** The React SDK examples' URL signer (embed-sdk-react/docs/basic-examples/lib/utils.ts):
    nine parameters in a `URLSearchParams`, an HMAC-SHA256 hex signature over the dashboard
    URL with those parameters, and the signature appended as the last parameter. */
module EmbedSdkUtils {
  import opened Wrappers
  import opened Text
  import opened Encoding
  import opened QueryString
  import Env
  import Hmac

  /** The form serializer escapes '%', '&', '=' and '+', so its output reads back. */
  lemma FormQuerySafe()
    ensures QuerySafe(FormSafe, true)
  {
  }

  /** `URLSearchParams`: an ordered list of name/value pairs, written in the
      application/x-www-form-urlencoded form. */
  class SearchParams {
    var pairs: seq<(string, string)>

    /** `new URLSearchParams(record)`: the record's entries, in property order. */
    constructor (init: seq<(string, string)>)
      ensures pairs == init
    {
      pairs := init;
    }

    /** `append(name, value)`: one more pair at the end; pairs of the same name stay. */
    method Append(name: string, value: string)
      modifies this
      ensures pairs == old(pairs) + [(name, value)]
    {
      pairs := pairs + [(name, value)];
    }

    /** `toString()`: a query that reads back to every pair, decoded, in order. */
    function ToString(): (s: string)
      reads this
      ensures ParseQuery(s, true) == Some(Utf8Pairs(pairs))
    {
      FormQuerySafe();
      QueryRoundTrip(pairs, FormSafe, true);
      EncodeQuery(pairs, FormSafe, true)
    }
  }

  /** The hard-coded embed settings the signer reads. */
  datatype Config = Config(clientId: string, secret: string, email: string, externalUserId: string,
                           accountType: string, externalUserTeam: string, sessionLength: string)

  /** The placeholder values the file ships with. */
  const Shipped: Config := Config("your_client_id", "your_secret", "your_test_embed_user_email", "123",
                                  "viewer", "your_team", "3600")

  const Missing: string := "The Embed `SECRET` or `CLIENT_ID` is missing in the code"

  /** The name under which the signature is appended, written in two parts so that the
      verifier does not evaluate its form encoding on the literal in every proof. */
  const SignatureKey: string := ":" + "signature"

  /** `searchParamsObject`: nine entries in the order the literal writes them. */
  function SearchParamsObject(c: Config, nonce: string, time: int): (ps: seq<(string, string)>)
    ensures |ps| == 9
    ensures ps[0] == (":mode", "userbacked") && ps[5] == (":nonce", nonce)
    ensures ps[6] == (":time", IntToString(time)) && ps[8] == (":client_id", c.clientId)
    ensures ps[1] == (":email", c.email) && ps[2] == (":external_user_id", c.externalUserId)
    ensures ps[3] == (":account_type", c.accountType) && ps[4] == (":external_user_team", c.externalUserTeam)
    ensures ps[7] == (":session_length", c.sessionLength)
  {
    [(":mode", "userbacked"), (":email", c.email), (":external_user_id", c.externalUserId),
     (":account_type", c.accountType), (":external_user_team", c.externalUserTeam), (":nonce", nonce),
     (":time", IntToString(time)), (":session_length", c.sessionLength), (":client_id", c.clientId)]
  }

  /** The text the signature covers: the dashboard, '?', the parameters. */
  function SignedText(dashboard: string, ps: seq<(string, string)>): string {
    dashboard + "?" + EncodeQuery(ps, FormSafe, true)
  }

  /** The signed URL: the same parameters followed by the signature of `SignedText`. */
  function SignedUrl(secret: string, dashboard: string, ps: seq<(string, string)>, mac: Hmac.Mac): string {
    var sig := Hmac.HexDigest(secret, SignedText(dashboard, ps), mac);
    dashboard + "?" + EncodeQuery(ps + [(SignatureKey, sig)], FormSafe, true)
  }

  /** `signEmbedUrl(dashboard)`: rejects when the secret or the client id is empty; the
      `uuid()` nonce, the clock in milliseconds and HMAC-SHA256 are inputs. */
  method SignEmbedUrl(c: Config, dashboard: string, nonce: string, nowMs: int, mac: Hmac.Mac)
    returns (r: Result<string>)
    ensures r == Err(Missing) <==> c.secret == "" || c.clientId == ""
    ensures r.Ok? ==> r.value == SignedUrl(c.secret, dashboard, SearchParamsObject(c, nonce, Env.Seconds(nowMs)), mac)
  {
    if c.secret == "" || c.clientId == "" {
      return Err(Missing);
    }
    var searchParams := new SearchParams(SearchParamsObject(c, nonce, Env.Seconds(nowMs)));
    var urlWithSearchParams := dashboard + "?" + searchParams.ToString();
    var signature := Hmac.HexDigest(c.secret, urlWithSearchParams, mac);
    searchParams.Append(SignatureKey, signature);
    r := Ok(dashboard + "?" + searchParams.ToString());
  }

  /** The signature goes last: the signed URL is the signed text unchanged, '&', the
      encoded name `%3Asignature`, '=', and the hex digest as it is. */
  lemma SignedUrlExtends(secret: string, dashboard: string, ps: seq<(string, string)>, mac: Hmac.Mac)
    requires ps != []
    ensures var signed := SignedText(dashboard, ps);
            SignedUrl(secret, dashboard, ps, mac)
              == signed + "&" + FormUrlEncode(SignatureKey) + "=" + Hmac.HexDigest(secret, signed, mac)
  {
    var signed := SignedText(dashboard, ps);
    var sig := Hmac.HexDigest(secret, signed, mac);
    AppendHexValue(ps, SignatureKey, sig);
    RegroupSigned(dashboard, EncodeQuery(ps, FormSafe, true), FormUrlEncode(SignatureKey), sig);
  }

  lemma RegroupSigned(dashboard: string, query: string, name: string, value: string)
    ensures dashboard + "?" + (query + "&" + name + "=" + value) == dashboard + "?" + query + "&" + name + "=" + value
  {
  }

  /** A pair whose value is lower-case hex appended to a form query: '&', the encoded
      name, '=', and the value as it is. */
  lemma AppendHexValue(ps: seq<(string, string)>, name: string, value: string)
    requires ps != []
    requires forall i :: 0 <= i < |value| ==> IsLowerHex(value[i])
    ensures EncodeQuery(ps + [(name, value)], FormSafe, true)
         == EncodeQuery(ps, FormSafe, true) + "&" + FormUrlEncode(name) + "=" + value
  {
    FormKeepsAscii();
    HexValueKept(value);
    AppendKeptValue(ps, name, value, FormSafe, true);
  }

  /** Form encoding keeps only ASCII characters as they are. */
  lemma FormKeepsAscii()
    ensures forall b :: FormSafe(b) ==> b < 0x80
  {
  }

  /** A lower-case hex value is written as it is. */
  lemma HexValueKept(value: string)
    requires forall i :: 0 <= i < |value| ==> IsLowerHex(value[i])
    ensures PercentEncodeBytes(Utf8(value), FormSafe, true) == value
  {
    FormKeepsAscii();
    forall i | 0 <= i < |value| ensures value[i] as int < 0x80 && FormSafe(value[i] as int) {
      LowerHexFormSafe(value[i]);
    }
    PercentEncodeKept(value, FormSafe, true);
  }

  /** Lower-case hex digits are left as they are by form encoding. */
  lemma LowerHexFormSafe(c: char)
    requires IsLowerHex(c)
    ensures c as int < 0x80 && FormSafe(c as int)
  {
  }

  /** What the receiver reads from a signed URL with a '?'-free dashboard: the dashboard,
      then the parameters and the signature, each decoded back to the bytes given, in
      order; the signature's hex reads back to the MAC of the signed text. */
  lemma SignedUrlReadBack(secret: string, dashboard: string, ps: seq<(string, string)>, mac: Hmac.Mac)
    requires '?' !in dashboard
    ensures var signed := SignedText(dashboard, ps);
            var sig := Hmac.HexDigest(secret, signed, mac);
            var q := EncodeQuery(ps + [(SignatureKey, sig)], FormSafe, true);
            && SplitFirst(SignedUrl(secret, dashboard, ps, mac), '?') == Some((dashboard, q))
            && ParseQuery(q, true) == Some(Utf8Pairs(ps + [(SignatureKey, sig)]))
            && HexToBytes(sig) == Some(mac(Utf8(secret), Utf8(signed)))
  {
    var all := ps + [(SignatureKey, Hmac.HexDigest(secret, SignedText(dashboard, ps), mac))];
    var q := EncodeQuery(all, FormSafe, true);
    SplitFirstAt(dashboard, q, '?');
    FormQuerySafe();
    QueryRoundTrip(all, FormSafe, true);
  }
}

=== FILE: series2_api_embed.dfy ===
/** `generateSignedUrl` of the API use-case server
    (embedding_qs_series_2_api_use_cases/helpers/embed-api.js): claims from mode-prefixed
    environment variables, user attributes gathered from every `<PREFIX>ua_` variable, a
    token signed with `jsonwebtoken`, and the embed URL for the requested embed type. */
module SeriesTwoApiEmbed {
  import opened Wrappers
  import opened Text
  import opened Encoding
  import opened Json
  import JsObject
  import Env
  import Jwt
  import Hmac

  const MaxSessionSeconds: int := 2592000

  /** The request query fields read; "" stands for an absent field. */
  datatype Query = Query(embedType: string, exploreKey: string, bookmarkId: string)

  datatype Signed = Signed(signedUrl: string, jwt: string)

  /** `parseInt(process.env.SESSION_LENGTH) || 3600`, capped at thirty days. Without a
      radix, `parseInt` also reads `0x` hexadecimal. */
  function SessionSeconds(sessionLength: Option<string>): (r: int)
    ensures r <= MaxSessionSeconds
    ensures sessionLength.None? ==> r == 3600
    ensures sessionLength.Some? && (ParseIntAuto(sessionLength.value).None? || ParseIntAuto(sessionLength.value) == Some(0))
      ==> r == 3600
    ensures forall v :: sessionLength.Some? && ParseIntAuto(sessionLength.value) == Some(v) && v != 0 ==>
      r == if v < MaxSessionSeconds then v else MaxSessionSeconds
  {
    var parsed := match sessionLength
      case None => 0
      case Some(s) => match ParseIntAuto(s) case Some(n) => n case None => 0;
    var length := if parsed != 0 then parsed else 3600;
    if length < MaxSessionSeconds then length else MaxSessionSeconds
  }

  /** A decimal session length is honoured up to the cap; `exp` never lies more than thirty
      days after `iat`. */
  lemma SessionSecondsOfNumber(n: nat)
    requires n > 0
    ensures SessionSeconds(Some(NatToString(n))) == if n < MaxSessionSeconds then n else MaxSessionSeconds
  {
    var s := NatToString(n);
    ParseIntNatToString(n);
    assert forall i :: 0 <= i < |s| ==> IsDigit(s[i]);
  }

  /** `mode ? `${mode.toUpperCase()}_` : ""`. */
  function Prefix(mode: string): (p: string)
    ensures mode == "" <==> p == ""
    ensures mode != "" ==> p == ToUpper(mode) + "_"
  {
    if mode != "" then ToUpper(mode) + "_" else ""
  }

  /** `rawTeams?.split(",").map((t) => t.trim()).filter(Boolean) || []`. */
  function ParseTeams(raw: Option<string>): (teams: seq<string>)
    ensures raw.None? ==> teams == []
  {
    match raw
    case None => []
    case Some(t) => DropEmpty(TrimEach(Split(t, ',')))
  }

  /** A team name as the list holds it: non-empty, comma-free, trimmed. */
  predicate CleanTeam(t: string) {
    t != "" && ',' !in t && IsTrimmed(t)
  }

  /** Every team read from the variable is non-empty, has no comma and no surrounding
      whitespace. */
  lemma ParseTeamsClean(raw: Option<string>)
    ensures forall i :: 0 <= i < |ParseTeams(raw)| ==> CleanTeam(ParseTeams(raw)[i])
  {
    if raw.Some? {
      var parts := Split(raw.value, ',');
      TrimEachTrimmed(parts, ',');
      var trimmed := TrimEach(parts);
      var teams := DropEmpty(trimmed);
      forall i | 0 <= i < |teams| ensures CleanTeam(teams[i]) {
        assert teams[i] in trimmed;
      }
    }
  }

  /** A comma-separated list of trimmed, non-empty names is read back as those names. */
  lemma ParseTeamsJoin(teams: seq<string>)
    requires |teams| >= 1
    requires forall i :: 0 <= i < |teams| ==> CleanTeam(teams[i])
    ensures ParseTeams(Some(Join(teams, ","))) == teams
  {
    SplitJoin(teams, ',');
    TrimEachKeeps(teams);
  }

  /** The user attributes after the loop has visited `env`: each variable named
      `attrPrefix + k` sets `k` to its trimmed value. */
  function UserAttributes(env: Env.Env, attrPrefix: string): (attrs: JsObject.Object<string>)
    decreases |env|
  {
    if env == [] then []
    else
      var rest := UserAttributes(env[..|env| - 1], attrPrefix);
      var (key, val) := env[|env| - 1];
      if StartsWith(key, attrPrefix) then JsObject.Set(rest, key[|attrPrefix|..], Trim(val)) else rest
  }

  /** The loop over `Object.entries(process.env)`. */
  method CollectUserAttributes(env: Env.Env, prefix: string) returns (attrs: JsObject.Object<string>)
    ensures attrs == UserAttributes(env, prefix + "ua_")
  {
    var attrPrefix := prefix + "ua_";
    attrs := [];
    var i := 0;
    while i < |env|
      invariant 0 <= i <= |env|
      invariant attrs == UserAttributes(env[..i], attrPrefix)
    {
      var (key, val) := env[i];
      assert env[..i + 1][..i] == env[..i];
      if StartsWith(key, attrPrefix) {
        attrs := JsObject.Set(attrs, key[|attrPrefix|..], Trim(val));
      }
      i := i + 1;
    }
    assert env[..|env|] == env;
  }

  /** Attribute `k` is the trimmed value of the variable `attrPrefix + k`, and there is no
      attribute without such a variable. */
  lemma {:induction false} UserAttributesGet(env: Env.Env, attrPrefix: string, k: string)
    requires JsObject.DistinctKeys(env)
    ensures JsObject.Get(UserAttributes(env, attrPrefix), k) ==
      match Env.Lookup(env, attrPrefix + k) case Some(v) => Some(Trim(v)) case None => None
    decreases |env|
  {
    if env != [] {
      var init := env[..|env| - 1];
      var (key, val) := env[|env| - 1];
      assert env == init + [(key, val)];
      UserAttributesGet(init, attrPrefix, k);
      JsObject.GetAppend(init, key, val, attrPrefix + k);
      JsObject.GetDefined(init, attrPrefix + k);
      if attrPrefix + k == key {
        assert key !in JsObject.Keys(init) by {
          forall j | 0 <= j < |init| ensures JsObject.Keys(init)[j] != key {
            assert JsObject.Keys(init)[j] == env[j].0;
          }
        }
        assert key[..|attrPrefix|] == attrPrefix && key[|attrPrefix|..] == k;
      } else if StartsWith(key, attrPrefix) {
        assert key == attrPrefix + key[|attrPrefix|..];
      }
    }
  }

  /** A claim that is `undefined` is dropped by `JSON.stringify`. */
  function OptionalClaim(name: string, v: Option<string>): seq<(string, Json)> {
    if v.Some? then [(name, JStr(v.value))] else []
  }

  function StringArray(ss: seq<string>): Json {
    JArr(StringItems(ss))
  }

  function StringItems(ss: seq<string>): seq<Json> {
    if ss == [] then [] else [JStr(ss[0])] + StringItems(ss[1..])
  }

  function StringObject(o: JsObject.Object<string>): Json {
    JObj(StringFields(o))
  }

  function StringFields(o: JsObject.Object<string>): seq<(string, Json)> {
    if o == [] then [] else [(o[0].0, JStr(o[0].1))] + StringFields(o[1..])
  }

  /** The email claim: the mode's own variable, else the shared one. */
  function Email(env: Env.Env, prefix: string): Option<string> {
    Env.Or(Env.Lookup(env, prefix + "EMAIL"), Env.Lookup(env, "EMAIL"))
  }

  /** The claims object, in the order the literal writes them; a claim whose value is
      `undefined` is left out. */
  function Payload(sub: Option<string>, iss: Option<string>, jti: string, iat: int, exp: int,
                   accountType: Option<string>, teams: seq<string>, attrs: JsObject.Object<string>,
                   evalConnection: Option<string>): Json
  {
    JObj(OptionalClaim("sub", sub) + OptionalClaim("iss", iss) +
         [("jti", JStr(jti)), ("iat", JNum(iat)), ("exp", JNum(exp))] +
         OptionalClaim("account_type", accountType) +
         [("teams", StringArray(teams)), ("user_attributes", StringObject(attrs))] +
         OptionalClaim("eval_connection_id", evalConnection))
  }

  /** The environment variables the claims are built from, as `generateSignedUrl` reads
      them for a mode: the mode's own variable first, the shared one second. */
  datatype Settings = Settings(email: Option<string>, clientId: Option<string>, sessionSeconds: int,
                               accountType: Option<string>, teams: seq<string>,
                               evalConnection: Option<string>)

  function ReadSettings(env: Env.Env, prefix: string): (s: Settings)
    ensures s.sessionSeconds <= MaxSessionSeconds
    ensures Env.Lookup(env, "SESSION_LENGTH").None? ==> s.sessionSeconds == 3600
    ensures Env.Truthy(Env.Lookup(env, prefix + "EMAIL")) ==> s.email == Env.Lookup(env, prefix + "EMAIL")
  {
    Settings(Email(env, prefix), Env.Lookup(env, "CLIENT_ID"), SessionSeconds(Env.Lookup(env, "SESSION_LENGTH")),
             Env.Or(Env.Lookup(env, prefix + "ACCOUNT_TYPE"), Env.Lookup(env, "ACCOUNT_TYPE")),
             ParseTeams(Env.Or(Env.Lookup(env, prefix + "TEAMS"), Env.Lookup(env, "TEAMS"))),
             Env.Or(Env.Lookup(env, prefix + "eval_connection_id"), None))
  }

  /** The claims `generateSignedUrl` puts into the token. */
  function Claims(s: Settings, jti: string, now: int, attrs: JsObject.Object<string>): Json {
    Payload(s.email, s.clientId, jti, now, now + s.sessionSeconds, s.accountType, s.teams, attrs, s.evalConnection)
  }

  /** No entry of `o` carries the key `k`. */
  predicate Lacks(o: JsObject.Object<Json>, k: string) {
    forall j :: 0 <= j < |o| ==> o[j].0 != k
  }

  lemma LacksConcat(a: JsObject.Object<Json>, b: JsObject.Object<Json>, k: string)
    requires Lacks(a, k) && Lacks(b, k)
    ensures Lacks(a + b, k)
  {
    assert forall j :: |a| <= j < |a + b| ==> (a + b)[j] == b[j - |a|];
  }

  lemma OptionalClaimLacks(name: string, v: Option<string>, k: string)
    requires name != k
    ensures Lacks(OptionalClaim(name, v), k)
  {
  }

  /** After claims that carry neither `iat` nor `exp`, the lookups find the two times. */
  lemma TimesLookup(head: JsObject.Object<Json>, jti: string, iat: int, exp: int, rest: JsObject.Object<Json>)
    requires Lacks(head, "iat") && Lacks(head, "exp")
    ensures var f := head + ([("jti", JStr(jti)), ("iat", JNum(iat)), ("exp", JNum(exp))] + rest);
      JsObject.Get(f, "iat") == Some(JNum(iat)) && JsObject.Get(f, "exp") == Some(JNum(exp))
  {
    var times := [("jti", JStr(jti)), ("iat", JNum(iat)), ("exp", JNum(exp))];
    JsObject.GetSkip(head, times + rest, "iat");
    JsObject.GetSkip(head, times + rest, "exp");
    JsObject.GetAt(times + rest, 1, "iat");
    JsObject.GetAt(times + rest, 2, "exp");
  }

  /** `iat` and `exp` are the two times given, whichever optional claims come before them. */
  lemma PayloadTimes(sub: Option<string>, iss: Option<string>, jti: string, iat: int, exp: int,
                     accountType: Option<string>, teams: seq<string>, attrs: JsObject.Object<string>,
                     evalConnection: Option<string>)
    ensures var p := Payload(sub, iss, jti, iat, exp, accountType, teams, attrs, evalConnection);
      && p.JObj?
      && JsObject.Get(p.fields, "iat") == Some(JNum(iat))
      && JsObject.Get(p.fields, "exp") == Some(JNum(exp))
  {
    var p := Payload(sub, iss, jti, iat, exp, accountType, teams, attrs, evalConnection);
    var sc, ic := OptionalClaim("sub", sub), OptionalClaim("iss", iss);
    var times := [("jti", JStr(jti)), ("iat", JNum(iat)), ("exp", JNum(exp))];
    var rest := OptionalClaim("account_type", accountType) +
         [("teams", StringArray(teams)), ("user_attributes", StringObject(attrs))] +
         OptionalClaim("eval_connection_id", evalConnection);
    assert p.fields == (sc + ic) + (times + rest);
    OptionalClaimLacks("sub", sub, "iat");
    OptionalClaimLacks("iss", iss, "iat");
    OptionalClaimLacks("sub", sub, "exp");
    OptionalClaimLacks("iss", iss, "exp");
    LacksConcat(sc, ic, "iat");
    LacksConcat(sc, ic, "exp");
    TimesLookup(sc + ic, jti, iat, exp, rest);
  }

  /** `sub` is present exactly when an email is set, and then it is that email. */
  lemma PayloadSub(sub: Option<string>, iss: Option<string>, jti: string, iat: int, exp: int,
                   accountType: Option<string>, teams: seq<string>, attrs: JsObject.Object<string>,
                   evalConnection: Option<string>)
    ensures var p := Payload(sub, iss, jti, iat, exp, accountType, teams, attrs, evalConnection);
      && p.JObj?
      && JsObject.Get(p.fields, "sub") == (if sub.Some? then Some(JStr(sub.value)) else None)
  {
    var p := Payload(sub, iss, jti, iat, exp, accountType, teams, attrs, evalConnection);
    var f := p.fields;
    if sub.None? {
      var ic := OptionalClaim("iss", iss);
      var times := [("jti", JStr(jti)), ("iat", JNum(iat)), ("exp", JNum(exp))];
      var ac := OptionalClaim("account_type", accountType);
      var mid := [("teams", StringArray(teams)), ("user_attributes", StringObject(attrs))];
      var ec := OptionalClaim("eval_connection_id", evalConnection);
      assert f == ic + times + ac + mid + ec;
      OptionalClaimLacks("iss", iss, "sub");
      OptionalClaimLacks("account_type", accountType, "sub");
      OptionalClaimLacks("eval_connection_id", evalConnection, "sub");
      assert Lacks(times, "sub") && Lacks(mid, "sub");
      LacksConcat(ic, times, "sub");
      LacksConcat(ic + times, ac, "sub");
      LacksConcat(ic + times + ac, mid, "sub");
      LacksConcat(ic + times + ac + mid, ec, "sub");
      JsObject.GetAbsent(f, "sub");
    } else {
      assert f[0] == ("sub", JStr(sub.value));
    }
  }

  /** The token of `generateSignedUrl` is issued now, expires the session length later,
      and names the user exactly when an email is configured. */
  lemma ClaimsTimes(s: Settings, jti: string, now: int, attrs: JsObject.Object<string>)
    ensures var p := Claims(s, jti, now, attrs);
      && p.JObj?
      && JsObject.Get(p.fields, "iat") == Some(JNum(now))
      && JsObject.Get(p.fields, "exp") == Some(JNum(now + s.sessionSeconds))
      && JsObject.Get(p.fields, "sub") == (if s.email.Some? then Some(JStr(s.email.value)) else None)
  {
    PayloadTimes(s.email, s.clientId, jti, now, now + s.sessionSeconds, s.accountType, s.teams, attrs, s.evalConnection);
    PayloadSub(s.email, s.clientId, jti, now, now + s.sessionSeconds, s.accountType, s.teams, attrs, s.evalConnection);
  }

  /** The base URL for the embed type: workbook, page, and element for anything else. */
  function BaseUrl(env: Env.Env, embedType: string): Option<string> {
    if embedType == "workbook" then Env.Lookup(env, "EMBED_URL_WORKBOOK")
    else if embedType == "page" then Env.Lookup(env, "EMBED_URL_PAGE")
    else Env.Lookup(env, "EMBED_URL_ELEMENT")
  }

  /** `:embed=true`, the token, then explore and bookmark when given. */
  function EmbedParams(token: string, exploreKey: string, bookmarkId: string): (ps: seq<string>)
    ensures |ps| == 2 + (if exploreKey != "" then 1 else 0) + (if bookmarkId != "" then 1 else 0)
    ensures ps[0] == ":embed=true" && ps[1] == ":jwt=" + EncodeUriComponent(token)
    ensures exploreKey != "" ==> ps[2] == ":explore=" + EncodeUriComponent(exploreKey)
    ensures bookmarkId != "" ==> ps[|ps| - 1] == ":bookmark=" + EncodeUriComponent(bookmarkId)
  {
    [":embed=true", ":jwt=" + EncodeUriComponent(token)] +
    (if exploreKey != "" then [":explore=" + EncodeUriComponent(exploreKey)] else []) +
    (if bookmarkId != "" then [":bookmark=" + EncodeUriComponent(bookmarkId)] else [])
  }

  /** The interface options passed through from the environment. */
  const UiKeys: seq<string> := ["disable_mobile_view", "hide_menu", "hide_folder_navigation",
    "hide_tooltip", "lng", "menu_position", "responsive_height", "theme"]

  /** `:key=value` for each of `keys` whose variable is set, in the order of `keys`. */
  function UiParts(env: Env.Env, keys: seq<string>): (parts: seq<string>)
    ensures |parts| <= |keys|
    ensures forall i :: 0 <= i < |parts| ==> parts[i] != [] && parts[i][0] == ':'
    ensures parts == [] <==> forall i :: 0 <= i < |keys| ==> !Env.Truthy(Env.Lookup(env, keys[i]))
    ensures |keys| == 1 && Env.Truthy(Env.Lookup(env, keys[0])) ==>
      parts == [":" + keys[0] + "=" + EncodeUriComponent(Env.Lookup(env, keys[0]).value)]
    ensures |keys| == 1 && !Env.Truthy(Env.Lookup(env, keys[0])) ==> parts == []
  {
    if keys == [] then []
    else
      var v := Env.Lookup(env, keys[0]);
      var rest := UiParts(env, keys[1..]);
      assert forall i :: 1 <= i < |keys| ==> keys[i] == keys[1..][i - 1];
      if Env.Truthy(v) then [":" + keys[0] + "=" + EncodeUriComponent(v.value)] + rest else rest
  }

  /** The options of a list of keys are those of its first part followed by those of the
      rest: each key contributes in its own place, so with the one-key case of `UiParts`
      the parts are `:key=value` for each set key, in key order. */
  lemma {:induction false} UiPartsAppend(env: Env.Env, keys1: seq<string>, keys2: seq<string>)
    ensures UiParts(env, keys1 + keys2) == UiParts(env, keys1) + UiParts(env, keys2)
  {
    if keys1 != [] {
      assert (keys1 + keys2)[0] == keys1[0];
      assert (keys1 + keys2)[1..] == keys1[1..] + keys2;
      UiPartsAppend(env, keys1[1..], keys2);
    } else {
      assert keys1 + keys2 == keys2;
    }
  }

  /** `baseEmbedUrl`, then `&` and the interface options only when there are any. */
  function FinalUrl(base: string, uiParts: seq<string>): (url: string)
    requires forall i :: 0 <= i < |uiParts| ==> uiParts[i] != []
    ensures StartsWith(url, base)
    ensures uiParts == [] ==> url == base
    ensures uiParts != [] ==> url == base + "&" + Join(uiParts, "&") && EndsWith(url, uiParts[|uiParts| - 1])
  {
    var ui := Join(uiParts, "&");
    AfterBase(base, uiParts);
    if ui != "" then base + "&" + ui else base
  }

  /** The options joined are empty exactly when there are none, and the URL with them
      starts with the base and ends with the last option. */
  lemma AfterBase(base: string, uiParts: seq<string>)
    requires forall i :: 0 <= i < |uiParts| ==> uiParts[i] != []
    ensures Join(uiParts, "&") == "" <==> uiParts == []
    ensures StartsWith(base, base)
    ensures uiParts != [] ==>
      StartsWith(base + "&" + Join(uiParts, "&"), base) &&
      EndsWith(base + "&" + Join(uiParts, "&"), uiParts[|uiParts| - 1])
  {
    assert base[..|base|] == base;
    JoinLastPart(uiParts, "&");
    if uiParts != [] {
      var ui := Join(uiParts, "&");
      StartsWithConcat(base, "&", "");
      StartsWithConcat(base + "&", ui, "");
      StartsWithTrans(base + "&" + ui, base + "&", base);
      EndsWithConcat(base + "&", ui, uiParts[|uiParts| - 1]);
    }
  }

  /** A join ends with its last part. */
  lemma {:induction false} JoinLastPart(parts: seq<string>, sep: string)
    ensures parts != [] ==> EndsWith(Join(parts, sep), parts[|parts| - 1])
  {
    if |parts| > 1 {
      JoinLastPart(parts[1..], sep);
      var j := Join(parts[1..], sep);
      var all := parts[0] + sep + j;
      assert all[|all| - |j|..] == j;
    }
  }

  /** A join starts with its first part. */
  lemma JoinFirstPart(parts: seq<string>, sep: string)
    ensures parts != [] ==> StartsWith(Join(parts, sep), parts[0])
  {
    if |parts| > 1 {
      var all := parts[0] + sep + Join(parts[1..], sep);
      assert all[..|parts[0]|] == parts[0];
    }
  }

  /** `${baseUrl}?${params.join("&")}` followed by the interface options. */
  function EmbedUrl(env: Env.Env, baseUrl: string, token: string, query: Query): (url: string)
    ensures StartsWith(url, baseUrl + "?" + ":embed=true" + "&" + ":jwt=" + EncodeUriComponent(token))
    ensures var ui := UiParts(env, UiKeys);
      url == baseUrl + "?" + Join(EmbedParams(token, query.exploreKey, query.bookmarkId), "&") +
             (if ui == [] then "" else "&" + Join(ui, "&"))
  {
    var ps := EmbedParams(token, query.exploreKey, query.bookmarkId);
    var base := baseUrl + "?" + Join(ps, "&");
    var ui := UiParts(env, UiKeys);
    var url := FinalUrl(base, ui);
    EmbedUrlStart(baseUrl, ps, url);
    assert url == base + (if ui == [] then "" else "&" + Join(ui, "&"));
    url
  }

  lemma EmbedUrlStart(baseUrl: string, ps: seq<string>, url: string)
    requires |ps| >= 2
    requires StartsWith(url, baseUrl + "?" + Join(ps, "&"))
    ensures StartsWith(url, baseUrl + "?" + ps[0] + "&" + ps[1])
  {
    JoinFirstTwo(baseUrl + "?", ps, "&");
    StartsWithTrans(url, baseUrl + "?" + Join(ps, "&"), baseUrl + "?" + ps[0] + "&" + ps[1]);
  }

  /** After a prefix, a join of two or more parts starts with its first two parts. */
  lemma JoinFirstTwo(pre: string, ps: seq<string>, sep: string)
    requires |ps| >= 2
    ensures StartsWith(pre + Join(ps, sep), pre + ps[0] + sep + ps[1])
  {
    var rest := Join(ps[1..], sep);
    JoinFirstPart(ps[1..], sep);
    var b := pre + ps[0] + sep;
    assert pre + Join(ps, sep) == b + rest;
    StartsWithConcat(b, rest, ps[1]);
  }

  /** Everything after the attribute loop: sign, choose the base URL, add the parameters.
      Signing comes first, so a missing secret is reported before a missing base URL. */
  function SignedUrlOf(env: Env.Env, mode: string, query: Query, now: int, jti: string,
                       attrs: JsObject.Object<string>, mac: Hmac.Mac): (r: Result<Signed>)
    ensures var embedType := if query.embedType != "" then query.embedType else "element";
      r.Ok? <==> Env.Truthy(Env.Lookup(env, "SECRET")) && Env.Lookup(env, "CLIENT_ID").Some? &&
                 Env.Truthy(BaseUrl(env, embedType))
    ensures r.Ok? ==>
      var embedType := if query.embedType != "" then query.embedType else "element";
      && StartsWith(r.value.signedUrl, BaseUrl(env, embedType).value + "?" + ":embed=true" + "&" + ":jwt=" + EncodeUriComponent(r.value.jwt))
      && Jwt.Verify(r.value.jwt, Env.Lookup(env, "SECRET").value, mac) ==
           Some(Utf8(Stringify(Claims(ReadSettings(env, Prefix(mode)), jti, now, attrs))))
    ensures r.Ok? ==>
      var embedType := if query.embedType != "" then query.embedType else "element";
      r.value.signedUrl == EmbedUrl(env, BaseUrl(env, embedType).value, r.value.jwt, query)
    ensures !Env.Truthy(Env.Lookup(env, "SECRET")) ==> r == Err("secretOrPrivateKey must have a value")
    ensures Env.Truthy(Env.Lookup(env, "SECRET")) && Env.Lookup(env, "CLIENT_ID").None? ==>
      r == Err("\"keyid\" must be a string")
    ensures var embedType := if query.embedType != "" then query.embedType else "element";
      Env.Truthy(Env.Lookup(env, "SECRET")) && Env.Lookup(env, "CLIENT_ID").Some? && !Env.Truthy(BaseUrl(env, embedType)) ==>
      r == Err("Missing EMBED_URL for embedType \"" + embedType + "\"")
  {
    var embedType := if query.embedType != "" then query.embedType else "element";
    var payload := Claims(ReadSettings(env, Prefix(mode)), jti, now, attrs);
    match Jwt.JsonWebTokenSign(payload, Env.Lookup(env, "SECRET"), Env.Lookup(env, "CLIENT_ID"), mac)
    case Err(e) => Err(e)
    case Ok(token) =>
      var baseUrl := BaseUrl(env, embedType);
      if !Env.Truthy(baseUrl) then Err("Missing EMBED_URL for embedType \"" + embedType + "\"")
      else Ok(Signed(EmbedUrl(env, baseUrl.value, token, query), token))
  }

  /** `generateSignedUrl(mode, query)`. The clock reading and the `uuid` token id are
      inputs, and so is HMAC-SHA256. */
  method GenerateSignedUrl(env: Env.Env, mode: string, query: Query, now: int, jti: string, mac: Hmac.Mac)
    returns (r: Result<Signed>)
    ensures r == SignedUrlOf(env, mode, query, now, jti, UserAttributes(env, Prefix(mode) + "ua_"), mac)
  {
    var prefix := Prefix(mode);
    var attrs := CollectUserAttributes(env, prefix);
    r := SignedUrlOf(env, mode, query, now, jti, attrs, mac);
  }
}

=== FILE: series2_embed.dfy ===
/** `generateSignedUrl(mode)` of the QuickStart series 2 server
    (embedding_qs_series_2/helpers/embed-api.js): the mode picks a prefixed set of
    environment variables, the claims fall back to the shared ones, and the token travels
    in `:jwt` ahead of `:embed=true`. Every failure surfaces as "JWT generation failed". */
module SeriesTwoEmbed {
  import opened Wrappers
  import opened Text
  import opened Encoding
  import opened Json
  import JsObject
  import Env
  import Jwt
  import Hmac
  import SeriesTwoApiEmbed

  /** The message the `catch` block rethrows, whatever went wrong. */
  const Failed: string := "JWT generation failed"

  /** `rawTeams ? rawTeams.split(",").map((t) => t.trim()) : []`: unlike the API use-case
      server, empty entries are kept. */
  function SplitTeams(raw: Option<string>): (teams: seq<string>)
    ensures !Env.Truthy(raw) ==> teams == []
  {
    if Env.Truthy(raw) then TrimEach(Split(raw.value, ',')) else []
  }

  /** A set variable gives one team per comma-separated entry, each trimmed. */
  lemma SplitTeamsCount(raw: string)
    requires raw != ""
    ensures |SplitTeams(Some(raw))| == CountChar(raw, ',') + 1
    ensures forall i :: 0 <= i < |SplitTeams(Some(raw))| ==> IsTrimmed(SplitTeams(Some(raw))[i])
  {
    SplitLength(raw, ',');
    TrimEachTrimmed(Split(raw, ','), ',');
  }

  /** Trimmed, comma-free names written with commas are read back as they are, empty ones
      included. */
  lemma SplitTeamsJoin(teams: seq<string>)
    requires |teams| >= 1 && Join(teams, ",") != ""
    requires forall i :: 0 <= i < |teams| ==> ',' !in teams[i] && IsTrimmed(teams[i])
    ensures SplitTeams(Some(Join(teams, ","))) == teams
  {
    SplitJoin(teams, ',');
    TrimEachKeeps(teams);
  }

  /** An empty entry between two teams is kept here and dropped by the API use-case server. */
  lemma EmptyTeamKept(a: string, b: string)
    requires SeriesTwoApiEmbed.CleanTeam(a) && SeriesTwoApiEmbed.CleanTeam(b)
    ensures SplitTeams(Some(Join([a, "", b], ","))) == [a, "", b]
    ensures SeriesTwoApiEmbed.ParseTeams(Some(Join([a, "", b], ","))) == [a, b]
  {
    var teams := [a, "", b];
    assert Join(teams, ",") != "" by {
      assert Join(teams, ",") == a + "," + Join(teams[1..], ",");
    }
    SplitTeamsJoin(teams);
    assert TrimEach(Split(Join(teams, ","), ',')) == teams;
    assert DropEmpty(teams) == [a] + DropEmpty(["", b]);
    assert DropEmpty(["", b]) == DropEmpty([b]);
  }

  /** The variables the claims are built from, read for one mode prefix. */
  datatype Settings = Settings(email: Option<string>, clientId: Option<string>, sessionSeconds: int,
                               accountType: Option<string>, teams: seq<string>)

  function ReadSettings(env: Env.Env, prefix: string): (s: Settings)
    ensures s.sessionSeconds <= SeriesTwoApiEmbed.MaxSessionSeconds
    ensures Env.Truthy(Env.Lookup(env, prefix + "EMAIL")) ==> s.email == Env.Lookup(env, prefix + "EMAIL")
    ensures !Env.Truthy(Env.Lookup(env, prefix + "EMAIL")) ==> s.email == Env.Lookup(env, "EMAIL")
  {
    Settings(Env.Or(Env.Lookup(env, prefix + "EMAIL"), Env.Lookup(env, "EMAIL")),
             Env.Lookup(env, "CLIENT_ID"),
             SeriesTwoApiEmbed.SessionSeconds(Env.Lookup(env, "SESSION_LENGTH")),
             Env.Or(Env.Lookup(env, prefix + "ACCOUNT_TYPE"), Env.Lookup(env, "ACCOUNT_TYPE")),
             SplitTeams(Env.Or(Env.Lookup(env, prefix + "TEAMS"), Env.Lookup(env, "TEAMS"))))
  }

  /** The claims object; `sub`, `iss` and `account_type` vanish when `undefined`. */
  function Claims(s: Settings, jti: string, now: int): Json {
    JObj(SeriesTwoApiEmbed.OptionalClaim("sub", s.email) + SeriesTwoApiEmbed.OptionalClaim("iss", s.clientId) +
         [("jti", JStr(jti)), ("iat", JNum(now)), ("exp", JNum(now + s.sessionSeconds))] +
         SeriesTwoApiEmbed.OptionalClaim("account_type", s.accountType) +
         [("teams", SeriesTwoApiEmbed.StringArray(s.teams))])
  }

  /** The token is issued now and expires the session length later. */
  lemma ClaimsTimes(s: Settings, jti: string, now: int)
    ensures var p := Claims(s, jti, now);
      && p.JObj?
      && JsObject.Get(p.fields, "iat") == Some(JNum(now))
      && JsObject.Get(p.fields, "exp") == Some(JNum(now + s.sessionSeconds))
  {
    var head := SeriesTwoApiEmbed.OptionalClaim("sub", s.email) + SeriesTwoApiEmbed.OptionalClaim("iss", s.clientId);
    var times := [("jti", JStr(jti)), ("iat", JNum(now)), ("exp", JNum(now + s.sessionSeconds))];
    var rest := SeriesTwoApiEmbed.OptionalClaim("account_type", s.accountType) +
                [("teams", SeriesTwoApiEmbed.StringArray(s.teams))];
    assert Claims(s, jti, now).fields == head + (times + rest);
    assert forall j :: 0 <= j < |head| ==> head[j].0 == "sub" || head[j].0 == "iss";
    JsObject.GetSkip(head, times + rest, "iat");
    JsObject.GetSkip(head, times + rest, "exp");
    JsObject.GetAt(times + rest, 1, "iat");
    JsObject.GetAt(times + rest, 2, "exp");
  }

  /** `${baseUrl}?:jwt=${encodeURIComponent(token)}&:embed=true`. */
  function EmbedUrl(baseUrl: string, token: string): string {
    baseUrl + "?" + JwtParam(token) + "&" + EmbedParam
  }

  function JwtParam(token: string): (p: string)
    ensures '&' !in p
  {
    ":" + "jwt=" + EncodeUriComponent(token)
  }

  const EmbedParam: string := ":embed=true"

  /** The URL reads back as the base, then `:jwt` carrying the token's UTF-8 bytes, then
      `:embed=true`. */
  lemma EmbedUrlReadBack(baseUrl: string, token: string)
    requires '?' !in baseUrl
    ensures var q := JwtParam(token) + "&" + EmbedParam;
      && SplitFirst(EmbedUrl(baseUrl, token), '?') == Some((baseUrl, q))
      && Split(q, '&') == [JwtParam(token), EmbedParam]
      && PercentDecode(EncodeUriComponent(token), false) == Some(Utf8(token))
  {
    var a := JwtParam(token);
    var q := a + "&" + EmbedParam;
    assert EmbedUrl(baseUrl, token) == baseUrl + ['?'] + q;
    SplitFirstAt(baseUrl, q, '?');
    assert '&' !in EmbedParam;
    SplitTwo(a, EmbedParam, '&');
    EncodeUriComponentRoundTrip(token);
  }

  /** `generateSignedUrl(mode)`. The clock reading, the `uuid` token id and HMAC-SHA256 are
      inputs. */
  function GenerateSignedUrl(env: Env.Env, mode: string, now: int, jti: string, mac: Hmac.Mac)
    : (r: Result<SeriesTwoApiEmbed.Signed>)
    ensures var baseUrl := Env.Lookup(env, SeriesTwoApiEmbed.Prefix(mode) + "BASE_URL");
      r.Ok? <==> Env.Truthy(baseUrl) && Env.Truthy(Env.Lookup(env, "SECRET")) && Env.Lookup(env, "CLIENT_ID").Some?
    ensures r.Err? ==> r.error == Failed
    ensures r.Ok? ==>
      && r.value.signedUrl == EmbedUrl(Env.Lookup(env, SeriesTwoApiEmbed.Prefix(mode) + "BASE_URL").value, r.value.jwt)
      && Jwt.Verify(r.value.jwt, Env.Lookup(env, "SECRET").value, mac) ==
           Some(Utf8(Stringify(Claims(ReadSettings(env, SeriesTwoApiEmbed.Prefix(mode)), jti, now))))
  {
    var prefix := SeriesTwoApiEmbed.Prefix(mode);
    var baseUrl := Env.Lookup(env, prefix + "BASE_URL");
    if !Env.Truthy(baseUrl) then Err(Failed)
    else
      var payload := Claims(ReadSettings(env, prefix), jti, now);
      match Jwt.JsonWebTokenSign(payload, Env.Lookup(env, "SECRET"), Env.Lookup(env, "CLIENT_ID"), mac)
      case Err(_) => Err(Failed)
      case Ok(token) => Ok(SeriesTwoApiEmbed.Signed(EmbedUrl(baseUrl.value, token), token))
  }
}

=== FILE: sharepoint_jwt.dfy ===
/** The SharePoint Azure Function (sigma-embed-sharepoint/jwt/index.js): reads its settings
    from the environment, picks the caller's email, mints an HS256 token with the Sigma
    claims and answers with the embed URL that carries it. */
module SharePointJwt {
  import opened Wrappers
  import opened Text
  import opened Encoding
  import opened Json
  import JsObject
  import Env
  import Jwt
  import Hmac

  /** `60 * 60 * 24 * 30`: thirty days in seconds. */
  const MaxSessionSeconds: int := 2592000

  /** The request fields the handler reads; "" stands for an absent field. */
  datatype Request = Request(queryEmail: string, bodyEmail: string, origin: string)

  datatype Response =
    | Failure(status: int, error: string)
    | Minted(headers: JsObject.Object<string>, body: string)

  /** `Math.min(parseInt(SESSION_LENGTH, 10) || 300, 60 * 60 * 24 * 30)`: an unreadable or
      zero length falls back to 300 seconds; the result never exceeds thirty days. */
  function MaxSession(sessionLength: string): (r: int)
    ensures r <= MaxSessionSeconds
    ensures ParseInt(sessionLength).None? ==> r == 300
    ensures ParseInt(sessionLength) == Some(0) ==> r == 300
    ensures forall v :: ParseInt(sessionLength) == Some(v) && v != 0 ==>
      r == if v < MaxSessionSeconds then v else MaxSessionSeconds
  {
    var parsed := match ParseInt(sessionLength) case Some(n) => n case None => 0;
    var length := if parsed != 0 then parsed else 300;
    if length < MaxSessionSeconds then length else MaxSessionSeconds
  }

  /** A session length written in decimal is honoured up to the thirty-day cap. */
  lemma MaxSessionOfNumber(n: nat)
    requires n > 0
    ensures MaxSession(NatToString(n)) == if n < MaxSessionSeconds then n else MaxSessionSeconds
  {
    ParseIntNatToString(n);
  }

  /** `TEAM ? [TEAM] : []`. */
  function Teams(team: string): (r: seq<string>)
    ensures team != "" <==> r == [team]
    ensures team == "" <==> r == []
  {
    if team != "" then [team] else []
  }

  /** The claims, in the order the object literal writes them. */
  function Payload(email: string, clientId: string, now: int, maxSession: int, jti: string,
                   accountType: string, teams: seq<string>): (p: Json)
    ensures p.JObj?
    ensures JsObject.Keys(p.fields) == ["sub", "iss", "iat", "exp", "jti", "account_type", "teams"]
    ensures p.fields[2].1 == JNum(now) && p.fields[3].1 == JNum(now + maxSession)
    ensures p.fields[0].1 == JStr(email) && p.fields[1].1 == JStr(clientId)
  {
    JObj([("sub", JStr(email)), ("iss", JStr(clientId)), ("iat", JNum(now)), ("exp", JNum(now + maxSession)),
          ("jti", JStr(jti)), ("account_type", JStr(accountType)),
          ("teams", JArr(seq(|teams|, i requires 0 <= i < |teams| => JStr(teams[i]))))])
  }

  /** `BASE_URL.includes("?") ? "&" : "?"`, then `:jwt=`, the URI-encoded token, `&:embed=true`. */
  function EmbedUrl(baseUrl: string, token: string): (url: string)
    ensures StartsWith(url, baseUrl)
  {
    var join := if '?' in baseUrl then "&" else "?";
    var url := baseUrl + join + ":jwt=" + EncodeUriComponent(token) + "&:embed=true";
    assert url[..|baseUrl|] == baseUrl;
    url
  }

  /** The response headers: JSON, no caching, and the caller's origin reflected when given. */
  function Headers(origin: string): (h: JsObject.Object<string>)
    ensures JsObject.Get(h, "access-control-allow-origin") == if origin != "" then Some(origin) else None
    ensures JsObject.Get(h, "content-type") == Some("application/json")
  {
    var base := [("content-type", "application/json"), ("cache-control", "no-store")];
    if origin != "" then JsObject.Set(base, "access-control-allow-origin", origin) else base
  }

  /** The caller's email: `?email=`, else the body's email, else `DEV_EMAIL`. */
  function CallerEmail(req: Request, devEmail: string): (email: string)
    ensures email == "" <==> req.queryEmail == "" && req.bodyEmail == "" && devEmail == ""
    ensures req.queryEmail != "" ==> email == req.queryEmail
    ensures req.queryEmail == "" && req.bodyEmail != "" ==> email == req.bodyEmail
    ensures req.queryEmail == "" && req.bodyEmail == "" ==> email == devEmail
  {
    if req.queryEmail != "" then req.queryEmail
    else if req.bodyEmail != "" then req.bodyEmail
    else devEmail
  }

  /** BASE_URL, CLIENT_ID and SECRET are all set and non-empty. */
  predicate Configured(env: Env.Env) {
    Env.Truthy(Env.Lookup(env, "BASE_URL")) && Env.Truthy(Env.Lookup(env, "CLIENT_ID")) &&
    Env.Truthy(Env.Lookup(env, "SECRET"))
  }

  /** The handler. The clock reading (`Math.floor(Date.now() / 1000)`), the random token id
      and HMAC-SHA256 are inputs. */
  function Handle(env: Env.Env, req: Request, now: int, jti: string, mac: Hmac.Mac): (res: Response)
    ensures res.Failure? && res.status == 500 <==>
      !Env.Truthy(Env.Lookup(env, "BASE_URL")) || !Env.Truthy(Env.Lookup(env, "CLIENT_ID")) ||
      !Env.Truthy(Env.Lookup(env, "SECRET"))
    ensures res.Failure? ==> res.status == 500 || res.status == 401
    ensures res.Failure? && res.status == 401 <==>
      Configured(env) && CallerEmail(req, Env.WithDefault(Env.Lookup(env, "DEV_EMAIL"), "")) == ""
    ensures res.Minted? ==> res.headers == Headers(req.origin)
  {
    var baseUrl := Env.WithDefault(Env.Lookup(env, "BASE_URL"), "");
    var clientId := Env.WithDefault(Env.Lookup(env, "CLIENT_ID"), "");
    var secret := Env.WithDefault(Env.Lookup(env, "SECRET"), "");
    var accountType := Env.WithDefault(Env.Lookup(env, "ACCOUNT_TYPE"), "Embed");
    var team := Env.WithDefault(Env.Lookup(env, "TEAM"), "");
    var sessionLength := Env.WithDefault(Env.Lookup(env, "SESSION_LENGTH"), "300");
    var devEmail := Env.WithDefault(Env.Lookup(env, "DEV_EMAIL"), "");
    if baseUrl == "" || clientId == "" || secret == "" then Failure(500, "config_missing")
    else
      var email := CallerEmail(req, devEmail);
      if email == "" then Failure(401, "email_required")
      else
        var maxSession := MaxSession(sessionLength);
        var payload := Payload(email, clientId, now, maxSession, jti, accountType, Teams(team));
        var token := Jwt.SignHS256(payload, secret, clientId, mac);
        Minted(Headers(req.origin),
               Stringify(JObj([("embedUrl", JStr(EmbedUrl(baseUrl, token))), ("expires_in", JNum(maxSession))])))
  }

  /** Without an email anywhere, a configured handler answers 401. */
  lemma EmailRequired(env: Env.Env, req: Request, now: int, jti: string, mac: Hmac.Mac)
    requires Env.Truthy(Env.Lookup(env, "BASE_URL")) && Env.Truthy(Env.Lookup(env, "CLIENT_ID"))
    requires Env.Truthy(Env.Lookup(env, "SECRET"))
    requires req.queryEmail == "" && req.bodyEmail == ""
    requires !Env.Truthy(Env.Lookup(env, "DEV_EMAIL"))
    ensures Handle(env, req, now, jti, mac) == Failure(401, "email_required")
  {
  }

  /** A configured handler with an email answers 200: the headers for the caller's origin,
      and a body holding the embed URL and `expires_in`, the session length granted; the
      token in the URL verifies under SECRET to the serialized claims, which name the
      caller and expire `expires_in` seconds after `now`. */
  lemma {:induction false} HandleMinted(env: Env.Env, req: Request, now: int, jti: string, mac: Hmac.Mac)
    requires Configured(env)
    requires CallerEmail(req, Env.WithDefault(Env.Lookup(env, "DEV_EMAIL"), "")) != ""
    ensures var baseUrl := Env.Lookup(env, "BASE_URL").value;
      var clientId := Env.Lookup(env, "CLIENT_ID").value;
      var secret := Env.Lookup(env, "SECRET").value;
      var maxSession := MaxSession(Env.WithDefault(Env.Lookup(env, "SESSION_LENGTH"), "300"));
      var payload := Payload(CallerEmail(req, Env.WithDefault(Env.Lookup(env, "DEV_EMAIL"), "")), clientId, now,
                             maxSession, jti, Env.WithDefault(Env.Lookup(env, "ACCOUNT_TYPE"), "Embed"),
                             Teams(Env.WithDefault(Env.Lookup(env, "TEAM"), "")));
      var token := Jwt.SignHS256(payload, secret, clientId, mac);
      && Handle(env, req, now, jti, mac) ==
           Minted(Headers(req.origin),
                  Stringify(JObj([("embedUrl", JStr(EmbedUrl(baseUrl, token))), ("expires_in", JNum(maxSession))])))
      && Jwt.Verify(token, secret, mac) == Some(Utf8(Stringify(payload)))
  {
    var clientId := Env.Lookup(env, "CLIENT_ID").value;
    var maxSession := MaxSession(Env.WithDefault(Env.Lookup(env, "SESSION_LENGTH"), "300"));
    var payload := Payload(CallerEmail(req, Env.WithDefault(Env.Lookup(env, "DEV_EMAIL"), "")), clientId, now,
                           maxSession, jti, Env.WithDefault(Env.Lookup(env, "ACCOUNT_TYPE"), "Embed"),
                           Teams(Env.WithDefault(Env.Lookup(env, "TEAM"), "")));
    Jwt.VerifySign(Jwt.Header(clientId), payload, Env.Lookup(env, "SECRET").value, mac);
  }

  /** The token in the embed URL: the part after `:jwt=` decodes back to a token that
      verifies under the secret, and its payload is the claims as serialized. */
  lemma EmbedUrlCarriesToken(baseUrl: string, payload: Json, secret: string, kid: string, mac: Hmac.Mac)
    ensures var token := Jwt.SignHS256(payload, secret, kid, mac);
      && EmbedUrl(baseUrl, token) ==
           baseUrl + (if '?' in baseUrl then "&" else "?") + ":jwt=" + EncodeUriComponent(token) + "&:embed=true"
      && PercentDecode(EncodeUriComponent(token), false) == Some(Utf8(token))
      && Jwt.Verify(token, secret, mac) == Some(Utf8(Stringify(payload)))
  {
    var token := Jwt.SignHS256(payload, secret, kid, mac);
    EncodeUriComponentRoundTrip(token);
    Jwt.VerifySign(Jwt.Header(kid), payload, secret, mac);
  }
}

=== FILE: smart_parameters.dfy ===
/** Parameter detection of the API recipe portal (recipe-portal/lib/smartParameters.ts):
    the environment variables a recipe reads are matched against a table of known
    parameters, by exact name first, then by id spellings, then by the words the name
    contains, so that the form can offer a picker or a typed input for each. */
module SmartParameters {
  import opened Wrappers
  import opened Text
  import JsObject
  import RecipeScanner

  /** One entry of a select input's fixed list: the caption shown (`label`) and the value sent. */
  datatype Choice = Choice(caption: string, value: string)

  /** The checks a typed value is given: a regular expression and length bounds as the
      interface declares them, and the numeric bounds the row limit sets. */
  datatype Validation = Validation(pattern: Option<string>, minLength: Option<int>, maxLength: Option<int>,
                                   min: Option<int>, max: Option<int>)

  /** What the form needs to know about a known parameter: its input type, the resource
      list it is picked from, its label, its help text, its placeholder, the parameter it
      depends on, its fixed choices and its validation. */
  datatype Pattern = Pattern(kind: string, resourceType: Option<string>, friendlyName: string,
                             description: string, placeholder: Option<string>, dependsOn: Option<string>,
                             options: Option<seq<Choice>>, validation: Option<Validation>)

  /** A parameter picked from a resource list. */
  function Picked(kind: string, resourceType: string, friendlyName: string, description: string): Pattern {
    Pattern(kind, Some(resourceType), friendlyName, description, None, None, None, None)
  }

  /** A parameter typed in. */
  function Typed(kind: string, friendlyName: string, description: string, placeholder: string): Pattern {
    Pattern(kind, None, friendlyName, description, Some(placeholder), None, None, None)
  }

  /** The levels a workbook or folder grant can give. */
  const PermissionChoices: seq<Choice> :=
    [Choice("View", "view"), Choice("Explore", "explore"), Choice("Contribute", "contribute"), Choice("Manage", "manage")]

  /** The levels a workspace grant can give. */
  const WorkspacePermissionChoices: seq<Choice> :=
    [Choice("View", "view"), Choice("Explore", "explore"), Choice("Organize", "organize"), Choice("Edit", "edit")]

  /** `PARAMETER_PATTERNS`, in the order the literal writes it. */
  const Patterns: JsObject.Object<Pattern> := [
    ("TEAMID", Picked("teamId", "teams", "Team", "Select the team to work with")),
    ("MEMBERID", Picked("memberId", "members", "Member", "Select the member to work with")),
    ("WORKBOOK_ID", Picked("workbookId", "workbooks", "Workbook", "Select the workbook to work with")),
    ("WORKSPACEID", Picked("workspaceId", "workspaces", "Workspace", "Select the workspace to work with")),
    ("CONNECTIONID", Picked("connectionId", "connections", "Connection", "Select the connection to work with")),
    ("BOOKMARKID", Picked("bookmarkId", "bookmarks", "Favorite/Bookmark", "Select the favorite or bookmark to work with")),
    ("BOOKMARK_ID", Picked("bookmarkId", "bookmarks", "Favorite/Bookmark", "Select the favorite or bookmark to work with")),
    ("FAVORITEID", Picked("bookmarkId", "bookmarks", "Favorite/Bookmark", "Select the favorite or bookmark to work with")),
    ("FAVORITE_ID", Picked("bookmarkId", "bookmarks", "Favorite/Bookmark", "Select the favorite or bookmark to work with")),
    ("TEMPLATEID", Picked("templateId", "templates", "Template", "Select the template to work with")),
    ("TEMPLATE_ID", Picked("templateId", "templates", "Template", "Select the template to work with")),
    ("DATASETID", Picked("datasetId", "datasets", "Dataset", "Select the dataset to work with")),
    ("DATASET_ID", Picked("datasetId", "datasets", "Dataset", "Select the dataset to work with")),
    ("DATAMODELID", Picked("dataModelId", "dataModels", "Data Model", "Select the data model to work with")),
    ("DATAMODEL_ID", Picked("dataModelId", "dataModels", "Data Model", "Select the data model to work with")),
    ("DATA_MODEL_ID", Picked("dataModelId", "dataModels", "Data Model", "Select the data model to work with")),
    ("ACCOUNTTYPEID", Picked("accountTypeId", "accountTypes", "Account Type", "Select the account type to work with")),
    ("ACCOUNTTYPE_ID", Picked("accountTypeId", "accountTypes", "Account Type", "Select the account type to work with")),
    ("ACCOUNT_TYPE_ID", Picked("accountTypeId", "accountTypes", "Account Type", "Select the account type to work with")),
    ("ELEMENT_ID", Pattern("select", Some("workbookElements"), "Workbook Element", "Select the workbook element to export",
                           Some("Select element..."), Some("WORKBOOK_ID"), None, None)),
    ("SHEET_ID", Pattern("select", Some("materializationSchedules"), "Schedule Name", "Select the materialization schedule to run",
                         Some("Select schedule..."), Some("WORKBOOK_ID"), None, None)),
    ("EMAIL", Typed("email", "Email Address", "Enter a valid email address", "user@example.com")
                .(validation := Some(Validation(Some("^[^\\s@]+@[^\\s@]+\\.[^\\s@]+$"), None, None, None, None)))),
    ("NEW_MEMBER_FIRST_NAME", Typed("string", "First Name", "Enter the member's first name", "John")),
    ("NEW_MEMBER_LAST_NAME", Typed("string", "Last Name", "Enter the member's last name", "Smith")),
    ("NEW_MEMBER_TYPE", Pattern("select", Some("accountTypes"), "Member Type",
                                "Select the member account type (fallback: admin, creator, viewer if API unavailable)",
                                Some("Select account type..."), None,
                                Some([Choice("Admin", "admin"), Choice("Creator", "creator"), Choice("Viewer", "viewer")]), None)),
    ("SYNC_PATH", Typed("json", "Sync Path",
                        "JSON array representing the database path to sync (e.g., [\"database\", \"schema\"] for schema-level sync)",
                        "[\"SAMPLE_DATABASE\", \"PUBLIC\"]")),
    ("USER_NAME_PATTERN", Typed("string", "Username Pattern", "Pattern for generating usernames", "user_{index}")),
    ("DRY_RUN", Typed("boolean", "Dry Run", "Preview mode - shows what would be deactivated without making actual changes",
                      "true or false")),
    ("LIMIT", Typed("number", "Row Limit",
                    "Maximum rows to export (Default: 100,000 | Max: 1,000,000) - Large downloads may timeout without batching",
                    "100000").(validation := Some(Validation(None, None, None, Some(1), Some(1000000))))),
    ("PERMISSION", Typed("select", "Permission Level", "Select the permission level to grant", "Select permission...")
                     .(options := Some(PermissionChoices))),
    ("WORKSPACE_PERMISSION", Typed("select", "Workspace Permission Level", "Select the workspace permission level to grant",
                                   "Select permission...").(options := Some(WorkspacePermissionChoices))),
    ("WORKSPACE_NAME", Typed("string", "Workspace Name", "Enter the name for the new workspace", "My Workspace")),
    ("NO_DUPLICATES", Typed("boolean", "Prevent Duplicates", "Prevent creating duplicate workspace names", "true or false")),
    ("NEW_WORKBOOK_NAME", Typed("string", "New Workbook Name", "Enter the name for the copied workbook", "My Copied Workbook")),
    ("NEW_WORKBOOK_DESCRIPTION", Typed("string", "New Workbook Description", "Enter a description for the copied workbook",
                                       "Copy of the original workbook")),
    ("START_DATE", Typed("date", "Start Date", "Select start date for export range", "2024-01-01")),
    ("END_DATE", Typed("date", "End Date", "Select end date for export range", "2024-12-31")),
    ("EXPORT_FILENAME", Typed("string", "Export Filename", "Enter filename for exported CSV file", "my-export.csv")),
    ("MAX_PAGES", Typed("number", "Max Pages", "Maximum number of pages to fetch (0 = all pages)", "5"))
  ]

  /** `context?.filePath?.includes('master-script')`; `None` stands for a missing context
      or path. */
  predicate MasterScript(path: Option<string>) {
    path.Some? && Contains(path.value, "master-script")
  }

  /** `context?.filePath?.includes('workspace')`. */
  predicate InWorkspace(path: Option<string>) {
    path.Some? && Contains(path.value, "workspace")
  }

  /** An id check on a word such as TEAM: the name is TEAMID or TEAM_ID, or contains
      TEAMID. The member and workspace ids are set by the master script itself. */
  datatype IdRule = IdRule(word: string, key: string, setByMasterScript: bool)

  /** The id checks, in the order the source makes them. */
  const IdRules: seq<IdRule> := [
    IdRule("TEAM", "TEAMID", false),
    IdRule("MEMBER", "MEMBERID", true),
    IdRule("WORKBOOK", "WORKBOOK_ID", false),
    IdRule("WORKSPACE", "WORKSPACEID", true),
    IdRule("CONNECTION", "CONNECTIONID", false),
    IdRule("BOOKMARK", "BOOKMARKID", false),
    IdRule("FAVORITE", "FAVORITEID", false),
    IdRule("TEMPLATE", "TEMPLATEID", false),
    IdRule("DATASET", "DATASETID", false)
  ]

  predicate IdMatches(u: string, rule: IdRule) {
    u == rule.word + "ID" || u == rule.word + "_ID" || Contains(u, rule.word + "ID")
  }

  /** A word check: the name contains every one of the words. */
  datatype WordRule = WordRule(words: seq<string>, key: string)

  /** The word checks, in the order the source makes them. */
  const WordRules: seq<WordRule> := [
    WordRule(["TEAM"], "TEAMID"),
    WordRule(["MEMBER"], "MEMBERID"),
    WordRule(["WORKBOOK"], "WORKBOOK_ID"),
    WordRule(["WORKSPACE"], "WORKSPACEID"),
    WordRule(["CONNECTION"], "CONNECTIONID"),
    WordRule(["BOOKMARK"], "BOOKMARKID"),
    WordRule(["FAVORITE"], "FAVORITEID"),
    WordRule(["TEMPLATE"], "TEMPLATEID"),
    WordRule(["DATASET"], "DATASETID"),
    WordRule(["EMAIL"], "EMAIL"),
    WordRule(["ELEMENT"], "ELEMENT_ID"),
    WordRule(["SHEET"], "SHEET_ID"),
    WordRule(["SYNC", "PATH"], "SYNC_PATH"),
    WordRule(["USER", "PATTERN"], "USER_NAME_PATTERN"),
    WordRule(["DRY", "RUN"], "DRY_RUN"),
    WordRule(["LIMIT"], "LIMIT"),
    WordRule(["WORKSPACE", "PERMISSION"], "WORKSPACE_PERMISSION"),
    WordRule(["PERMISSION"], "PERMISSION"),
    WordRule(["WORKSPACE", "NAME"], "WORKSPACE_NAME"),
    WordRule(["NO", "DUPLICATE"], "NO_DUPLICATES"),
    WordRule(["NEW", "WORKBOOK", "NAME"], "NEW_WORKBOOK_NAME"),
    WordRule(["NEW", "WORKBOOK", "DESCRIPTION"], "NEW_WORKBOOK_DESCRIPTION"),
    WordRule(["START", "DATE"], "START_DATE"),
    WordRule(["END", "DATE"], "END_DATE"),
    WordRule(["EXPORT", "FILENAME"], "EXPORT_FILENAME"),
    WordRule(["MAX", "PAGE"], "MAX_PAGES"),
    WordRule(["FIRST", "NAME"], "NEW_MEMBER_FIRST_NAME"),
    WordRule(["LAST", "NAME"], "NEW_MEMBER_LAST_NAME"),
    WordRule(["TYPE"], "NEW_MEMBER_TYPE")
  ]

  predicate WordsMatch(u: string, rule: WordRule) {
    forall w :: w in rule.words ==> Contains(u, w)
  }

  /** The index of the first id check at or after `from` that the name passes. */
  function FirstIdRule(u: string, rules: seq<IdRule>, from: nat): (r: Option<nat>)
    decreases |rules| - from
    ensures r.Some? ==> from <= r.value < |rules| && IdMatches(u, rules[r.value])
    ensures r.Some? ==> forall j :: from <= j < r.value ==> !IdMatches(u, rules[j])
    ensures r.None? ==> forall j :: from <= j < |rules| ==> !IdMatches(u, rules[j])
  {
    if from >= |rules| then None
    else if IdMatches(u, rules[from]) then Some(from)
    else FirstIdRule(u, rules, from + 1)
  }

  /** The index of the first word check at or after `from` that the name passes. */
  function FirstWordRule(u: string, rules: seq<WordRule>, from: nat): (r: Option<nat>)
    decreases |rules| - from
    ensures r.Some? ==> from <= r.value < |rules| && WordsMatch(u, rules[r.value])
    ensures r.Some? ==> forall j :: from <= j < r.value ==> !WordsMatch(u, rules[j])
    ensures r.None? ==> forall j :: from <= j < |rules| ==> !WordsMatch(u, rules[j])
  {
    if from >= |rules| then None
    else if WordsMatch(u, rules[from]) then Some(from)
    else FirstWordRule(u, rules, from + 1)
  }

  /** `fuzzyMatch` up to the table lookup, for an upper-cased name `u` and a table with
      the keys `keys`: the key of the pattern it picks. An exact key wins (every entry of
      the table is a truthy object); otherwise the checks decide. */
  function MatchKey(u: string, keys: seq<string>, path: Option<string>): (k: Option<string>)
    ensures u in keys ==> k == Some(u)
    ensures u !in keys ==> k == RuleKey(u, path)
  {
    if u in keys then Some(u) else RuleKey(u, path)
  }

  /** The first id check the name passes decides, except that the master script's own
      ids give nothing; with no id check passed, the word checks decide. */
  function RuleKey(u: string, path: Option<string>): (k: Option<string>)
    ensures (forall j :: 0 <= j < |IdRules| ==> !IdMatches(u, IdRules[j])) ==> k == WordKey(u)
    ensures forall i :: 0 <= i < |IdRules| && IdMatches(u, IdRules[i]) && (forall j :: 0 <= j < i ==> !IdMatches(u, IdRules[j])) ==>
      k == if IdRules[i].setByMasterScript && MasterScript(path) then None else Some(IdRules[i].key)
  {
    FirstIdRuleAll(u);
    match FirstIdRule(u, IdRules, 0)
    case Some(i) => if IdRules[i].setByMasterScript && MasterScript(path) then None else Some(IdRules[i].key)
    case None => WordKey(u)
  }

  /** The key of the first word check the name passes, if any. */
  function WordKey(u: string): (k: Option<string>)
    ensures k.None? <==> forall j :: 0 <= j < |WordRules| ==> !WordsMatch(u, WordRules[j])
    ensures forall i :: 0 <= i < |WordRules| && WordsMatch(u, WordRules[i]) && (forall j :: 0 <= j < i ==> !WordsMatch(u, WordRules[j])) ==>
      k == Some(WordRules[i].key)
  {
    FirstWordRuleAll(u);
    match FirstWordRule(u, WordRules, 0)
    case Some(i) => Some(WordRules[i].key)
    case None => None
  }

  /** `fuzzyMatch` over a table: the pattern under the key, `None` standing for `null`. */
  function FuzzyMatchIn(table: JsObject.Object<Pattern>, name: string, path: Option<string>): (p: Option<Pattern>)
    ensures JsObject.Get(table, ToUpper(name)).Some? ==> p == JsObject.Get(table, ToUpper(name))
    ensures JsObject.Get(table, ToUpper(name)).None? && RuleKey(ToUpper(name), path).None? ==> p.None?
    ensures forall k :: JsObject.Get(table, ToUpper(name)).None? && RuleKey(ToUpper(name), path) == Some(k) ==>
      p == JsObject.Get(table, k)
  {
    JsObject.GetDefined(table, ToUpper(name));
    match MatchKey(ToUpper(name), JsObject.Keys(table), path)
    case Some(k) => JsObject.Get(table, k)
    case None => None
  }

  /** The id check at `i` is the first one passed when it is passed and none before it is. */
  lemma FirstIdRuleIs(u: string, i: nat)
    requires i < |IdRules| && IdMatches(u, IdRules[i])
    requires forall j :: 0 <= j < i ==> !IdMatches(u, IdRules[j])
    ensures FirstIdRule(u, IdRules, 0) == Some(i)
  {
  }

  /** Whichever id check is passed first is the one found. */
  lemma FirstIdRuleAll(u: string)
    ensures forall i :: 0 <= i < |IdRules| && IdMatches(u, IdRules[i]) && (forall j :: 0 <= j < i ==> !IdMatches(u, IdRules[j])) ==>
      FirstIdRule(u, IdRules, 0) == Some(i)
  {
    forall i | 0 <= i < |IdRules| && IdMatches(u, IdRules[i]) && (forall j :: 0 <= j < i ==> !IdMatches(u, IdRules[j])) {
      FirstIdRuleIs(u, i);
    }
  }

  /** Whichever word check is passed first is the one found. */
  lemma FirstWordRuleAll(u: string)
    ensures forall i :: 0 <= i < |WordRules| && WordsMatch(u, WordRules[i]) && (forall j :: 0 <= j < i ==> !WordsMatch(u, WordRules[j])) ==>
      FirstWordRule(u, WordRules, 0) == Some(i)
  {
    forall i | 0 <= i < |WordRules| && WordsMatch(u, WordRules[i]) && (forall j :: 0 <= j < i ==> !WordsMatch(u, WordRules[j])) {
      FirstWordRuleIs(u, i);
    }
  }

  /** The word check at `i` is the first one passed when it is passed and none before it is. */
  lemma FirstWordRuleIs(u: string, i: nat)
    requires i < |WordRules| && WordsMatch(u, WordRules[i])
    requires forall j :: 0 <= j < i ==> !WordsMatch(u, WordRules[j])
    ensures FirstWordRule(u, WordRules, 0) == Some(i)
  {
  }

  /** A name spelled `W_ID`, or holding `WID`, passes the id check on `W`. */
  lemma IdMatchOf(u: string, rule: IdRule, w: string)
    requires rule.word == w
    requires u == w + "_ID" || Contains(u, w + "ID")
    ensures IdMatches(u, rule)
  {
  }

  /** A name without the word an id check is built on passes none of its spellings. */
  lemma NoIdRule(u: string, rule: IdRule)
    requires !Contains(u, rule.word)
    ensures !IdMatches(u, rule)
  {
    var w := rule.word;
    if Contains(u, w + "ID") {
      ContainsPart(u, w, "ID");
    }
    assert (w + "ID")[..|w|] == w && (w + "_ID")[..|w|] == w;
    PrefixContained(w + "ID", w);
    PrefixContained(w + "_ID", w);
  }

  /** In the master script a name whose first passed id check is one the script sets
      itself, and which is not a key, gives nothing. */
  lemma MasterScriptOwnId(u: string, keys: seq<string>, path: Option<string>, i: nat)
    requires MasterScript(path) && u !in keys
    requires FirstIdRule(u, IdRules, 0) == Some(i) && IdRules[i].setByMasterScript
    ensures MatchKey(u, keys, path) == None
  {
  }

  /** A member id spelling passes the member id check first, unless it holds TEAM. */
  lemma MemberIdFirst(u: string)
    requires !Contains(u, "TEAM")
    requires u == "MEMBER_ID" || Contains(u, "MEMBERID")
    ensures FirstIdRule(u, IdRules, 0) == Some(1) && IdRules[1].setByMasterScript
  {
    var team, member := IdRules[0], IdRules[1];
    assert team.word == "TEAM" && member.word == "MEMBER";
    NoIdRule(u, team);
    assert "MEMBER" + "_ID" == "MEMBER_ID" && "MEMBER" + "ID" == "MEMBERID";
    IdMatchOf(u, member, "MEMBER");
    FirstIdRuleIs(u, 1);
  }

  /** A workspace id spelling passes the workspace id check first, unless it holds TEAM,
      MEMBER or WORKBOOK. */
  lemma WorkspaceIdFirst(u: string)
    requires !Contains(u, "TEAM") && !Contains(u, "MEMBER") && !Contains(u, "WORKBOOK")
    requires u == "WORKSPACE_ID" || Contains(u, "WORKSPACEID")
    ensures FirstIdRule(u, IdRules, 0) == Some(3) && IdRules[3].setByMasterScript
  {
    NoEarlierThanWorkspace(u);
    assert "WORKSPACE" + "_ID" == "WORKSPACE_ID" && "WORKSPACE" + "ID" == "WORKSPACEID";
    IdMatchOf(u, IdRules[3], "WORKSPACE");
    FirstIdRuleIs(u, 3);
  }

  /** A name without TEAM, MEMBER or WORKBOOK passes none of the first three id checks. */
  lemma NoEarlierThanWorkspace(u: string)
    requires !Contains(u, "TEAM") && !Contains(u, "MEMBER") && !Contains(u, "WORKBOOK")
    ensures forall j :: 0 <= j < 3 ==> !IdMatches(u, IdRules[j])
  {
    var team, member, workbook := IdRules[0], IdRules[1], IdRules[2];
    assert team.word == "TEAM" && member.word == "MEMBER" && workbook.word == "WORKBOOK";
    NoIdRule(u, team);
    NoIdRule(u, member);
    NoIdRule(u, workbook);
  }

  /** In the master script a member id spelling that is not itself a key gives nothing. */
  lemma MasterScriptMemberId(u: string, keys: seq<string>, path: Option<string>)
    requires MasterScript(path) && u !in keys
    requires !Contains(u, "TEAM")
    requires u == "MEMBER_ID" || Contains(u, "MEMBERID")
    ensures MatchKey(u, keys, path) == None
  {
    MemberIdFirst(u);
    MasterScriptOwnId(u, keys, path, 1);
  }

  /** The same for a workspace id spelling. */
  lemma MasterScriptWorkspaceId(u: string, keys: seq<string>, path: Option<string>)
    requires MasterScript(path) && u !in keys
    requires !Contains(u, "TEAM") && !Contains(u, "MEMBER") && !Contains(u, "WORKBOOK")
    requires u == "WORKSPACE_ID" || Contains(u, "WORKSPACEID")
    ensures MatchKey(u, keys, path) == None
  {
    WorkspaceIdFirst(u);
    MasterScriptOwnId(u, keys, path, 3);
  }

  /** A name holding WORKSPACE but not TEAM, MEMBER or WORKBOOK passes the WORKSPACE
      word check first, and so gets the workspace picker from the word checks. */
  lemma WorkspaceWordKey(u: string)
    requires !Contains(u, "TEAM") && !Contains(u, "MEMBER") && !Contains(u, "WORKBOOK")
    requires Contains(u, "WORKSPACE")
    ensures WordKey(u) == Some("WORKSPACEID")
  {
    SingleWord(u, WordRules[0], "TEAM");
    SingleWord(u, WordRules[1], "MEMBER");
    SingleWord(u, WordRules[2], "WORKBOOK");
    SingleWord(u, WordRules[3], "WORKSPACE");
    FirstWordRuleIs(u, 3);
  }

  /** Such a name, when it is not a key and passes no id check, gets the workspace picker. */
  lemma WorkspaceWord(u: string, keys: seq<string>, path: Option<string>)
    requires u !in keys && FirstIdRule(u, IdRules, 0).None?
    requires !Contains(u, "TEAM") && !Contains(u, "MEMBER") && !Contains(u, "WORKBOOK")
    requires Contains(u, "WORKSPACE")
    ensures MatchKey(u, keys, path) == Some("WORKSPACEID")
  {
    WorkspaceWordKey(u);
  }

  /** A check on one word is passed by exactly the names holding that word. */
  lemma SingleWord(u: string, rule: WordRule, w: string)
    requires rule.words == [w]
    ensures WordsMatch(u, rule) <==> Contains(u, w)
  {
    assert w in rule.words;
  }

  /** A word check whose words include all of an earlier check's words can never be the
      first one passed. */
  lemma Shadowed(u: string, rules: seq<WordRule>, early: nat, late: nat, k: nat)
    requires early < late < |rules| && k < |rules[late].words|
    requires rules[early].words == [rules[late].words[k]]
    ensures FirstWordRule(u, rules, 0) != Some(late)
  {
    assert rules[late].words[k] in rules[late].words;
  }

  /** Four of the word checks are dead: the workspace permission (16) and workspace name
      (18) checks come after the WORKSPACE check, and the new-workbook name (20) and
      description (21) checks after the WORKBOOK check, so those patterns are reached only
      by their exact names. */
  lemma DeadWordRule(u: string, late: nat)
    requires late == 16 || late == 18 || late == 20 || late == 21
    ensures FirstWordRule(u, WordRules, 0) != Some(late)
  {
    if late == 16 || late == 18 {
      Shadowed(u, WordRules, 3, late, 0);
    } else {
      Shadowed(u, WordRules, 2, late, 1);
    }
  }

  /** The parameter the form shows. */
  datatype SmartParameter = SmartParameter(name: string, kind: string, required: bool, friendlyName: string,
                                           description: string, resourceType: Option<string>,
                                           placeholder: Option<string>, dependsOn: Option<string>,
                                           options: Option<seq<Choice>>, validation: Option<Validation>)

  predicate IsAlnum(c: char) { 'a' <= c <= 'z' || 'A' <= c <= 'Z' || IsDigit(c) }

  /** `\w`. */
  predicate IsWordChar(c: char) { IsAlnum(c) || c == '_' }

  /** `replace(/\b\w/g, l => l.toUpperCase())`: a word character with no word character
      before it is upper-cased. */
  function UpperWordStarts(s: string): (r: string)
    ensures |r| == |s|
  {
    seq(|s|, i requires 0 <= i < |s| => if IsWordChar(s[i]) && (i == 0 || !IsWordChar(s[i - 1])) then UpperChar(s[i]) else s[i])
  }

  /** The label of a parameter nobody knows: underscores as spaces, in title case. */
  function FallbackName(name: string): string {
    UpperWordStarts(ToLower(ReplaceChar(name, '_', ' ')))
  }

  /** The fallback label character by character: '_' becomes a space, a letter that
      starts a word (first, or after a character that is not a letter or digit) is upper
      case, any other letter lower case, and everything else stays. */
  lemma FallbackNameChars(name: string)
    ensures |FallbackName(name)| == |name|
    ensures forall i :: 0 <= i < |name| ==>
      FallbackName(name)[i] == (if name[i] == '_' then ' '
                                else if !IsAlnum(name[i]) then name[i]
                                else if i == 0 || !IsAlnum(name[i - 1]) then UpperChar(name[i])
                                else LowerChar(name[i]))
  {
    var t := ToLower(ReplaceChar(name, '_', ' '));
    assert forall i :: 0 <= i < |name| ==> (IsWordChar(t[i]) <==> IsAlnum(name[i]));
  }

  /** The pattern detection reads: the workspace permission pattern for PERMISSION in a
      workspace recipe, the fuzzy match otherwise. */
  function Detected(table: JsObject.Object<Pattern>, name: string, path: Option<string>): Option<Pattern> {
    if name == "PERMISSION" && InWorkspace(path) then JsObject.Get(table, "WORKSPACE_PERMISSION")
    else FuzzyMatchIn(table, name, path)
  }

  /** One parameter: a known pattern, keeping the name and marking it required, or the
      typed-text fallback. */
  function Detect(table: JsObject.Object<Pattern>, name: string, path: Option<string>): (p: SmartParameter)
    ensures p.name == name && p.required
    ensures Detected(table, name, path).Some? ==>
      var d := Detected(table, name, path).value;
      p.kind == d.kind && p.friendlyName == d.friendlyName && p.description == d.description
    ensures Detected(table, name, path).Some? ==>
      var d := Detected(table, name, path).value;
      p.resourceType == d.resourceType && p.placeholder == d.placeholder && p.dependsOn == d.dependsOn &&
      p.options == d.options && p.validation == d.validation
    ensures Detected(table, name, path).None? ==>
      p.kind == "string" && p.friendlyName == FallbackName(name) && p.description == "Enter " + name
    ensures Detected(table, name, path).None? ==>
      p.resourceType.None? && p.placeholder == Some("Enter " + ToLower(name) + "...") && p.dependsOn.None? &&
      p.options.None? && p.validation.None?
  {
    match Detected(table, name, path)
    case Some(d) => SmartParameter(name, d.kind, true, d.friendlyName, d.description, d.resourceType, d.placeholder,
                                   d.dependsOn, d.options, d.validation)
    case None => SmartParameter(name, "string", true, FallbackName(name), "Enter " + name, None,
                                Some("Enter " + ToLower(name) + "..."), None, None, None)
  }

  /** The ids the master script sets itself. */
  const MasterScriptIds: set<string> := {"MEMBERID", "WORKSPACEID"}

  /** The names kept: all of them, or in the master script all but its own ids. */
  function Filtered(names: seq<string>, path: Option<string>): seq<string> {
    if MasterScript(path) then RecipeScanner.Keep(names, MasterScriptIds) else names
  }

  function DetectEach(table: JsObject.Object<Pattern>, names: seq<string>, path: Option<string>): (ps: seq<SmartParameter>)
    ensures |ps| == |names|
    ensures forall i :: 0 <= i < |names| ==> ps[i] == Detect(table, names[i], path)
  {
    if names == [] then [] else [Detect(table, names[0], path)] + DetectEach(table, names[1..], path)
  }

  /** `detectSmartParameters` over a table: one required parameter per name kept, in
      order, under the same name; the master script never gets its own ids. */
  function DetectIn(table: JsObject.Object<Pattern>, names: seq<string>, path: Option<string>): (ps: seq<SmartParameter>)
    ensures |ps| == |Filtered(names, path)| && |ps| <= |names|
    ensures !MasterScript(path) ==> |ps| == |names|
    ensures forall i :: 0 <= i < |ps| ==> ps[i].name == Filtered(names, path)[i] && ps[i].required
    ensures MasterScript(path) ==> forall i :: 0 <= i < |ps| ==> ps[i].name !in MasterScriptIds
  {
    var kept := Filtered(names, path);
    var ps := DetectEach(table, kept, path);
    assert forall i :: 0 <= i < |kept| ==> kept[i] in kept;
    ps
  }

  /** `detectSmartParameters` with the portal's table. */
  function DetectSmartParameters(names: seq<string>, path: Option<string>): seq<SmartParameter> {
    DetectIn(Patterns, names, path)
  }

  /** The PERMISSION parameter of a workspace recipe gets the workspace permission
      pattern, and elsewhere the pattern under its own name. */
  lemma PermissionPattern(table: JsObject.Object<Pattern>, path: Option<string>)
    ensures InWorkspace(path) ==> Detected(table, "PERMISSION", path) == JsObject.Get(table, "WORKSPACE_PERMISSION")
    ensures !InWorkspace(path) && JsObject.Get(table, "PERMISSION").Some? ==>
      Detected(table, "PERMISSION", path) == JsObject.Get(table, "PERMISSION")
  {
    var p := "PERMISSION";
    assert ToUpper(p) == p;
  }

  /** `analyzeRecipeCode`: the names after `process.env.` (capital letters and '_' only),
      without the portal's own variables, each once in first-occurrence order, and in the
      master script without its own ids. */
  function AnalyzeRecipeCode(code: string, path: Option<string>): (ps: seq<string>)
    ensures forall x :: x in ps <==>
      x in RecipeScanner.EnvRefs(code, false) && x !in RecipeScanner.CoreAuthVars && !(MasterScript(path) && x in MasterScriptIds)
    ensures forall i, j :: 0 <= i < j < |ps| ==> ps[i] != ps[j]
    ensures forall i, j :: 0 <= i < j < |ps| ==>
      RecipeScanner.IndexIn(RecipeScanner.EnvRefs(code, false), ps[i]) < RecipeScanner.IndexIn(RecipeScanner.EnvRefs(code, false), ps[j])
  {
    var refs := RecipeScanner.EnvRefs(code, false);
    var kept := RecipeScanner.Keep(refs, RecipeScanner.CoreAuthVars);
    var found := RecipeScanner.Dedup(kept);
    RecipeScanner.KeepInOrder(refs, RecipeScanner.CoreAuthVars);
    RecipeScanner.DedupInOrder(kept);
    RecipeScanner.KeepInOrder(found, MasterScriptIds);
    RecipeScanner.InOrderTrans(found, kept, refs);
    RecipeScanner.InOrderTrans(RecipeScanner.Keep(found, MasterScriptIds), found, refs);
    RecipeScanner.InOrderAt(Filtered(found, path), refs);
    Filtered(found, path)
  }

  /** The analysis as evidently intended: with the scanner's name pattern, digits
      included, so that it suggests exactly the variables the scanner lists. */
  function AnalyzeRecipeCodeWithDigits(code: string, path: Option<string>): (ps: seq<string>)
    ensures !MasterScript(path) ==> ps == RecipeScanner.ExtractEnvVariables(code)
    ensures forall x :: x in ps <==> x in RecipeScanner.ExtractEnvVariables(code) && !(MasterScript(path) && x in MasterScriptIds)
  {
    Filtered(RecipeScanner.ExtractEnvVariables(code), path)
  }

  /** As written, a variable whose name has a digit after its first character is cut
      short at the digit (`process.env.S3_BUCKET` is suggested as "S"). */
  lemma DigitNameCut(name: string, digit: char, tail: string)
    requires RecipeScanner.IsName(name, false) && IsDigit(digit)
    requires forall i :: 0 <= i < |tail| ==> RecipeScanner.NamePart(tail[i], true)
    requires name !in RecipeScanner.CoreAuthVars
    ensures AnalyzeRecipeCode(RecipeScanner.EnvPrefix + name + [digit] + tail, None) == [name]
  {
    var rest := [digit] + tail;
    assert RecipeScanner.EnvPrefix + name + [digit] + tail == RecipeScanner.EnvPrefix + name + rest;
    RecipeScanner.EnvRefsCons(name, rest, false);
    RecipeScanner.NoPrefixInName(rest);
    OnlyName(RecipeScanner.EnvPrefix + name + rest, false, name);
  }

  /** The scanner lists the same variable whole. */
  lemma DigitNameWhole(name: string, digit: char, tail: string)
    requires RecipeScanner.IsName(name, false) && IsDigit(digit)
    requires forall i :: 0 <= i < |tail| ==> RecipeScanner.NamePart(tail[i], true)
    requires name + [digit] + tail !in RecipeScanner.CoreAuthVars
    ensures AnalyzeRecipeCodeWithDigits(RecipeScanner.EnvPrefix + name + [digit] + tail, None) == [name + [digit] + tail]
  {
    var whole := name + [digit] + tail;
    assert RecipeScanner.EnvPrefix + name + [digit] + tail == RecipeScanner.EnvPrefix + whole + [];
    assert RecipeScanner.IsName(whole, true) by {
      assert whole[0] == name[0];
      forall i | 1 <= i < |whole| ensures RecipeScanner.NamePart(whole[i], true) {
        if i < |name| { assert whole[i] == name[i]; }
        else if i == |name| { assert whole[i] == digit; }
        else { assert whole[i] == tail[i - |name| - 1]; }
      }
    }
    RecipeScanner.EnvRefsCons(whole, [], true);
    OnlyName(RecipeScanner.EnvPrefix + whole + [], true, whole);
  }

  /** A text in which exactly one variable, not a core one, is found yields that one. */
  lemma OnlyName(code: string, digits: bool, name: string)
    requires RecipeScanner.EnvRefs(code, digits) == [name] + RecipeScanner.EnvRefs([], digits)
    requires name !in RecipeScanner.CoreAuthVars
    ensures RecipeScanner.Dedup(RecipeScanner.Keep(RecipeScanner.EnvRefs(code, digits), RecipeScanner.CoreAuthVars)) == [name]
  {
    assert RecipeScanner.EnvRefs([], digits) == [];
    var found := RecipeScanner.EnvRefs(code, digits);
    assert found == [name];
    assert found[1..] == [];
    assert RecipeScanner.Keep(found, RecipeScanner.CoreAuthVars) == [name];
    assert [name][..0] == [];
  }
}

=== FILE: stable_sort.dfy ===
/** `Array.prototype.sort` with a numeric comparator `(a, b) => key(a) - key(b)`: the
    ECMAScript sort is stable, so elements with equal keys keep the order they had. The sort
    is given as a stable insertion sort on values. */
module StableSort {

  predicate SortedBy<T>(s: seq<T>, key: T -> int) {
    forall i, j :: 0 <= i < j < |s| ==> key(s[i]) <= key(s[j])
  }

  /** The elements of `s` whose key is `k`, in order. */
  function WithKey<T>(s: seq<T>, key: T -> int, k: int): (r: seq<T>)
    ensures |r| <= |s|
  {
    if s == [] then []
    else WithKey(s[..|s| - 1], key, k) + (if key(s[|s| - 1]) == k then [s[|s| - 1]] else [])
  }

  /** Puts `x` after the last element of sorted `s` whose key is not greater than its own. */
  function Insert<T(!new)>(s: seq<T>, x: T, key: T -> int): (r: seq<T>)
    ensures |r| == |s| + 1
    ensures multiset(r) == multiset(s) + multiset{x}
    ensures forall y :: y in r <==> y in s || y == x
  {
    if s == [] || key(s[|s| - 1]) <= key(x) then s + [x]
    else
      var init, last := s[..|s| - 1], s[|s| - 1];
      assert s == init + [last];
      Insert(init, x, key) + [last]
  }

  /** Inserting into a sorted sequence keeps it sorted. */
  lemma {:induction false} InsertSorted<T(!new)>(s: seq<T>, x: T, key: T -> int)
    requires SortedBy(s, key)
    ensures SortedBy(Insert(s, x, key), key)
  {
    if s == [] || key(s[|s| - 1]) <= key(x) {
    } else {
      var init, last := s[..|s| - 1], s[|s| - 1];
      InsertSorted(init, x, key);
      var r := Insert(init, x, key);
      forall y | y in r ensures key(y) <= key(last) {
        if y != x {
          var i :| 0 <= i < |init| && init[i] == y;
          assert s[i] == y;
        }
      }
      assert Insert(s, x, key) == r + [last];
    }
  }

  /** Inserting `x` adds it after the elements that share its key and leaves the other
      keys' elements alone. */
  lemma {:induction false} InsertWithKey<T(!new)>(s: seq<T>, x: T, key: T -> int, k: int)
    ensures WithKey(Insert(s, x, key), key, k) == WithKey(s, key, k) + (if key(x) == k then [x] else [])
  {
    if s == [] || key(s[|s| - 1]) <= key(x) {
      WithKeySnoc(s, x, key, k);
    } else {
      var init, last := s[..|s| - 1], s[|s| - 1];
      var inserted := Insert(init, x, key);
      assert Insert(s, x, key) == inserted + [last];
      InsertWithKey(init, x, key, k);
      WithKeySnoc(inserted, last, key, k);
      assert s == init + [last];
      WithKeySnoc(init, last, key, k);
      var withX := if key(x) == k then [x] else [];
      var withLast := if key(last) == k then [last] else [];
      assert withX == [] || withLast == [];
      SwapEmpty(WithKey(init, key, k), withX, withLast);
    }
  }

  /** Two sequences one of which is empty can be appended in either order. */
  lemma SwapEmpty<T>(w: seq<T>, a: seq<T>, b: seq<T>)
    requires a == [] || b == []
    ensures w + a + b == w + b + a
  {
  }

  /** One more element at the end is picked exactly when it has the key. */
  lemma WithKeySnoc<T>(s: seq<T>, y: T, key: T -> int, k: int)
    ensures WithKey(s + [y], key, k) == WithKey(s, key, k) + (if key(y) == k then [y] else [])
  {
    assert (s + [y])[..|s|] == s;
  }

  /** `xs.sort(...)`, stable: each element of `xs[..i+1]` is inserted in turn. */
  function SortBy<T(!new)>(xs: seq<T>, key: T -> int): (r: seq<T>)
    ensures |r| == |xs|
    ensures multiset(r) == multiset(xs)
    ensures SortedBy(r, key)
  {
    if xs == [] then []
    else
      var init := xs[..|xs| - 1];
      assert xs == init + [xs[|xs| - 1]];
      InsertSorted(SortBy(init, key), xs[|xs| - 1], key);
      Insert(SortBy(init, key), xs[|xs| - 1], key)
  }

  /** The sort is stable: the elements sharing a key come out in the order they went in. */
  lemma {:induction false} SortByStable<T(!new)>(xs: seq<T>, key: T -> int, k: int)
    ensures WithKey(SortBy(xs, key), key, k) == WithKey(xs, key, k)
  {
    if xs != [] {
      var init := xs[..|xs| - 1];
      SortByStable(init, key, k);
      InsertWithKey(SortBy(init, key), xs[|xs| - 1], key, k);
    }
  }

  /** Sorting keeps exactly the elements it was given. */
  lemma SortByMembers<T(!new)>(xs: seq<T>, key: T -> int)
    ensures forall y :: y in SortBy(xs, key) <==> y in xs
  {
    var r := SortBy(xs, key);
    forall y ensures y in r <==> y in xs {
      assert y in r <==> y in multiset(r);
      assert y in xs <==> y in multiset(xs);
    }
  }
}

=== FILE: streamlit_signed_url.dfy ===
/** The Streamlit quickstart's signed embed URL (embedding_signed_url/streamlit/embed_api.py):
    nine parameters encoded with Python's `quote(safe=",:")`, an HMAC-SHA256 hex signature
    over the whole URL, and the signature appended as the last parameter. */
module StreamlitSignedUrl {
  import opened Wrappers
  import opened Text
  import opened Encoding
  import opened QueryString
  import Hmac

  const DefaultUserEmail: string := "user@example.com"
  const DefaultUserId: string := "1"
  const DefaultSessionLength: string := "3600"
  const DefaultMode: string := "userbacked"
  const AccountType: string := "embedUser"
  /** The name under which the signature is appended, written in two parts so that the
      verifier does not evaluate its encoding on the literal in every proof. */
  const SignatureKey: string := ":" + "signature"

  /** `myquote`: Python's `quote(str(val), safe=",:")`. */
  function MyQuote(v: string): string {
    PythonQuote(v)
  }

  /** `urlencode(pairs)`: each key and value through `myquote`, `key=value`, joined by '&'
      in the dictionary's insertion order. */
  function UrlEncode(pairs: seq<(string, string)>): string {
    EncodeQuery(pairs, PythonQuoteSafe, false)
  }

  /** The parameter dictionary of `generate_signed_url`, in insertion order. */
  function Params(nonce: string, email: string, userId: string, clientId: string, now: nat,
                  sessionLength: string, mode: string, team: string): seq<(string, string)>
  {
    [(":nonce", nonce), (":email", email), (":external_user_id", userId), (":client_id", clientId),
     (":time", NatToString(now)), (":session_length", sessionLength), (":mode", mode),
     (":external_user_team", team), (":account_type", AccountType)]
  }

  /** The dictionary has exactly nine keys, in this order; `:time` is the clock reading in
      decimal and `:account_type` is always "embedUser". */
  lemma ParamsShape(nonce: string, email: string, userId: string, clientId: string, now: nat,
                    sessionLength: string, mode: string, team: string)
    ensures var ps := Params(nonce, email, userId, clientId, now, sessionLength, mode, team);
      && seq(|ps|, i requires 0 <= i < |ps| => ps[i].0) ==
           [":nonce", ":email", ":external_user_id", ":client_id", ":time",
            ":session_length", ":mode", ":external_user_team", ":account_type"]
      && ps[4].1 == NatToString(now) && ps[8].1 == "embedUser"
      && ps[1].1 == email && ps[7].1 == team
  {
  }

  /** `url_with_params`: the text the signature covers. */
  function UrlWithParams(embedPath: string, params: seq<(string, string)>): string {
    embedPath + "?" + UrlEncode(params)
  }

  /** The URL with its signature: `url_with_params + "&" + urlencode({":signature": sig})`. */
  function SignUrl(embedPath: string, params: seq<(string, string)>, secret: string, mac: Hmac.Mac): (url: string)
    ensures StartsWith(url, UrlWithParams(embedPath, params))
  {
    var signed := UrlWithParams(embedPath, params);
    var url := signed + "&" + UrlEncode([(SignatureKey, Hmac.HexDigest(secret, signed, mac))]);
    assert url[..|signed|] == signed;
    url
  }

  /** `generate_signed_url`: an argument left out (`None`) takes the function's default;
      the clock reading `now` (whole seconds) and the `uuid4` nonce are inputs. The URL
      carries the parameters with the defaults filled in, then the signature over the
      path and that query. */
  function GenerateSignedUrl(embedPath: string, clientId: string, secret: string, team: string,
                             email: Option<string>, userId: Option<string>, sessionLength: Option<string>,
                             mode: Option<string>, nonce: string, now: nat, mac: Hmac.Mac): (url: string)
    ensures var ps := Params(nonce, email.GetOr(DefaultUserEmail), userId.GetOr(DefaultUserId), clientId, now,
                             sessionLength.GetOr(DefaultSessionLength), mode.GetOr(DefaultMode), team);
      url == UrlWithParams(embedPath, ps) + "&" + SignatureKey + "=" + Hmac.HexDigest(secret, UrlWithParams(embedPath, ps), mac)
  {
    var ps := Params(nonce, email.GetOr(DefaultUserEmail), userId.GetOr(DefaultUserId), clientId, now,
                     sessionLength.GetOr(DefaultSessionLength), mode.GetOr(DefaultMode), team);
    SignUrlShape(embedPath, ps, secret, mac);
    SignUrl(embedPath, ps, secret, mac)
  }

  /** A caller that leaves the optional arguments out gets a URL whose query reads back
      with the default email and user id, a session of "3600" seconds and the
      "userbacked" mode. The Streamlit app leaves out the session length and the mode. */
  lemma DefaultsReadBack(embedPath: string, clientId: string, secret: string, team: string,
                         nonce: string, now: nat, mac: Hmac.Mac)
    requires '?' !in embedPath
    ensures var url := GenerateSignedUrl(embedPath, clientId, secret, team, None, None, None, None, nonce, now, mac);
      && SplitFirst(url, '?').Some? && SplitFirst(url, '?').value.0 == embedPath
      && var read := ParseQuery(SplitFirst(url, '?').value.1, false);
      && read.Some? && |read.value| == 10
      && read.value[1] == (Utf8(":email"), Utf8(DefaultUserEmail))
      && read.value[2] == (Utf8(":external_user_id"), Utf8(DefaultUserId))
      && read.value[5] == (Utf8(":session_length"), Utf8(DefaultSessionLength))
      && read.value[6] == (Utf8(":mode"), Utf8(DefaultMode))
  {
    var ps := Params(nonce, DefaultUserEmail, DefaultUserId, clientId, now, DefaultSessionLength, DefaultMode, team);
    DefaultsFilled(embedPath, clientId, secret, team, nonce, now, mac);
    ReadBackAt(embedPath, ps, secret, mac);
    var read := ParseQuery(SplitFirst(SignUrl(embedPath, ps, secret, mac), '?').value.1, false).value;
    assert read[1] == (Utf8(ps[1].0), Utf8(ps[1].1)) && read[2] == (Utf8(ps[2].0), Utf8(ps[2].1));
    assert read[5] == (Utf8(ps[5].0), Utf8(ps[5].1)) && read[6] == (Utf8(ps[6].0), Utf8(ps[6].1));
  }

  /** Leaving the four defaulted arguments out signs the dictionary with their defaults. */
  lemma DefaultsFilled(embedPath: string, clientId: string, secret: string, team: string,
                       nonce: string, now: nat, mac: Hmac.Mac)
    ensures GenerateSignedUrl(embedPath, clientId, secret, team, None, None, None, None, nonce, now, mac)
         == SignUrl(embedPath, Params(nonce, DefaultUserEmail, DefaultUserId, clientId, now, DefaultSessionLength, DefaultMode, team), secret, mac)
  {
    SignUrlShape(embedPath, Params(nonce, DefaultUserEmail, DefaultUserId, clientId, now, DefaultSessionLength, DefaultMode, team), secret, mac);
  }

  /** The read-back of a signed URL, pair by pair. */
  lemma ReadBackAt(embedPath: string, params: seq<(string, string)>, secret: string, mac: Hmac.Mac)
    requires '?' !in embedPath
    requires params != []
    ensures var url := SignUrl(embedPath, params, secret, mac);
      && SplitFirst(url, '?').Some? && SplitFirst(url, '?').value.0 == embedPath
      && var read := ParseQuery(SplitFirst(url, '?').value.1, false);
      && read.Some? && |read.value| == |params| + 1
      && forall i :: 0 <= i < |params| ==> read.value[i] == (Utf8(params[i].0), Utf8(params[i].1))
  {
    SignUrlReadBack(embedPath, params, secret, mac);
    var sig := Hmac.HexDigest(secret, UrlWithParams(embedPath, params), mac);
    var all := params + [(SignatureKey, sig)];
    assert forall i :: 0 <= i < |params| ==> all[i] == params[i];
  }

  /** The signature pair is written as-is: ':' is safe and hex digits are unreserved. */
  lemma SignaturePairVerbatim(sig: string)
    requires forall i :: 0 <= i < |sig| ==> IsLowerHex(sig[i])
    ensures UrlEncode([(SignatureKey, sig)]) == SignatureKey + "=" + sig
  {
    var name := SignatureKey;
    assert forall i :: 0 <= i < |name| ==> name[i] as int < 0x80 && PythonQuoteSafe(name[i] as int);
    assert forall i :: 0 <= i < |sig| ==> sig[i] as int < 0x80 && PythonQuoteSafe(sig[i] as int);
    EncodeQueryKept(name, sig, PythonQuoteSafe, false);
  }

  /** `myquote` leaves a text of safe characters (letters, digits, `_.-~` and the extra
      `,` and `:`) exactly as it is. */
  lemma MyQuoteKeepsSafe(v: string)
    requires forall i :: 0 <= i < |v| ==> v[i] as int < 0x80 && PythonQuoteSafe(v[i] as int)
    ensures MyQuote(v) == v
  {
    PercentEncodeKept(v, PythonQuoteSafe, false);
  }

  /** Any other ASCII character becomes `%XX`, so ' ', '&', '=', '/', '+' and the like never
      reach the query as themselves. */
  lemma MyQuoteEscapes(c: char)
    requires c as int < 0x80 && !PythonQuoteSafe(c as int)
    ensures MyQuote([c]) == PercentByte(c as int)
  {
    assert Utf8([c]) == [c as int];
    assert PercentEncodeBytes([c as int], PythonQuoteSafe, false) == PercentChunk(c as int, PythonQuoteSafe, false) + [];
  }

  /** `myquote` escapes '%', '&' and '=', so its output reads back as a query. */
  lemma MyQuoteQuerySafe()
    ensures QuerySafe(PythonQuoteSafe, false)
  {
  }

  /** The signed URL is the signed text, '&', and the signature pair written verbatim. */
  lemma SignUrlShape(embedPath: string, params: seq<(string, string)>, secret: string, mac: Hmac.Mac)
    ensures SignUrl(embedPath, params, secret, mac)
         == UrlWithParams(embedPath, params) + "&" + SignatureKey + "=" + Hmac.HexDigest(secret, UrlWithParams(embedPath, params), mac)
  {
    var signed := UrlWithParams(embedPath, params);
    var sig := Hmac.HexDigest(secret, signed, mac);
    SignaturePairVerbatim(sig);
    assert SignUrl(embedPath, params, secret, mac) == signed + "&" + UrlEncode([(SignatureKey, sig)]);
  }

  /** What the receiver reads from a signed URL: the path before the '?', then every
      parameter and the signature, each decoded back to the bytes of the value given, in
      order. */
  lemma SignUrlReadBack(embedPath: string, params: seq<(string, string)>, secret: string, mac: Hmac.Mac)
    requires '?' !in embedPath
    requires params != []
    ensures var sig := Hmac.HexDigest(secret, UrlWithParams(embedPath, params), mac);
            var q := UrlEncode(params + [(SignatureKey, sig)]);
            && SplitFirst(SignUrl(embedPath, params, secret, mac), '?') == Some((embedPath, q))
            && ParseQuery(q, false) == Some(Utf8Pairs(params + [(SignatureKey, sig)]))
  {
    var sig := Hmac.HexDigest(secret, UrlWithParams(embedPath, params), mac);
    var q := UrlEncode(params + [(SignatureKey, sig)]);
    SignUrlWhole(embedPath, params, secret, mac);
    SplitFirstAt(embedPath, q, '?');
    MyQuoteQuerySafe();
    QueryRoundTrip(params + [(SignatureKey, sig)], PythonQuoteSafe, false);
  }

  /** The signed URL is the path, '?', and the query of all the pairs, signature last. */
  lemma SignUrlWhole(embedPath: string, params: seq<(string, string)>, secret: string, mac: Hmac.Mac)
    requires params != []
    ensures SignUrl(embedPath, params, secret, mac)
         == embedPath + ['?'] + UrlEncode(params + [(SignatureKey, Hmac.HexDigest(secret, UrlWithParams(embedPath, params), mac))])
  {
    var sig := Hmac.HexDigest(secret, UrlWithParams(embedPath, params), mac);
    EncodeQueryAppend(params, SignatureKey, sig, PythonQuoteSafe, false);
    Regroup(embedPath, UrlEncode(params), UrlEncode([(SignatureKey, sig)]));
  }

  lemma Regroup(path: string, a: string, b: string)
    ensures path + "?" + a + "&" + b == path + ['?'] + (a + "&" + b)
  {
  }
}

=== FILE: text.dfy ===
/** String operations of the JavaScript and Python runtimes that the modelled code relies on:
    prefix and substring search, first-occurrence replace, split/join on one character,
    `trim`, ASCII case mapping, decimal rendering and `parseInt`. */
module Text {
  import opened Wrappers

  /** ECMAScript WhiteSpace and LineTerminator code points: what `String.prototype.trim`
      and `parseInt` skip. */
  predicate IsWhitespace(c: char) {
    c == '\t' || c == '\n' || c == '\U{B}' || c == '\U{C}' || c == '\r' || c == ' ' ||
    c == '\U{A0}' || c == '\U{1680}' || ('\U{2000}' <= c <= '\U{200A}') ||
    c == '\U{2028}' || c == '\U{2029}' || c == '\U{202F}' || c == '\U{205F}' ||
    c == '\U{3000}' || c == '\U{FEFF}'
  }

  predicate IsDigit(c: char) { '0' <= c <= '9' }

  predicate StartsWith(s: string, prefix: string) {
    |prefix| <= |s| && s[..|prefix|] == prefix
  }

  predicate EndsWith(s: string, suffix: string) {
    |suffix| <= |s| && s[|s| - |suffix|..] == suffix
  }

  predicate OccursAt(s: string, p: string, i: int) {
    0 <= i && i + |p| <= |s| && s[i..i + |p|] == p
  }

  /** Index of the first occurrence of `p` in `s` at or after `from`. */
  function IndexOfFrom(s: string, p: string, from: nat): (r: Option<nat>)
    decreases |s| - from
    ensures r.Some? ==> from <= r.value && OccursAt(s, p, r.value)
    ensures r.Some? ==> forall j :: from <= j < r.value ==> !OccursAt(s, p, j)
    ensures r.None? ==> forall j :: from <= j ==> !OccursAt(s, p, j)
  {
    if from + |p| > |s| then None
    else if s[from..from + |p|] == p then Some(from)
    else IndexOfFrom(s, p, from + 1)
  }

  /** `s.indexOf(p)`, as an option. */
  function IndexOf(s: string, p: string): (r: Option<nat>)
    ensures r.Some? ==> OccursAt(s, p, r.value) && forall j :: 0 <= j < r.value ==> !OccursAt(s, p, j)
    ensures r.None? ==> forall j :: !OccursAt(s, p, j)
  {
    IndexOfFrom(s, p, 0)
  }

  /** `s.includes(p)` (JavaScript) and `p in s` (Python). */
  predicate Contains(s: string, p: string) {
    IndexOf(s, p).Some?
  }

  /** A text that starts with `p` finds it at the start. */
  lemma IndexOfStart(p: string, t: string)
    ensures IndexOf(p + t, p) == Some(0)
  {
    assert (p + t)[0..|p|] == p;
  }

  /** A text without the first character of `p` holds no occurrence of `p`. */
  lemma NotFound(s: string, p: string)
    requires p != [] && forall i :: 0 <= i < |s| ==> s[i] != p[0]
    ensures IndexOf(s, p) == None
  {
    forall j | 0 <= j < |s| ensures !OccursAt(s, p, j) {
      if j + |p| <= |s| {
        assert s[j..j + |p|][0] == s[j];
      }
    }
  }

  lemma ContainsAt(s: string, p: string, i: int)
    requires OccursAt(s, p, i)
    ensures Contains(s, p)
  {
  }

  /** A prefix of a prefix is a prefix. */
  lemma StartsWithTrans(s: string, p: string, q: string)
    requires StartsWith(s, p) && StartsWith(p, q)
    ensures StartsWith(s, q)
  {
    assert s[..|q|] == s[..|p|][..|q|];
  }

  /** Appending keeps a prefix, and the same text in front of both keeps it too. */
  lemma StartsWithConcat(a: string, b: string, c: string)
    ensures StartsWith(a + b, a)
    ensures StartsWith(b, c) ==> StartsWith(a + b, a + c)
  {
    assert (a + b)[..|a|] == a;
    if StartsWith(b, c) {
      assert (a + b)[..|a + c|] == a + b[..|c|];
    }
  }

  /** Text in front keeps a suffix. */
  lemma EndsWithConcat(a: string, b: string, c: string)
    requires EndsWith(b, c)
    ensures EndsWith(a + b, c)
  {
    assert (a + b)[|a + b| - |c|..] == b[|b| - |c|..];
  }

  lemma PrefixContained(s: string, p: string)
    requires StartsWith(s, p)
    ensures Contains(s, p)
  {
    assert OccursAt(s, p, 0);
  }

  /** What a suffix contains, the whole text contains. */
  lemma ContainsSuffix(s: string, k: nat, p: string)
    requires k <= |s| && Contains(s[k..], p)
    ensures Contains(s, p)
  {
    var j := IndexOf(s[k..], p).value;
    assert s[k..][j..j + |p|] == s[k + j..k + j + |p|];
    ContainsAt(s, p, k + j);
  }

  /** Text around an occurrence does not remove it. */
  lemma ContainsConcat(a: string, b: string, p: string)
    ensures Contains(a, p) ==> Contains(a + b, p)
    ensures Contains(b, p) ==> Contains(a + b, p)
  {
    if Contains(a, p) {
      var j := IndexOf(a, p).value;
      assert (a + b)[j..j + |p|] == a[j..j + |p|];
      ContainsAt(a + b, p, j);
    }
    if Contains(b, p) {
      assert (a + b)[|a|..] == b;
      ContainsSuffix(a + b, |a|, p);
    }
  }

  /** A text that contains `p + q` contains `p`. */
  lemma ContainsPart(s: string, p: string, q: string)
    requires Contains(s, p + q)
    ensures Contains(s, p)
  {
    var j := IndexOf(s, p + q).value;
    assert s[j..j + |p|] == (p + q)[..|p|];
    ContainsAt(s, p, j);
  }

  /** `s.replace(p, r)` with a string pattern: only the first occurrence is replaced. */
  function ReplaceFirst(s: string, p: string, r: string): string {
    match IndexOf(s, p)
    case None => s
    case Some(i) => s[..i] + r + s[i + |p|..]
  }

  /** `s.replace(/c/g, d)` for a single character. */
  function ReplaceChar(s: string, c: char, d: char): (r: string)
    ensures |r| == |s|
    ensures forall i :: 0 <= i < |s| ==> r[i] == (if s[i] == c then d else s[i])
  {
    seq(|s|, i requires 0 <= i < |s| => if s[i] == c then d else s[i])
  }

  /** `s.replace(/c/g, "")` for a single character. */
  function RemoveChar(s: string, c: char): (r: string)
    ensures c !in r
    ensures forall x :: x in r ==> x in s
    ensures forall x :: x in s && x != c ==> x in r
  {
    if s == [] then []
    else if s[0] == c then RemoveChar(s[1..], c)
    else [s[0]] + RemoveChar(s[1..], c)
  }

  /** `parts.join(sep)`. */
  function Join(parts: seq<string>, sep: string): string {
    if parts == [] then []
    else if |parts| == 1 then parts[0]
    else parts[0] + sep + Join(parts[1..], sep)
  }

  /** Joining one more part appends the separator and that part. */
  lemma {:induction false} JoinAppend(parts: seq<string>, last: string, sep: string)
    requires parts != []
    ensures Join(parts + [last], sep) == Join(parts, sep) + sep + last
  {
    if |parts| == 1 {
      assert (parts + [last])[1..] == [last];
    } else {
      assert (parts + [last])[1..] == parts[1..] + [last];
      JoinAppend(parts[1..], last, sep);
    }
  }

  /** `s.split(sep)` for a one-character separator: the empty string gives one empty part. */
  function Split(s: string, sep: char): (parts: seq<string>)
    ensures |parts| >= 1
    ensures forall i :: 0 <= i < |parts| ==> sep !in parts[i]
  {
    if s == [] then [[]]
    else
      var rest := Split(s[1..], sep);
      if s[0] == sep then [[]] + rest
      else [[s[0]] + rest[0]] + rest[1..]
  }

  /** Splitting and joining back with the same separator gives the input back. */
  lemma {:induction false} JoinSplit(s: string, sep: char)
    ensures Join(Split(s, sep), [sep]) == s
  {
    if s != [] {
      var rest := Split(s[1..], sep);
      JoinSplit(s[1..], sep);
      if s[0] == sep {
        assert Split(s, sep) == [[]] + rest;
      } else if |rest| > 1 {
        var parts := Split(s, sep);
        assert parts == [[s[0]] + rest[0]] + rest[1..];
        assert parts[1..] == rest[1..];
        assert Join(rest, [sep]) == rest[0] + [sep] + Join(rest[1..], [sep]);
      }
    }
  }

  /** A string without the separator splits into itself alone. */
  lemma {:induction false} SplitNoSep(s: string, sep: char)
    requires sep !in s
    ensures Split(s, sep) == [s]
  {
    if s != [] {
      SplitNoSep(s[1..], sep);
      assert [s[0]] + s[1..] == s;
    }
  }

  /** Splitting at a first separator: the part before it, then the split of what follows. */
  lemma {:induction false} SplitAtSep(a: string, b: string, sep: char)
    requires sep !in a
    ensures Split(a + [sep] + b, sep) == [a] + Split(b, sep)
  {
    var s := a + [sep] + b;
    if a == [] {
      assert s[1..] == b;
    } else {
      assert s[1..] == a[1..] + [sep] + b;
      SplitAtSep(a[1..], b, sep);
      assert [a[0]] + a[1..] == a;
    }
  }

  /** Two pieces without the separator, joined by it, split back into the two. */
  lemma SplitTwo(a: string, b: string, sep: char)
    requires sep !in a && sep !in b
    ensures Split(a + [sep] + b, sep) == [a, b]
  {
    SplitNoSep(b, sep);
    SplitAtSep(a, b, sep);
  }

  /** Three pieces without the separator, joined by it, split back into the three. */
  lemma SplitThree(a: string, b: string, c: string, sep: char)
    requires sep !in a && sep !in b && sep !in c
    ensures Split(a + [sep] + b + [sep] + c, sep) == [a, b, c]
  {
    assert a + [sep] + b + [sep] + c == a + [sep] + (b + [sep] + c);
    SplitNoSep(c, sep);
    SplitAtSep(b, c, sep);
    SplitAtSep(a, b + [sep] + c, sep);
  }

  /** Joining parts that do not contain the separator and splitting again gives the parts back. */
  lemma {:induction false} SplitJoin(parts: seq<string>, sep: char)
    requires |parts| >= 1
    requires forall i :: 0 <= i < |parts| ==> sep !in parts[i]
    ensures Split(Join(parts, [sep]), sep) == parts
  {
    if |parts| == 1 {
      SplitNoSep(parts[0], sep);
    } else {
      SplitJoin(parts[1..], sep);
      SplitAtSep(parts[0], Join(parts[1..], [sep]), sep);
      assert [parts[0]] + parts[1..] == parts;
    }
  }

  /** The text before the first `c` and the text after it; `None` when `c` does not occur. */
  function SplitFirst(s: string, c: char): (r: Option<(string, string)>)
    ensures r.None? <==> c !in s
    ensures r.Some? ==> s == r.value.0 + [c] + r.value.1 && c !in r.value.0
  {
    if s == [] then None
    else if s[0] == c then Some(([], s[1..]))
    else match SplitFirst(s[1..], c)
      case None => None
      case Some((a, b)) => Some(([s[0]] + a, b))
  }

  /** Splitting at the first `c` of `a + [c] + b`, where `a` has no `c`, finds `a` and `b`. */
  lemma {:induction false} SplitFirstAt(a: string, b: string, c: char)
    requires c !in a
    ensures SplitFirst(a + [c] + b, c) == Some((a, b))
  {
    var s := a + [c] + b;
    if a == [] {
      assert s[1..] == b;
    } else {
      assert s[0] == a[0];
      assert s[1..] == a[1..] + [c] + b;
      SplitFirstAt(a[1..], b, c);
      assert [a[0]] + a[1..] == a;
    }
  }

  /** Counting the separators: `s.split(sep)` has one more part than `s` has separators. */
  function CountChar(s: string, c: char): nat {
    if s == [] then 0 else (if s[0] == c then 1 else 0) + CountChar(s[1..], c)
  }

  lemma {:induction false} SplitLength(s: string, sep: char)
    ensures |Split(s, sep)| == CountChar(s, sep) + 1
  {
    if s != [] {
      SplitLength(s[1..], sep);
    }
  }

  /** Leading whitespace removed. */
  function TrimStart(s: string): (r: string)
    ensures |r| <= |s| && r == s[|s| - |r|..]
    ensures forall i :: 0 <= i < |s| - |r| ==> IsWhitespace(s[i])
    ensures r != [] ==> !IsWhitespace(r[0])
  {
    if s != [] && IsWhitespace(s[0]) then TrimStart(s[1..]) else s
  }

  /** Trailing whitespace removed. */
  function TrimEnd(s: string): (r: string)
    ensures |r| <= |s| && r == s[..|r|]
    ensures forall i :: |r| <= i < |s| ==> IsWhitespace(s[i])
    ensures r != [] ==> !IsWhitespace(r[|r| - 1])
  {
    if s != [] && IsWhitespace(s[|s| - 1]) then TrimEnd(s[..|s| - 1]) else s
  }

  /** `s.trim()`. */
  function Trim(s: string): (r: string)
    ensures |r| <= |s|
    ensures r != [] ==> !IsWhitespace(r[0]) && !IsWhitespace(r[|r| - 1])
    ensures (forall i :: 0 <= i < |s| ==> !IsWhitespace(s[i])) ==> r == s
  {
    TrimEnd(TrimStart(s))
  }

  /** A text with no whitespace at either end. */
  predicate IsTrimmed(s: string) {
    s == [] || (!IsWhitespace(s[0]) && !IsWhitespace(s[|s| - 1]))
  }

  /** `trim` leaves a trimmed text alone. */
  lemma TrimTrimmed(s: string)
    requires IsTrimmed(s)
    ensures Trim(s) == s
  {
  }

  /** `parts.map((t) => t.trim())`. */
  function TrimEach(parts: seq<string>): (r: seq<string>)
    ensures |r| == |parts|
    ensures forall i :: 0 <= i < |r| ==> r[i] == Trim(parts[i])
  {
    if parts == [] then [] else [Trim(parts[0])] + TrimEach(parts[1..])
  }

  /** Trimming texts that are already trimmed changes none of them. */
  lemma TrimEachKeeps(parts: seq<string>)
    requires forall i :: 0 <= i < |parts| ==> IsTrimmed(parts[i])
    ensures TrimEach(parts) == parts
  {
    forall i | 0 <= i < |parts| ensures Trim(parts[i]) == parts[i] {
      TrimTrimmed(parts[i]);
    }
  }

  /** Trimming only removes characters. */
  lemma TrimSubstring(s: string)
    ensures forall c :: c in Trim(s) ==> c in s
  {
    var a := TrimStart(s);
    var b := TrimEnd(a);
    assert forall c :: c in b ==> c in a;
    assert forall c :: c in a ==> c in s;
  }

  /** Trimmed pieces of a split are trimmed and still free of the separator. */
  lemma TrimEachTrimmed(parts: seq<string>, sep: char)
    requires forall i :: 0 <= i < |parts| ==> sep !in parts[i]
    ensures forall i :: 0 <= i < |TrimEach(parts)| ==> sep !in TrimEach(parts)[i] && IsTrimmed(TrimEach(parts)[i])
  {
    forall i | 0 <= i < |parts| ensures sep !in TrimEach(parts)[i] {
      TrimSubstring(parts[i]);
    }
  }

  /** `parts.filter(Boolean)`: the non-empty texts, in order. */
  function DropEmpty(parts: seq<string>): (r: seq<string>)
    ensures |r| <= |parts|
    ensures forall i :: 0 <= i < |r| ==> r[i] != []
    ensures forall x :: x in r <==> x in parts && x != []
    ensures (forall i :: 0 <= i < |parts| ==> parts[i] != []) ==> r == parts
  {
    if parts == [] then []
    else if parts[0] == [] then DropEmpty(parts[1..])
    else [parts[0]] + DropEmpty(parts[1..])
  }

  /** Trimming twice is trimming once. */
  lemma TrimIdempotent(s: string)
    ensures Trim(Trim(s)) == Trim(s)
  {
    var t := Trim(s);
    if t != [] {
      assert TrimStart(t) == t;
      assert TrimEnd(t) == t;
    }
  }

  function UpperChar(c: char): char {
    if 'a' <= c <= 'z' then (c as int - 32) as char else c
  }

  function LowerChar(c: char): char {
    if 'A' <= c <= 'Z' then (c as int + 32) as char else c
  }

  /** `s.toUpperCase()` on ASCII letters. */
  function ToUpper(s: string): (r: string)
    ensures |r| == |s|
    ensures forall i :: 0 <= i < |s| ==> r[i] == UpperChar(s[i])
  {
    seq(|s|, i requires 0 <= i < |s| => UpperChar(s[i]))
  }

  /** `s.toLowerCase()` on ASCII letters. */
  function ToLower(s: string): (r: string)
    ensures |r| == |s|
    ensures forall i :: 0 <= i < |s| ==> r[i] == LowerChar(s[i])
  {
    seq(|s|, i requires 0 <= i < |s| => LowerChar(s[i]))
  }

  /** `s.padStart(width, c)`. */
  function PadStart(s: string, width: nat, c: char): (r: string)
    ensures |r| == if |s| >= width then |s| else width
    ensures EndsWith(r, s)
  {
    if |s| >= width then s else seq(width - |s|, _ => c) + s
  }

  function DigitChar(d: nat): char
    requires d < 10
  {
    ('0' as int + d) as char
  }

  function DigitValue(c: char): nat
    requires IsDigit(c)
  {
    c as int - '0' as int
  }

  /** Decimal rendering of a natural number, as `String(n)` gives it. */
  function NatToString(n: nat): (r: string)
    ensures |r| >= 1
    ensures forall i :: 0 <= i < |r| ==> IsDigit(r[i])
    ensures r[0] == '0' ==> n == 0
  {
    if n < 10 then [DigitChar(n)] else NatToString(n / 10) + [DigitChar(n % 10)]
  }

  /** Decimal rendering of an integer, with a leading '-' when it is negative. */
  function IntToString(n: int): string {
    if n < 0 then "-" + NatToString(-n) else NatToString(n)
  }

  /** Value of a string of decimal digits. */
  function DigitsValue(ds: string): nat
    requires forall i :: 0 <= i < |ds| ==> IsDigit(ds[i])
  {
    if ds == [] then 0 else DigitsValue(ds[..|ds| - 1]) * 10 + DigitValue(ds[|ds| - 1])
  }

  /** Number of leading characters of `s` that satisfy `p`. */
  function PrefixLength(s: string, p: char -> bool): (k: nat)
    ensures k <= |s|
    ensures forall i :: 0 <= i < k ==> p(s[i])
    ensures k < |s| ==> !p(s[k])
  {
    if s != [] && p(s[0]) then 1 + PrefixLength(s[1..], p) else 0
  }

  /** A run of `p`-characters stops where the first character outside `p` begins. */
  lemma {:induction false} PrefixLengthOf(a: string, b: string, p: char -> bool)
    requires forall i :: 0 <= i < |a| ==> p(a[i])
    requires b == [] || !p(b[0])
    ensures PrefixLength(a + b, p) == |a|
  {
    if a != [] {
      assert (a + b)[1..] == a[1..] + b;
      PrefixLengthOf(a[1..], b, p);
    } else {
      assert a + b == b;
    }
  }

  predicate IsHexDigit(c: char) { IsDigit(c) || 'a' <= c <= 'f' || 'A' <= c <= 'F' }

  function HexDigitValue(c: char): nat
    requires IsHexDigit(c)
    ensures HexDigitValue(c) < 16
  {
    if IsDigit(c) then DigitValue(c)
    else if 'a' <= c <= 'f' then c as int - 'a' as int + 10
    else c as int - 'A' as int + 10
  }

  function HexDigitsValue(ds: string): nat
    requires forall i :: 0 <= i < |ds| ==> IsHexDigit(ds[i])
  {
    if ds == [] then 0 else HexDigitsValue(ds[..|ds| - 1]) * 16 + HexDigitValue(ds[|ds| - 1])
  }

  /** Sign handling shared by both forms of `parseInt`: the text after leading whitespace and
      one optional sign, and whether that sign was '-'. */
  function SignAndBody(s: string): (bool, string) {
    var t := TrimStart(s);
    if t != [] && t[0] == '-' then (true, t[1..])
    else if t != [] && t[0] == '+' then (false, t[1..])
    else (false, t)
  }

  /** `parseInt(s, 10)`: the longest run of decimal digits after whitespace and an optional
      sign; `None` stands for NaN. */
  function ParseInt(s: string): (r: Option<int>)
  {
    var (neg, body) := SignAndBody(s);
    var k := PrefixLength(body, IsDigit);
    if k == 0 then None
    else
      var v: int := DigitsValue(body[..k]);
      Some(if neg then -v else v)
  }

  /** `parseInt(s)` with no radix: as `parseInt(s, 10)`, except that a "0x" or "0X" after the
      sign switches to hexadecimal. */
  function ParseIntAuto(s: string): (r: Option<int>)
    ensures !(exists i :: 0 <= i < |s| && (s[i] == 'x' || s[i] == 'X')) ==> r == ParseInt(s)
  {
    var (neg, body) := SignAndBody(s);
    if |body| >= 2 && body[0] == '0' && (body[1] == 'x' || body[1] == 'X') then
      var hex := body[2..];
      var k := PrefixLength(hex, IsHexDigit);
      if k == 0 then None
      else
        var v: int := HexDigitsValue(hex[..k]);
        Some(if neg then -v else v)
    else ParseInt(s)
  }

  lemma {:induction false} DigitsValueOfNat(n: nat)
    ensures DigitsValue(NatToString(n)) == n
  {
    var r := NatToString(n);
    if n >= 10 {
      DigitsValueOfNat(n / 10);
      assert r[..|r| - 1] == NatToString(n / 10);
    }
  }

  /** Rendering a natural number in decimal and parsing it back gives the number. */
  lemma ParseIntNatToString(n: nat)
    ensures ParseInt(NatToString(n)) == Some(n)
  {
    var r := NatToString(n);
    assert !IsWhitespace(r[0]);
    assert TrimStart(r) == r;
    assert SignAndBody(r) == (false, r);
    assert PrefixLength(r, IsDigit) == |r|;
    assert r[..|r|] == r;
    DigitsValueOfNat(n);
  }
}

=== FILE: workbook_copy.dfy ===
/** The workbook copy and create routes of the embedding API use cases
    (embedding_qs_series_2_api_use_cases/routes/api/workbook-copy-create.js): the name a
    copy gets so that it does not clash with a workbook already in its folder, the folders a
    workbook may be placed in, and where a copy goes. The Sigma REST calls are inputs: a
    listing is `None` when its request failed. */
module WorkbookCopy {
  import opened Wrappers
  import Text
  import Env

  /** The build user's My Documents folder, the default destination. */
  const MyDocumentsFolderId: string := "rleTgkyUSzKwLRWNFK5tS"
  const MyDocuments: string := "My Documents"
  const TeamWorkspacePrefix: string := "team-workspace-"
  /** Candidates "base (1)" … "base (99)" are tried before the timestamp suffix. */
  const MaxCounter: nat := 100

  /** An entry of `GET /workbooks`; `None` is a field the entry lacks. */
  datatype Workbook = Workbook(name: Option<string>, path: Option<string>, folderId: Option<string>,
                               parentId: Option<string>)

  /** The filter of `generateUniqueWorkbookName`: for My Documents the path decides, for
      any other folder the folder or parent id. */
  predicate InFolder(wb: Workbook, destinationFolderId: string) {
    if destinationFolderId == MyDocumentsFolderId then
      var path := Env.Or(wb.path, Some("")).value;
      path == MyDocuments || Text.Contains(path, MyDocuments)
    else wb.folderId == Some(destinationFolderId) || wb.parentId == Some(destinationFolderId)
  }

  /** The lower-cased names of the workbooks in the folder; `None` when one of them has no
      name, which makes `wb.name.toLowerCase()` throw. */
  function ExistingNames(workbooks: seq<Workbook>, destinationFolderId: string): (r: Option<seq<string>>)
    ensures r.None? <==> exists i :: 0 <= i < |workbooks| && InFolder(workbooks[i], destinationFolderId) && workbooks[i].name.None?
    ensures r.Some? ==> forall i :: 0 <= i < |workbooks| && InFolder(workbooks[i], destinationFolderId) ==>
      Text.ToLower(workbooks[i].name.value) in r.value
    ensures r.Some? ==> forall n :: n in r.value ==>
      exists i :: 0 <= i < |workbooks| && InFolder(workbooks[i], destinationFolderId) && n == Text.ToLower(workbooks[i].name.value)
  {
    if workbooks == [] then Some([])
    else
      var rest := ExistingNames(workbooks[1..], destinationFolderId);
      var wb := workbooks[0];
      assert forall i :: 1 <= i < |workbooks| ==> workbooks[i] == workbooks[1..][i - 1];
      if !InFolder(wb, destinationFolderId) then rest
      else if wb.name.None? then None
      else if rest.None? then None
      else Some([Text.ToLower(wb.name.value)] + rest.value)
  }

  /** `existingNames.includes(name.toLowerCase())`: comparison ignores case. */
  predicate Conflicts(existing: seq<string>, name: string) {
    Text.ToLower(name) in existing
  }

  /** `${baseName} (${counter})`. */
  function Candidate(base: string, counter: nat): string {
    base + " (" + Text.NatToString(counter) + ")"
  }

  /** `${baseName} (${Date.now()})`. */
  function Timestamped(base: string, now: int): string {
    base + " (" + Text.IntToString(now) + ")"
  }

  /** The name the loop settles on once the candidates before `counter` conflict: the
      first free candidate from `counter` on, the loop giving up at 100 without trying it. */
  function FirstFreeFrom(base: string, existing: seq<string>, counter: nat, now: int): string
    requires counter >= 1
    decreases MaxCounter - counter
  {
    if counter >= MaxCounter then Timestamped(base, now)
    else if !Conflicts(existing, Candidate(base, counter)) then Candidate(base, counter)
    else FirstFreeFrom(base, existing, counter + 1, now)
  }

  /** The name `generateUniqueWorkbookName` returns for a folder holding `existing`. */
  function UniqueName(base: string, existing: seq<string>, now: int): (r: string)
    ensures !Conflicts(existing, base) ==> r == base
  {
    if !Conflicts(existing, base) then base else FirstFreeFrom(base, existing, 1, now)
  }

  lemma {:induction false} FirstFreeFromFresh(base: string, existing: seq<string>, counter: nat, now: int)
    requires counter >= 1
    ensures var r := FirstFreeFrom(base, existing, counter, now);
      r == Timestamped(base, now) || !Conflicts(existing, r)
    decreases MaxCounter - counter
  {
    if counter < MaxCounter && Conflicts(existing, Candidate(base, counter)) {
      FirstFreeFromFresh(base, existing, counter + 1, now);
    }
  }

  /** The chosen name clashes with nothing in the folder, unless the candidates ran out and
      the timestamp was used unchecked. */
  lemma UniqueNameFresh(base: string, existing: seq<string>, now: int)
    ensures var r := UniqueName(base, existing, now);
      r == Timestamped(base, now) || !Conflicts(existing, r)
  {
    FirstFreeFromFresh(base, existing, 1, now);
  }

  lemma {:induction false} FirstFreeFromIs(base: string, existing: seq<string>, counter: nat, n: nat, now: int)
    requires 1 <= counter <= n < MaxCounter
    requires forall m :: counter <= m < n ==> Conflicts(existing, Candidate(base, m))
    requires !Conflicts(existing, Candidate(base, n))
    ensures FirstFreeFrom(base, existing, counter, now) == Candidate(base, n)
    decreases n - counter
  {
    if counter < n {
      FirstFreeFromIs(base, existing, counter + 1, n, now);
    }
  }

  /** When the base name clashes, the name is the first candidate "base (n)" that does not,
      n counting up from 1. */
  lemma UniqueNameFirstFree(base: string, existing: seq<string>, n: nat, now: int)
    requires Conflicts(existing, base)
    requires 1 <= n < MaxCounter
    requires forall m :: 1 <= m < n ==> Conflicts(existing, Candidate(base, m))
    requires !Conflicts(existing, Candidate(base, n))
    ensures UniqueName(base, existing, now) == Candidate(base, n)
  {
    FirstFreeFromIs(base, existing, 1, n, now);
  }

  lemma {:induction false} FirstFreeFromExhausted(base: string, existing: seq<string>, counter: nat, now: int)
    requires counter >= 1
    requires forall m :: counter <= m < MaxCounter ==> Conflicts(existing, Candidate(base, m))
    ensures FirstFreeFrom(base, existing, counter, now) == Timestamped(base, now)
    decreases MaxCounter - counter
  {
    if counter < MaxCounter {
      FirstFreeFromExhausted(base, existing, counter + 1, now);
    }
  }

  /** When the base name and "base (1)" … "base (99)" all clash, the timestamp is used. */
  lemma UniqueNameExhausted(base: string, existing: seq<string>, now: int)
    requires Conflicts(existing, base)
    requires forall m :: 1 <= m < MaxCounter ==> Conflicts(existing, Candidate(base, m))
    ensures UniqueName(base, existing, now) == Timestamped(base, now)
  {
    FirstFreeFromExhausted(base, existing, 1, now);
  }

  /** `generateUniqueWorkbookName(baseName, destinationFolderId)`: the listing is the
      `GET /workbooks` result, `None` when the request failed; any failure returns the base
      name. */
  method GenerateUniqueWorkbookName(baseName: string, destinationFolderId: string,
                                    listing: Option<seq<Workbook>>, now: int) returns (finalName: string)
    ensures listing.None? ==> finalName == baseName
    ensures listing.Some? && ExistingNames(listing.value, destinationFolderId).None? ==> finalName == baseName
    ensures listing.Some? && ExistingNames(listing.value, destinationFolderId).Some? ==>
      finalName == UniqueName(baseName, ExistingNames(listing.value, destinationFolderId).value, now)
  {
    if listing.None? {
      return baseName;
    }
    var names := ExistingNames(listing.value, destinationFolderId);
    if names.None? {
      return baseName;
    }
    var existingNames := names.value;
    finalName := baseName;
    var counter: nat := 1;
    while Conflicts(existingNames, finalName)
      invariant 1 <= counter <= MaxCounter
      invariant (if Conflicts(existingNames, finalName) then FirstFreeFrom(baseName, existingNames, counter, now) else finalName)
        == UniqueName(baseName, existingNames, now)
      decreases MaxCounter - counter
    {
      finalName := Candidate(baseName, counter);
      counter := counter + 1;
      if counter > MaxCounter {
        finalName := Timestamped(baseName, now);
        break;
      }
    }
  }

  /** An entry of `GET /files`. */
  datatype FileEntry = FileEntry(kind: string, id: string, name: string, path: Option<string>,
                                 permissions: Option<seq<string>>)

  /** A permission that grants writing. */
  predicate GrantsWrite(permission: string) {
    Text.Contains(permission, "write") || Text.Contains(permission, "create") || Text.Contains(permission, "edit")
    || permission == "full" || permission == "admin"
  }

  /** The filter of `GET /folders`: a folder with no permissions listed, or one of them
      granting writing. */
  predicate Writable(entry: FileEntry) {
    var permissions := if entry.permissions.Some? then entry.permissions.value else [];
    entry.kind == "folder" && (permissions == [] || exists p :: p in permissions && GrantsWrite(p))
  }

  /** A folder offered for placing a workbook. */
  datatype Folder = Folder(id: string, name: string, path: string)

  /** `{ id, name, path: folder.path || folder.name }`. */
  function AsFolder(entry: FileEntry): (f: Folder)
    ensures f.id == entry.id && f.name == entry.name
    ensures f.path == if Env.Truthy(entry.path) then entry.path.value else entry.name
  {
    Folder(entry.id, entry.name, Env.Or(entry.path, Some(entry.name)).value)
  }

  /** The folders `GET /folders` returns, in listing order. */
  function WritableFolders(entries: seq<FileEntry>): (r: seq<Folder>)
    ensures |r| <= |entries|
    ensures forall f :: f in r <==> exists e :: e in entries && Writable(e) && f == AsFolder(e)
    ensures |entries| == 1 ==> r == if Writable(entries[0]) then [AsFolder(entries[0])] else []
  {
    if entries == [] then []
    else
      assert forall e :: e in entries <==> e == entries[0] || e in entries[1..];
      (if Writable(entries[0]) then [AsFolder(entries[0])] else []) + WritableFolders(entries[1..])
  }

  /** The listing works entry by entry: the folders of a concatenation are those of each
      part, in order. */
  lemma {:induction false} WritableFoldersAppend(entries: seq<FileEntry>, more: seq<FileEntry>)
    ensures WritableFolders(entries + more) == WritableFolders(entries) + WritableFolders(more)
  {
    if entries == [] {
      assert entries + more == more;
    } else {
      var both := entries + more;
      assert both[0] == entries[0] && both[1..] == entries[1..] + more;
      var head := if Writable(entries[0]) then [AsFolder(entries[0])] else [];
      assert WritableFolders(both) == head + WritableFolders(both[1..]);
      assert WritableFolders(entries) == head + WritableFolders(entries[1..]);
      WritableFoldersAppend(entries[1..], more);
    }
  }

  /** A folder listing without permissions is open to writing, a file never is. */
  lemma WritableCases(entry: FileEntry)
    ensures entry.kind != "folder" ==> !Writable(entry)
    ensures entry.kind == "folder" && (entry.permissions.None? || entry.permissions == Some([])) ==> Writable(entry)
    ensures entry.kind == "folder" && entry.permissions.Some? && "admin" in entry.permissions.value ==> Writable(entry)
    ensures entry.kind == "folder" && entry.permissions.Some? && entry.permissions.value != [] ==>
      ((forall p :: p in entry.permissions.value ==> !GrantsWrite(p)) ==> !Writable(entry))
  {
    assert GrantsWrite("admin");
  }

  /** The synthetic id `GET /team-workspaces` gives a team's inferred workspace. */
  function TeamWorkspaceId(teamId: string): (id: string)
    ensures Text.StartsWith(id, TeamWorkspacePrefix)
  {
    TeamWorkspacePrefix + teamId
  }

  /** Where `POST /copy` sends the copy, and the team it then shares the copy with. */
  datatype CopyTarget = CopyTarget(destinationFolderId: string, teamIdForSharing: Option<string>)

  /** A team workspace becomes My Documents and a share with the team; another folder is
      used as it is; none means My Documents. */
  function CopyDestination(destinationFolderId: Option<string>): (t: CopyTarget)
    ensures !Env.Truthy(destinationFolderId) ==> t == CopyTarget(MyDocumentsFolderId, None)
    ensures Env.Truthy(destinationFolderId) && !Text.StartsWith(destinationFolderId.value, TeamWorkspacePrefix) ==>
      t == CopyTarget(destinationFolderId.value, None)
    ensures t.teamIdForSharing.Some? ==> t.destinationFolderId == MyDocumentsFolderId
  {
    if Env.Truthy(destinationFolderId) then
      var id := destinationFolderId.value;
      if Text.StartsWith(id, TeamWorkspacePrefix) then
        CopyTarget(MyDocumentsFolderId, Some(Text.ReplaceFirst(id, TeamWorkspacePrefix, "")))
      else CopyTarget(id, None)
    else CopyTarget(MyDocumentsFolderId, None)
  }

  /** Copying into a team workspace listed by `GET /team-workspaces` shares the copy with
      that very team. */
  lemma CopyToTeamWorkspace(teamId: string)
    ensures CopyDestination(Some(TeamWorkspaceId(teamId))) == CopyTarget(MyDocumentsFolderId, Some(teamId))
  {
    var id := TeamWorkspacePrefix + teamId;
    assert Text.StartsWith(id, TeamWorkspacePrefix);
    Text.IndexOfStart(TeamWorkspacePrefix, teamId);
    assert id[..0] + "" + id[|TeamWorkspacePrefix|..] == teamId;
  }

  /** The name proposed for a copy: the given name trimmed, else the original's name (or
      "Workbook") with " (copy)"; "Workbook Copy" when the original could not be read. */
  function ProposedName(name: Option<string>, original: Option<Option<string>>): (r: string)
    ensures r != ""
    ensures Env.Truthy(name) && Text.Trim(name.value) != "" ==> r == Text.Trim(name.value)
    ensures !(Env.Truthy(name) && Text.Trim(name.value) != "") && original.None? ==> r == "Workbook Copy"
    ensures !(Env.Truthy(name) && Text.Trim(name.value) != "") && original.Some? ==>
      r == (if Env.Truthy(original.value) then original.value.value else "Workbook") + " (copy)"
  {
    if Env.Truthy(name) && Text.Trim(name.value) != "" then Text.Trim(name.value)
    else if original.None? then "Workbook Copy"
    else Env.Or(original.value, Some("Workbook")).value + " (copy)"
  }

  /** What `POST /copy` asks Sigma to do. */
  datatype CopyPlan = CopyPlan(workbookId: string, target: CopyTarget, name: string)

  /** `POST /copy`: 400 without a workbook id; otherwise the destination, and a proposed
      name made unique in that folder. `original` is the `GET /workbooks/{id}` result and
      `listing` the `GET /workbooks` result. */
  method PlanCopy(workbookId: Option<string>, destinationFolderId: Option<string>, name: Option<string>,
                  original: Option<Option<string>>, listing: Option<seq<Workbook>>, now: int)
    returns (r: Result<CopyPlan>)
    ensures r.Err? <==> !Env.Truthy(workbookId)
    ensures r.Ok? ==> r.value.workbookId == workbookId.value && r.value.target == CopyDestination(destinationFolderId)
    ensures r.Ok? && listing.Some? && ExistingNames(listing.value, r.value.target.destinationFolderId).Some? ==>
      r.value.name == UniqueName(ProposedName(name, original),
                                 ExistingNames(listing.value, r.value.target.destinationFolderId).value, now)
    ensures r.Ok? && (listing.None? || ExistingNames(listing.value, r.value.target.destinationFolderId).None?) ==>
      r.value.name == ProposedName(name, original)
  {
    if !Env.Truthy(workbookId) {
      return Err("workbookId is required");
    }
    var target := CopyDestination(destinationFolderId);
    var proposed := ProposedName(name, original);
    var unique := GenerateUniqueWorkbookName(proposed, target.destinationFolderId, listing, now);
    r := Ok(CopyPlan(workbookId.value, target, unique));
  }

  /** The folder `POST /create` puts a new workbook in. */
  function CreateFolder(folderId: Option<string>): (id: string)
    ensures Env.Truthy(folderId) ==> id == folderId.value
    ensures !Env.Truthy(folderId) ==> id == MyDocumentsFolderId
  {
    Env.Or(folderId, Some(MyDocumentsFolderId)).value
  }
}

=== FILE: wrappers.dfy ===
/** Option and Result values, used wherever the source returns null/undefined or throws. */
module Wrappers {

  datatype Option<+T> = None | Some(value: T) {
    function GetOr(default: T): T {
      match this
      case Some(v) => v
      case None => default
    }
  }

  /** `Err` carries the message the source throws or the status it answers with. */
  datatype Result<+T> = Ok(value: T) | Err(error: string)
}
